=== FILE: README.md ===
# thistle, modelled in Dafny

thistle is a WordPress starter theme. Most of its code is a set of hook
callbacks that WordPress calls with an array or a string and that give back
a changed array or string. This project models the callbacks that hold real
logic, as pure functions:

- **Rewrite-rule tables.** Pagination, attachment and search rules.
- **Admin screens.** The thumbnail column, image-size names, capability
  mapping, the users list, the dashboard "At a Glance" items, admin-bar nodes,
  logout and maintenance decisions.
- **Front end.** Embed sizing, the editor's settings and `rel` filter,
  document-title parts, the robots and description tags, the social meta table
  and its share links.
- **The gallery shortcode.** It builds gallery markup plus a JSON list of images.
- **Asset enqueueing.** The theme enqueues styles and scripts, and sanitises one
  option.

Each model comes with proofs of what the callback promises. A PHP
associative array is modelled once, in `OrderedMaps`. It is a sequence of
key/value pairs with distinct keys, with PHP's `$a[k] = v`, `unset`,
`array_filter`, `array_combine`, `array_merge`, `+` and `array_search`.
One callback uses a second representation. The social meta table
(`Share.Table`) is built as a key order plus a map, because its branches
assign keys at fixed positions. `Share.Entries` turns it into an ordered map
before it is printed, and is proved to keep the order and the values.
Strings are `seq<char>`. `Strings` holds `str_replace`, `explode`/`implode`,
`strpos`, PHP's emptiness test and integer casts.

`Urls` holds a URL as an address plus an ordered query map, with WordPress's
`add_query_arg`, `remove_query_arg`, `home_url`, `trailingslashit` and
`untrailingslashit`. Every host lookup is a parameter of the model: the
current post, the request flags, `file_exists`, translations, escaping,
JSON encoding and the rewrite rules WordPress generates. The one-file-per-module
layout follows the theme's `includes/` directory.

## Model

| member | source | states |
|---|---|---|
| Paged.RemovePaginationRules | includes/paged.php:10-12 | The rules kept are exactly those whose query has no `&paged=`, with keys and relative order unchanged. |
| Paged.RewritePattern | includes/paged.php:283-287 | A pattern holding the optional page group `(?:/([0-9]+))?/?$` gets that text replaced by `/?$`; any other pattern is left as it is. |
| Paged.StripPageMatch | includes/paged.php:289-293 | A query changes exactly when it ends with a `&page=$matches[N]` reference, and then only that reference is cut off. |
| Paged.StripAppended | includes/paged.php:289-293 | Round trip: stripping a query to which a page reference was just appended gives the query back. |
| Paged.PageMatchUnique | includes/paged.php:291 | A query ends with at most one page reference, so the strip is well defined. |
| Paged.RewriteQuery | includes/paged.php:289-293 | A query without `&page=` is untouched; one with it loses its trailing page reference. |
| Paged.PostPaginationRewrite | includes/paged.php:279-298 | The rewritten table has distinct keys and no more entries than the input; its keys are the rewritten patterns in the order each first appears (as `array_combine` keeps a key at its first position); the last rule with a given rewritten pattern gives its query. |
| Paged.DropLeadingMarker | includes/paged.php:387-389 | A `<!--nextpage-->` at the very start is dropped once; other content is unchanged. |
| Paged.Pages | includes/paged.php:384-394 | There is always at least one page; content without a marker is one page; with markers, no page holds a marker. |
| Paged.NumPages | includes/paged.php:374-397 | 0 without a post, 1 for content without a marker, and otherwise the number of pieces between markers after the normalisation. |
| Paged.PagenumLink | includes/paged.php:120-133 | The address loses its `/<base>/N/` segments, the `page` argument becomes the first segment's number (or goes), and every other query argument is kept. |
| Paged.PagenumLinkWithoutSegment | includes/paged.php:123-131 | A link without a pagination segment only loses its `page` argument. |
| Paged.PagenumLinkWithSegment | includes/paged.php:123-131 | `pre/<base>/N/post` becomes `pre/` plus the collapsed rest, with `page=N`. |
| Paged.SingularRelLinks | includes/paged.php:158-182 | "next" exactly when numpages is non-zero and page < numpages, pointing at page+1; "prev" exactly when page > 1, pointing at page-1, or at the bare permalink from page 2. |
| Paged.SingularRelLinksOn | includes/paged.php:162-178 | A numeric page gives the rel links for that page; an empty page var reads as 0 under PHP 7 and never gives "prev"; under PHP 8 it stops with a TypeError exactly when the post has pages. |
| Paged.SingularNextOnSinglePage | includes/paged.php:162-172 | On the first request of a one-page post (page 0) "next" points at page 1; with the page query var empty, PHP 7 does the same and PHP 8 stops with a TypeError. |
| Paged.SingularRelLinksIntended | includes/paged.php:165-172 | With page 0 read as page 1, "next" only ever points at an existing later page. |
| Paged.IntendedAgreesAfterFirstPage | includes/paged.php:158-182 | The corrected rel links agree with the code for every page from 1 on. |
| Paged.ArchiveRelLinks | includes/paged.php:196-211 | paged defaults to 1; "next" exactly when paged+1 <= max_num_pages, "prev" exactly when paged > 1. |
| Paged.ArchiveNavigationSymmetric | includes/paged.php:203-209 | Page p links "next" exactly when page p+1 exists and links "prev" back. |
| Paged.ArchiveNextChain | includes/paged.php:203-209 | From any page up to max_num_pages every page before the last links "next", and the last does not. |
| Paged.LinkPagesParams | includes/paged.php:232-244 | `wp_parse_args`: every given argument overrides the default of the same name; the rest are the defaults. |
| Paged.MbCutEnd | includes/paged.php:248-250 | `mb_substr($s, 0, -n)` cuts n characters off the end, except that n = 0 and n >= length give "". |
| Paged.EmptyAfterWipesOutput | includes/paged.php:248-250 | With an empty `after`, the cut wipes the whole output where cutting nothing was meant. |
| Paged.LinkPages | includes/paged.php:227-258 | Empty output stays empty. Otherwise, whatever `next_or_number` says, the result ends with separator + "View all" + `after`; what comes before that is the output with its last |`after`| characters cut, and an `after` of length 0 or at least the output's length leaves only that tail. |
| Paged.LinkPagesIgnoresMode | includes/paged.php:247 | Asking for `next_or_number = next` still gets the "View all" link. |
| Paged.LinkPagesIntended | includes/paged.php:227-258 | Empty output, or any mode but `number`, is returned unchanged. In number mode, output ending with `after` becomes links + separator + "View all" + `after`; output not ending with it gets separator + "View all" appended. |
| Paged.LinkPagesAgreesInNumberMode | includes/paged.php:247-255 | In number mode with a non-empty `after` that ends the output, the code and the corrected filter give the same result. |
| Embed.RatioZeroIffNoHeight | includes/embed.php:29-33 | For a positive width up to 2,000,000, the ratio 100·h/w is zero exactly when the height is. |
| Embed.BuildLayout | includes/embed.php:25-41 | Width "100%" gives the plain box; width 0 fails with a division by zero; a non-zero ratio gives a box whose aspect ratio is in lowest terms and proportional to w:h; the html is kept. |
| Embed.RatioLayout | includes/embed.php:29-38 | The ratio box carries 100·h over w and a coprime aspect pair proportional to w:h. |
| Embed.Render | includes/embed.php:37-43 | The markup opens with the box element and always ends with the Embed-content div holding the html unchanged, then one closing div. |
| Embed.GetEmbed | includes/embed.php:12-46 | A non-empty pre-filter value is returned verbatim; otherwise the result fails exactly when the layout does and ends with the content div. |
| Numbers.Reduced | includes/embed.php:33-35 | Dividing w and h by their gcd gives a coprime pair in the same proportion. |
| Embed.EmbedDefaults | includes/embed.php:115-119 | The height becomes the width; every other entry is unchanged. |
| Embed.EmbedDefaultsIdempotent | includes/embed.php:115-119 | Applying the defaults twice equals applying them once. |
| Embed.OembedRemoveMaxheight | includes/embed.php:153-159 | A YouTube or Dailymotion provider URL is unchanged; any other loses `maxwidth` and `maxheight` and keeps its other arguments and address. |
| Embed.OembedRemoveMaxheightIdempotent | includes/embed.php:153-159 | Filtering a provider URL twice equals filtering it once. |
| Embed.OembedDataparse | includes/embed.php:203-224 | `false` passes through; WordPress-embedded html is rendered with height 0, anything else with the given size. |
| Embed.WordPressEmbedHasNoRatio | includes/embed.php:218-221 | A WordPress embed (height 0) never gets the ratio box. |
| Embed.FirstAttr | includes/embed.php:244-248 | The attribute value found is non-empty, and is all digits for the height pattern. |
| Embed.IframeSize | includes/embed.php:241-249 | Width defaults to "100%" and height to 0; a matched attribute replaces the default, the height read as an integer. |
| Embed.IframeWithoutHeight | includes/embed.php:241-251 | An iframe with no height gets the box without a ratio. |
| Embed.EmbedContent | includes/embed.php:237-257 | No iframes leave the content unchanged; otherwise success means the first iframe wrapped successfully, every copy of it was replaced by its wrapped form, and the rest of the list was handled the same way in order. |
| Embed.EmbedContentWithoutIframes | includes/embed.php:237-257 | Content that holds none of the matched iframes comes back unchanged. |
| Embed.EmbedContentReplacesEach | includes/embed.php:237-255 | Content made of texts interleaved with iframes, none occurring in a text or a wrapped form, becomes the same texts interleaved with the wrapped iframes. |
| Embed.EmbedContentIntended | includes/embed.php:237-255 | With the list de-duplicated first, it agrees with the code on every list without repeats. |
| Embed.RepeatedIframeWrappedTwice | includes/embed.php:237-255 | As written, content holding the same iframe twice comes back longer than two wrapped copies: the wrapped iframe is wrapped again. |
| Embed.RepeatedIframeWrappedOnce | includes/embed.php:237-255 | With the de-duplicated list, the same content gives exactly two wrapped copies. |
| Editor.PluginLocation | includes/editor.php:20-30 | A plugin is found exactly when the child or the parent theme has its file, and the child theme's copy wins. |
| Editor.ExternalPlugins | includes/editor.php:16-34 | Each listed plugin found in a theme is set to its location, later ones overriding; plugins found nowhere are not added; other entries are kept. |
| Editor.ParentThemePluginUsed | includes/editor.php:28-29 | With only the parent theme holding `table`, the parent's URL is used. |
| Editor.RemoveColorpicker | includes/editor.php:48-50 | Exactly the `colorpicker` entries go; the others stay, in order, with their keys. |
| Editor.TextcolorMap | includes/editor.php:65-77 | A non-empty colour map sets `textcolor_map` and nothing else; an empty one removes `textcolor` from the comma-separated plugins and nothing else. |
| Editor.TextcolorAbsentUnchanged | includes/editor.php:71-73 | A plugin list without `textcolor` comes back exactly as it was. |
| Editor.QuoteKeys | includes/editor.php:90 | A `formats` string without a colon is unchanged, and quoting never alters the text apart from quotes and blanks (the skeleton stays the same). |
| Editor.QuoteKeysExample | includes/editor.php:90 | An unquoted key gains its quotes and loses the blank before its colon. |
| Editor.QuotedKeyUnchanged | includes/editor.php:90 | An already quoted key is left alone. |
| Editor.KeyQuoted | includes/editor.php:90 | Every key that is a run of word characters not preceded by a quote or word character, not followed by one, and followed by a colon (with at most one blank) appears quoted with its colon in the result. |
| Editor.TinyMceBeforeInit | includes/editor.php:88-98 | `formats` gets quoted keys, and the four fixed settings take the theme's values; every other setting is unchanged. |
| Editor.RelAttr | includes/editor.php:116 | The match starts at the first `rel="` of the html, and its value has no quote; no match means no `rel="` is followed by a closing quote. |
| Editor.AllowedTokens | includes/editor.php:117-119 | The kept tokens are the space-separated tokens in the allow list, in their original order, each as many times as it occurs; disallowed tokens never appear. |
| Editor.FilterImageLinkRel | includes/editor.php:113-129 | Html without `rel="…"` is unchanged; no surviving token removes ` rel="…"`; otherwise the value is replaced by the filtered tokens. |
| Editor.AllowedRelUnchanged | includes/editor.php:113-129 | Markup whose `rel` holds only allowed link types comes back unchanged. |
| Users.CustomerCapabilities | includes/users.php:29-42 | The eight listed capabilities come first and are granted; every editor capability is kept; nothing else is added. |
| Users.CustomerCoversEditor | includes/users.php:29-42 | A customer can do everything an editor can. |
| Users.CountAt | includes/users.php:115 | A count at the start of a label is `>(` digits `)<`. |
| Users.ReplaceCountsOne | includes/users.php:122 | A label holding one count shows the new total in its place, and nothing else of it changes. |
| Users.FirstCountOne | includes/users.php:115 | The count read from a label holding one count is that count. |
| Users.UpdateUsersListTableViews | includes/users.php:110-126 | Administrators get the views unchanged; for others, `all` shows the sum of the other views' counts; no other view changes. |
| Users.TotalIgnoresAll | includes/users.php:114-119 | The total does not depend on the `all` view. |
| Users.UpdateViewsSameTotal | includes/users.php:110-126 | Running the filter again computes the same total. |
| Users.FilterUsersListTable | includes/users.php:139-145 | Non-administrators get `role__not_in = [administrator]`; every other argument is unchanged. |
| Users.DontAllowCap | includes/users.php:160-189 | Capabilities are only ever appended with `do_not_allow`, exactly when the request is denied; editing oneself and deletes without a target pass; edits without a target are denied; the existing capabilities are never removed or reordered; an administrator acting on a given user is never denied. |
| Seo.RobotsHooked | includes/seo.php:100-106 | `wp_no_robots` is hooked exactly on date archives, searches, 404s and pages from 2 on; on the first page it depends only on the date, search and 404 flags. |
| Seo.RobotsMonotone | includes/seo.php:100-106 | Going to a later page never unhooks `wp_no_robots`. |
| Seo.Classify | includes/seo.php:252-308 | Each branch is taken exactly when its flag holds and no earlier flag of the `if`/`elseif` chain does (home, singular, category or tag, author with a user, attachment, search, 404); "other" means that no flag applies. |
| Seo.FullName | includes/seo.php:268-272 | The " (first last)" suffix is non-empty exactly when first+last is non-empty and the display name is neither "first last" nor "last first". |
| Seo.MediaPrefix | includes/seo.php:282-290 | Images, video or audio label by MIME prefix, in that order of precedence, or nothing. |
| Seo.Stripped | includes/seo.php:250 | `page`, `tagline` and `site` are removed before branching; every other part is unchanged. |
| Seo.TitleDecisionFor | includes/seo.php:252-308 | Per page kind: the title part and whether a site part is set (home, singular, term, author, attachment, search with or without results, 404). |
| Seo.DocumentTitleParts | includes/seo.php:247-311 | `page` and `tagline` never survive; on a 404 the title part is left as it came and only the site name is set; unrelated parts are kept. |
| Seo.NotFoundTitleLost | includes/seo.php:306 | On a 404 the "page not found" message never reaches the title. |
| Seo.DocumentTitlePartsIntended | includes/seo.php:247-311 | With the 404 message written to the parts, a 404 gets that title and the site name; term, author and other pages have no site part. |
| Seo.TitlePartsAgreeOffNotFound | includes/seo.php:247-311 | The corrected title parts agree with the code on every page but the 404 page. |
| Seo.DescriptionSource | includes/seo.php:144-174 | Home uses the option, singular the excerpt, terms the term description, authors their description, attachments their content; other pages keep the filtered value. |
| Seo.DescriptionMetaTag | includes/seo.php:130-180 | A non-empty pre-filter value short-circuits; otherwise the chosen source goes through the final escaping. |
| Seo.DescriptionReadsOwnSource | includes/seo.php:144-174 | Each page kind's description depends only on its own source: two source sets agreeing on that source give the same tag. |
| Seo.DescriptionPreFilterWins | includes/seo.php:139-142 | A non-empty pre-filter value is the result, whatever the request, sources and escaping. |
| Seo.SearchHasNoDescription | includes/seo.php:139-174 | A request outside the home, singular, term, author and attachment branches gets only the empty description, passed through the final escaping. |
| Share.Branch | includes/share.php:82-143 | The singular branch is taken exactly for a post or page that is not the front page; the author branch exactly when that fails and the request is an author archive with a user; the attachment branch exactly when both fail and the request is an attachment; the default branch otherwise. |
| Share.Defaults | includes/share.php:65-76 | The table starts with og:type `website` and twitter:card `summary`; og:site_name, og:url, og:title and og:description come from the site; og:image and its width and height are "". |
| Share.Put | includes/share.php:86-174 | `$meta[k] = v`: k maps to v, every other key keeps its value, and the old key order stays a prefix of the new one. |
| Share.SetArticle | includes/share.php:85-109 | og:type becomes `article`; article:modified_time is set only when the dates differ; tags and sections are set from term arrays. |
| Share.SingularTable | includes/share.php:82-124 | A singular post gets og:type `article` and its modified time when it differs from the publication date; any singular page gets its title, and with a thumbnail its image width. |
| Share.AuthorTable | includes/share.php:127-140 | An author archive gets og:type `profile`, the profile names and the avatar when one is found. |
| Share.AttachmentTable | includes/share.php:143-175 | An attachment gets its title, its excerpt as og:description and its permalink as og:url; an image its own image (width as read); an mp4 video its video entries. |
| Share.DropEmpty | includes/share.php:180-182 | Without WP_DEBUG every empty value is dropped and the rest keep their order; with it the table is unchanged. |
| Share.BuildTable | includes/share.php:62-178 | The defaults stay first; og:type is the one the page kind dictates (`website`, `article` or `profile`); a post's modified time appears exactly when it differs from its date; the attachment image width is set; singular pages and attachments get their title; attachments get their excerpt as og:description and their permalink as og:url. |
| Share.SocialMetaTags | includes/share.php:62-185 | Without WP_DEBUG no empty value survives; og:type is always the one the page kind dictates; the title, and an attachment's description and URL, are shared when non-empty (always under WP_DEBUG). |
| Share.AttachmentWidthLost | includes/share.php:155 | An image attachment never shares its width: the entry is dropped, or `null` under WP_DEBUG. |
| Share.AttachmentWidthShared | includes/share.php:165 | With the key spelt `width`, a non-empty width is shared. |
| Share.AttrNames | includes/share.php:206-209 | For every key of the table, only `twitter:card` is printed with `name=`; every other key gets `property=`. |
| Share.EntryAttr | includes/share.php:203-210 | Every printed line of an entry starts with `<meta name="` for `twitter:card` and `<meta property="` otherwise. |
| Share.EntryLines | includes/share.php:203-210 | An array value gives one meta tag per element, any other value one tag, each with the key's attribute name. |
| Share.RenderLines | includes/share.php:202-211 | One printed line per scalar value and one per element of an array value. |
| Share.RenderAppend | includes/share.php:202-211 | Rendering a table extended by one entry appends exactly that entry's lines. |
| Share.RenderSocialMetaTags | includes/share.php:195-214 | Nothing is printed without theme support or for an empty table; with support the output is the lines of the entries, in table order, concatenated; it starts with the first entry's tag. |
| Share.RenderPutNew | includes/share.php:200-213 | Adding a new key to the table appends exactly that entry's printed lines to the output. |
| Share.ObjectNamespace | includes/share.php:231-245 | The `ot` namespace is article for a single post, profile for an author, video only for an mp4 attachment, website otherwise. |
| Share.OgpNamespaces | includes/share.php:223-250 | The output is the fixed namespaces followed by the `ot` namespace. |
| Share.NamespaceMatchesOgType | includes/share.php:62-135 | For a coherent request, og:type is `article` exactly when the namespace is `article:`, `profile` exactly when it is `profile:`, and a `video:` namespace comes with og:type `website`. |
| Share.DropEmptyData | includes/share.php:276 | `array_filter` on the share data keeps exactly the non-empty values, in order. |
| Share.Sharelink | includes/share.php:270-279 | The link is non-empty exactly when every required key survives filtering, and is then the base plus the encoded data. |
| Share.FacebookSharelink | includes/share.php:262-282 | No post gives ""; otherwise the link needs a surviving URL. |
| Share.FacebookLinkWithPermalink | includes/share.php:262-282 | With no filter, a post with a permalink always has a Facebook link. |
| Share.Hashtag | includes/share.php:327 | A hashtag is the tag name with every space removed: every other character occurs as often as in the name, in the same order, and a space-free name is its own hashtag. |
| Share.Hashtags | includes/share.php:324-332 | The joined hashtags never contain a space; no tags give ""; otherwise, for comma-free names, splitting on "," gives exactly the hashtags of the first min(3, n) names, in order. |
| Share.HashtagsIgnoreLaterTags | includes/share.php:324-332 | Tags after the third never change the result. |
| Share.TwitterData | includes/share.php:312-333 | The data holds the permalink, the decoded title and, for tagged posts, the hashtags. |
| Share.TwitterSharelink | includes/share.php:309-347 | No post gives ""; otherwise the link needs a surviving URL and text. |
| Share.GoogleplusSharelink | includes/share.php:374-395 | No post gives ""; otherwise the link needs a surviving URL, with `hl=fr`. |
| Share.LinkedinSharelink | includes/share.php:422-446 | For a post, the link is non-empty exactly when the filtered data has a URL and `mini` still exactly `'true'`, and is then the base plus that data. |
| Share.PinterestData | includes/share.php:477-490 | The pin holds the permalink and the featured image URL, or "". |
| Share.PinterestSharelink | includes/share.php:473-505 | The code's link always describes the current post, whatever id is asked for. |
| Share.PinterestSharelinkIntended | includes/share.php:473-505 | The pin of post `id`: "" without that post, otherwise the link needs a surviving URL. |
| Attachments.AttachmentLink | includes/attachment.php:25-35 | With permalinks on and no `/?attachment_id=`, the link is home + `/media/<post_name>` (slashes aside); otherwise it is unchanged. |
| Attachments.AttachmentLinkIgnoresLink | includes/attachment.php:28-31 | A permalink-style link keeps only the home address and the attachment's name. |
| Attachments.KeptRules | includes/attachment.php:58 | Every rule whose query mentions `attachment` is dropped; every other rule survives. |
| Attachments.Relabelled | includes/attachment.php:66-70 | Reference definition: each placeholder rule relabelled in place. |
| Attachments.RelabelFromStart | includes/attachment.php:66-70 | When the relabelled patterns do not clash, the set-then-unset loop gives exactly the reference relabelling. |
| Attachments.PlainPatternDropped | includes/attachment.php:66-70 | A rule whose pattern has no placeholder is set and then unset under the same key, so the loop drops it. |
| Attachments.TrackbackRelabelled | includes/attachment.php:62 | The trackback rule becomes `media/<regex>/trackback/?$` with query `index.php?attachment=$matches[1]&tb=1`. |
| Attachments.EmbedRelabelled | includes/attachment.php:63 | The embed rule becomes `media/<regex>/embed/?$` with query `index.php?attachment=$matches[1]&embed=true`. |
| Attachments.AttachmentRewrite | includes/attachment.php:49-73 | The new rules come first; every original rule without `attachment` keeps its key; any other key comes from a kept original rule. |
| Attachments.AttachmentRewriteShape | includes/attachment.php:60-72 | Every new pattern starts with `media/` followed by the `%postname%` regex, and every new query uses `attachment=`. |
| Search.SearchRules | includes/search.php:55-57 | The generated rules get `&s=` appended, and `<search_base>/?$` maps to `index.php?s=`. |
| Search.SearchRewriteRules | includes/search.php:52-60 | The search rules come first; on a key clash the original rule's query wins (`array_merge`); no key is lost or invented. |
| Search.SearchRuleQueries | includes/search.php:55-59 | A pattern the original table lacks gets the search query: the search page maps to `index.php?s=`, any other generated pattern to its generated query followed by `&s=`. |
| Search.SearchQueryVars | includes/search.php:76-86 | Off the search page the entry at `array_search('s')`'s key, with `false` read as 0, is removed and the rest kept in order; on it nothing changes. |
| Search.QueryVarsDropFirstWithoutS | includes/search.php:80-82 | Without an `s` entry the first query variable is removed instead. |
| Search.SearchQueryVarsIntended | includes/search.php:76-86 | Only the `s` entry goes, if there is one; all other variables are kept. |
| Search.QueryVarsAgreeWithS | includes/search.php:76-86 | The corrected filter agrees with the code whenever `s` is present. |
| Search.SearchLink | includes/search.php:101-111 | The query is exactly `s=<term>`. |
| Search.SearchLinkAddress | includes/search.php:104-108 | The term only ever reaches the query string. |
| Search.SearchLinkForBase | includes/search.php:104-108 | With permastruct `<base>/%search%` the address is home + `/<base>/` (slashes as configured). |
| Search.SearchLinkWithoutPermalinks | includes/search.php:104-108 | Without a permastruct the address is the home address. |
| Search.HighlightSearchTerms | includes/search.php:125-135 | Unchanged unless this is the main query of a search with terms, or when nothing matches; for text without `<`, removing the `<mark>` tags gives the original text back. |
| Search.MatchMarked | includes/search.php:131 | At a position where a term matches, the output starts with `<mark>` + the matched text + `</mark>`. |
| PostTypes.ToggledNames | includes/post-type.php:32-39 | The recorded names are exactly the types excluded from search that have an archive. |
| PostTypes.IncludeToTaxonomy | includes/post-type.php:28-42 | Only taxonomy queries with an empty post_type act: exactly the toggled types get `exclude_from_search = false` and are recorded; no other type is touched. |
| PostTypes.RestoreTypes | includes/post-type.php:54-58 | Every recorded type is excluded from search again; other types are untouched. |
| PostTypes.ExcludeFromSearch | includes/post-type.php:51-61 | The types are restored, and the record stays as it was because `unset` only drops the local alias. |
| PostTypes.RecordedNamesAccumulate | includes/post-type.php:60 | Two rounds on a taxonomy page record the same name twice. |
| PostTypes.ExcludeFromSearchIntended | includes/post-type.php:51-61 | The corrected restore hides the recorded types again and forgets them. |
| PostTypes.ToggleRoundTrip | includes/post-type.php:28-61 | Include-then-restore from a clean record gives back exactly the original state. |
| Thumbnails.AddColumnThumbnail | includes/thumbnail.php:28-42 | Without thumbnail support the columns are unchanged; with it, `thumbnail` is inserted right before the last column, which keeps its key and value. |
| Thumbnails.InsertBeforeLast | includes/thumbnail.php:34-38 | Earlier columns keep their order, then `thumbnail`, then the last column. |
| Thumbnails.RemoveThumbnailColumn | includes/thumbnail.php:34-38 | Unsetting the new column gives the original columns back. |
| Thumbnails.ManageColumnThumbnail | includes/thumbnail.php:52-60 | Output happens exactly for the `thumbnail` column with non-empty markup, and is that markup. |
| Thumbnails.EnclosureMetadata | includes/thumbnail.php:92-114 | Metadata exists exactly when there is a post, a thumbnail, an image src and a non-empty content-length; it carries the URL, the length and the type. |
| Thumbnails.RssEnclosure | includes/thumbnail.php:123-131 | Nothing without metadata, otherwise one `<enclosure url="…" … />` line. |
| Thumbnails.AtomEnclosure | includes/thumbnail.php:141-149 | Nothing without metadata, otherwise one `<link href="…" rel="enclosure" … />` line. |
| Thumbnails.EnclosureReadBack | includes/thumbnail.php:105-148 | Split at quotes, the RSS and Atom lines give back exactly the image URL, the length and the type, and those are the ones the headers reported. |
| Thumbnails.DeclaredCallbacks | includes/thumbnail.php:117-151 | The RSS callback is always defined; under the code's guard the Atom callback exists only when the child theme defines it. |
| Thumbnails.AtomCallbackMissing | includes/thumbnail.php:135 | Without a child-theme override, `atom_entry` is hooked to an undefined function. |
| Thumbnails.FeedCallbacksDefined | includes/thumbnail.php:117-151 | With the intended guard both feed actions find their callback. |
| Admin.ImageSizeNames | includes/admin.php:506-513 | `large` is relabelled, `medium_large` is added (or kept), and every other size keeps its label. |
| Admin.Gettext | includes/admin.php:510 | `_()` with one argument is the translation; with any other number of arguments PHP 7 warns and returns null, and PHP 8 throws an ArgumentCountError. |
| Admin.SizeNamesInsertBeforeLarge | includes/admin.php:507-510 | When `large` exists and `medium_large` is new, `medium_large` sits directly before `large` and the other sizes keep their order. |
| Admin.SizeNamesWithoutLarge | includes/admin.php:507-510 | Without `large`, `array_search` gives `false`, so `medium_large` goes first and `large` is appended last. |
| Admin.ImageSizeNamesAsWritten | includes/admin.php:510 | The `large` label is what `_( 'Extra large', THISTLE_TEXT_DOMAIN )` gives: a failure exactly when that call fails, otherwise its value as label. |
| Admin.ExtraLargeLabelBlank | includes/admin.php:510 | Under PHP 7 the `large` size is left with a blank label; under PHP 8 the filter stops with an ArgumentCountError. |
| Admin.ImageSizeNamesIntended | includes/admin.php:506-513 | With a domain translation, `large` is labelled with the translated "Extra large". |
| Admin.MediaWhitelistOptions | includes/admin.php:457-462 | `media` gains `medium_large_size_w` and `_h` at its end, and is created if absent; other groups are unchanged. |
| Admin.WhitelistOnlyGrows | includes/admin.php:457-462 | No option that was allowed before is revoked. |
| Admin.RedirectWpLogout | includes/admin.php:373-384 | With a redirect given the URL is unchanged; otherwise `redirect_to` is set (home in the admin, the current URL elsewhere) and nothing else changes. |
| Admin.LogoutRedirectRemovable | includes/admin.php:378-381 | Removing the added argument gives back a logout URL that had none. |
| Admin.GlanceIcon | includes/admin.php:92 | The icon is `&#x<hex>;` exactly when `menu_icon_hex` is set without `http`, otherwise "". |
| Admin.GlanceText | includes/admin.php:88-89 | The text is the formatted count and a space, followed by the singular label for one published post and the plural label otherwise. |
| Admin.GlanceItem | includes/admin.php:89-98 | The item is an `<a>` link to the post list exactly when the user can edit the posts, else a `<span>`; either way it carries the icon, and it ends with the count text and the matching closing tag. |
| Admin.DashboardRightNowPostTypes | includes/admin.php:74-103 | The existing elements are kept, and the items are appended after them. |
| Admin.GlanceItemsArePublished | includes/admin.php:85-100 | One item per post type with published posts, in order, and none for any other type. |
| Admin.SoftMaintenanceMode | includes/admin.php:277-307 | A 503 happens exactly without a `.maintenance` file, with THISTLE_MAINTENANCE on, off the login page and for a visitor who is not logged in; the drop-in page wins when present; the login page, logged-in users and a core `.maintenance` file always let the request through. |
| Admin.RedirectAdminLocations | includes/admin.php:25-45 | A redirect to the admin happens exactly for a logged-in user on a 404 with permalinks whose untrailed URI is one of the three admin shorthands. |
| Admin.ShorthandWithSlash | includes/admin.php:36-41 | `/wp-admin/` under the home path leads to the admin. |
| Admin.NoRedirectWhenLoggedOut | includes/admin.php:28-30 | A visitor who is not logged in is never redirected. |
| Admin.EditArchiveNode | includes/admin.php:139-163 | The "edit" node is added exactly off the admin on a post-type archive with an editable page behind its link, titled with its edit label. |
| Admin.ViewArchiveNode | includes/admin.php:182-202 | The "view" node is added exactly in the admin post list of a type shown in the admin bar, with a view label and an archive link. |
| Admin.AddMenu | includes/admin.php:156-161 | A node is added under its id exactly when one is decided; every other node is unchanged. |
| Admin.RemoveArchiveNode | includes/admin.php:398-402 | Only the core `archive` node goes; every other node stays. |
| Admin.AdminScreenTweaks | includes/admin.php:326-361 | The Themes submenu and theme name go, and `themes.php` answers 403, exactly for users who cannot install themes; a user who can install them keeps the Appearance menu and reaches `themes.php`. |
| Gallery.ShortcodeAtts | includes/gallery-shortcode.php:56-67 | `shortcode_atts`: exactly the default keys, each taking the given value when present, else its default. |
| Gallery.DefaultAttributes | includes/gallery-shortcode.php:56-67 | Omitted attributes give columns 3, size `thumbnail`, order `ASC` and the current post's id (0 without a post). |
| Gallery.SelectionOf | includes/gallery-shortcode.php:69-81 | A non-empty `include` wins and selects the ids parsed from it; otherwise a non-empty `exclude` means children except the ids parsed from it; otherwise all children of `intval(id)`. |
| Gallery.SelectAttachments | includes/gallery-shortcode.php:71-81 | The attachments are exactly the selected inherit-status images, in the order the host's query gives for that selection and orderby/order. |
| Gallery.IncludeWins | includes/gallery-shortcode.php:71-77 | With an `include` list, exactly the images listed there are used, whatever `exclude` says. |
| Gallery.FeedOutput | includes/gallery-shortcode.php:85-91 | In feed mode the output is a newline followed by one link line per attachment. |
| Gallery.FeedLineCount | includes/gallery-shortcode.php:85-91 | After the leading newline there is exactly one line per attachment. |
| Gallery.Caption | includes/gallery-shortcode.php:113-114 | A caption exists exactly when the excerpt has a non-blank character and does not trim to `"0"`; it is the texturized excerpt. |
| Gallery.ItemMarkup | includes/gallery-shortcode.php:109-121 | A figure ends with a figcaption exactly when the attachment has a caption. |
| Gallery.GalleryJson | includes/gallery-shortcode.php:96-124 | Entry i describes attachment i. |
| Gallery.JsonIsList | includes/gallery-shortcode.php:96-124 | The JSON keys are exactly 0..n-1 in order, so it encodes as a list. |
| Gallery.TitleIffFigcaption | includes/gallery-shortcode.php:113-120 | A JSON entry has a title exactly when its figure ends with a caption. |
| Gallery.ItemsLoop | includes/gallery-shortcode.php:96-124 | The loop builds the figures and the JSON entries together, one per attachment. |
| Gallery.HtmlOutput | includes/gallery-shortcode.php:93-128 | The output is the header, the figures, and the JSON script inside the closing markup. |
| Gallery.GalleryShortcode | includes/gallery-shortcode.php:54-129 | No attachments give ""; a feed gets the feed lines; otherwise the HTML with one figure and one JSON entry per attachment. |
| Assets.PostTypeOf | functions.php:434-442 | Post type archive name, else the taxonomy's first object type, else the single post's type, else `post` on home or archives, else "". |
| Assets.ResolvedPostType | functions.php:406-453 | A 404 never resolves a post type. |
| Assets.Register | functions.php:446-464 | An asset is added under its name exactly when its file exists; nothing else changes. |
| Assets.NotFoundAssets | functions.php:412-465 | On a 404 only the template's and the debug assets can be registered, the template script exactly when its file exists. |
| Assets.PageAssets | functions.php:412-453 | Off a 404, the default style and scripts are registered, the gallery assets when the page has a gallery, and the post type's assets when their files exist. |
| Assets.StyleArgs | functions.php:402 | A style defaults to no dependencies, no version and media `screen`; given fields win. |
| Assets.ScriptArgs | functions.php:403 | A script defaults to no dependencies, no version and the footer; given fields win. |
| Assets.ArgsDefaults | functions.php:477-478 | Filling in defaults is idempotent, and a bare `src` gets exactly the defaults. |
| Assets.Handle | functions.php:481 | Names starting with `!` are used as they are; others get the `thistle-` prefix. |
| Assets.HandleInjective | functions.php:481 | Different names give different handles. |
| Assets.DistinctHandles | functions.php:480-492 | Distinct names give distinct handles, so no enqueue replaces another. |
| Assets.AssetSrc | functions.php:483-486 | No `src` stays absent; a `src` containing `http` is untouched. |
| Assets.DebugSrcOnlyMoves | functions.php:483-486 | Under SCRIPT_DEBUG a local source only moves into the assets directory. |
| Assets.MinifiedSrc | functions.php:483-486 | A local `name.ext` ends up as `<uri>/assets/<dir>/name.min.ext`. |
| Assets.EveryExtensionMinified | functions.php:494-497 | Every occurrence of the extension in the full address gets the min suffix. |
| Assets.StyleCalls | functions.php:480-489 | One enqueue per style, in table order, under its handle. |
| Assets.ScriptEnqueue | functions.php:499-503 | A script without a source is enqueued by handle alone. |
| Assets.LocalizeCalls | functions.php:506-510 | One `wp_localize_script` per data object, in order. |
| Assets.ScriptHandles | functions.php:491-511 | Each script is enqueued exactly once, in table order, under its handle. |
| Assets.EnqueueAssets | functions.php:398-512 | The calls are those of the filtered table with defaults filled in: styles first, then scripts, each followed by its localizations. |
| Assets.ScriptLoop | functions.php:491-511 | The loop emits exactly the script calls of the table. |
| Assets.SvgxuseDefer | functions.php:317-323 | Tags of other handles pass through unchanged. |
| Assets.SvgxuseDeferred | functions.php:317-323 | The theme's svgxuse tag gets `defer` before its single ` src`, and nothing else changes. |
| Assets.SanitizeOption | functions.php:347-372 | Other options pass through; the blog description is cleaned, and on an error with a message the stored value is kept and the error reported when possible. |
| Assets.SanitizeReadsCleanedText | functions.php:353-362 | The description's result depends only on the text after invalid characters are stripped. |
| Assets.SanitizedDescriptionCleaned | functions.php:353-369 | The description becomes the escaped, kses-filtered clean text, or on an error the stored value or the error itself. |

## Left out

- Hook registration (`add_action`, `add_filter`, priorities) and output (`echo`, `header`, `wp_redirect`, `wp_die`, `die`): each callback is modelled by the data it decides on, or by the string it prints.
- WordPress lookups are parameters, not behaviour. These include `get_post`, `get_the_terms`, `current_user_can`, `WP_User`, `file_exists`, `get_option`, translations (`__`, `_n`, `_`), escaping, `wptexturize` and `json_encode`.
- More host calls that are parameters: `http_build_query`, `wp_get_attachment_*`, `wp_parse_id_list`, the attachment query's sorting and `wp_get_http_headers`.
- `generate_rewrite_rules` is a parameter: the search rules are whatever the host generates for the literal base `recherche`, and attachment rules are generated with the `%ATTACHMENT_TAG%` placeholder.
- `home_url` is modelled as the home address joined to a path; `get_home_url` with a blog id is not modelled.
- Paged.LinkPages: the rewriting of `<a href>` targets at includes/paged.php:260-265 (a `preg_match_all` plus `str_replace` over links) is not modelled; the contract covers the output before that step.
- Embed.RatioLayout: `round(…, 4)` is replaced by the exact fraction 100·h/w, so the padding is stated as a numerator and a denominator rather than a decimal string.
- `(int)` and `intval` are modelled on leading decimal digits only (`IntCast` is a `nat`): signs, blanks and other bases are not modelled. `IntCast` is unbounded, while PHP saturates at PHP_INT_MAX; this matters for the embed height (includes/embed.php:248), the gallery id (includes/gallery-shortcode.php:69) and the user counts (includes/users.php:118).
- Embed.BuildLayout: `gmp_gcd` reads a string width or height with base 0, so a leading zero means octal ("0560" is 368) and a string such as "08" is rejected; the model reads both as decimal through `IntCast`.
- Paged.PagenumLink: the regexes at includes/paged.php:123,126 run over the whole URL, query string included; the model applies them to the address part only, so a `/<base>/N/` inside a query value is not modelled.
- The `_n` plural choice follows the English rule (singular exactly for 1).
- The `sprintf` labels of the dashboard items are built by a parameter; a `%` inside a post type's label is not modelled.
- Share: ISO 8601 dates are a parameter, the `the_*_sharelink` printers are not modelled, and `get_post` of a missing id is a `None` post.
- Numeric-string comparison (`!=` between a numeric string and a number) is modelled as the comparison of the values the host passes.
- `$wp_query->query_vars['post_type']` given as an array is not modelled; an empty string or a missing value counts as empty.
- PostTypes: post types recorded and then unregistered between the two hooks are not modelled.
- Admin: `login_headerurl` and `login_headertitle` return host values and are not modelled.
- Admin: the `<style>`/`<script>` blocks printed into admin pages and the settings-field rendering are markup only.
- Admin.AddMenu: `add_node` merging the fields of an existing node is not modelled; a node replaces the old one.
- Admin.MediaWhitelistOptions: a `media` group that holds a non-array value is not modelled.
- Gallery: the `shortcode_atts_gallery` filter and `get_post` are host parameters.
- Gallery.Caption follows the code's truthiness: an excerpt that trims to `"0"` gives no caption.
- Assets: the `thistle_enqueue_assets` filter is a parameter, and `pathinfo` of `$template` is taken as given (the template is a file name).
- Assets: `THISTLE.debug` is `WP_DEBUG` when defined; `register_svgxuse` and the gallery script registration only call the host and are not modelled.
- Assets.SanitizeOption: `add_settings_error` is modelled as the returned record, not as a global side effect.
- Assets.EveryExtensionMinified: `str_replace` of `.css`/`.js` also applies inside the child-theme URI part of the address. The model does what the code does, and the contract states it over the whole address.
- Thumbnails.EnclosureMetadata: `has_post_thumbnail()` uses the global post, which is a field of the source record.
- `includes/excerpt.php`, `includes/category.php`, `includes/customize.php`, `includes/author.php`, `includes/back-compat.php` and `template-parts/head.php` are thin host wrappers or markup and are not part of this model.
- PHP version: a division by zero in the embed ratio follows PHP 8 (an error result, not a warning). The two places where PHP 7 and PHP 8 differ in kind are modelled for both versions (`PhpVersion`). Admin.Gettext covers gettext's `_` called with two arguments. Paged.SingularRelLinksOn covers an empty `page` query var, read as 0 by `<`/`>` and by `'' + 1` under PHP 7 and a TypeError under PHP 8.
- EmbedContentWithoutIframes: only states the case where none of the matched iframes is in the content; the case with iframes is Embed.EmbedContentReplacesEach.
- Embed.EmbedContent: the `preg_match_all` result is a parameter (the list of matched iframes). The ungreedy pattern `<iframe [^>]+>*.<\/iframe>` only matches an iframe whose body is at most one character; the model does not restate that regex.
- Search.HighlightSearchTerms: the round trip (removing the `<mark>` tags gives the text back) is proved only for text without `<`, since a text may already hold `<mark>`. Case-insensitive Unicode matching is the host's `MatchAt` parameter, so which substrings match is not modelled.
- Filters that return their input unless a plugin hooks them are the identity in the model. These are `wp_link_pages_args` (includes/paged.php:245), `pre_thistle_get_social_meta_tags` and `thistle_get_social_meta_tags` (includes/share.php:79,178), `thistle_ogp_namespaces` (includes/share.php:247), and the `thistle_get_*_sharelink` return filters (includes/share.php:277,342,390,441,500).
- Embed.EmbedContent: the short-circuit filter `pre_thistle_get_embed` (includes/embed.php:19) is a parameter `pre`, which is the empty string when no plugin hooks it. One value is passed for every iframe, while the code calls the filter once per iframe with that iframe's html, width and height.
- Global writes are not modelled as state. `$paged = 1` (includes/paged.php:199-201) is modelled as the local default it acts as. The `$template = pathinfo(...)` rewrite (functions.php:399,407) is modelled only as the file name used for the asset lookup; later readers of `$template` are outside this model.
- Paged: the page guards `is_singular()` (includes/paged.php:161) and `is_home() || is_archive() || is_search()` (includes/paged.php:203) are left to the caller. Paged.SingularRelLinks and Paged.ArchiveRelLinks model the body that runs once the guard holds; off those pages nothing is printed.

## Findings

| source | as written | input that shows it | evidently intended | confidence | as-written member | corrected member |
|---|---|---|---|---|---|---|
| includes/paged.php:165-172 | On page 0 (the first request) "next" is `page + 1` = 1, so the first page links to itself, even for a one-page post. This holds for a numeric page and, under PHP 7, for an empty page var; under PHP 8 an empty page var throws a TypeError at `$page + 1` | numpages 1, page 0 (Paged.SingularRelLinksOn for the empty var) | treat page 0 as page 1: "next" only to an existing later page | not executed | Paged.SingularNextOnSinglePage | Paged.SingularRelLinksIntended |
| includes/paged.php:247 | `=` assigns `'number'`, so the block always runs | `next_or_number = next` | compare with `==` | not executed | Paged.LinkPagesIgnoresMode | Paged.LinkPagesIntended |
| includes/paged.php:248-250 | `mb_substr($output, 0, -0)` returns "" | `after = ''`, output "x" | cut nothing when `after` is empty | not executed | Paged.EmptyAfterWipesOutput | Paged.LinkPagesIntended |
| includes/seo.php:306 | The 404 message is written to `$title['title']`, a fresh local | any 404 request | `$parts['title']` | not executed | Seo.NotFoundTitleLost | Seo.DocumentTitlePartsIntended |
| includes/share.php:155,165 | The width is read from key `wdth`, which is never set | any image attachment | key `width` | not executed | Share.AttachmentWidthLost | Share.AttachmentWidthShared |
| includes/share.php:474 | `get_post( $post )` reads an undefined variable, so the current post is used | id of a post other than the current one | `get_post( $id )` | not executed | Share.PinterestSharelink | Share.PinterestSharelinkIntended |
| includes/search.php:80-82 | `array_search` returns `false` without an `s` entry, and `unset($vars[false])` removes entry 0 | vars `[m, p]`, request not the search base | unset only when `s` is found | not executed | Search.QueryVarsDropFirstWithoutS | Search.SearchQueryVarsIntended |
| includes/post-type.php:60 | `unset` of a global inside a function only drops the local alias, so the record keeps growing | two taxonomy requests in one run | clear the recorded list | not executed | PostTypes.RecordedNamesAccumulate | PostTypes.ExcludeFromSearchIntended |
| includes/thumbnail.php:135 | The guard tests `thistle_rss_enclosure`, already defined, so `thistle_atom_enclosure` is never declared while `atom_entry` still hooks it | any Atom feed without a child-theme override | test `thistle_atom_enclosure` | not executed | Thumbnails.AtomCallbackMissing | Thumbnails.FeedCallbacksDefined |
| includes/admin.php:510 | `_( 'Extra large', THISTLE_TEXT_DOMAIN )` passes two arguments to gettext's `_`, which takes one: PHP 7 warns and the label is blank, PHP 8 throws an ArgumentCountError | any size list | `__( 'Extra large', THISTLE_TEXT_DOMAIN )` | not executed | Admin.ExtraLargeLabelBlank | Admin.ImageSizeNamesIntended |
| includes/embed.php:237-255 | The matched iframes are replaced one after another with `str_replace`, without removing repeats, so an iframe that occurs twice is wrapped, and its wrapped form is then wrapped again | content `x` + `x`, the same iframe twice, with both copies matched | de-duplicate the matches (`array_unique`) so each iframe is wrapped once | not executed | Embed.RepeatedIframeWrappedTwice | Embed.EmbedContentIntended |

=== FILE: admin.dfy ===
/**
  Administration tweaks (`includes/admin.php`): the image size names and the
  media settings they need, the logout redirection, the "At a Glance"
  dashboard items, the soft maintenance mode, the shorthand admin
  redirections, the admin bar archive links and the capability-driven
  screen tweaks.
 */
module Admin {
  import opened Wrappers
  import opened Strings
  import opened OrderedMaps
  import opened Urls

  // ---------------------------------------------------------------------
  // Image size names
  // ---------------------------------------------------------------------

  const LargeSize := "large"
  const MediumLargeSize := "medium_large"

  /**
    The array position `array_search('large', array_keys($sizes))` gives
    to `array_slice`: the position of `large`, or 0 for `false`.
   */
  function LargeIndex(sizes: OMap<string, string>): (i: nat)
    ensures i <= |sizes|
    ensures HasKey(sizes, LargeSize) ==> i < |sizes| && sizes[i].0 == LargeSize
    ensures !HasKey(sizes, LargeSize) ==> i == 0
  {
    KeysAt(sizes);
    match FirstIndex(Keys(sizes), LargeSize)
    case Some(i) => i
    case None =>
      assert !(LargeSize in Keys(sizes));
      0
  }

  /**
    `thistle_change_image_size_names`: `medium_large` is merged in before
    `large`, then `large` is set to the "Extra large" label. The labels are
    those the translation calls return.
   */
  function ImageSizeNames(sizes: OMap<string, string>, largeLabel: string, extraLargeLabel: string): (r: OMap<string, string>)
    requires DistinctKeys(sizes)
    ensures DistinctKeys(r)
    ensures Get(r, LargeSize) == Some(extraLargeLabel)
    ensures Get(r, MediumLargeSize) == if HasKey(sizes, MediumLargeSize) then Get(sizes, MediumLargeSize) else Some(largeLabel)
    ensures forall k :: k != LargeSize && k != MediumLargeSize ==> Get(r, k) == Get(sizes, k)
  {
    var merged := MergedSizeNames(sizes, largeLabel);
    OtherSizesKept(sizes, merged, largeLabel, extraLargeLabel);
    Set(merged, LargeSize, extraLargeLabel)
  }

  lemma OtherSizesKept(sizes: OMap<string, string>, merged: OMap<string, string>, largeLabel: string, extraLargeLabel: string)
    requires forall k :: Get(merged, k) == if HasKey(sizes, k) then Get(sizes, k)
                                          else if k == MediumLargeSize then Some(largeLabel) else None
    ensures Get(Set(merged, LargeSize, extraLargeLabel), MediumLargeSize)
         == if HasKey(sizes, MediumLargeSize) then Get(sizes, MediumLargeSize) else Some(largeLabel)
    ensures forall k :: k != LargeSize && k != MediumLargeSize ==> Get(Set(merged, LargeSize, extraLargeLabel), k) == Get(sizes, k)
  {
    var r := Set(merged, LargeSize, extraLargeLabel);
    forall k | k != LargeSize && k != MediumLargeSize ensures Get(r, k) == Get(sizes, k) {
      assert Get(r, k) == Get(merged, k);
      if !HasKey(sizes, k) {
        assert Get(sizes, k) == None;
      }
    }
    assert Get(r, MediumLargeSize) == Get(merged, MediumLargeSize);
  }

  /**
    `array_merge( array_slice( $sizes, 0, $index, true ), array( 'medium_large' => … ), $sizes )`:
    key by key, every size keeps its label and `medium_large` is added when
    it is new.
   */
  function MergedSizeNames(sizes: OMap<string, string>, largeLabel: string): (merged: OMap<string, string>)
    requires DistinctKeys(sizes)
    ensures DistinctKeys(merged)
    ensures forall k :: Get(merged, k) == if HasKey(sizes, k) then Get(sizes, k)
                                          else if k == MediumLargeSize then Some(largeLabel) else None
  {
    var i := LargeIndex(sizes);
    SliceFacts(sizes, i);
    var mid := Merge(sizes[..i], [(MediumLargeSize, largeLabel)]);
    var merged := Merge(mid, sizes);
    MergedSizeNamesGet(sizes, i, mid, merged, largeLabel);
    merged
  }

  /**
    With `large` registered at position `i` and no `medium_large` yet, the
    new size sits right before `large`, which keeps its place under its new
    label; every other size keeps its place.
   */
  lemma SizeNamesInsertBeforeLarge(sizes: OMap<string, string>, i: nat, largeLabel: string, extraLargeLabel: string)
    requires DistinctKeys(sizes) && i < |sizes| && sizes[i].0 == LargeSize
    requires !HasKey(sizes, MediumLargeSize)
    ensures ImageSizeNames(sizes, largeLabel, extraLargeLabel)
         == sizes[..i] + [(MediumLargeSize, largeLabel), (LargeSize, extraLargeLabel)] + sizes[i + 1..]
  {
    MergedBeforeLarge(sizes, i, largeLabel);
    ImageSizeNamesIsSet(sizes, largeLabel, extraLargeLabel);
    assert sizes[i..][0] == sizes[i] && sizes[i..][1..] == sizes[i + 1..];
    SetAfterInsert(sizes[..i], (MediumLargeSize, largeLabel), sizes[i..], extraLargeLabel);
  }

  lemma ImageSizeNamesIsSet(sizes: OMap<string, string>, largeLabel: string, extraLargeLabel: string)
    requires DistinctKeys(sizes)
    ensures ImageSizeNames(sizes, largeLabel, extraLargeLabel) == Set(MergedSizeNames(sizes, largeLabel), LargeSize, extraLargeLabel)
  {
  }

  /** Relabelling the entry right after an inserted one. */
  lemma SetAfterInsert<K(!new), V>(a: OMap<K, V>, x: (K, V), b: OMap<K, V>, v: V)
    requires |b| > 0 && DistinctKeys(a + [x] + b)
    ensures Set(a + [x] + b, b[0].0, v) == a + [x, (b[0].0, v)] + b[1..]
  {
    UpdateAfterInsert(a, x, b, (b[0].0, v));
    SetInPlace(a + [x] + b, |a| + 1, v);
  }

  lemma UpdateAfterInsert<T>(a: seq<T>, x: T, b: seq<T>, y: T)
    requires |b| > 0
    ensures |a + [x] + b| > |a| + 1 && (a + [x] + b)[|a| + 1] == b[0]
    ensures (a + [x] + b)[|a| + 1 := y] == a + [x, y] + b[1..]
  {
  }

  /** The merged array, entry by entry, when `large` sits at `i` and `medium_large` is new. */
  lemma MergedBeforeLarge(sizes: OMap<string, string>, i: nat, largeLabel: string)
    requires DistinctKeys(sizes) && i < |sizes| && sizes[i].0 == LargeSize
    requires !HasKey(sizes, MediumLargeSize)
    ensures MergedSizeNames(sizes, largeLabel) == sizes[..i] + [(MediumLargeSize, largeLabel)] + sizes[i..]
    ensures DistinctKeys(sizes[..i] + [(MediumLargeSize, largeLabel)] + sizes[i..])
  {
    LargeIndexAt(sizes, i);
    var e := [(MediumLargeSize, largeLabel)];
    SliceLacksMediumLarge(sizes, i);
    SetAllNew(sizes[..i], e);
    MergeInsert(sizes, i, e);
  }

  /** Without repeated keys, `array_search` finds `large` where it is. */
  lemma LargeIndexAt(sizes: OMap<string, string>, i: nat)
    requires DistinctKeys(sizes) && i < |sizes| && sizes[i].0 == LargeSize
    ensures LargeIndex(sizes) == i
  {
    GetAt(sizes, i);
  }

  /** Key by key, the two `array_merge`s keep every size and add `medium_large` when it is new. */
  lemma MergedSizeNamesGet(sizes: OMap<string, string>, i: nat, mid: OMap<string, string>, merged: OMap<string, string>,
                        largeLabel: string)
    requires DistinctKeys(sizes) && i <= |sizes|
    requires forall k :: !HasKey(sizes, k) ==> !HasKey(sizes[..i], k)
    requires DistinctKeys(sizes[..i])
    requires mid == Merge(sizes[..i], [(MediumLargeSize, largeLabel)]) && merged == Merge(mid, sizes)
    ensures forall k :: Get(merged, k) == if HasKey(sizes, k) then Get(sizes, k)
                                          else if k == MediumLargeSize then Some(largeLabel) else None
  {
    forall k ensures Get(merged, k) == if HasKey(sizes, k) then Get(sizes, k)
                                       else if k == MediumLargeSize then Some(largeLabel) else None {
      MergedSizeNameAt(sizes, i, mid, merged, largeLabel, k);
    }
  }

  lemma MergedSizeNameAt(sizes: OMap<string, string>, i: nat, mid: OMap<string, string>, merged: OMap<string, string>,
                         largeLabel: string, k: string)
    requires DistinctKeys(sizes) && i <= |sizes|
    requires !HasKey(sizes, k) ==> !HasKey(sizes[..i], k)
    requires mid == Merge(sizes[..i], [(MediumLargeSize, largeLabel)]) && merged == Merge(mid, sizes)
    ensures Get(merged, k) == if HasKey(sizes, k) then Get(sizes, k)
                              else if k == MediumLargeSize then Some(largeLabel) else None
  {
    GetSingle(MediumLargeSize, largeLabel, k);
    assert Get(merged, k) == if HasKey(sizes, k) then Get(sizes, k) else Get(mid, k);
  }

  lemma SliceLacksMediumLarge(sizes: OMap<string, string>, i: nat)
    requires i <= |sizes| && !HasKey(sizes, MediumLargeSize)
    ensures !HasKey(sizes[..i], MediumLargeSize)
  {
    KeysAt(sizes);
    forall x | 0 <= x < i ensures sizes[..i][x].0 != MediumLargeSize {
      assert Keys(sizes)[x] == sizes[x].0;
    }
    NotHasKey(sizes[..i], MediumLargeSize);
  }

  /**
    Without a `large` size, `medium_large` comes first and `large` is added
    last.
   */
  lemma SizeNamesWithoutLarge(sizes: OMap<string, string>, largeLabel: string, extraLargeLabel: string)
    requires DistinctKeys(sizes) && !HasKey(sizes, LargeSize) && !HasKey(sizes, MediumLargeSize)
    ensures ImageSizeNames(sizes, largeLabel, extraLargeLabel)
         == [(MediumLargeSize, largeLabel)] + sizes + [(LargeSize, extraLargeLabel)]
  {
    var e := [(MediumLargeSize, largeLabel)];
    assert sizes[..0] == [];
    SetAllNew([], e);
    assert [] + e == e;
    MergeInsert(sizes, 0, e);
    assert sizes[..0] + e + sizes[0..] == e + sizes;
    NotHasKey(e, LargeSize);
    AbsentAfterConcat(e, sizes, LargeSize);
    SetAbsent(e + sizes, LargeSize, extraLargeLabel);
  }

  lemma AbsentAfterConcat(a: OMap<string, string>, b: OMap<string, string>, k: string)
    requires !HasKey(a, k) && !HasKey(b, k)
    ensures !HasKey(a + b, k)
  {
    KeysAt(a);
    KeysAt(b);
    forall x | 0 <= x < |a + b| ensures (a + b)[x].0 != k {
      if x < |a| {
        assert Keys(a)[x] == (a + b)[x].0;
      } else {
        assert Keys(b)[x - |a|] == (a + b)[x].0;
      }
    }
    NotHasKey(a + b, k);
  }

  /** PHP 8's `ArgumentCountError` for an internal function given the wrong number of arguments. */
  const ArgumentCountError := "ArgumentCountError"

  /**
    PHP's `_()` is gettext's one-argument alias. Called with any other
    number of arguments, PHP 7 warns and returns `null`; PHP 8 throws an
    `ArgumentCountError`.
   */
  function Gettext(php: PhpVersion, args: seq<string>, translate: string -> string): (r: Result<Option<string>, string>)
    ensures r.Failure? <==> |args| != 1 && php == Php8
    ensures r.Failure? ==> r.error == ArgumentCountError
    ensures r.Success? ==> (r.value.Some? <==> |args| == 1)
    ensures |args| == 1 ==> r == Success(Some(translate(args[0])))
  {
    if |args| == 1 then Success(Some(translate(args[0])))
    else if php == Php8 then Failure(ArgumentCountError)
    else Success(None)
  }

  /** How an optional label is printed: `null` as the empty string. */
  function LabelText(text: Option<string>): string {
    text.GetOr("")
  }

  /**
    The filter as written: `_( 'Large' )` and `_( 'Extra large',
    THISTLE_TEXT_DOMAIN )`; a thrown error ends the filter.
   */
  function ImageSizeNamesAsWritten(php: PhpVersion, sizes: OMap<string, string>, translate: string -> string): (r: Result<OMap<string, string>, string>)
    requires DistinctKeys(sizes)
    ensures r.Failure? <==> Gettext(php, ["Extra large", "thistle"], translate).Failure?
    ensures r.Success? ==> Get(r.value, LargeSize) == Some(LabelText(Gettext(php, ["Extra large", "thistle"], translate).value))
  {
    var large := Gettext(php, ["Large"], translate);
    var extraLarge := Gettext(php, ["Extra large", "thistle"], translate);
    if extraLarge.Failure? then Failure(extraLarge.error)
    else Success(ImageSizeNames(sizes, LabelText(large.value), LabelText(extraLarge.value)))
  }

  /**
    As written, the `large` size is left with a blank label under PHP 7,
    and the filter throws under PHP 8.
   */
  lemma ExtraLargeLabelBlank(sizes: OMap<string, string>, translate: string -> string)
    requires DistinctKeys(sizes)
    ensures ImageSizeNamesAsWritten(Php7, sizes, translate).Success?
    ensures Get(ImageSizeNamesAsWritten(Php7, sizes, translate).value, LargeSize) == Some("")
    ensures ImageSizeNamesAsWritten(Php8, sizes, translate) == Failure(ArgumentCountError)
  {
    assert |["Extra large", "thistle"]| == 2;
  }

  /**
    The evidently intended filter: the theme-domain translation call
    `__( 'Extra large', THISTLE_TEXT_DOMAIN )`, here `translateInDomain`.
   */
  function ImageSizeNamesIntended(sizes: OMap<string, string>, translate: string -> string,
                                  translateInDomain: string -> string): (r: OMap<string, string>)
    requires DistinctKeys(sizes)
    ensures Get(r, LargeSize) == Some(translateInDomain("Extra large"))
    ensures translateInDomain("Extra large") != "" ==> Get(r, LargeSize) != Some("")
  {
    ImageSizeNames(sizes, translate("Large"), translateInDomain("Extra large"))
  }

  // ---------------------------------------------------------------------
  // Media settings whitelist
  // ---------------------------------------------------------------------

  const MediaGroup := "media"
  const MediumLargeOptions := ["medium_large_size_w", "medium_large_size_h"]

  /**
    `thistle_media_whitelist_options`: the two `medium_large` options are
    appended to the `media` group (created when missing); no other group
    changes.
   */
  function MediaWhitelistOptions(whitelist: OMap<string, seq<string>>): (r: OMap<string, seq<string>>)
    ensures Get(r, MediaGroup) == Some(GetOr(whitelist, MediaGroup, []) + MediumLargeOptions)
    ensures forall g :: g != MediaGroup ==> Get(r, g) == Get(whitelist, g)
    ensures Keys(r) == if HasKey(whitelist, MediaGroup) then Keys(whitelist) else Keys(whitelist) + [MediaGroup]
    ensures DistinctKeys(whitelist) ==> DistinctKeys(r)
  {
    Set(whitelist, MediaGroup, GetOr(whitelist, MediaGroup, []) + MediumLargeOptions)
  }

  /** No option that was allowed before is revoked, and both new ones are allowed. */
  lemma WhitelistOnlyGrows(whitelist: OMap<string, seq<string>>, group: string, option: string)
    requires HasKey(whitelist, group) && option in Get(whitelist, group).value
    ensures option in Get(MediaWhitelistOptions(whitelist), group).value
    ensures forall o :: o in MediumLargeOptions ==> o in Get(MediaWhitelistOptions(whitelist), MediaGroup).value
  {
  }

  // ---------------------------------------------------------------------
  // Logout redirection
  // ---------------------------------------------------------------------

  const RedirectTo := "redirect_to"

  /**
    `thistle_redirect_wp_logout`: a logout URL that already names a
    redirection is kept; otherwise `redirect_to` is set to the encoded home
    page (in the admin) or the encoded current address (elsewhere).
    `requestUri` is what `add_query_arg( NULL, NULL )` returns, and `encode`
    stands for `urlencode`.
   */
  function RedirectWpLogout(logoutUrl: Url, redirect: string, isAdmin: bool, home: string, requestUri: string,
                            encode: string -> string): (r: Url)
    ensures !PhpEmpty(redirect) ==> r == logoutUrl
    ensures PhpEmpty(redirect) ==>
              Get(r.query, RedirectTo) == Some(encode(if isAdmin then home + "/" else HomeUrl(home, requestUri)))
    ensures r.address == logoutUrl.address
    ensures forall k :: k != RedirectTo ==> Get(r.query, k) == Get(logoutUrl.query, k)
    ensures logoutUrl.Valid() ==> r.Valid()
  {
    if !PhpEmpty(redirect) then logoutUrl
    else
      var target := if isAdmin then HomeUrl(home, "/") else HomeUrl(home, requestUri);
      HomeUrlRoot(home);
      AddArg(logoutUrl, RedirectTo, Some(encode(target)))
  }

  /** Removing the added argument gives back a logout URL that had none. */
  lemma LogoutRedirectRemovable(logoutUrl: Url, isAdmin: bool, home: string, requestUri: string,
                                encode: string -> string)
    requires !HasKey(logoutUrl.query, RedirectTo)
    ensures RemoveArg(RedirectWpLogout(logoutUrl, "", isAdmin, home, requestUri, encode), RedirectTo) == logoutUrl
  {
    var target := if isAdmin then HomeUrl(home, "/") else HomeUrl(home, requestUri);
    var q := logoutUrl.query;
    SetAbsent(q, RedirectTo, encode(target));
    NotHasKey<string, string>([], RedirectTo);
    RemoveMiddle(q, RedirectTo, encode(target), []);
    assert q + [(RedirectTo, encode(target))] + [] == q + [(RedirectTo, encode(target))];
    assert q + [] == q;
  }

  // ---------------------------------------------------------------------
  // "At a Glance" items
  // ---------------------------------------------------------------------

  /**
    A custom post type as the dashboard widget sees it: its name and
    labels, the `menu_icon_hex` entry (if set), whether the current user
    can edit its posts, and its number of published posts.
   */
  datatype GlanceType = GlanceType(
    name: string, singularName: string, pluralName: string, iconHex: Option<string>,
    canEditPosts: bool, published: nat)

  /** The `data-dashicons` value: the icon's character reference, unless it is a URL. */
  function GlanceIcon(t: GlanceType): (icon: string)
    ensures icon != "" <==> t.iconHex.Some? && !Contains(t.iconHex.value, "http")
    ensures icon != "" ==> icon == "&#x" + t.iconHex.value + ";"
  {
    match t.iconHex
    case Some(hex) => if !Contains(hex, "http") then "&#x" + hex + ";" else ""
    case None => ""
  }

  /**
    The item's text: the formatted count (`number_format_i18n`, here
    `format`) and the singular label for one post, the plural one otherwise.
   */
  function GlanceText(t: GlanceType, format: nat -> string): (text: string)
    ensures StartsWith(text, format(t.published) + " ")
    ensures t.published == 1 ==> text[|format(t.published)| + 1..] == t.singularName
    ensures t.published != 1 ==> text[|format(t.published)| + 1..] == t.pluralName
  {
    var count := format(t.published) + " ";
    var noun := if t.published == 1 then t.singularName else t.pluralName;
    assert (count + noun)[..|count|] == count;
    assert (count + noun)[|count|..] == noun;
    count + noun
  }

  /** One item: a link to the post list for users who can edit the posts, plain text otherwise. */
  function GlanceItem(t: GlanceType, format: nat -> string): (item: string)
    ensures StartsWith(item, "<a ") <==> t.canEditPosts
    ensures t.canEditPosts ==> StartsWith(item, "<a data-dashicons=\"" + GlanceIcon(t) + "\" href=\"edit.php?post_type=" + t.name + "\">")
    ensures !t.canEditPosts ==> StartsWith(item, "<span data-dashicons=\"" + GlanceIcon(t) + "\">")
    ensures EndsWith(item, GlanceText(t, format) + (if t.canEditPosts then "</a>" else "</span>"))
  {
    var icon, text := GlanceIcon(t), GlanceText(t, format);
    if t.canEditPosts then
      var head := "<a data-dashicons=\"" + icon + "\" href=\"edit.php?post_type=" + t.name + "\">";
      assert (head + text + "</a>")[..|head|] == head;
      assert head[..3] == "<a ";
      assert (head + text + "</a>")[|head|..] == text + "</a>";
      head + text + "</a>"
    else
      var head := "<span data-dashicons=\"" + icon + "\">";
      assert (head + text + "</span>")[..|head|] == head;
      assert head[..3] == "<sp";
      assert (head + text + "</span>")[..3] == head[..3];
      assert (head + text + "</span>")[|head|..] == text + "</span>";
      head + text + "</span>"
  }

  predicate IsPublished(t: GlanceType) {
    t.published > 0
  }

  /** The items the widget gains, in post type order: one per type with published posts. */
  function GlanceItems(types: seq<GlanceType>, format: nat -> string): (items: seq<string>)
    ensures |items| <= |types|
    decreases |types|
  {
    if |types| == 0 then []
    else
      var last := types[|types| - 1];
      GlanceItems(types[..|types| - 1], format) + ItemOf(last, format)
  }

  /**
    `thistle_dashboard_right_now_post_types`: the loop over the post types,
    appending the item of every type that has published posts.
   */
  method DashboardRightNowPostTypes(elements: seq<string>, types: seq<GlanceType>, format: nat -> string)
    returns (r: seq<string>)
    ensures r == elements + GlanceItems(types, format)
    ensures IsPrefix(elements, r)
  {
    r := elements;
    var i := 0;
    while i < |types|
      invariant 0 <= i <= |types|
      invariant r == elements + GlanceItems(types[..i], format)
    {
      var t := types[i];
      assert types[..i + 1][..i] == types[..i];
      if t.published > 0 {
        r := r + [GlanceItem(t, format)];
      }
      i := i + 1;
    }
    assert types[..|types|] == types;
  }

  /** Every published type gets its item, in order, and no other type does. */
  lemma {:induction false} GlanceItemsArePublished(types: seq<GlanceType>, format: nat -> string)
    ensures GlanceItems(types, format) == ItemsOf(KeepIf(types, IsPublished), format)
    decreases |types|
  {
    if |types| > 0 {
      var front := if IsPublished(types[0]) then [types[0]] else [];
      GlanceItemsFirst(types, format);
      GlanceItemsArePublished(types[1..], format);
      KeepIfFirst(types, IsPublished);
      ItemsOfConcat(front, KeepIf(types[1..], IsPublished), format);
      ItemsOfOne(types[0], format);
    }
  }

  function ItemOf(t: GlanceType, format: nat -> string): seq<string> {
    if IsPublished(t) then [GlanceItem(t, format)] else []
  }

  /** The widget's items seen from the first post type. */
  lemma {:induction false} GlanceItemsFirst(types: seq<GlanceType>, format: nat -> string)
    requires |types| > 0
    ensures GlanceItems(types, format) == ItemOf(types[0], format) + GlanceItems(types[1..], format)
    decreases |types|
  {
    var n := |types|;
    if n == 1 {
      assert types[..0] == [] && types[1..] == [];
    } else {
      var init := types[..n - 1];
      GlanceItemsFirst(init, format);
      assert types[1..][..n - 2] == init[1..] && types[1..][n - 2] == types[n - 1] && init[0] == types[0];
      AssocSeq(ItemOf(types[0], format), GlanceItems(init[1..], format), ItemOf(types[n - 1], format));
    }
  }

  lemma ItemsOfOne(t: GlanceType, format: nat -> string)
    ensures ItemsOf(if IsPublished(t) then [t] else [], format) == ItemOf(t, format)
  {
  }

  function ItemsOf(types: seq<GlanceType>, format: nat -> string): (items: seq<string>)
    ensures |items| == |types|
    ensures forall i :: 0 <= i < |types| ==> items[i] == GlanceItem(types[i], format)
  {
    seq(|types|, i requires 0 <= i < |types| => GlanceItem(types[i], format))
  }

  lemma ItemsOfConcat(a: seq<GlanceType>, b: seq<GlanceType>, format: nat -> string)
    ensures ItemsOf(a + b, format) == ItemsOf(a, format) + ItemsOf(b, format)
  {
  }

  // ---------------------------------------------------------------------
  // Soft maintenance mode
  // ---------------------------------------------------------------------

  /**
    What `thistle_soft_maintenance_mode` reads: whether WordPress's own
    `.maintenance` file exists, the truthiness of `THISTLE_MAINTENANCE`
    (`None` when it is not defined), the current script, whether the visitor
    is logged in, and whether a `maintenance.php` drop-in exists.
   */
  datatype MaintenanceEnv = MaintenanceEnv(
    coreMaintenanceFile: bool, flag: Option<bool>, pagenow: string, loggedIn: bool, hasDropIn: bool)

  datatype MaintenancePage = DropIn | DefaultMessage

  datatype MaintenanceOutcome = Proceed | Unavailable(status: nat, page: MaintenancePage)

  predicate MaintenanceApplies(env: MaintenanceEnv) {
    !env.coreMaintenanceFile && env.flag == Some(true) && env.pagenow != "wp-login.php" && !env.loggedIn
  }

  /** The request dies with a 503 page exactly when `MaintenanceApplies`; the drop-in wins when present. */
  function SoftMaintenanceMode(env: MaintenanceEnv): (r: MaintenanceOutcome)
    ensures r.Unavailable? <==> !env.coreMaintenanceFile && env.flag == Some(true)
                                && env.pagenow != "wp-login.php" && !env.loggedIn
    ensures r.Unavailable? ==> r.status == 503 && (r.page == DropIn <==> env.hasDropIn)
    ensures env.pagenow == "wp-login.php" || env.loggedIn || env.coreMaintenanceFile ==> r == Proceed
  {
    if MaintenanceApplies(env) then Unavailable(503, if env.hasDropIn then DropIn else DefaultMessage)
    else Proceed
  }

  // ---------------------------------------------------------------------
  // Shorthand admin locations
  // ---------------------------------------------------------------------

  /** `home_url( 'wp-admin' | 'wp' | 'admin', 'relative' )` for a site whose home path is `homePath`. */
  function AdminLocations(homePath: string): seq<string> {
    [HomeUrl(homePath, "wp-admin"), HomeUrl(homePath, "wp"), HomeUrl(homePath, "admin")]
  }

  /**
    `thistle_redirect_admin_locations`: only a logged-in visitor on a 404
    page with pretty permalinks is sent to the admin, and only from one of
    the three shorthand paths, trailing slashes ignored.
   */
  function RedirectAdminLocations(loggedIn: bool, is404: bool, usingPermalinks: bool, homePath: string,
                                  requestUri: string, adminUrl: string): (r: Option<string>)
    ensures r.Some? <==> loggedIn && is404 && usingPermalinks && UntrailingSlashIt(requestUri) in AdminLocations(homePath)
    ensures r.Some? ==> r.value == adminUrl
  {
    if !loggedIn then None
    else if !(is404 && usingPermalinks) then None
    else if UntrailingSlashIt(requestUri) in AdminLocations(homePath) then Some(adminUrl)
    else None
  }

  /** `/wp-admin/` under the home path leads to the admin for a logged-in visitor on a 404. */
  lemma ShorthandWithSlash(homePath: string, adminUrl: string)
    ensures RedirectAdminLocations(true, true, true, homePath, homePath + "/wp-admin/", adminUrl) == Some(adminUrl)
  {
    var s := homePath + "/wp-admin";
    assert HomeUrl(homePath, "wp-admin") == s;
    assert s + "/" == homePath + "/wp-admin/";
    UntrailingOneSlash(s);
  }

  /** A single trailing slash after a non-slash character is all `untrailingslashit` removes. */
  lemma UntrailingOneSlash(s: string)
    requires |s| > 0 && !IsSlash(s[|s| - 1])
    ensures UntrailingSlashIt(s + "/") == s
  {
    var r := UntrailingSlashIt(s + "/");
    assert (s + "/")[|s| - 1] == s[|s| - 1];
  }

  /** A visitor who is not logged in is never redirected. */
  lemma NoRedirectWhenLoggedOut(is404: bool, usingPermalinks: bool, homePath: string, requestUri: string, adminUrl: string)
    ensures RedirectAdminLocations(false, is404, usingPermalinks, homePath, requestUri, adminUrl).None?
  {
  }

  // ---------------------------------------------------------------------
  // Admin bar archive links
  // ---------------------------------------------------------------------

  datatype MenuNode = MenuNode(title: string, href: string)

  /** The admin bar's nodes by id; `add_menu` with an existing id updates it in place. */
  type AdminBar = OMap<string, MenuNode>

  /** What the front end is displaying (`get_queried_object`). */
  datatype QueriedObject = NothingQueried | PostTypeArchive(name: string) | OtherObject

  /**
    The page found at the path of a post type archive link, as far as
    `thistle_admin_bar_edit_archive_page` asks about it: its type's "Edit"
    label (`None` when the type is not registered), whether that type is
    shown in the admin bar, whether the user can edit the page, and its
    edit link (empty for `false`).
   */
  datatype ArchivePage = ArchivePage(
    editItemLabel: Option<string>, typeInAdminBar: bool, canEdit: bool, editLink: string)

  /**
    The "Edit" node on the front end: only for a post type archive that has
    a link, a page at the same path of a registered type shown in the admin
    bar, a user who may edit that page, and an edit link.
   */
  function EditArchiveNode(isAdmin: bool, queried: QueriedObject, archiveLink: string,
                           page: Option<ArchivePage>): (node: Option<MenuNode>)
    ensures node.Some? <==> !isAdmin && queried.PostTypeArchive? && !PhpEmpty(archiveLink) && page.Some?
                            && page.value.editItemLabel.Some? && page.value.canEdit && page.value.typeInAdminBar
                            && !PhpEmpty(page.value.editLink)
    ensures node.Some? ==> node.value == MenuNode(page.value.editItemLabel.value, page.value.editLink)
  {
    if isAdmin || !queried.PostTypeArchive? || PhpEmpty(archiveLink) then None
    else match page
      case None => None
      case Some(p) =>
        match p.editItemLabel
        case None => None
        case Some(editLabel) =>
          if p.canEdit && p.typeInAdminBar && !PhpEmpty(p.editLink) then Some(MenuNode(editLabel, p.editLink)) else None
  }

  /**
    The post type of an admin list screen, as far as
    `thistle_admin_bar_view_archive_page` asks about it.
   */
  datatype ScreenType = ScreenType(inAdminBar: bool, viewItemsLabel: string)

  /**
    The "View" node in the admin: only on a post list screen (`edit`) of a
    registered post type shown in the admin bar, with a "View Posts" label
    and an archive link.
   */
  function ViewArchiveNode(isAdmin: bool, screenBase: string, screenPostType: string, postType: Option<ScreenType>,
                           archiveLink: string): (node: Option<MenuNode>)
    ensures node.Some? <==> isAdmin && screenBase == "edit" && !PhpEmpty(screenPostType) && postType.Some?
                            && postType.value.inAdminBar && !PhpEmpty(postType.value.viewItemsLabel)
                            && !PhpEmpty(archiveLink)
    ensures node.Some? ==> node.value == MenuNode(postType.value.viewItemsLabel, archiveLink)
  {
    if !isAdmin || screenBase != "edit" || PhpEmpty(screenPostType) then None
    else match postType
      case None => None
      case Some(t) =>
        if t.inAdminBar && !PhpEmpty(t.viewItemsLabel) && !PhpEmpty(archiveLink) then Some(MenuNode(t.viewItemsLabel, archiveLink))
        else None
  }

  /** `$wp_admin_bar->add_menu` when the callback decided on a node. */
  function AddMenu(bar: AdminBar, id: string, node: Option<MenuNode>): (r: AdminBar)
    ensures node.None? ==> r == bar
    ensures node.Some? ==> Get(r, id) == node
    ensures forall k :: k != id ==> Get(r, k) == Get(bar, k)
  {
    match node
    case None => bar
    case Some(n) => Set(bar, id, n)
  }

  /** `thistle_remove_admin_bar_archive_node`: the core "archive" node goes, nothing else does. */
  function RemoveArchiveNode(bar: AdminBar): (r: AdminBar)
    ensures !HasKey(r, "archive")
    ensures forall k :: k != "archive" ==> Get(r, k) == Get(bar, k)
    ensures IsSubsequence(r, bar)
  {
    Remove(bar, "archive")
  }

  // ---------------------------------------------------------------------
  // Capability-driven tweaks
  // ---------------------------------------------------------------------

  /**
    The admin screens a user gets: the update nag removed without
    `update_core`; the "Themes" submenu removed, the theme name in the
    "At a Glance" widget emptied and a direct request for `themes.php`
    refused with a 403, without `install_themes`.
   */
  datatype ScreenTweaks = ScreenTweaks(
    removeUpdateNag: bool, removeThemesSubmenu: bool, emptyThemeName: bool, deny: Option<nat>)

  function AdminScreenTweaks(canUpdateCore: bool, canInstallThemes: bool, pagenow: string): (r: ScreenTweaks)
    ensures r.removeUpdateNag <==> !canUpdateCore
    ensures r.removeThemesSubmenu <==> !canInstallThemes
    ensures r.emptyThemeName <==> !canInstallThemes
    ensures r.deny.Some? <==> pagenow == "themes.php" && !canInstallThemes
    ensures r.deny.Some? ==> r.deny.value == 403
    ensures canInstallThemes ==> !r.removeThemesSubmenu && !r.emptyThemeName && r.deny.None?
  {
    ScreenTweaks(!canUpdateCore, !canInstallThemes, !canInstallThemes,
                 if pagenow == "themes.php" && !canInstallThemes then Some(403) else None)
  }
}

=== FILE: assets.dfy ===
/**
  The theme's asset pipeline in `functions.php`: which styles and scripts
  `thistle_enqueue_assets` registers for a request, how every entry is
  completed with defaults and turned into enqueue calls, the `defer`
  attribute of svgxuse, and `thistle_sanitize_option`.
 */
module Assets {
  import opened Wrappers
  import opened Strings
  import opened OrderedMaps

  // ---------------------------------------------------------------------
  // Asset tables
  // ---------------------------------------------------------------------

  /** A value `wp_localize_script` hands to the page. */
  datatype LocalizeValue = Text(text: string) | Flag(flag: bool)

  /** The objects a script localizes, by object name. */
  type Localization = OMap<string, OMap<string, LocalizeValue>>

  /**
    One entry of `$assets['styles']` or `$assets['scripts']` as the theme or
    the `thistle_enqueue_assets` filter writes it, where every field may be
    missing. A missing or `null` `src` or `data` is `None`; `ver` is
    `Some(None)` for an explicit `null`.
   */
  datatype AssetArgs = AssetArgs(
    src: Option<string>, deps: Option<seq<string>>, ver: Option<Option<string>>,
    media: Option<string>, inFooter: Option<bool>, data: Option<Localization>)

  /** `array()`. */
  const NoArgs := AssetArgs(None, None, None, None, None, None)

  /** `array( 'src' => … )`. */
  function SrcOnly(src: string): AssetArgs {
    NoArgs.(src := Some(src))
  }

  /** `$assets`: styles and scripts by name, in registration order. */
  datatype AssetTable = AssetTable(styles: OMap<string, AssetArgs>, scripts: OMap<string, AssetArgs>)

  /** What `thistle_enqueue_assets` asks of WordPress about the request. */
  datatype AssetRequest = AssetRequest(
    is404: bool, isSingular: bool, hasGalleryShortcode: bool,
    /** The `thistle_get_gallery_template_part` filter's answer. */
    galleryTemplatePart: bool,
    isPostTypeArchive: bool,
    /** `is_category() || is_tag() || is_tax()`. */
    isTermArchive: bool,
    isSingle: bool, isHome: bool, isArchive: bool,
    /** The queried post type object's `name`. */
    queriedName: string,
    /** `object_type[0]` of the queried term's taxonomy. */
    taxonomyObjectType: string,
    /** The queried post's `post_type`. */
    queriedPostType: string,
    /** The template's file name without directory and extension. */
    template: string,
    scriptDebug: bool, wpDebug: bool)

  /** The child theme's directory and URL, and the file system. */
  datatype Theme = Theme(childPath: string, childUri: string, adminAjaxUrl: string, fileExists: string -> bool)

  /** `$min`: minified files unless `SCRIPT_DEBUG`. */
  function MinSuffix(scriptDebug: bool): string {
    if scriptDebug then "" else ".min"
  }

  function StylePath(theme: Theme, name: string, min: string): string {
    theme.childPath + "/assets/styles/" + name + min + ".css"
  }

  function ScriptPath(theme: Theme, name: string, min: string): string {
    theme.childPath + "/assets/scripts/" + name + min + ".js"
  }

  /**
    Lines 434-442: the post type of an archive of it, of a term's taxonomy,
    of a single post, `post` on the blog home and other archives, and none
    otherwise, tested in that order.
   */
  function PostTypeOf(req: AssetRequest): (postType: string)
    ensures req.isPostTypeArchive ==> postType == req.queriedName
    ensures !req.isPostTypeArchive && req.isTermArchive ==> postType == req.taxonomyObjectType
    ensures !req.isPostTypeArchive && !req.isTermArchive && req.isSingle ==> postType == req.queriedPostType
    ensures !req.isPostTypeArchive && !req.isTermArchive && !req.isSingle ==>
              (postType == "post" <==> req.isHome || req.isArchive) && (postType == "" <==> !req.isHome && !req.isArchive)
  {
    if req.isPostTypeArchive then req.queriedName
    else if req.isTermArchive then req.taxonomyObjectType
    else if req.isSingle then req.queriedPostType
    else if req.isHome || req.isArchive then "post"
    else ""
  }

  /** `$post_type` as the filter sees it: never resolved on a 404. */
  function ResolvedPostType(req: AssetRequest): (postType: string)
    ensures req.is404 ==> postType == ""
  {
    if req.is404 then "" else PostTypeOf(req)
  }

  /** `$assets[…][ $name ] = $args` when the file exists. */
  function Register(table: OMap<string, AssetArgs>, present: bool, name: string, args: AssetArgs): (r: OMap<string, AssetArgs>)
    ensures forall k :: HasKey(r, k) <==> HasKey(table, k) || (present && k == name)
    ensures present ==> Get(r, name) == Some(args)
    ensures forall k :: k != name ==> Get(r, k) == Get(table, k)
  {
    if present then Set(table, name, args) else table
  }

  /** Lines 414-425: `style.css`, svgxuse and `script.js` with its `THISTLE` object. */
  function DefaultAssets(theme: Theme, wpDebug: bool): AssetTable {
    var data := [("url", Text(theme.childUri)), ("ajax_url", Text(theme.adminAjaxUrl)), ("debug", Flag(wpDebug))];
    AssetTable(
      [("style", SrcOnly("style.css"))],
      [("svgxuse", NoArgs), ("script", SrcOnly("script.js").(data := Some([("THISTLE", data)])))])
  }

  /** Lines 428-431: the gallery's assets on a singular page with a gallery, or when the filter asks. */
  function GalleryAssets(t: AssetTable, req: AssetRequest): AssetTable {
    var wanted := (req.isSingular && req.hasGalleryShortcode) || req.galleryTemplatePart;
    AssetTable(Register(t.styles, wanted, "imagegallery", SrcOnly("imagegallery.css")),
               Register(t.scripts, wanted, "imagegallery", NoArgs))
  }

  /** Lines 445-452 and 456-461: the files named after `name`, those that exist. */
  function NamedAssets(t: AssetTable, name: string, min: string, theme: Theme): AssetTable {
    AssetTable(Register(t.styles, theme.fileExists(StylePath(theme, name, min)), name, SrcOnly(name + ".css")),
               Register(t.scripts, theme.fileExists(ScriptPath(theme, name, min)), name, SrcOnly(name + ".js")))
  }

  /** Line 463: `debug.css` under `WP_DEBUG`. */
  function DebugAssets(t: AssetTable, wpDebug: bool, theme: Theme): AssetTable {
    var wanted := wpDebug && theme.fileExists(theme.childPath + "/assets/styles/debug.css");
    t.(styles := Register(t.styles, wanted, "debug", SrcOnly("debug.css")))
  }

  /** Lines 405-465: the table before the `thistle_enqueue_assets` filter. */
  function RegisteredAssets(req: AssetRequest, theme: Theme): AssetTable {
    var min := MinSuffix(req.scriptDebug);
    var postType := ResolvedPostType(req);
    var base :=
      if req.is404 then AssetTable([], [])
      else
        var withGallery := GalleryAssets(DefaultAssets(theme, req.wpDebug), req);
        if PhpEmpty(postType) then withGallery else NamedAssets(withGallery, postType, min, theme);
    DebugAssets(NamedAssets(base, req.template, min, theme), req.wpDebug, theme)
  }

  /**
    On a 404 only the template's own files and `debug.css` are registered:
    no defaults, no gallery and no post-type assets.
   */
  lemma NotFoundAssets(req: AssetRequest, theme: Theme)
    requires req.is404
    ensures var t := RegisteredAssets(req, theme);
      && (forall k :: HasKey(t.styles, k) ==> k == req.template || k == "debug")
      && (forall k :: HasKey(t.scripts, k) <==> k == req.template && theme.fileExists(ScriptPath(theme, k, MinSuffix(req.scriptDebug))))
      && (forall k :: k != "debug" ==>
            (HasKey(t.styles, k) <==> k == req.template && theme.fileExists(StylePath(theme, k, MinSuffix(req.scriptDebug)))))
  {
    assert !HasKey<string, AssetArgs>([], req.template);
  }

  /**
    Away from a 404 the defaults are always registered, the gallery's
    assets when a gallery is shown, and the post type's files that exist.
   */
  lemma PageAssets(req: AssetRequest, theme: Theme)
    requires !req.is404
    ensures var t := RegisteredAssets(req, theme);
      && HasKey(t.styles, "style") && HasKey(t.scripts, "svgxuse") && HasKey(t.scripts, "script")
      && ((req.isSingular && req.hasGalleryShortcode) || req.galleryTemplatePart ==>
            HasKey(t.styles, "imagegallery") && HasKey(t.scripts, "imagegallery"))
      && (!PhpEmpty(PostTypeOf(req)) && theme.fileExists(StylePath(theme, PostTypeOf(req), MinSuffix(req.scriptDebug))) ==>
            HasKey(t.styles, PostTypeOf(req)))
      && (!PhpEmpty(PostTypeOf(req)) && theme.fileExists(ScriptPath(theme, PostTypeOf(req), MinSuffix(req.scriptDebug))) ==>
            HasKey(t.scripts, PostTypeOf(req)))
  {
    var d := DefaultAssets(theme, req.wpDebug);
    assert HasKey(d.styles, "style") by { assert Keys(d.styles) == ["style"]; }
    assert HasKey(d.scripts, "svgxuse") && HasKey(d.scripts, "script") by {
      assert Keys(d.scripts) == ["svgxuse", "script"];
    }
  }

  // ---------------------------------------------------------------------
  // Defaults
  // ---------------------------------------------------------------------

  /** A style after `wp_parse_args` with the theme's defaults. */
  datatype Style = Style(src: Option<string>, deps: seq<string>, ver: Option<string>, media: string)

  /** A script after `wp_parse_args` with the theme's defaults. */
  datatype Script = Script(src: Option<string>, deps: seq<string>, ver: Option<string>, inFooter: bool, data: Option<Localization>)

  /** Lines 402 and 477: no dependencies, no version and `screen` unless the entry says otherwise. */
  function StyleArgs(args: AssetArgs): (s: Style)
    ensures s.src == args.src
    ensures s.deps == (if args.deps.Some? then args.deps.value else [])
    ensures s.ver == (if args.ver.Some? then args.ver.value else None)
    ensures s.media == (if args.media.Some? then args.media.value else "screen")
  {
    Style(args.src, args.deps.GetOr([]), args.ver.GetOr(None), args.media.GetOr("screen"))
  }

  /** Lines 403 and 478: no dependencies, no version and the footer unless the entry says otherwise. */
  function ScriptArgs(args: AssetArgs): (s: Script)
    ensures s.src == args.src && s.data == args.data
    ensures s.deps == (if args.deps.Some? then args.deps.value else [])
    ensures s.ver == (if args.ver.Some? then args.ver.value else None)
    ensures s.inFooter == (if args.inFooter.Some? then args.inFooter.value else true)
  {
    Script(args.src, args.deps.GetOr([]), args.ver.GetOr(None), args.inFooter.GetOr(true), args.data)
  }

  /** The fields a completed style writes back into its array. */
  function StyleEntry(s: Style): AssetArgs {
    AssetArgs(s.src, Some(s.deps), Some(s.ver), Some(s.media), None, None)
  }

  function ScriptEntry(s: Script): AssetArgs {
    AssetArgs(s.src, Some(s.deps), Some(s.ver), None, Some(s.inFooter), s.data)
  }

  /**
    Completing an entry twice changes nothing, and an entry naming only its
    source gets exactly the defaults.
   */
  lemma ArgsDefaults(args: AssetArgs, src: string)
    ensures StyleArgs(StyleEntry(StyleArgs(args))) == StyleArgs(args)
    ensures ScriptArgs(ScriptEntry(ScriptArgs(args))) == ScriptArgs(args)
    ensures StyleArgs(SrcOnly(src)) == Style(Some(src), [], None, "screen")
    ensures ScriptArgs(SrcOnly(src)) == Script(Some(src), [], None, true, None)
  {
  }

  // ---------------------------------------------------------------------
  // Handles and sources
  // ---------------------------------------------------------------------

  /** Lines 481 and 492: names starting with `!` are handles already; others get the theme's prefix. */
  function Handle(name: string): (h: string)
    ensures |name| > 0 && name[0] == '!' ==> h == name
    ensures !(|name| > 0 && name[0] == '!') ==> h == "thistle-" + name
    ensures StartsWith(h, "!") || StartsWith(h, "thistle-")
  {
    if |name| > 0 && name[0] == '!' then name else "thistle-" + name
  }

  /** Different names give different handles. */
  lemma HandleInjective(a: string, b: string)
    requires Handle(a) == Handle(b)
    ensures a == b
  {
    if !(|a| > 0 && a[0] == '!') && !(|b| > 0 && b[0] == '!') {
      assert a == Handle(a)[8..] && b == Handle(b)[8..];
    }
  }

  /**
    Lines 483-486 and 494-497: a source without `http` moves into the
    theme's `assets/<dir>/` and every `ext` in the address gets `min` in
    front of it; a remote source is kept.
   */
  function AssetSrc(src: Option<string>, dir: string, ext: string, min: string, childUri: string): (r: Option<string>)
    ensures r.None? <==> src.None?
    ensures src.Some? && Contains(src.value, "http") ==> r == src
  {
    match src
    case None => None
    case Some(s) =>
      if Contains(s, "http") then src
      else Some(ReplaceAll(childUri + "/assets/" + dir + "/" + s, ext, min + ext))
  }

  /** Under `SCRIPT_DEBUG` a local source only moves into the assets directory. */
  lemma DebugSrcOnlyMoves(s: string, dir: string, ext: string, childUri: string)
    requires !Contains(s, "http")
    ensures AssetSrc(Some(s), dir, ext, "", childUri) == Some(childUri + "/assets/" + dir + "/" + s)
  {
    assert "" + ext == ext;
    ReplaceSame(childUri + "/assets/" + dir + "/" + s, ext);
  }

  /** A local address whose only `ext` is at its end gets `min` just before it. */
  lemma MinifiedSrc(name: string, dir: string, ext: string, min: string, childUri: string)
    requires |ext| > 0 && !Contains(name + ext, "http")
    requires var pre := childUri + "/assets/" + dir + "/" + name;
      forall j :: 0 <= j < |pre| ==> !OccursAt(pre + ext, ext, j)
    ensures AssetSrc(Some(name + ext), dir, ext, min, childUri) == Some(childUri + "/assets/" + dir + "/" + name + min + ext)
  {
    var pre := childUri + "/assets/" + dir + "/" + name;
    assert childUri + "/assets/" + dir + "/" + (name + ext) == pre + ext;
    ExtensionAtEnd(pre, ext, min + ext);
    assert pre + (min + ext) == pre + min + ext;
  }

  lemma ExtensionAtEnd(pre: string, ext: string, rep: string)
    requires |ext| > 0 && forall j :: 0 <= j < |pre| ==> !OccursAt(pre + ext, ext, j)
    ensures ReplaceAll(pre + ext, ext, rep) == pre + rep
  {
    assert !Contains("", ext);
    assert pre + ext + "" == pre + ext && pre + rep + "" == pre + rep;
    ReplaceOnce(pre, ext, "", rep);
  }

  /** Every `ext` of a local address is rewritten: the address is cut at each `ext` and glued back with `min + ext`. */
  lemma EveryExtensionMinified(s: string, dir: string, ext: string, min: string, childUri: string)
    requires |ext| > 0 && !Contains(s, "http")
    ensures AssetSrc(Some(s), dir, ext, min, childUri)
            == Some(Join(Split(childUri + "/assets/" + dir + "/" + s, ext), min + ext))
  {
    ReplaceIsSplitJoin(childUri + "/assets/" + dir + "/" + s, ext, min + ext);
  }

  // ---------------------------------------------------------------------
  // Enqueue calls
  // ---------------------------------------------------------------------

  /** The calls the function makes into WordPress, in order. */
  datatype Call =
    | EnqueueStyle(handle: string, src: Option<string>, deps: seq<string>, ver: Option<string>, media: string)
      /** `wp_enqueue_script( $handle )`: a script registered elsewhere. */
    | EnqueueRegisteredScript(handle: string)
    | EnqueueScript(handle: string, scriptSrc: string, deps: seq<string>, ver: Option<string>, inFooter: bool)
    | LocalizeScript(handle: string, objectName: string, data: OMap<string, LocalizeValue>)

  /** Lines 480-489: the call for one style. */
  function StyleCall(name: string, args: AssetArgs, min: string, childUri: string): (c: Call)
    ensures c.EnqueueStyle? && c.handle == Handle(name)
  {
    var s := StyleArgs(args);
    EnqueueStyle(Handle(name), AssetSrc(s.src, "styles", ".css", min, childUri), s.deps, s.ver, s.media)
  }

  /** One call per style, in the table's order. */
  function StyleCalls(styles: OMap<string, AssetArgs>, min: string, childUri: string): (calls: seq<Call>)
    ensures |calls| == |styles|
    ensures forall i :: 0 <= i < |styles| ==> calls[i] == StyleCall(styles[i].0, styles[i].1, min, childUri)
    decreases |styles|
  {
    if |styles| == 0 then []
    else
      var n := |styles| - 1;
      StyleCalls(styles[..n], min, childUri) + [StyleCall(styles[n].0, styles[n].1, min, childUri)]
  }

  /** Lines 507-509: one `wp_localize_script` per object, in order. */
  function LocalizeCalls(handle: string, data: Localization): (calls: seq<Call>)
    ensures |calls| == |data|
    ensures forall i :: 0 <= i < |data| ==> calls[i] == LocalizeScript(handle, data[i].0, data[i].1)
    decreases |data|
  {
    if |data| == 0 then []
    else
      var n := |data| - 1;
      LocalizeCalls(handle, data[..n]) + [LocalizeScript(handle, data[n].0, data[n].1)]
  }

  /** Lines 499-503: the enqueue call for one script, without a source when it has none. */
  function ScriptEnqueue(name: string, args: AssetArgs, min: string, childUri: string): (c: Call)
    ensures c.handle == Handle(name)
    ensures c.EnqueueRegisteredScript? <==> args.src.None?
  {
    var s := ScriptArgs(args);
    match AssetSrc(s.src, "scripts", ".js", min, childUri)
    case None => EnqueueRegisteredScript(Handle(name))
    case Some(src) => EnqueueScript(Handle(name), src, s.deps, s.ver, s.inFooter)
  }

  /** Lines 491-511: the calls for one script, its localizations after it. */
  function ScriptCallsOf(name: string, args: AssetArgs, min: string, childUri: string): seq<Call> {
    [ScriptEnqueue(name, args, min, childUri)] + LocalizeCalls(Handle(name), args.data.GetOr([]))
  }

  function ScriptCalls(scripts: OMap<string, AssetArgs>, min: string, childUri: string): seq<Call>
    decreases |scripts|
  {
    if |scripts| == 0 then []
    else
      var n := |scripts| - 1;
      ScriptCalls(scripts[..n], min, childUri) + ScriptCallsOf(scripts[n].0, scripts[n].1, min, childUri)
  }

  /** Lines 477-511: every style, then every script. */
  function EnqueueCalls(t: AssetTable, min: string, childUri: string): seq<Call> {
    StyleCalls(t.styles, min, childUri) + ScriptCalls(t.scripts, min, childUri)
  }

  /** The handles of the enqueue calls, leaving out the localizations. */
  function EnqueuedHandles(calls: seq<Call>): seq<string>
    decreases |calls|
  {
    if |calls| == 0 then []
    else
      var n := |calls| - 1;
      EnqueuedHandles(calls[..n]) + (if calls[n].LocalizeScript? then [] else [calls[n].handle])
  }

  lemma {:induction false} EnqueuedHandlesConcat(a: seq<Call>, b: seq<Call>)
    ensures EnqueuedHandles(a + b) == EnqueuedHandles(a) + EnqueuedHandles(b)
    decreases |b|
  {
    if |b| == 0 {
      assert a + b == a;
    } else {
      var n := |b| - 1;
      assert (a + b)[..|a + b| - 1] == a + b[..n];
      EnqueuedHandlesConcat(a, b[..n]);
    }
  }

  lemma {:induction false} LocalizeEnqueuesNothing(handle: string, data: Localization)
    ensures EnqueuedHandles(LocalizeCalls(handle, data)) == []
    decreases |data|
  {
    if |data| > 0 {
      var n := |data| - 1;
      var calls := LocalizeCalls(handle, data);
      assert calls[..|calls| - 1] == LocalizeCalls(handle, data[..n]);
      LocalizeEnqueuesNothing(handle, data[..n]);
    }
  }

  /** Each script is enqueued once, in the table's order, under its handle. */
  lemma {:induction false} ScriptHandles(scripts: OMap<string, AssetArgs>, min: string, childUri: string)
    ensures EnqueuedHandles(ScriptCalls(scripts, min, childUri)) == seq(|scripts|, i requires 0 <= i < |scripts| => Handle(scripts[i].0))
    decreases |scripts|
  {
    if |scripts| > 0 {
      var n := |scripts| - 1;
      ScriptHandles(scripts[..n], min, childUri);
      EnqueuedHandlesConcat(ScriptCalls(scripts[..n], min, childUri), ScriptCallsOf(scripts[n].0, scripts[n].1, min, childUri));
      OneScriptHandle(scripts[n].0, scripts[n].1, min, childUri);
      HandlesSnoc(scripts);
    }
  }

  /** The calls for one script enqueue exactly its handle. */
  lemma OneScriptHandle(name: string, args: AssetArgs, min: string, childUri: string)
    ensures EnqueuedHandles(ScriptCallsOf(name, args, min, childUri)) == [Handle(name)]
  {
    var e := ScriptEnqueue(name, args, min, childUri);
    var loc := LocalizeCalls(Handle(name), args.data.GetOr([]));
    EnqueuedHandlesConcat([e], loc);
    LocalizeEnqueuesNothing(Handle(name), args.data.GetOr([]));
    assert [e][..0] == [];
  }

  lemma HandlesSnoc(scripts: OMap<string, AssetArgs>)
    requires |scripts| > 0
    ensures seq(|scripts|, i requires 0 <= i < |scripts| => Handle(scripts[i].0))
         == seq(|scripts| - 1, i requires 0 <= i < |scripts| - 1 => Handle(scripts[..|scripts| - 1][i].0)) + [Handle(scripts[|scripts| - 1].0)]
  {
  }

  /** Distinct names in a table give distinct handles, so no enqueue replaces another. */
  lemma DistinctHandles(names: OMap<string, AssetArgs>)
    requires DistinctKeys(names)
    ensures forall i, j :: 0 <= i < j < |names| ==> Handle(names[i].0) != Handle(names[j].0)
  {
    KeysAt(names);
    forall i, j | 0 <= i < j < |names| ensures Handle(names[i].0) != Handle(names[j].0) {
      if Handle(names[i].0) == Handle(names[j].0) {
        HandleInjective(names[i].0, names[j].0);
      }
    }
  }

  /**
    `thistle_enqueue_assets`: the filtered table, completed and enqueued,
    style by style and then script by script with its localizations.
   */
  method EnqueueAssets(req: AssetRequest, theme: Theme, filter: (AssetTable, string, string) -> AssetTable)
    returns (calls: seq<Call>)
    ensures calls == EnqueueCalls(filter(RegisteredAssets(req, theme), req.template, ResolvedPostType(req)),
                                  MinSuffix(req.scriptDebug), theme.childUri)
  {
    var min := MinSuffix(req.scriptDebug);
    var assets := filter(RegisteredAssets(req, theme), req.template, ResolvedPostType(req));
    calls := [];
    var i: nat := 0;
    while i < |assets.styles|
      invariant i <= |assets.styles|
      invariant calls == StyleCalls(assets.styles[..i], min, theme.childUri)
    {
      assert assets.styles[..i + 1][..i] == assets.styles[..i];
      calls := calls + [StyleCall(assets.styles[i].0, assets.styles[i].1, min, theme.childUri)];
      i := i + 1;
    }
    assert assets.styles[..i] == assets.styles;
    var styleCalls := calls;
    var scriptCalls := ScriptLoop(assets.scripts, min, theme.childUri);
    calls := styleCalls + scriptCalls;
  }

  /** Lines 491-511. */
  method ScriptLoop(scripts: OMap<string, AssetArgs>, min: string, childUri: string) returns (calls: seq<Call>)
    ensures calls == ScriptCalls(scripts, min, childUri)
  {
    calls := [];
    var i: nat := 0;
    while i < |scripts|
      invariant i <= |scripts|
      invariant calls == ScriptCalls(scripts[..i], min, childUri)
    {
      var name := scripts[i].0;
      var args := scripts[i].1;
      assert scripts[..i + 1][..i] == scripts[..i];
      var localized := LocalizeLoop(Handle(name), args.data.GetOr([]));
      calls := calls + ([ScriptEnqueue(name, args, min, childUri)] + localized);
      i := i + 1;
    }
    assert scripts[..i] == scripts;
  }

  /** Lines 506-510. */
  method LocalizeLoop(handle: string, data: Localization) returns (calls: seq<Call>)
    ensures calls == LocalizeCalls(handle, data)
  {
    calls := [];
    var j: nat := 0;
    while j < |data|
      invariant j <= |data|
      invariant calls == LocalizeCalls(handle, data[..j])
    {
      assert data[..j + 1][..j] == data[..j];
      calls := calls + [LocalizeScript(handle, data[j].0, data[j].1)];
      j := j + 1;
    }
    assert data[..j] == data;
  }

  // ---------------------------------------------------------------------
  // svgxuse and options
  // ---------------------------------------------------------------------

  /** Lines 317-323: svgxuse's `<script>` tag gets `defer`; other tags pass through. */
  function SvgxuseDefer(tag: string, handle: string): (r: string)
    ensures handle != "thistle-svgxuse" ==> r == tag
    ensures handle == "thistle-svgxuse" && !Contains(tag, " src") ==> r == tag
  {
    if handle == "thistle-svgxuse" then ReplaceAll(tag, " src", " defer src") else tag
  }

  /** The tag of the svgxuse script the theme registers gets `defer` before its one `src`. */
  lemma SvgxuseDeferred(pre: string, rest: string)
    requires !Contains(rest, " src")
    requires forall j :: 0 <= j < |pre| ==> !OccursAt(pre + " src" + rest, " src", j)
    ensures SvgxuseDefer(pre + " src" + rest, Handle("svgxuse")) == pre + " defer src" + rest
  {
    assert Handle("svgxuse") == "thistle-svgxuse";
    ReplaceOnce(pre, " src", rest, " defer src");
  }

  /** What `thistle_sanitize_option` asks of WordPress. */
  datatype OptionHost = OptionHost(
    /** `$wpdb->strip_invalid_text_for_column`: the text, or a `WP_Error` with its message. */
    stripInvalidText: string -> Result<string, string>,
    ksesPost: string -> string,
    escHtml: string -> string,
    /** `get_option`. */
    storedOption: string -> string,
    /** `function_exists( 'add_settings_error' )`. */
    canReport: bool)

  /** What the function returns: a string, or the `WP_Error` itself when its message is empty. */
  datatype OptionValue = Value(text: string) | WpError(message: string)

  /** `add_settings_error( $setting, $code, $message )`. */
  datatype SettingsError = SettingsError(setting: string, code: string, message: string)

  datatype Sanitized = Sanitized(value: OptionValue, reported: Option<SettingsError>)

  /**
    Lines 347-372: only the blog description is cleaned; when cleaning
    fails with a message, the stored value comes back and the message is
    reported where the settings API is loaded.
   */
  function SanitizeOption(value: string, option: string, host: OptionHost): (r: Sanitized)
    ensures option != "thistle_blogdescription" ==> r == Sanitized(Value(value), None)
    ensures option == "thistle_blogdescription" && host.stripInvalidText(value).Success? ==>
              r == Sanitized(Value(host.escHtml(host.ksesPost(host.stripInvalidText(value).value))), None)
    ensures option == "thistle_blogdescription" && host.stripInvalidText(value).Failure?
            && !PhpEmpty(host.stripInvalidText(value).error) ==>
              r.value == Value(host.storedOption(option))
              && (r.reported.Some? <==> host.canReport)
              && (r.reported.Some? ==> r.reported.value.code == "invalid_thistle_blogdescription")
    ensures r.reported.Some? ==> r.value == Value(host.storedOption(option))
  {
    if option != "thistle_blogdescription" then Sanitized(Value(value), None)
    else
      match host.stripInvalidText(value)
      case Success(text) => Sanitized(Value(host.escHtml(host.ksesPost(text))), None)
      case Failure(message) =>
        if PhpEmpty(message) then Sanitized(WpError(message), None)
        else
          var report := if host.canReport then Some(SettingsError(option, "invalid_" + option, message)) else None;
          Sanitized(Value(host.storedOption(option)), report)
  }

  /** The outcome depends on the submitted value only through its cleaned text. */
  lemma SanitizeReadsCleanedText(v1: string, v2: string, option: string, host: OptionHost)
    requires host.stripInvalidText(v1) == host.stripInvalidText(v2)
    ensures option == "thistle_blogdescription" ==> SanitizeOption(v1, option, host) == SanitizeOption(v2, option, host)
  {
  }

  /**
    A blog description is only ever saved cleaned and escaped: the result is
    the escaped cleaned text, the value stored before, or the error itself.
   */
  lemma SanitizedDescriptionCleaned(value: string, host: OptionHost)
    ensures var r := SanitizeOption(value, "thistle_blogdescription", host);
      || (host.stripInvalidText(value).Success? && r.value == Value(host.escHtml(host.ksesPost(host.stripInvalidText(value).value))))
      || (host.stripInvalidText(value).Failure? && r.value == Value(host.storedOption("thistle_blogdescription")))
      || (host.stripInvalidText(value).Failure? && r.value == WpError(host.stripInvalidText(value).error))
  {
  }
}

=== FILE: attachment.dfy ===
/**
  Attachment permalinks (`includes/attachment.php`): every attachment is
  addressed as `media/<post name>`, whatever its parent, and the rewrite
  table is rebuilt to match.
 */
module Attachments {
  import opened Wrappers
  import opened Strings
  import opened OrderedMaps
  import opened Urls

  /** A compiled rewrite table: regex pattern => query template. */
  type Rules = OMap<string, string>

  const MediaBase := "media/"
  const AttachmentIdArg := "/?attachment_id="

  /** The placeholder the theme puts where `%postname%` belongs. */
  const AttachmentTag := "%ATTACHMENT_TAG%"
  const PostnameTag := "%postname%"
  const AttachmentQueryVar := "attachment="
  const QueryStart := "index.php?"

  /** `$wp_rewrite->preg_index(1)`. */
  const FirstMatch := "$matches[1]"

  // ---------------------------------------------------------------------
  // attachment_link
  // ---------------------------------------------------------------------

  /**
    What `thistle_attachment_link` reads from the host: whether pretty
    permalinks are on, whether the permalink structure ends with a slash,
    the home address, and the attachment's `post_name` (`None` when
    `get_post` finds nothing, which PHP then reads as the empty string).
   */
  datatype LinkEnv = LinkEnv(usingPermalinks: bool, trailingSlashes: bool, home: string, postName: Option<string>)

  /** The path every attachment gets: `media/` and its post name. */
  function MediaPath(postName: string, trailingSlashes: bool): string {
    UserTrailingSlashIt(TrailingSlashIt("media") + postName, trailingSlashes)
  }

  /**
    `thistle_attachment_link`: with pretty permalinks, a link that is not
    of the `/?attachment_id=` form becomes the home address followed by
    `/media/<post name>` (with or without a final slash, as the structure
    says); any other link is returned unchanged.
   */
  function AttachmentLink(link: string, env: LinkEnv): (r: string)
    ensures !env.usingPermalinks || Contains(link, AttachmentIdArg) ==> r == link
    ensures env.usingPermalinks && !Contains(link, AttachmentIdArg) ==>
      StartsWith(r, env.home + "/media")
      && UntrailingSlashIt(r[|env.home| + 1..]) == UntrailingSlashIt(MediaBase + env.postName.GetOr(""))
  {
    if env.usingPermalinks && !Contains(link, AttachmentIdArg) then
      MediaLink(env.home, env.postName.GetOr(""), env.trailingSlashes);
      HomeUrl(env.home, MediaPath(env.postName.GetOr(""), env.trailingSlashes))
    else link
  }

  /** The home address, one slash, then the media path. */
  lemma MediaLink(home: string, name: string, trailingSlashes: bool)
    ensures StartsWith(HomeUrl(home, MediaPath(name, trailingSlashes)), home + "/media")
    ensures |HomeUrl(home, MediaPath(name, trailingSlashes))| > |home|
    ensures UntrailingSlashIt(HomeUrl(home, MediaPath(name, trailingSlashes))[|home| + 1..]) == UntrailingSlashIt(MediaBase + name)
  {
    MediaPathShape(name, trailingSlashes);
    HomeMediaUrl(home, MediaPath(name, trailingSlashes));
  }

  /** `home_url` of a path starting with `media`. */
  lemma HomeMediaUrl(home: string, path: string)
    requires StartsWith(path, "media")
    ensures HomeUrl(home, path) == home + "/" + path
    ensures StartsWith(HomeUrl(home, path), home + "/media")
    ensures HomeUrl(home, path)[|home| + 1..] == path
  {
    assert path[0] == path[..5][0] == 'm';
    assert !PhpEmpty(path) by {
      assert |path| >= 5;
    }
    StartsWithConcat("/", path, "media");
    assert "/" + "media" == "/media";
    StartsWithConcat(home, "/" + path, "/media");
    Assoc(home, "/", path);
    assert (home + "/" + path)[|home| + 1..] == path;
  }

  /** The media path starts with `media` and, slashes aside, is `media/<name>`. */
  lemma MediaPathShape(name: string, trailingSlashes: bool)
    ensures StartsWith(MediaPath(name, trailingSlashes), "media")
    ensures !PhpEmpty(MediaPath(name, trailingSlashes)) && MediaPath(name, trailingSlashes)[0] != '/'
    ensures UntrailingSlashIt(MediaPath(name, trailingSlashes)) == UntrailingSlashIt(MediaBase + name)
  {
    MediaBaseIsMedia();
    var p := MediaBase + name;
    assert MediaPath(name, trailingSlashes) == UserTrailingSlashIt(p, trailingSlashes);
    UserTrailingSameBase(p, trailingSlashes);
    UserTrailingKeepsMedia(p, trailingSlashes);
    var r := MediaPath(name, trailingSlashes);
    assert r[0] == r[..5][0] == 'm';
  }

  lemma MediaBaseIsMedia()
    ensures TrailingSlashIt("media") == MediaBase
    ensures StartsWith(MediaBase, "media")
  {
    assert UntrailingSlashIt("media") == "media";
  }

  /** Either slash style keeps a path's leading `media`. */
  lemma UserTrailingKeepsMedia(p: string, trailingSlashes: bool)
    requires StartsWith(p, "media")
    ensures StartsWith(UserTrailingSlashIt(p, trailingSlashes), "media")
  {
    UntrailingKeepsPrefix(p, "media");
    var u := UntrailingSlashIt(p);
    if trailingSlashes {
      assert (u + "/")[..5] == u[..5];
    }
  }

  /** Trimming trailing slashes never eats into a prefix that does not end with one. */
  lemma UntrailingKeepsPrefix(s: string, pre: string)
    requires StartsWith(s, pre) && |pre| > 0 && !IsSlash(pre[|pre| - 1])
    ensures StartsWith(UntrailingSlashIt(s), pre)
  {
    var u := UntrailingSlashIt(s);
    assert u[..|pre|] == s[..|u|][..|pre|];
  }

  /** A permalink-style link keeps only its home address and the attachment's name. */
  lemma AttachmentLinkIgnoresLink(link1: string, link2: string, env: LinkEnv)
    requires env.usingPermalinks
    requires !Contains(link1, AttachmentIdArg) && !Contains(link2, AttachmentIdArg)
    ensures AttachmentLink(link1, env) == AttachmentLink(link2, env)
  {
  }

  // ---------------------------------------------------------------------
  // rewrite_rules_array
  // ---------------------------------------------------------------------

  /**
    The regular expression registered for `%postname%` (lines 53-56): the
    entry of `rewritereplace` at the index of `%postname%` in `rewritecode`.
    A missing tag gives `false`, which PHP reads as index 0; an index with no
    entry gives `null`, which `str_replace` then reads as the empty string.
   */
  function PostnameRegex(codes: seq<string>, regexes: seq<string>): string {
    var i := FirstIndex(codes, PostnameTag).GetOr(0);
    if i < |regexes| then regexes[i] else ""
  }

  /** The attachment pattern and query a rule turns into once the placeholder is filled. */
  function NewPattern(pattern: string, regex: string): string {
    ReplaceAll(pattern, AttachmentTag, regex)
  }

  function NewQuery(query: string): string {
    ReplaceAll(query, AttachmentTag, AttachmentQueryVar)
  }

  /** The two rules written out at lines 62-63. */
  const TrackbackPattern := MediaBase + AttachmentTag + "/trackback/?$"
  const EmbedPattern := MediaBase + AttachmentTag + "/embed/?$"
  const TrackbackQuery := QueryStart + AttachmentTag + FirstMatch + "&tb=1"
  const EmbedQuery := QueryStart + AttachmentTag + FirstMatch + "&embed=true"
  const LiteralRules: Rules := [(TrackbackPattern, TrackbackQuery), (EmbedPattern, EmbedQuery)]

  /** The table of lines 61-64: the two literal rules, then the host's generated ones they lack (`+=`). */
  function PlaceholderRules(generated: Rules): Rules {
    Union(LiteralRules, generated)
  }

  /**
    The `foreach` of lines 66-70, over a copy of the table: each rule's
    relabelled pattern is set to its relabelled query, then the original
    pattern is unset.
   */
  function Relabel(m: Rules, todo: Rules, regex: string): Rules
    decreases |todo|
  {
    if |todo| == 0 then m
    else
      var m1 := Set(m, NewPattern(todo[0].0, regex), NewQuery(todo[0].1));
      Relabel(Remove(m1, todo[0].0), todo[1..], regex)
  }

  /** Reference definition: every rule relabelled in place. */
  function Relabelled(es: Rules, regex: string): (r: Rules)
    ensures |r| == |es|
    ensures forall i :: 0 <= i < |es| ==> r[i] == (NewPattern(es[i].0, regex), NewQuery(es[i].1))
  {
    seq(|es|, i requires 0 <= i < |es| => (NewPattern(es[i].0, regex), NewQuery(es[i].1)))
  }

  /**
    Relabelling creates only new patterns: none of them is an original
    pattern, and no two rules end up on the same pattern.
   */
  predicate UnclashedPatterns(base: Rules, regex: string) {
    DistinctKeys(base)
    && (forall i, j :: 0 <= i < |base| && 0 <= j < |base| ==> NewPattern(base[i].0, regex) != base[j].0)
    && (forall i, j :: 0 <= i < j < |base| ==> NewPattern(base[i].0, regex) != NewPattern(base[j].0, regex))
  }

  /**
    When relabelling creates no clash, the loop turns the table into its
    relabelled copy, entry by entry and in the same order. After `n` steps
    the table is the rules still to visit followed by the ones done.
   */
  lemma {:induction false} RelabelUnclashed(base: Rules, regex: string, n: nat)
    requires UnclashedPatterns(base, regex) && n <= |base|
    ensures Relabel(base[n..] + Relabelled(base[..n], regex), base[n..], regex) == Relabelled(base, regex)
    decreases |base| - n
  {
    if n == |base| {
      assert base[..n] == base;
      assert base[n..] + Relabelled(base, regex) == Relabelled(base, regex);
    } else {
      var todo := base[n..];
      var m := todo + Relabelled(base[..n], regex);
      var k := base[n].0;
      var nk, nv := NewPattern(k, regex), NewQuery(base[n].1);
      NewPatternIsNew(base, regex, n);
      SetAbsent(m, nk, nv);
      var m1 := m + [(nk, nv)];
      StepShape(base, regex, n);
      OldPatternIsGone(base, regex, n);
      RemoveHead(m1, k);
      RelabelUnclashed(base, regex, n + 1);
    }
  }

  /** One turn of the loop moves the visited rule from the front to the back, relabelled. */
  lemma StepShape(base: Rules, regex: string, n: nat)
    requires n < |base|
    ensures base[n..][0] == base[n] && base[n..][1..] == base[n + 1..]
    ensures var m1 := base[n..] + Relabelled(base[..n], regex) + [(NewPattern(base[n].0, regex), NewQuery(base[n].1))];
      m1[0] == base[n] && m1[1..] == base[n + 1..] + Relabelled(base[..n + 1], regex)
  {
    var x := (NewPattern(base[n].0, regex), NewQuery(base[n].1));
    RelabelledSnoc(base, regex, n);
    AssocSeq(base[n..], Relabelled(base[..n], regex), [x]);
    ConsTail(base[n..], Relabelled(base[..n], regex) + [x]);
  }

  lemma RelabelledSnoc(base: Rules, regex: string, n: nat)
    requires n < |base|
    ensures Relabelled(base[..n + 1], regex) == Relabelled(base[..n], regex) + [(NewPattern(base[n].0, regex), NewQuery(base[n].1))]
  {
    assert base[..n + 1] == base[..n] + [base[n]];
    RelabelledAppend(base[..n], base[n], regex);
  }

  lemma RelabelledAppend(es: Rules, e: (string, string), regex: string)
    ensures Relabelled(es + [e], regex) == Relabelled(es, regex) + [(NewPattern(e.0, regex), NewQuery(e.1))]
  {
    var a := Relabelled(es + [e], regex);
    var b := Relabelled(es, regex) + [(NewPattern(e.0, regex), NewQuery(e.1))];
    forall i | 0 <= i < |a| ensures a[i] == b[i] {
      if i < |es| {
        assert (es + [e])[i] == es[i];
      }
    }
  }

  /** The pattern of the `n`-th rule, relabelled, is on no rule of the table the loop holds. */
  lemma NewPatternIsNew(base: Rules, regex: string, n: nat)
    requires UnclashedPatterns(base, regex) && n < |base|
    ensures !HasKey(base[n..] + Relabelled(base[..n], regex), NewPattern(base[n].0, regex))
  {
    var todo := base[n..];
    var m := todo + Relabelled(base[..n], regex);
    forall i | 0 <= i < |m| ensures m[i].0 != NewPattern(base[n].0, regex) {
      if i < |todo| {
        assert m[i] == base[n + i];
      } else {
        assert m[i] == Relabelled(base[..n], regex)[i - |todo|];
        assert base[..n][i - |todo|] == base[i - |todo|];
      }
    }
    NotHasKey(m, NewPattern(base[n].0, regex));
  }

  /** Once the `n`-th rule is relabelled, its old pattern is on no other rule. */
  lemma OldPatternIsGone(base: Rules, regex: string, n: nat)
    requires UnclashedPatterns(base, regex) && n < |base|
    ensures !HasKey(base[n + 1..] + Relabelled(base[..n + 1], regex), base[n].0)
  {
    var rest := base[n + 1..] + Relabelled(base[..n + 1], regex);
    forall i | 0 <= i < |rest| ensures rest[i].0 != base[n].0 {
      if i < |base| - n - 1 {
        assert rest[i] == base[n + 1 + i];
      } else {
        assert rest[i] == Relabelled(base[..n + 1], regex)[i - (|base| - n - 1)];
        assert base[..n + 1][i - (|base| - n - 1)] == base[i - (|base| - n - 1)];
      }
    }
    NotHasKey(rest, base[n].0);
  }

  /** The relabelled attachment rules (lines 61-70). */
  function AttachmentRules(generated: Rules, regex: string): Rules {
    Relabel(PlaceholderRules(generated), PlaceholderRules(generated), regex)
  }

  /**
    `thistle_attachment_rewrite`: the relabelled attachment rules first,
    then every original rule whose query does not mention `attachment`,
    unless a new rule already has its pattern (`+`).
   */
  function AttachmentRewrite(rules: Rules, codes: seq<string>, regexes: seq<string>, generated: Rules): (r: Rules)
    ensures IsPrefix(AttachmentRules(generated, PostnameRegex(codes, regexes)), r)
    ensures forall e :: e in rules && !Contains(e.1, "attachment") ==> HasKey(r, e.0)
    ensures forall k :: HasKey(r, k) && !HasKey(AttachmentRules(generated, PostnameRegex(codes, regexes)), k) ==>
               (k, Get(r, k).value) in rules && !Contains(Get(r, k).value, "attachment")
  {
    var relabelled := AttachmentRules(generated, PostnameRegex(codes, regexes));
    var kept := Filter(rules, (q: string) => !Contains(q, "attachment"));
    KeptRules(rules, kept);
    Union(relabelled, kept)
  }

  /** What `array_filter` leaves of the original table, seen key by key. */
  lemma KeptRules(rules: Rules, kept: Rules)
    requires kept == Filter(rules, (q: string) => !Contains(q, "attachment"))
    ensures forall e :: e in rules && !Contains(e.1, "attachment") ==> HasKey(kept, e.0)
    ensures forall k :: HasKey(kept, k) ==> (k, Get(kept, k).value) in rules && !Contains(Get(kept, k).value, "attachment")
  {
    forall e | e in rules && !Contains(e.1, "attachment") ensures HasKey(kept, e.0) {
      EntryHasKey(kept, e);
    }
  }

  // ---------------------------------------------------------------------
  // The shape of the new rules
  // ---------------------------------------------------------------------

  /** The host's generated rules use the placeholder as the theme laid it out. */
  predicate PlaceholderShaped(e: (string, string)) {
    StartsWith(e.0, MediaBase + AttachmentTag) && StartsWith(e.1, QueryStart + AttachmentTag)
  }

  lemma PrefixesWithoutPercent()
    ensures AttachmentTag[0] == '%'
    ensures '%' !in MediaBase && '%' !in QueryStart
  {
  }

  /** Relabelling a placeholder-shaped table fills every placeholder at the front. */
  lemma RelabelledShape(base: Rules, regex: string)
    requires forall e :: e in base ==> PlaceholderShaped(e)
    ensures forall e :: e in Relabelled(base, regex) ==>
      StartsWith(e.0, MediaBase + regex) && StartsWith(e.1, QueryStart + AttachmentQueryVar)
  {
    var a := Relabelled(base, regex);
    PrefixesWithoutPercent();
    forall e | e in a ensures StartsWith(e.0, MediaBase + regex) && StartsWith(e.1, QueryStart + AttachmentQueryVar) {
      var i :| 0 <= i < |a| && a[i] == e;
      assert base[i] in base;
      ReplaceAfterPrefix(base[i].0, MediaBase, AttachmentTag, regex);
      ReplaceAfterPrefix(base[i].1, QueryStart, AttachmentTag, AttachmentQueryVar);
    }
  }

  /**
    When the host's rules have the placeholder shape and relabelling
    creates no clash, the new table is the relabelled placeholder table:
    every pattern starts with `media/` and the `%postname%` expression,
    every query with `index.php?attachment=`, and the trackback and embed
    rules map to `tb=1` and `embed=true`. These rules come first in the
    final table and win over any original rule with the same pattern.
   */
  lemma AttachmentRewriteShape(rules: Rules, codes: seq<string>, regexes: seq<string>, generated: Rules)
    requires forall e :: e in generated ==> PlaceholderShaped(e)
    requires UnclashedPatterns(PlaceholderRules(generated), PostnameRegex(codes, regexes))
    ensures var regex := PostnameRegex(codes, regexes);
      AttachmentRules(generated, regex) == Relabelled(PlaceholderRules(generated), regex)
    ensures var regex := PostnameRegex(codes, regexes);
      forall e :: e in AttachmentRules(generated, regex) ==>
        StartsWith(e.0, MediaBase + regex) && StartsWith(e.1, QueryStart + AttachmentQueryVar)
    ensures var regex := PostnameRegex(codes, regexes);
      Get(AttachmentRewrite(rules, codes, regexes, generated), MediaBase + regex + "/trackback/?$")
        == Some(QueryStart + AttachmentQueryVar + FirstMatch + "&tb=1")
    ensures var regex := PostnameRegex(codes, regexes);
      Get(AttachmentRewrite(rules, codes, regexes, generated), MediaBase + regex + "/embed/?$")
        == Some(QueryStart + AttachmentQueryVar + FirstMatch + "&embed=true")
  {
    var regex := PostnameRegex(codes, regexes);
    var base := PlaceholderRules(generated);
    RelabelFromStart(base, regex);
    forall e | e in base ensures PlaceholderShaped(e) {
      BaseShaped(generated, e);
    }
    RelabelledShape(base, regex);
    LiteralEntries(generated, regex);
  }

  /** The loop started on the whole table. */
  lemma RelabelFromStart(base: Rules, regex: string)
    requires UnclashedPatterns(base, regex)
    ensures Relabel(base, base, regex) == Relabelled(base, regex)
  {
    RelabelUnclashed(base, regex, 0);
    assert base[0..] == base && base[..0] == [];
    assert base[0..] + Relabelled(base[..0], regex) == base;
  }

  lemma LiteralsShaped()
    ensures PlaceholderShaped((TrackbackPattern, TrackbackQuery))
    ensures PlaceholderShaped((EmbedPattern, EmbedQuery))
  {
    StartsWithConcat(MediaBase + AttachmentTag, "/trackback/?$", "");
    StartsWithConcat(MediaBase + AttachmentTag, "/embed/?$", "");
    StartsWithConcat(QueryStart + AttachmentTag, FirstMatch + "&tb=1", "");
    StartsWithConcat(QueryStart + AttachmentTag, FirstMatch + "&embed=true", "");
  }

  /** Every entry of the placeholder table has the placeholder shape. */
  lemma BaseShaped(generated: Rules, e: (string, string))
    requires forall e :: e in generated ==> PlaceholderShaped(e)
    requires e in PlaceholderRules(generated)
    ensures PlaceholderShaped(e)
  {
    var base := PlaceholderRules(generated);
    assert DistinctKeys(LiteralRules);
    DistinctEntry(base, e.0, e.1);
    if HasKey(LiteralRules, e.0) {
      assert (e.0, e.1) in LiteralRules;
      LiteralsShaped();
    } else {
      assert (e.0, e.1) in generated;
    }
  }

  lemma TrackbackRelabelled(regex: string)
    ensures NewPattern(TrackbackPattern, regex) == MediaBase + regex + "/trackback/?$"
    ensures NewQuery(TrackbackQuery) == QueryStart + AttachmentQueryVar + FirstMatch + "&tb=1"
  {
    PrefixesWithoutPercent();
    ReplaceSingle(MediaBase, AttachmentTag, "/trackback/?$", regex);
    var rest := FirstMatch + "&tb=1";
    assert '%' !in rest;
    ReplaceSingle(QueryStart, AttachmentTag, rest, AttachmentQueryVar);
    assert QueryStart + AttachmentTag + FirstMatch + "&tb=1" == QueryStart + AttachmentTag + rest;
    assert QueryStart + AttachmentQueryVar + FirstMatch + "&tb=1" == QueryStart + AttachmentQueryVar + rest;
  }

  lemma EmbedRelabelled(regex: string)
    ensures NewPattern(EmbedPattern, regex) == MediaBase + regex + "/embed/?$"
    ensures NewQuery(EmbedQuery) == QueryStart + AttachmentQueryVar + FirstMatch + "&embed=true"
  {
    PrefixesWithoutPercent();
    ReplaceSingle(MediaBase, AttachmentTag, "/embed/?$", regex);
    var rest := FirstMatch + "&embed=true";
    assert '%' !in rest;
    ReplaceSingle(QueryStart, AttachmentTag, rest, AttachmentQueryVar);
    assert QueryStart + AttachmentTag + FirstMatch + "&embed=true" == QueryStart + AttachmentTag + rest;
    assert QueryStart + AttachmentQueryVar + FirstMatch + "&embed=true" == QueryStart + AttachmentQueryVar + rest;
  }

  /** The trackback and embed rules, relabelled, sit at the front of the new table. */
  lemma LiteralEntries(generated: Rules, regex: string)
    ensures Get(Relabelled(PlaceholderRules(generated), regex), MediaBase + regex + "/trackback/?$")
              == Some(QueryStart + AttachmentQueryVar + FirstMatch + "&tb=1")
    ensures Get(Relabelled(PlaceholderRules(generated), regex), MediaBase + regex + "/embed/?$")
              == Some(QueryStart + AttachmentQueryVar + FirstMatch + "&embed=true")
  {
    var base := PlaceholderRules(generated);
    var a := Relabelled(base, regex);
    assert base[..2] == LiteralRules;
    assert base[0] == LiteralRules[0] && base[1] == LiteralRules[1];
    TrackbackRelabelled(regex);
    EmbedRelabelled(regex);
    GetFirst(a, 0, a[0].0);
    assert |a[0].0| != |a[1].0|;
    GetFirst(a, 1, a[1].0);
  }

  /**
    A rule whose pattern has no placeholder is set onto its own pattern and
    then unset, so the loop drops it.
   */
  lemma PlainPatternDropped(k: string, v: string, regex: string)
    requires '%' !in k
    ensures Relabel([(k, v)], [(k, v)], regex) == []
  {
    PrefixesWithoutPercent();
    NoLeadNoOccurrence(k, AttachmentTag);
    assert NewPattern(k, regex) == k;
    var m1 := Set([(k, v)], k, NewQuery(v));
    assert m1 == [(k, NewQuery(v))];
    assert Remove(m1, k) == [];
    assert [(k, v)][1..] == [];
  }
}

=== FILE: editor.dfy ===
/**
  The classic editor (`includes/editor.php`): TinyMCE settings and plugins,
  and the clean-up of the `rel` attribute of images sent to the editor.
 */
module Editor {
  import opened Wrappers
  import opened Strings
  import opened OrderedMaps

  // ---------------------------------------------------------------------
  // External plugins
  // ---------------------------------------------------------------------

  /**
    Where the theme files live: the child theme (stylesheet) and the parent
    theme (template) directories and URLs, and `file_exists` on the server.
   */
  datatype ThemeFiles = ThemeFiles(
    childDir: string, childUri: string,
    parentDir: string, parentUri: string,
    fileExists: string -> bool)

  /** The path of a plugin's script under a theme directory. */
  function PluginFile(plugin: string, scriptDebug: bool): string {
    "/assets/scripts/vendor/tinymce/plugins/" + plugin + "/plugin" + (if scriptDebug then "" else ".min") + ".js"
  }

  /** The URL a plugin is loaded from: the child theme's copy first, then the parent theme's. */
  function PluginLocation(plugin: string, scriptDebug: bool, files: ThemeFiles): (r: Option<string>)
    ensures r.Some? <==> files.fileExists(files.childDir + PluginFile(plugin, scriptDebug)) || files.fileExists(files.parentDir + PluginFile(plugin, scriptDebug))
    ensures files.fileExists(files.childDir + PluginFile(plugin, scriptDebug)) ==> r == Some(files.childUri + PluginFile(plugin, scriptDebug))
  {
    var file := PluginFile(plugin, scriptDebug);
    if files.fileExists(files.childDir + file) then Some(files.childUri + file)
    else if files.fileExists(files.parentDir + file) then Some(files.parentUri + file)
    else None
  }

  /** The plugin URL the external plugin list ends with for `k`. */
  function PluginAfter(plugins: OMap<string, string>, news: seq<string>, k: string, scriptDebug: bool, files: ThemeFiles): Option<string> {
    if k in news && PluginLocation(k, scriptDebug, files).Some? then PluginLocation(k, scriptDebug, files)
    else Get(plugins, k)
  }

  /**
    `thistle_mce_external_plugins`: every new plugin (`table` unless the
    `thistle_mce_external_plugins` filter says otherwise) found in a theme
    is registered with its URL; a plugin found nowhere is not added.
   */
  function ExternalPlugins(plugins: OMap<string, string>, news: seq<string>, scriptDebug: bool, files: ThemeFiles): (r: OMap<string, string>)
    ensures forall k :: Get(r, k) == PluginAfter(plugins, news, k, scriptDebug, files)
    ensures DistinctKeys(plugins) ==> DistinctKeys(r)
    decreases |news|
  {
    if |news| == 0 then plugins
    else
      var p := news[0];
      var next := match PluginLocation(p, scriptDebug, files)
        case Some(url) => Set(plugins, p, url)
        case None => plugins;
      var r := ExternalPlugins(next, news[1..], scriptDebug, files);
      ExternalPluginsStep(plugins, news, scriptDebug, files, next, r);
      r
  }

  lemma ExternalPluginsStep(plugins: OMap<string, string>, news: seq<string>, scriptDebug: bool, files: ThemeFiles,
                            next: OMap<string, string>, r: OMap<string, string>)
    requires |news| > 0
    requires next == match PluginLocation(news[0], scriptDebug, files)
               case Some(url) => Set(plugins, news[0], url)
               case None => plugins
    requires forall k :: Get(r, k) == PluginAfter(next, news[1..], k, scriptDebug, files)
    ensures forall k :: Get(r, k) == PluginAfter(plugins, news, k, scriptDebug, files)
  {
    assert forall k :: k in news <==> k == news[0] || k in news[1..];
  }

  /** The default plugin list and a parent-only theme: `table` comes from the parent theme when only it has the file. */
  lemma ParentThemePluginUsed(plugins: OMap<string, string>, scriptDebug: bool, files: ThemeFiles)
    requires !files.fileExists(files.childDir + PluginFile("table", scriptDebug))
    requires files.fileExists(files.parentDir + PluginFile("table", scriptDebug))
    ensures Get(ExternalPlugins(plugins, ["table"], scriptDebug, files), "table") == Some(files.parentUri + PluginFile("table", scriptDebug))
  {
  }

  // ---------------------------------------------------------------------
  // Built-in plugins and settings
  // ---------------------------------------------------------------------

  /**
    `thistle_remove_tiny_mce_colorpicker`: `array_diff` with `colorpicker`;
    the other plugins keep their keys and order.
   */
  function RemoveColorpicker(plugins: OMap<nat, string>): (r: OMap<nat, string>)
    ensures forall e :: e in r <==> e in plugins && e.1 != "colorpicker"
    ensures IsSubsequence(r, plugins)
    ensures DistinctKeys(plugins) ==> DistinctKeys(r)
  {
    Filter(plugins, (p: string) => p != "colorpicker")
  }

  /**
    `thistle_tiny_mce_textcolor_map`. A non-empty colour map (from the
    `thistle_tiny_mce_textcolor_map` filter) is stored as JSON (`json`);
    with an empty map the `textcolor` plugin is dropped from the
    comma-separated plugin list, whose other entries keep their order.
   */
  function TextcolorMap(init: OMap<string, string>, colors: seq<string>, json: seq<string> -> string): (r: OMap<string, string>)
    ensures |colors| > 0 ==> Get(r, "textcolor_map") == Some(json(colors))
    ensures |colors| > 0 ==> forall k :: k != "textcolor_map" ==> Get(r, k) == Get(init, k)
    ensures |colors| == 0 ==> forall k :: k != "plugins" ==> Get(r, k) == Get(init, k)
    ensures |colors| == 0 ==>
              var kept := KeepIf(Split(GetOr(init, "plugins", ""), ","), (p: string) => p != "textcolor");
              && Get(r, "plugins") == Some(Join(kept, ","))
              && (forall p :: p in kept <==> p in Split(GetOr(init, "plugins", ""), ",") && p != "textcolor")
    ensures DistinctKeys(init) ==> DistinctKeys(r)
  {
    if |colors| > 0 then Set(init, "textcolor_map", json(colors))
    else
      var plugins := Split(GetOr(init, "plugins", ""), ",");
      Set(init, "plugins", Join(KeepIf(plugins, (p: string) => p != "textcolor"), ","))
  }

  /** Without a `textcolor` entry the plugin list string is left exactly as it was. */
  lemma TextcolorAbsentUnchanged(init: OMap<string, string>, json: seq<string> -> string)
    requires HasKey(init, "plugins")
    requires !("textcolor" in Split(GetOr(init, "plugins", ""), ","))
    ensures Get(TextcolorMap(init, [], json), "plugins") == Get(init, "plugins")
  {
    var plugins := Split(GetOr(init, "plugins", ""), ",");
    var kept := KeepIf(plugins, (p: string) => p != "textcolor");
    assert forall i :: 0 <= i < |plugins| ==> plugins[i] != "textcolor" by {
      forall i | 0 <= i < |plugins| ensures plugins[i] != "textcolor" {
        assert plugins[i] in plugins;
      }
    }
    assert kept == plugins;
  }

  predicate IsWordChar(c: char) {
    ('a' <= c <= 'z') || ('A' <= c <= 'Z') || ('0' <= c <= '9') || c == '_'
  }

  /** `\s` in a PCRE pattern. */
  predicate IsSpace(c: char) {
    c == ' ' || c == '\t' || c == '\n' || c == '\U{000B}' || c == '\U{000C}' || c == '\r'
  }

  /** A character that may not precede a key the pattern quotes. */
  predicate BlocksKey(c: char) {
    c == '"' || c == '\'' || IsWordChar(c)
  }

  /** The end of the run of word characters starting at `i`. */
  function WordEnd(s: string, i: nat): (e: nat)
    requires i <= |s|
    ensures i <= e <= |s|
    ensures forall j :: i <= j < e ==> IsWordChar(s[j])
    ensures e < |s| ==> !IsWordChar(s[e])
    decreases |s| - i
  {
    if i < |s| && IsWordChar(s[i]) then WordEnd(s, i + 1) else i
  }

  /**
    One match attempt of
    `preg_replace('/(?<!"|\'|\w)([a-zA-Z0-9_]+?)(?!"|\'|\w)\s?:/', '"$1":', s)`
    at `i`: a whole word not preceded by a quote or word character, followed
    by neither a quote nor a word character, then an optional blank and a
    colon, is emitted as the JSON key `"word":` and the scan resumes after
    the colon; otherwise the word, or the single character, is copied.
   */
  function KeyStep(s: string, i: nat): (step: (string, nat))
    requires i < |s|
    ensures i < step.1 <= |s|
    ensures (forall j :: i <= j < step.1 ==> s[j] != ':') ==> step.0 == s[i..step.1]
  {
    if IsWordChar(s[i]) && (i == 0 || !BlocksKey(s[i - 1])) then
      var e := WordEnd(s, i);
      var word := s[i..e];
      if e < |s| && s[e] == ':' then ("\"" + word + "\":", e + 1)
      else if e + 1 < |s| && IsSpace(s[e]) && s[e + 1] == ':' then ("\"" + word + "\":", e + 2)
      else (word, e)
    else ([s[i]], i + 1)
  }

  /** The replacement from position `i` on. */
  function QuoteKeysFrom(s: string, i: nat): (r: string)
    requires i <= |s|
    ensures (forall j :: i <= j < |s| ==> s[j] != ':') ==> r == s[i..]
    decreases |s| - i
  {
    if i == |s| then ""
    else
      var step := KeyStep(s, i);
      var rest := QuoteKeysFrom(s, step.1);
      assert s[i..] == s[i..step.1] + s[step.1..];
      step.0 + rest
  }

  /**
    `thistle_tiny_mce_before_init`'s key quoting over the whole formats
    string: it only adds quotes and drops blanks, so the text without its
    quotes and blanks is unchanged; and every unquoted key before a colon
    comes out quoted (`KeyQuoted`).
   */
  function QuoteKeys(s: string): (r: string)
    ensures (forall j :: 0 <= j < |s| ==> s[j] != ':') ==> r == s
    ensures Skeleton(r) == Skeleton(s)
  {
    QuoteKeysSkeleton(s, 0);
    assert s[0..] == s;
    QuoteKeysFrom(s, 0)
  }

  /** A quote or a blank: the only characters the quoting adds or drops. */
  predicate Dropped(c: char) {
    c == '"' || IsSpace(c)
  }

  /** A text without its quotes and blanks. */
  function Skeleton(s: string): string
    decreases |s|
  {
    if |s| == 0 then "" else (if Dropped(s[0]) then "" else [s[0]]) + Skeleton(s[1..])
  }

  lemma {:induction false} SkeletonConcat(a: string, b: string)
    ensures Skeleton(a + b) == Skeleton(a) + Skeleton(b)
    decreases |a|
  {
    if |a| == 0 {
      assert a + b == b;
    } else {
      assert (a + b)[0] == a[0] && (a + b)[1..] == a[1..] + b;
      SkeletonConcat(a[1..], b);
    }
  }

  /** A word keeps all its characters. */
  lemma {:induction false} SkeletonWord(w: string)
    requires forall j :: 0 <= j < |w| ==> IsWordChar(w[j])
    ensures Skeleton(w) == w
    decreases |w|
  {
    if |w| > 0 {
      SkeletonWord(w[1..]);
      assert w == [w[0]] + w[1..];
    }
  }

  /** One character keeps itself unless it is a quote or a blank. */
  lemma SkeletonOne(c: char)
    ensures Skeleton([c]) == if Dropped(c) then "" else [c]
  {
    assert [c][1..] == "";
  }

  /** Quotes and blanks leave nothing. */
  lemma {:induction false} SkeletonBlanks(b: string)
    requires forall j :: 0 <= j < |b| ==> Dropped(b[j])
    ensures Skeleton(b) == ""
    decreases |b|
  {
    if |b| > 0 {
      SkeletonBlanks(b[1..]);
    }
  }

  /** A word, quotes or blanks, then a colon keep the word and the colon. */
  lemma SkeletonWordColon(w: string, b: string)
    requires forall j :: 0 <= j < |w| ==> IsWordChar(w[j])
    requires forall j :: 0 <= j < |b| ==> Dropped(b[j])
    ensures Skeleton(w + b + [':']) == w + [':']
  {
    SkeletonConcat(w + b, [':']);
    SkeletonConcat(w, b);
    SkeletonWord(w);
    SkeletonBlanks(b);
    SkeletonOne(':');
  }

  /** The quoted key `"w":` as a quote followed by the word, a quote and a colon. */
  lemma QuotedKeyShape(w: string)
    ensures "\"" + w + "\":" == ['"'] + (w + ['"'] + [':'])
    ensures w + ":" == w + [':']
  {
    assert "\":" == ['"'] + [':'];
  }

  /** The quoted key `"w":` keeps `w:`. */
  lemma SkeletonQuotedKey(w: string)
    requires forall j :: 0 <= j < |w| ==> IsWordChar(w[j])
    ensures Skeleton("\"" + w + "\":") == w + ":"
  {
    QuotedKeyShape(w);
    var q: string := ['"'];
    SkeletonConcat(q, w + q + [':']);
    SkeletonOne('"');
    SkeletonWordColon(w, q);
  }

  /**
    A step keeps the skeleton of what it consumes, and no key can start
    strictly inside it, as every position it skips is a non-word character
    or follows a word character.
   */
  lemma KeyStepSkeleton(s: string, i: nat)
    requires i < |s|
    ensures Skeleton(KeyStep(s, i).0) == Skeleton(s[i..KeyStep(s, i).1])
    ensures forall j :: i < j < KeyStep(s, i).1 ==> !IsWordChar(s[j]) || IsWordChar(s[j - 1])
  {
    if IsWordChar(s[i]) && (i == 0 || !BlocksKey(s[i - 1])) {
      var e := WordEnd(s, i);
      if e < |s| && s[e] == ':' {
        assert s[e..e + 1] == [] + [':'];
        QuoteKeySkeletonStep(s, i, e, e + 1, []);
      } else if e + 1 < |s| && IsSpace(s[e]) && s[e + 1] == ':' {
        assert s[e..e + 2] == [s[e]] + [':'];
        QuoteKeySkeletonStep(s, i, e, e + 2, [s[e]]);
      }
    }
  }

  /** A quoted key keeps the skeleton of the word, its blank and its colon. */
  lemma QuoteKeySkeletonStep(s: string, i: nat, e: nat, next: nat, b: string)
    requires i <= e && next == e + |b| + 1 <= |s|
    requires forall j :: i <= j < e ==> IsWordChar(s[j])
    requires s[e..next] == b + [':']
    requires forall j :: 0 <= j < |b| ==> Dropped(b[j])
    ensures Skeleton("\"" + s[i..e] + "\":") == Skeleton(s[i..next])
  {
    var word := s[i..e];
    SkeletonQuotedKey(word);
    assert s[i..next] == word + b + [':'] by {
      assert s[i..next] == s[i..e] + s[e..next];
    }
    SkeletonWordColon(word, b);
  }

  /** The skeleton of the scan's output from `i` is the skeleton of the input from `i`. */
  lemma {:induction false} QuoteKeysSkeleton(s: string, i: nat)
    requires i <= |s|
    ensures Skeleton(QuoteKeysFrom(s, i)) == Skeleton(s[i..])
    decreases |s| - i
  {
    if i < |s| {
      var emitted, next := KeyStep(s, i).0, KeyStep(s, i).1;
      KeyStepSkeleton(s, i);
      QuoteKeysSkeleton(s, next);
      SkeletonConcat(emitted, QuoteKeysFrom(s, next));
      assert s[i..] == s[i..next] + s[next..];
      SkeletonConcat(s[i..next], s[next..]);
    }
  }

  /**
    A key of the formats string: the word `w` at `k`, not preceded by a
    quote or a word character, followed by a colon (`blank` false) or by one
    blank and a colon (`blank` true).
   */
  predicate KeyAt(s: string, k: nat, w: string, blank: bool) {
    && |w| > 0 && (forall j :: 0 <= j < |w| ==> IsWordChar(w[j]))
    && k + |w| + (if blank then 2 else 1) <= |s| && s[k..k + |w|] == w
    && (k == 0 || !BlocksKey(s[k - 1]))
    && (if blank then IsSpace(s[k + |w|]) && s[k + |w| + 1] == ':' else s[k + |w|] == ':')
  }

  /** Every unquoted key comes out as `"key":`. */
  lemma KeyQuoted(s: string, k: nat, w: string, blank: bool)
    requires KeyAt(s, k, w, blank)
    ensures Contains(QuoteKeys(s), "\"" + w + "\":")
  {
    QuoteKeyReached(s, 0, k, w, blank);
  }

  /** `b` holding `t` means `a + b` does. */
  lemma ContainsAfter(a: string, b: string, t: string)
    requires Contains(b, t)
    ensures Contains(a + b, t)
  {
    var j :| 0 <= j <= |b| - |t| && OccursAt(b, t, j);
    assert (a + b)[|a| + j..|a| + j + |t|] == b[j..j + |t|];
    assert OccursAt(a + b, t, |a| + j);
  }

  /** The scan from any `i` up to a key reaches the key's start and quotes it. */
  lemma {:induction false} QuoteKeyReached(s: string, i: nat, k: nat, w: string, blank: bool)
    requires KeyAt(s, k, w, blank) && i <= k
    ensures Contains(QuoteKeysFrom(s, i), "\"" + w + "\":")
    decreases k - i
  {
    if i == k {
      QuoteKeyAt(s, k, w, blank);
      assert OccursAt(QuoteKeysFrom(s, i), "\"" + w + "\":", 0);
    } else {
      var emitted, next := KeyStep(s, i).0, KeyStep(s, i).1;
      KeyStepSkeleton(s, i);
      assert IsWordChar(s[k]) by {
        assert s[k] == w[0];
      }
      assert next <= k;
      QuoteKeyReached(s, next, k, w, blank);
      ContainsAfter(emitted, QuoteKeysFrom(s, next), "\"" + w + "\":");
    }
  }

  /** The scan at a key's start emits the quoted key first. */
  lemma QuoteKeyAt(s: string, k: nat, w: string, blank: bool)
    requires KeyAt(s, k, w, blank)
    ensures StartsWith(QuoteKeysFrom(s, k), "\"" + w + "\":")
  {
    assert s[k] == w[0];
    KeyWordEnd(s, k, w, blank);
  }

  /** At a key, the word run is exactly the key. */
  lemma KeyWordEnd(s: string, k: nat, w: string, blank: bool)
    requires KeyAt(s, k, w, blank)
    ensures WordEnd(s, k) == k + |w| && s[k..WordEnd(s, k)] == w
  {
    forall j | k <= j < k + |w| ensures IsWordChar(s[j]) {
      assert s[j] == w[j - k];
    }
  }

  /** An unquoted key gains its quotes and loses the blank before its colon. */
  lemma QuoteKeysExample()
    ensures QuoteKeys("a :1") == "\"a\":1"
  {
    assert WordEnd("a :1", 0) == 1;
    assert QuoteKeysFrom("a :1", 3) == "1" by {
      assert WordEnd("a :1", 3) == 4;
    }
  }

  /** An already quoted key is left alone. */
  lemma QuotedKeyUnchanged()
    ensures QuoteKeys("\"a\":1") == "\"a\":1"
  {
    var s := "\"a\":1";
    assert WordEnd(s, 1) == 2;
    assert WordEnd(s, 4) == 5;
    assert QuoteKeysFrom(s, 4) == "1";
    assert QuoteKeysFrom(s, 3) == ":1";
    assert QuoteKeysFrom(s, 2) == "\":1";
    assert QuoteKeysFrom(s, 1) == "a\":1";
  }

  const Toolbar1 := "formatselect,forecolor,|,bold,italic,strikethrough,subscript,superscript,|,alignleft,aligncenter,alignright,alignfull,|,link,unlink,anchor,|,bullist,numlist,|,blockquote,hr,|,table,|,outdent,indent,|,wp_more,wp_page,|,charmap,pastetext,removeformat,|,undo,redo,visualblocks,help,|,fullscreen"
  const BlockFormats := "Titre 2=h2;Titre 3=h3;Paragraphe=p"

  /**
    `thistle_tiny_mce_before_init`: the formats get their keys quoted (a
    missing entry reads as the empty string) and four settings are fixed;
    every other setting is kept.
   */
  function TinyMceBeforeInit(init: OMap<string, string>): (r: OMap<string, string>)
    ensures Get(r, "formats") == Some(QuoteKeys(GetOr(init, "formats", "")))
    ensures Get(r, "body_class") == Some("Wysiwyg")
    ensures Get(r, "toolbar1") == Some(Toolbar1)
    ensures Get(r, "toolbar2") == Some("")
    ensures Get(r, "block_formats") == Some(BlockFormats)
    ensures forall k :: k !in FixedSettings ==> Get(r, k) == Get(init, k)
    ensures DistinctKeys(init) ==> DistinctKeys(r)
  {
    var es := [("formats", QuoteKeys(GetOr(init, "formats", ""))), ("body_class", "Wysiwyg"),
               ("toolbar1", Toolbar1), ("toolbar2", ""), ("block_formats", BlockFormats)];
    var r := SetAll(init, es);
    FixedKeys(es);
    r
  }

  /** The settings `thistle_tiny_mce_before_init` writes. */
  const FixedSettings: set<string> := {"formats", "body_class", "toolbar1", "toolbar2", "block_formats"}

  lemma FixedKeys(es: seq<(string, string)>)
    requires |es| == 5
    requires es[0].0 == "formats" && es[1].0 == "body_class" && es[2].0 == "toolbar1"
    requires es[3].0 == "toolbar2" && es[4].0 == "block_formats"
    ensures forall k :: HasKey(es, k) <==> k in FixedSettings
    ensures forall i :: 0 <= i < 5 ==> LastValue(es, es[i].0) == Some(es[i].1)
  {
    KeysAt(es);
    forall i | 0 <= i < 5 ensures LastValue(es, es[i].0) == Some(es[i].1) {
      LastValueAt(es, i);
    }
  }

  // ---------------------------------------------------------------------
  // Image link rel
  // ---------------------------------------------------------------------

  /** The link types HTML defines for `rel`. */
  const AllowedRels: seq<string> := [
    "alternate", "archives", "author", "bookmark", "external", "first", "help", "index", "last",
    "license", "next", "nofollow", "noreferrer", "prefetch", "prev", "search", "sidebar", "tag", "up"
  ]

  predicate IsAllowedRel(t: string) {
    t in AllowedRels
  }

  /**
    The first `rel="…"` attribute, as `preg_match('/rel="([^"]*)"/')`
    finds it: the whole match and the quoted value.
   */
  function RelAttr(html: string): (r: Option<(string, string)>)
    ensures r.Some? ==> r.value.0 == "rel=\"" + r.value.1 + "\"" && Contains(html, r.value.0)
    ensures r.Some? ==> !('"' in r.value.1)
    ensures r.Some? ==> Find(html, "rel=\"").Some? && OccursAt(html, r.value.0, Find(html, "rel=\"").value)
    ensures r.None? ==> forall i :: 0 <= i <= |html| - 5 && OccursAt(html, "rel=\"", i) ==> !('"' in html[i + 5..])
  {
    match Find(html, "rel=\"")
    case None => None
    case Some(i) =>
      match Find(html[i + 5..], "\"")
      case None =>
        NoQuoteAfter(html, i);
        None
      case Some(k) =>
        RelAttrFound(html, i, k);
        Some((html[i..i + 5 + k + 1], html[i + 5..i + 5 + k]))
  }

  lemma NoQuoteAfter(html: string, i: nat)
    requires Find(html, "rel=\"") == Some(i)
    requires Find(html[i + 5..], "\"") == None
    ensures forall j :: 0 <= j <= |html| - 5 && OccursAt(html, "rel=\"", j) ==> !('"' in html[j + 5..])
  {
    assert i + 5 <= |html|;
    assert !Contains(html[i + 5..], "\"");
    forall j | 0 <= j <= |html| - 5 && OccursAt(html, "rel=\"", j) ensures !('"' in html[j + 5..]) {
      assert i <= j;
      if '"' in html[j + 5..] {
        QuoteInLaterSuffix(html, i + 5, j + 5);
      }
    }
  }

  /** A quote after a later position is a quote after an earlier one. */
  lemma QuoteInLaterSuffix(html: string, a: nat, b: nat)
    requires a <= b <= |html| && '"' in html[b..]
    ensures Contains(html[a..], "\"")
  {
    var m :| 0 <= m < |html[b..]| && html[b..][m] == '"';
    var rest := html[a..];
    assert rest[m + b - a] == '"';
    assert rest[m + b - a..m + b - a + 1] == "\"";
    assert OccursAt(rest, "\"", m + b - a);
  }

  lemma RelAttrFound(html: string, i: nat, k: nat)
    requires Find(html, "rel=\"") == Some(i)
    requires Find(html[i + 5..], "\"") == Some(k)
    ensures i + 5 + k + 1 <= |html|
    ensures html[i..i + 5 + k + 1] == "rel=\"" + html[i + 5..i + 5 + k] + "\""
    ensures OccursAt(html, html[i..i + 5 + k + 1], i)
    ensures !('"' in html[i + 5..i + 5 + k])
  {
    var rest := html[i + 5..];
    NoEarlierQuote(rest, k);
    QuotedAt(html, i, k);
  }

  lemma QuotedAt(html: string, i: nat, k: nat)
    requires OccursAt(html, "rel=\"", i)
    requires OccursAt(html[i + 5..], "\"", k)
    ensures i + 5 + k + 1 <= |html|
    ensures html[i..i + 5 + k + 1] == "rel=\"" + html[i + 5..i + 5 + k] + "\""
    ensures OccursAt(html, html[i..i + 5 + k + 1], i)
    ensures html[i + 5..i + 5 + k] == html[i + 5..][..k]
  {
    var e := i + 5 + k;
    assert html[e..e + 1] == html[i + 5..][k..k + 1];
    Slice3(html, i, i + 5, e, e + 1);
  }

  lemma Slice3(s: string, a: nat, b: nat, c: nat, d: nat)
    requires a <= b <= c <= d <= |s|
    ensures s[a..d] == s[a..b] + s[b..c] + s[c..d]
  {
  }

  lemma NoEarlierQuote(rest: string, k: nat)
    requires Find(rest, "\"") == Some(k)
    ensures !('"' in rest[..k])
  {
    if '"' in rest[..k] {
      var m :| 0 <= m < k && rest[..k][m] == '"';
      assert rest[m..m + 1] == "\"";
      assert OccursAt(rest, "\"", m);
    }
  }

  /**
    The allowed tokens of a `rel` value split on spaces, in their order:
    each allowed token as often as the value repeats it, the others never.
   */
  function AllowedTokens(value: string): (r: seq<string>)
    ensures forall t :: t in r <==> t in Split(value, " ") && IsAllowedRel(t)
    ensures IsSubsequence(r, Split(value, " "))
    ensures forall t :: multiset(r)[t] == if IsAllowedRel(t) then multiset(Split(value, " "))[t] else 0
  {
    KeepIfCounts(Split(value, " "), IsAllowedRel);
    KeepIf(Split(value, " "), IsAllowedRel)
  }

  /** The filtered value is empty exactly when no token survives. */
  lemma AllowedNonEmpty(t: string)
    requires IsAllowedRel(t)
    ensures |t| > 0
  {
    assert forall i | 0 <= i < |AllowedRels| :: |AllowedRels[i]| > 0;
  }

  lemma JoinAllowedEmpty(ts: seq<string>)
    requires forall t :: t in ts ==> IsAllowedRel(t)
    ensures Join(ts, " ") == "" <==> |ts| == 0
  {
    if |ts| > 0 {
      AllowedNonEmpty(ts[0]);
      JoinHeadNonEmpty(ts, " ");
    }
  }

  lemma JoinHeadNonEmpty(ts: seq<string>, sep: string)
    requires |ts| > 0 && |ts[0]| > 0
    ensures Join(ts, sep) != ""
  {
    assert |Join(ts, sep)| >= |ts[0]|;
  }

  /**
    `thistle_filter_image_link_rel`: keeps only the allowed link types of
    the first `rel` attribute. When none survives, every ` rel="…"` equal to
    that attribute (with its leading space) is removed; otherwise every
    occurrence of the old value is replaced by the filtered one.
   */
  function FilterImageLinkRel(html: string): (r: string)
    ensures RelAttr(html).None? ==> r == html
    ensures RelAttr(html).Some? && |AllowedTokens(RelAttr(html).value.1)| == 0 ==>
              r == ReplaceAll(html, " " + RelAttr(html).value.0, "")
    ensures RelAttr(html).Some? && |AllowedTokens(RelAttr(html).value.1)| > 0 ==>
              r == ReplaceAll(html, RelAttr(html).value.1, Join(AllowedTokens(RelAttr(html).value.1), " "))
  {
    match RelAttr(html)
    case None => html
    case Some((full, value)) =>
      var tokens := AllowedTokens(value);
      JoinAllowedEmpty(tokens);
      var rel := Join(tokens, " ");
      if rel == "" then ReplaceAll(html, " " + full, "")
      else ReplaceAll(html, value, rel)
  }

  /** Replacing a text by itself changes nothing. */
  lemma ReplaceBySelf(s: string, p: string)
    ensures ReplaceAll(s, p, p) == s
  {
    if |p| > 0 {
      ReplaceIsSplitJoin(s, p, p);
    }
  }

  /** Markup whose `rel` holds only allowed link types comes back unchanged. */
  lemma AllowedRelUnchanged(html: string)
    requires RelAttr(html).Some?
    requires forall t :: t in Split(RelAttr(html).value.1, " ") ==> IsAllowedRel(t)
    ensures FilterImageLinkRel(html) == html
  {
    var value := RelAttr(html).value.1;
    var tokens := Split(value, " ");
    assert forall i :: 0 <= i < |tokens| ==> IsAllowedRel(tokens[i]) by {
      forall i | 0 <= i < |tokens| ensures IsAllowedRel(tokens[i]) {
        assert tokens[i] in tokens;
      }
    }
    assert AllowedTokens(value) == tokens;
    assert tokens[0] in tokens;
    ReplaceBySelf(html, value);
  }
}

=== FILE: embed.dfy ===
/**
  Responsive embeds (`includes/embed.php`): every embed is wrapped in an
  `Embed` block whose padding keeps the media's aspect ratio, and oEmbed
  requests and responses are adjusted around it.
 */
module Embed {
  import opened Wrappers
  import opened Strings
  import opened Numbers
  import opened OrderedMaps
  import opened Urls

  /** Why building an embed stops with a PHP error instead of markup. */
  datatype EmbedError =
    | DivisionByZero        // `(int) $width` is 0: `DivisionByZeroError` in PHP 8
    | NotAnInteger          // `gmp_gcd` cannot read the width as an integer

  /**
    The markup an embed is built from. `Plain` has no ratio box. `Ratio`
    carries the reduced aspect ratio and the padding ratio as the exact
    fraction `ratioNum / ratioDen` percent.
   */
  datatype Layout =
    | Plain(maxWidth: string, html: string)
    | Ratio(aspectW: nat, aspectH: nat, maxWidth: string, ratioNum: nat, ratioDen: nat, html: string)

  /** A width given as a percentage of the container. */
  const FullWidth := "100%"

  /**
    `round(100 * $h / $w, 4)` is non-zero: the exact ratio reaches
    0.00005, that is `2 000 000 * h >= w`.
   */
  predicate RatioNonZero(h: nat, w: nat) {
    2000000 * h >= w
  }

  /** For any width up to two million pixels the ratio is zero exactly when the height is. */
  lemma RatioZeroIffNoHeight(h: nat, w: nat)
    requires 0 < w <= 2000000
    ensures RatioNonZero(h, w) <==> h > 0
  {
  }

  /**
    The layout `thistle_get_embed` builds for `html` at `width` x `height`.
    `width` is the string the caller passes (an integer width is passed as
    its decimal digits); `height` is already an integer.
   */
  function BuildLayout(html: string, width: string, height: nat): (r: Result<Layout, EmbedError>)
    ensures width == FullWidth ==> r == Success(Plain(FullWidth, html))
    ensures width != FullWidth && IntCast(width) == 0 ==> r == Failure(DivisionByZero)
    ensures r.Success? ==> r.value.html == html
    ensures r.Success? && width != FullWidth ==> r.value.maxWidth == width + "px" && IntCast(width) > 0
    ensures r.Success? ==> (r.value.Ratio? <==> width != FullWidth && RatioNonZero(height, IntCast(width)))
    ensures r.Success? && r.value.Ratio? ==>
              && r.value.ratioNum == 100 * height && r.value.ratioDen == IntCast(width)
              && Gcd(r.value.aspectW, r.value.aspectH) == 1
              && r.value.aspectW * height == r.value.aspectH * IntCast(width)
    ensures r.Failure? && width != FullWidth && IntCast(width) > 0 ==> r.error == NotAnInteger && !AllDigits(width)
  {
    if width == FullWidth then Success(Plain(FullWidth, html))
    else
      var w := IntCast(width);
      if w == 0 then Failure(DivisionByZero)
      else if !RatioNonZero(height, w) then Success(Plain(width + "px", html))
      else if !AllDigits(width) then Failure(NotAnInteger)
      else Success(RatioLayout(w, height, width + "px", html))
  }

  /** The ratio box for a `w` x `h` embed: the aspect ratio in lowest terms and the padding `100 h / w`. */
  function RatioLayout(w: nat, h: nat, maxWidth: string, html: string): (r: Layout)
    requires w > 0
    ensures r.Ratio? && r.maxWidth == maxWidth && r.html == html
    ensures r.ratioNum == 100 * h && r.ratioDen == w
    ensures Gcd(r.aspectW, r.aspectH) == 1 && r.aspectW * h == r.aspectH * w
  {
    var g := Gcd(w, h);
    Reduced(w, h);
    Ratio(w / g, h / g, maxWidth, 100 * h, w, html)
  }

  /** The wrapper around the untouched embed markup. */
  function ContentDiv(html: string): string {
    "<div class=\"Embed-content\">" + html + "</div>"
  }

  /** The opening tag of the `Embed` block. */
  function OpeningTag(e: Layout): string {
    match e
    case Plain(maxWidth, _) => "<div class=\"Embed\" style=\"max-width:" + maxWidth + "\">"
    case Ratio(aw, ah, maxWidth, _, _, _) =>
      "<div class=\"Embed\" embed-aspectRatio=\"" + NatToString(aw) + ":" + NatToString(ah) + "\" style=\"max-width:" + maxWidth + "\">"
  }

  /** The padding box that keeps the ratio; a plain layout has none. */
  function RatioBox(e: Layout, formatRatio: (nat, nat) -> string): string {
    match e
    case Plain(_, _) => ""
    case Ratio(_, _, _, num, den, _) => "<div class=\"Embed-ratio\" style=\"padding-bottom:" + formatRatio(num, den) + "%\"></div>"
  }

  /**
    The markup of a layout. `formatRatio(num, den)` prints the padding
    percentage `num / den` as PHP prints `round(num / den, 4)`.
   */
  function Render(e: Layout, formatRatio: (nat, nat) -> string): (r: string)
    ensures StartsWith(r, OpeningTag(e))
    ensures EndsWith(r, ContentDiv(e.html) + "</div>")
    ensures e.Plain? ==> r == OpeningTag(e) + ContentDiv(e.html) + "</div>"
  {
    var head := OpeningTag(e) + RatioBox(e, formatRatio);
    var tail := ContentDiv(e.html) + "</div>";
    Affixes(head, tail);
    Affixes(OpeningTag(e), RatioBox(e, formatRatio) + tail);
    Assoc(OpeningTag(e), RatioBox(e, formatRatio), tail);
    head + tail
  }

  /** `a + b` starts with `a` and ends with `b`. */
  lemma Affixes(a: string, b: string)
    ensures StartsWith(a + b, a) && EndsWith(a + b, b)
  {
    assert (a + b)[..|a|] == a;
    EndsWithAppend(a, b);
  }

  /**
    `thistle_get_embed`: a non-empty value from the `pre_thistle_get_embed`
    filter (`pre`) is returned as it is; otherwise the layout is built and
    rendered, and it always ends with the untouched markup in its content
    div followed by one closing div.
   */
  function GetEmbed(pre: string, html: string, width: string, height: nat, formatRatio: (nat, nat) -> string): (r: Result<string, EmbedError>)
    ensures !PhpEmpty(pre) ==> r == Success(pre)
    ensures PhpEmpty(pre) ==> (r.Success? <==> BuildLayout(html, width, height).Success?)
    ensures PhpEmpty(pre) && r.Success? ==> r.value == Render(BuildLayout(html, width, height).value, formatRatio)
    ensures PhpEmpty(pre) && r.Success? ==> EndsWith(r.value, ContentDiv(html) + "</div>")
  {
    if !PhpEmpty(pre) then Success(pre)
    else
      var layout :- BuildLayout(html, width, height);
      Success(Render(layout, formatRatio))
  }

  /** `thistle_embed_defaults`: the height becomes the width, and nothing else changes. */
  function EmbedDefaults(size: OMap<string, nat>): (r: OMap<string, nat>)
    requires HasKey(size, "width")
    ensures Get(r, "height") == Get(size, "width")
    ensures forall k :: k != "height" ==> Get(r, k) == Get(size, k)
    ensures DistinctKeys(size) ==> DistinctKeys(r)
  {
    Set(size, "height", Get(size, "width").value)
  }

  /** Applying the defaults twice is the same as once. */
  lemma EmbedDefaultsIdempotent(size: OMap<string, nat>)
    requires HasKey(size, "width")
    ensures var once := EmbedDefaults(size);
            HasKey(once, "width") && forall k :: Get(EmbedDefaults(once), k) == Get(once, k)
  {
  }

  /** The provider URLs `/http[s]?:\/\/(?:www\.)?(youtube|dailymotion)\.com/i` matches. */
  const VideoHosts: seq<string> := [
    "http://youtube.com", "https://youtube.com", "http://www.youtube.com", "https://www.youtube.com",
    "http://dailymotion.com", "https://dailymotion.com", "http://www.dailymotion.com", "https://www.dailymotion.com"
  ]

  /** The provider address mentions YouTube or Dailymotion, ignoring case. */
  predicate IsVideoProvider(address: string) {
    exists i :: 0 <= i < |VideoHosts| && Contains(Lower(address), VideoHosts[i])
  }

  /**
    `thistle_oembed_remove_maxheight`: YouTube and Dailymotion keep their
    size arguments; every other provider loses `maxwidth` and `maxheight`
    and keeps its other arguments.
   */
  function OembedRemoveMaxheight(provider: Url): (r: Url)
    ensures IsVideoProvider(provider.address) ==> r == provider
    ensures !IsVideoProvider(provider.address) ==>
              && Get(r.query, "maxwidth").None? && Get(r.query, "maxheight").None?
              && forall k :: k != "maxwidth" && k != "maxheight" ==> Get(r.query, k) == Get(provider.query, k)
    ensures r.address == provider.address
    ensures provider.Valid() ==> r.Valid()
  {
    if IsVideoProvider(provider.address) then provider
    else RemoveArg(RemoveArg(provider, "maxwidth"), "maxheight")
  }

  /** Filtering a provider URL a second time changes nothing. */
  lemma OembedRemoveMaxheightIdempotent(provider: Url)
    ensures OembedRemoveMaxheight(OembedRemoveMaxheight(provider)) == OembedRemoveMaxheight(provider)
  {
    var once := OembedRemoveMaxheight(provider);
    if !IsVideoProvider(provider.address) {
      var q1 := Remove(provider.query, "maxwidth");
      var q2 := Remove(q1, "maxheight");
      assert once.query == q2;
      assert !HasKey(q2, "maxheight");
      assert !HasKey(q2, "maxwidth") by {
        assert !HasKey(q1, "maxwidth");
      }
      assert Remove(q2, "maxwidth") == q2;
      assert Remove(q2, "maxheight") == q2;
    }
  }

  /** The marker WordPress puts in the markup of an embedded WordPress post. */
  const WpEmbedded := "wp-embedded-content"

  /**
    `thistle_oembed_dataparse`: `false` (`None`) passes through; otherwise
    the provider's markup is wrapped by `thistle_get_embed`, with the
    height forced to 0 for embedded WordPress posts.
   */
  function OembedDataparse(ret: Option<string>, width: string, height: nat, pre: string, formatRatio: (nat, nat) -> string): (r: Option<Result<string, EmbedError>>)
    ensures ret.None? <==> r.None?
    ensures ret.Some? && Contains(ret.value, WpEmbedded) ==> r == Some(GetEmbed(pre, ret.value, width, 0, formatRatio))
    ensures ret.Some? && !Contains(ret.value, WpEmbedded) ==> r == Some(GetEmbed(pre, ret.value, width, height, formatRatio))
  {
    match ret
    case None => None
    case Some(html) =>
      var h := if Contains(html, WpEmbedded) then 0 else height;
      Some(GetEmbed(pre, html, width, h, formatRatio))
  }

  /** Embedded WordPress posts never get the ratio box. */
  lemma WordPressEmbedHasNoRatio(html: string, width: string)
    ensures BuildLayout(html, width, 0).Success? ==> BuildLayout(html, width, 0).value.Plain?
  {
  }

  // ---------------------------------------------------------------------
  // Iframes in post content
  // ---------------------------------------------------------------------

  predicate IsQuote(c: char) {
    c == '"' || c == '\''
  }

  /**
    The value the pattern `name=["']([0-9]+<suffix>)["']` captures at the
    start of `s`, where `<suffix>` is an optional `%` when `percent` holds.
   */
  function AttrAt(s: string, name: string, percent: bool): (r: Option<string>)
    ensures r.Some? ==> |r.value| > 0
    ensures r.Some? && !percent ==> AllDigits(r.value)
  {
    var lead := name + "=";
    if StartsWith(s, lead) && |s| > |lead| && IsQuote(s[|lead|]) then
      var rest := s[|lead| + 1..];
      var d := LeadingDigits(rest);
      if |d| == 0 then None
      else
        var after := rest[|d|..];
        if percent && |after| >= 2 && after[0] == '%' && IsQuote(after[1]) then Some(d + "%")
        else if |after| >= 1 && IsQuote(after[0]) then Some(d)
        else None
    else None
  }

  /** The leftmost match of the attribute pattern, as `preg_match` finds it. */
  function FirstAttr(s: string, name: string, percent: bool): (r: Option<string>)
    ensures r.Some? ==> |r.value| > 0
    ensures r.Some? && !percent ==> AllDigits(r.value)
    decreases |s|
  {
    if |s| == 0 then None
    else if AttrAt(s, name, percent).Some? then AttrAt(s, name, percent)
    else FirstAttr(s[1..], name, percent)
  }

  /**
    The size `thistle_embed_content` reads off an iframe: its first
    `width="N"` or `width="N%"` (default `100%`), and its first
    `height="N"` as an integer (default 0).
   */
  function IframeSize(iframe: string): (r: (string, nat))
    ensures FirstAttr(iframe, "width", true).None? ==> r.0 == FullWidth
    ensures FirstAttr(iframe, "width", true).Some? ==> r.0 == FirstAttr(iframe, "width", true).value
    ensures FirstAttr(iframe, "height", false).None? ==> r.1 == 0
    ensures FirstAttr(iframe, "height", false).Some? ==> r.1 == ParseDigits(FirstAttr(iframe, "height", false).value)
  {
    var width := match FirstAttr(iframe, "width", true) case Some(w) => w case None => FullWidth;
    var height := match FirstAttr(iframe, "height", false) case Some(h) => ParseDigits(h) case None => 0;
    (width, height)
  }

  /** An iframe with a plain pixel width and no height gets the box without a ratio. */
  lemma IframeWithoutHeight(iframe: string)
    requires FirstAttr(iframe, "height", false).None?
    ensures BuildLayout(iframe, IframeSize(iframe).0, IframeSize(iframe).1).Success? ==>
              BuildLayout(iframe, IframeSize(iframe).0, IframeSize(iframe).1).value.Plain?
  {
  }

  /**
    `thistle_embed_content`: `iframes` are the matches `preg_match_all`
    finds in the content, in order and before any replacement (a parameter:
    the ungreedy pattern only matches iframes whose body is at most one
    character). Each listed iframe has every occurrence replaced by its
    embed markup, one after the other; the first PHP error stops the loop.
    What the result holds is stated by `EmbedContentReplacesEach`: content
    made of texts between iframes becomes the same texts between the
    wrapped iframes.
   */
  function EmbedContent(content: string, iframes: seq<string>, pre: string, formatRatio: (nat, nat) -> string): (r: Result<string, EmbedError>)
    ensures |iframes| == 0 ==> r == Success(content)
    ensures r.Success? && |iframes| > 0 ==>
              var size := IframeSize(iframes[0]);
              var first := GetEmbed(pre, iframes[0], size.0, size.1, formatRatio);
              first.Success? && r == EmbedContent(ReplaceAll(content, iframes[0], first.value), iframes[1..], pre, formatRatio)
    decreases |iframes|
  {
    if |iframes| == 0 then Success(content)
    else
      var size := IframeSize(iframes[0]);
      var wrapped :- GetEmbed(pre, iframes[0], size.0, size.1, formatRatio);
      EmbedContent(ReplaceAll(content, iframes[0], wrapped), iframes[1..], pre, formatRatio)
  }

  /** Content without any of the iframes comes back unchanged. */
  lemma {:induction false} EmbedContentWithoutIframes(content: string, iframes: seq<string>, pre: string, formatRatio: (nat, nat) -> string)
    requires forall i :: 0 <= i < |iframes| ==> !Contains(content, iframes[i])
    ensures EmbedContent(content, iframes, pre, formatRatio).Success? ==> EmbedContent(content, iframes, pre, formatRatio) == Success(content)
    decreases |iframes|
  {
    if |iframes| > 0 {
      var size := IframeSize(iframes[0]);
      var first := GetEmbed(pre, iframes[0], size.0, size.1, formatRatio);
      if first.Success? {
        assert ReplaceAll(content, iframes[0], first.value) == content;
        EmbedContentWithoutIframes(content, iframes[1..], pre, formatRatio);
      }
    }
  }

  /** Text and iframes alternating: `texts[0] + slots[0] + texts[1] + … + slots[n-1] + texts[n]`. */
  function Interleave(texts: seq<string>, slots: seq<string>): string
    requires |texts| == |slots| + 1
    decreases |slots|
  {
    if |slots| == 0 then texts[0] else texts[0] + slots[0] + Interleave(texts[1..], slots[1..])
  }

  /** An interleaving cut around its slot `k`: what comes before it, the slot, and what follows. */
  lemma {:induction false} InterleaveAt(texts: seq<string>, slots: seq<string>, k: nat)
    requires |texts| == |slots| + 1 && k < |slots|
    ensures Interleave(texts, slots) == Interleave(texts[..k + 1], slots[..k]) + slots[k] + Interleave(texts[k + 1..], slots[k + 1..])
    decreases k
  {
    var before := Interleave(texts[..k + 1], slots[..k]);
    var after := Interleave(texts[k + 1..], slots[k + 1..]);
    if k == 0 {
      assert before == texts[0];
      assert texts[1..] == texts[k + 1..] && slots[1..] == slots[k + 1..];
    } else {
      InterleaveAt(texts[1..], slots[1..], k - 1);
      assert texts[1..][k..] == texts[k + 1..] && slots[1..][k..] == slots[k + 1..];
      var inner := Interleave(texts[1..][..k], slots[1..][..k - 1]);
      assert texts[..k + 1][1..] == texts[1..][..k] && slots[..k][1..] == slots[1..][..k - 1];
      assert before == texts[0] + slots[0] + inner;
      Assoc(texts[0] + slots[0], inner + slots[k], after);
      Assoc(texts[0] + slots[0], inner, slots[k]);
    }
  }

  /**
    Step `k` of the loop touches only its own iframe: once the first `k`
    iframes are wrapped, `iframes[k]` occurs at its own place and nowhere
    else (in particular no later text or iframe repeats it).
   */
  predicate ReplacedInPlace(texts: seq<string>, iframes: seq<string>, wrapped: seq<string>, k: nat)
    requires |texts| == |iframes| + 1 && |wrapped| == |iframes| && k < |iframes|
  {
    var before := Interleave(texts[..k + 1], wrapped[..k]);
    var after := Interleave(texts[k + 1..], iframes[k + 1..]);
    && (forall j :: 0 <= j < |before| ==> !OccursAt(before + iframes[k] + after, iframes[k], j))
    && !Contains(after, iframes[k])
  }

  /** The wrapped form of each iframe, as `thistle_get_embed` builds it from the size read off the iframe. */
  predicate WrapsEach(iframes: seq<string>, wrapped: seq<string>, pre: string, formatRatio: (nat, nat) -> string)
    requires |wrapped| == |iframes|
  {
    forall k :: 0 <= k < |iframes| ==>
      GetEmbed(pre, iframes[k], IframeSize(iframes[k]).0, IframeSize(iframes[k]).1, formatRatio) == Success(wrapped[k])
  }

  /**
    Content made of texts around the iframes `preg_match_all` found comes
    back with every iframe replaced by its wrapped form and every text
    unchanged, provided no replacement reaches into another iframe's place.
   */
  lemma EmbedContentReplacesEach(texts: seq<string>, iframes: seq<string>, wrapped: seq<string>, pre: string, formatRatio: (nat, nat) -> string)
    requires |texts| == |iframes| + 1 && |wrapped| == |iframes|
    requires forall k :: 0 <= k < |iframes| ==> |iframes[k]| > 0
    requires WrapsEach(iframes, wrapped, pre, formatRatio)
    requires forall k :: 0 <= k < |iframes| ==> ReplacedInPlace(texts, iframes, wrapped, k)
    ensures EmbedContent(Interleave(texts, iframes), iframes, pre, formatRatio) == Success(Interleave(texts, wrapped))
  {
    assert wrapped[..0] + iframes[0..] == iframes;
    EmbedContentFrom(texts, iframes, wrapped, pre, formatRatio, 0);
  }

  /** The loop from step `k` on, with the first `k` iframes already wrapped. */
  lemma {:induction false} EmbedContentFrom(texts: seq<string>, iframes: seq<string>, wrapped: seq<string>, pre: string, formatRatio: (nat, nat) -> string, k: nat)
    requires |texts| == |iframes| + 1 && |wrapped| == |iframes| && k <= |iframes|
    requires forall i :: 0 <= i < |iframes| ==> |iframes[i]| > 0
    requires WrapsEach(iframes, wrapped, pre, formatRatio)
    requires forall i :: 0 <= i < |iframes| ==> ReplacedInPlace(texts, iframes, wrapped, i)
    ensures EmbedContent(Interleave(texts, wrapped[..k] + iframes[k..]), iframes[k..], pre, formatRatio) == Success(Interleave(texts, wrapped))
    decreases |iframes| - k
  {
    var slots := wrapped[..k] + iframes[k..];
    if k == |iframes| {
      assert slots == wrapped;
    } else {
      var next := wrapped[..k + 1] + iframes[k + 1..];
      assert slots[..k] == wrapped[..k] && slots[k] == iframes[k] && slots[k + 1..] == iframes[k + 1..];
      assert next[..k] == wrapped[..k] && next[k] == wrapped[k] && next[k + 1..] == iframes[k + 1..];
      InterleaveAt(texts, slots, k);
      InterleaveAt(texts, next, k);
      var before := Interleave(texts[..k + 1], wrapped[..k]);
      var after := Interleave(texts[k + 1..], iframes[k + 1..]);
      assert ReplacedInPlace(texts, iframes, wrapped, k);
      ReplaceOnce(before, iframes[k], after, wrapped[k]);
      assert iframes[k..][0] == iframes[k] && iframes[k..][1..] == iframes[k + 1..];
      EmbedContentFrom(texts, iframes, wrapped, pre, formatRatio, k + 1);
    }
  }

  /**
    The loop as intended: each distinct iframe once (`array_unique` over the
    matches). Without a repeated iframe it is the loop as written.
   */
  function EmbedContentIntended(content: string, iframes: seq<string>, pre: string, formatRatio: (nat, nat) -> string): (r: Result<string, EmbedError>)
    ensures NoDuplicates(iframes) ==> r == EmbedContent(content, iframes, pre, formatRatio)
  {
    DedupDistinct(iframes);
    EmbedContent(content, Dedup(iframes), pre, formatRatio)
  }

  /** `str_replace` of `x` by `w` in `x + x`: both copies are replaced. */
  lemma ReplaceDouble(x: string, w: string)
    requires |x| > 0
    ensures ReplaceAll(x + x, x, w) == w + w
  {
    assert OccursAt(x + x, x, 0) && (x + x)[|x|..] == x;
    ReplaceAtHead(x + x, x, w);
    assert OccursAt(x, x, 0) && x[|x|..] == "";
    ReplaceAtHead(x, x, w);
  }

  /** The wrapped markup holds the iframe and is longer than it. */
  lemma WrappedHoldsIframe(x: string, w: string)
    requires EndsWith(w, ContentDiv(x) + "</div>")
    ensures Contains(w, x) && |w| > |x|
  {
    var lead := "<div class=\"Embed-content\">";
    var tail := ContentDiv(x) + "</div>";
    var i := |w| - |tail| + |lead|;
    assert w[|w| - |tail|..] == tail;
    assert w[i..i + |x|] == tail[|lead|..|lead| + |x|] == x;
    assert OccursAt(w, x, i);
  }

  /**
    A post holding the same iframe twice: `preg_match_all` lists it twice,
    the first pass wraps both copies, and the second pass wraps the iframe
    inside each wrapper again, so the output is longer than the two copies
    wrapped once.
   */
  lemma RepeatedIframeWrappedTwice(x: string, pre: string, formatRatio: (nat, nat) -> string)
    requires |x| > 0 && PhpEmpty(pre)
    requires GetEmbed(pre, x, IframeSize(x).0, IframeSize(x).1, formatRatio).Success?
    ensures var w := GetEmbed(pre, x, IframeSize(x).0, IframeSize(x).1, formatRatio).value;
            EmbedContent(x + x, [x, x], pre, formatRatio).Success?
            && |EmbedContent(x + x, [x, x], pre, formatRatio).value| > |w + w|
  {
    var w := GetEmbed(pre, x, IframeSize(x).0, IframeSize(x).1, formatRatio).value;
    EmbedContentSame(x + x, x, w, pre, formatRatio);
    ReplaceDouble(x, w);
    WrappedHoldsIframe(x, w);
    TwiceHolds(w, x);
    ReplaceGrows(w + w, x, w);
  }

  /** Two passes over the same iframe replace it, then replace it again in the result. */
  lemma EmbedContentSame(content: string, x: string, w: string, pre: string, formatRatio: (nat, nat) -> string)
    requires GetEmbed(pre, x, IframeSize(x).0, IframeSize(x).1, formatRatio) == Success(w)
    ensures EmbedContent(content, [x], pre, formatRatio) == Success(ReplaceAll(content, x, w))
    ensures EmbedContent(content, [x, x], pre, formatRatio) == Success(ReplaceAll(ReplaceAll(content, x, w), x, w))
  {
    assert [x, x][1..] == [x] && [x][1..] == [];
    assert EmbedContent(ReplaceAll(content, x, w), [x], pre, formatRatio) == Success(ReplaceAll(ReplaceAll(content, x, w), x, w));
  }

  lemma TwiceHolds(w: string, x: string)
    requires Contains(w, x)
    ensures Contains(w + w, x)
  {
    var i :| 0 <= i <= |w| - |x| && OccursAt(w, x, i);
    assert (w + w)[i..i + |x|] == w[i..i + |x|];
    assert OccursAt(w + w, x, i);
  }

  /** With each iframe handled once, the two copies are each wrapped once. */
  lemma RepeatedIframeWrappedOnce(x: string, pre: string, formatRatio: (nat, nat) -> string)
    requires |x| > 0
    requires GetEmbed(pre, x, IframeSize(x).0, IframeSize(x).1, formatRatio).Success?
    ensures var w := GetEmbed(pre, x, IframeSize(x).0, IframeSize(x).1, formatRatio).value;
            EmbedContentIntended(x + x, [x, x], pre, formatRatio) == Success(w + w)
  {
    var w := GetEmbed(pre, x, IframeSize(x).0, IframeSize(x).1, formatRatio).value;
    assert [x, x][1..] == [x] && [x][1..] == [];
    assert [] + [x] == [x];
    assert AddNew([], [x, x]) == AddNew([x], [x]);
    assert AddNew([x], [x]) == [x];
    EmbedContentSame(x + x, x, w, pre, formatRatio);
    ReplaceDouble(x, w);
  }
}

=== FILE: gallery.dfy ===
/**
  The `[gallery]` shortcode (`includes/gallery-shortcode.php`): which
  attachments a gallery shows, and the markup it prints, with a JSON list
  of the images for PhotoSwipe.
 */
module Gallery {
  import opened Wrappers
  import opened Strings
  import opened OrderedMaps

  // ---------------------------------------------------------------------
  // Attributes
  // ---------------------------------------------------------------------

  /** The shortcode's defaults; `id` is the current post's, or 0 without one. */
  function GalleryDefaults(postId: Option<nat>): OMap<string, string> {
    [("order", "ASC"), ("orderby", "menu_order ID"), ("id", NatToString(postId.GetOr(0))),
     ("itemtag", "figure"), ("captiontag", "figcaption"), ("columns", "3"), ("size", "thumbnail"),
     ("include", ""), ("exclude", ""), ("link", "")]
  }

  /**
    `shortcode_atts`: every default attribute, in the defaults' order, with
    the value the shortcode gives it when it gives one; attributes the
    defaults do not know are dropped.
   */
  function ShortcodeAtts(defaults: OMap<string, string>, attr: OMap<string, string>): (atts: OMap<string, string>)
    ensures Keys(atts) == Keys(defaults)
    ensures forall k :: Get(atts, k) == if !HasKey(defaults, k) then None
                                        else if HasKey(attr, k) then Get(attr, k) else Get(defaults, k)
  {
    var atts := MapEntries(defaults, (k, v) => GetOr(attr, k, v));
    KeysMapEntries(defaults, (k, v) => GetOr(attr, k, v));
    forall k ensures Get(atts, k) == if !HasKey(defaults, k) then None
                                     else if HasKey(attr, k) then Get(attr, k) else Get(defaults, k) {
      GetMapEntries(defaults, (k, v) => GetOr(attr, k, v), k);
    }
    atts
  }

  /** Attributes the shortcode leaves out take the default values. */
  lemma DefaultAttributes(postId: Option<nat>, attr: OMap<string, string>)
    requires !HasKey(attr, "columns") && !HasKey(attr, "size") && !HasKey(attr, "order") && !HasKey(attr, "id")
    ensures var atts := ShortcodeAtts(GalleryDefaults(postId), attr);
      Get(atts, "columns") == Some("3") && Get(atts, "size") == Some("thumbnail")
      && Get(atts, "order") == Some("ASC") && Get(atts, "id") == Some(NatToString(postId.GetOr(0)))
  {
    var d := GalleryDefaults(postId);
    DefaultsDistinct(postId);
    GetAt(d, 0);
    GetAt(d, 2);
    GetAt(d, 5);
    GetAt(d, 6);
  }

  /** The default attributes are named once each. */
  lemma DefaultsDistinct(postId: Option<nat>)
    ensures DistinctKeys(GalleryDefaults(postId))
  {
    var d := GalleryDefaults(postId);
    forall i, j | 0 <= i < j < |d| ensures d[i].0 != d[j].0 {
      DistinctNames(i, j);
    }
  }

  /** The names of the defaults, pairwise different. */
  lemma DistinctNames(i: nat, j: nat)
    requires i < j < 10
    ensures var names := ["order", "orderby", "id", "itemtag", "captiontag", "columns", "size", "include", "exclude", "link"];
      names[i] != names[j]
  {
  }

  // ---------------------------------------------------------------------
  // Attachments
  // ---------------------------------------------------------------------

  /**
    An attachment as the gallery uses it: its id and parent post, whether
    it is an image with the `inherit` status, its URLs, the width and
    height of its metadata (`null` without metadata), and its excerpt (the
    caption).
   */
  datatype Attachment = Attachment(
    id: nat, parent: nat, isImage: bool, inherits: bool, url: string, thumbUrl: string,
    width: Option<nat>, height: Option<nat>, excerpt: string)

  /** What the gallery asks of WordPress. */
  datatype GalleryHost = GalleryHost(
    /** The current post's id, if there is a post. */
    postId: Option<nat>,
    /**
      Every attachment, sorted as `order` and `orderby` ask for the query of
      a selection (with `orderby` `post__in`, in the order of its include list).
     */
    sorted: (Selection, string, string) -> seq<Attachment>,
    /** `wp_parse_id_list` of an `include` or `exclude` attribute. */
    parseIds: string -> seq<nat>,
    /** `is_feed()`. */
    isFeed: bool,
    /** `wp_get_attachment_link( $id, $size, true )`. */
    link: (nat, string) -> string,
    /** `wp_get_attachment_image( $id, $size, false, … )`. */
    image: (nat, string) -> string,
    /** `wptexturize`. */
    texturize: string -> string,
    /** `esc_attr`. */
    escAttr: string -> string,
    /** `json_encode`. */
    jsonEncode: OMap<nat, JsonEntry> -> string)

  predicate IsGalleryImage(a: Attachment) {
    a.isImage && a.inherits
  }

  /** Which query lines 71-81 run. */
  datatype Selection = Include(ids: seq<nat>) | ChildrenExcept(parent: nat, exclude: seq<nat>) | Children(parent: nat)

  function SelectionOf(atts: OMap<string, string>, parseIds: string -> seq<nat>): (s: Selection)
    ensures s.Include? <==> !PhpEmpty(GetOr(atts, "include", ""))
    ensures s.ChildrenExcept? <==> PhpEmpty(GetOr(atts, "include", "")) && !PhpEmpty(GetOr(atts, "exclude", ""))
    ensures !s.Include? ==> s.parent == IntCast(GetOr(atts, "id", ""))
    ensures s.Include? ==> s.ids == parseIds(GetOr(atts, "include", ""))
    ensures s.ChildrenExcept? ==> s.exclude == parseIds(GetOr(atts, "exclude", ""))
  {
    var id := IntCast(GetOr(atts, "id", ""));
    if !PhpEmpty(GetOr(atts, "include", "")) then Include(parseIds(GetOr(atts, "include", "")))
    else if !PhpEmpty(GetOr(atts, "exclude", "")) then ChildrenExcept(id, parseIds(GetOr(atts, "exclude", "")))
    else Children(id)
  }

  predicate Selected(s: Selection, a: Attachment) {
    IsGalleryImage(a) &&
    match s
    case Include(ids) => a.id in ids
    case ChildrenExcept(parent, exclude) => a.parent == parent && a.id !in exclude
    case Children(parent) => a.parent == parent
  }

  /** The host's order for the query the attributes select. */
  function QueryOrder(atts: OMap<string, string>, host: GalleryHost): seq<Attachment> {
    host.sorted(SelectionOf(atts, host.parseIds), GetOr(atts, "order", ""), GetOr(atts, "orderby", ""))
  }

  /**
    The attachments the query returns, in the query's order: images of the
    included ids, or the post's image children minus the excluded ids, or
    all of them.
   */
  function SelectAttachments(atts: OMap<string, string>, host: GalleryHost): (r: seq<Attachment>)
    ensures IsSubsequence(r, QueryOrder(atts, host))
    ensures forall a :: a in r <==> a in QueryOrder(atts, host) && Selected(SelectionOf(atts, host.parseIds), a)
  {
    var s := SelectionOf(atts, host.parseIds);
    KeepIf(QueryOrder(atts, host), a => Selected(s, a))
  }

  /** An `exclude` list is ignored once `include` is given. */
  lemma IncludeWins(atts: OMap<string, string>, host: GalleryHost, a: Attachment)
    requires !PhpEmpty(GetOr(atts, "include", ""))
    ensures a in SelectAttachments(atts, host) <==>
              a in QueryOrder(atts, host)
              && IsGalleryImage(a) && a.id in host.parseIds(GetOr(atts, "include", ""))
  {
  }

  // ---------------------------------------------------------------------
  // Feed output
  // ---------------------------------------------------------------------

  /** One attachment link per line, in attachment order. */
  function FeedLines(attachments: seq<Attachment>, size: string, link: (nat, string) -> string): string
    decreases |attachments|
  {
    if |attachments| == 0 then ""
    else
      var n := |attachments| - 1;
      FeedLines(attachments[..n], size, link) + link(attachments[n].id, size) + "\n"
  }

  /** Lines 85-91: a newline, then the lines. */
  method FeedOutput(attachments: seq<Attachment>, size: string, link: (nat, string) -> string) returns (output: string)
    ensures output == "\n" + FeedLines(attachments, size, link)
  {
    output := "\n";
    var k := 0;
    while k < |attachments|
      invariant 0 <= k <= |attachments|
      invariant output == "\n" + FeedLines(attachments[..k], size, link)
    {
      assert attachments[..k + 1][..k] == attachments[..k];
      output := output + link(attachments[k].id, size) + "\n";
      k := k + 1;
    }
    assert attachments[..|attachments|] == attachments;
  }

  /** The feed output has one line per attachment after its leading newline. */
  lemma {:induction false} FeedLineCount(attachments: seq<Attachment>, size: string, link: (nat, string) -> string)
    requires forall a :: a in attachments ==> '\n' !in link(a.id, size)
    ensures CountChar(FeedLines(attachments, size, link), '\n') == |attachments|
    decreases |attachments|
  {
    if |attachments| > 0 {
      var n := |attachments| - 1;
      assert forall a :: a in attachments[..n] ==> a in attachments;
      FeedLineCount(attachments[..n], size, link);
      var l := link(attachments[n].id, size);
      assert attachments[n] in attachments;
      CountCharConcat(FeedLines(attachments[..n], size, link), l);
      CountCharConcat(FeedLines(attachments[..n], size, link) + l, "\n");
      CountCharAbsent(l, '\n');
    }
  }

  function CountChar(s: string, c: char): nat
    decreases |s|
  {
    if |s| == 0 then 0 else (if s[|s| - 1] == c then 1 else 0) + CountChar(s[..|s| - 1], c)
  }

  lemma {:induction false} CountCharConcat(a: string, b: string)
    ensures forall c :: CountChar(a + b, c) == CountChar(a, c) + CountChar(b, c)
    decreases |b|
  {
    if |b| > 0 {
      assert (a + b)[..|a + b| - 1] == a + b[..|b| - 1];
      CountCharConcat(a, b[..|b| - 1]);
    } else {
      assert a + b == a;
    }
  }

  lemma {:induction false} CountCharAbsent(s: string, c: char)
    requires c !in s
    ensures CountChar(s, c) == 0
    decreases |s|
  {
    if |s| > 0 {
      assert s[|s| - 1] in s;
      assert forall x :: x in s[..|s| - 1] ==> x in s;
      CountCharAbsent(s[..|s| - 1], c);
    }
  }

  // ---------------------------------------------------------------------
  // Gallery markup and JSON
  // ---------------------------------------------------------------------

  /** One image for PhotoSwipe; `title` only when the image has a caption. */
  datatype JsonEntry = JsonEntry(src: string, w: Option<nat>, h: Option<nat>, msrc: string, title: Option<string>)

  /** The caption: the texturized excerpt, when the trimmed excerpt is truthy. */
  function Caption(a: Attachment, texturize: string -> string): (c: Option<string>)
    ensures c.Some? <==> (exists i :: 0 <= i < |a.excerpt| && !IsTrimChar(a.excerpt[i])) && Trim(a.excerpt) != "0"
    ensures c.Some? ==> c.value == texturize(a.excerpt)
  {
    TrimBlank(a.excerpt);
    if !PhpEmpty(Trim(a.excerpt)) then Some(texturize(a.excerpt)) else None
  }

  function Entry(a: Attachment, texturize: string -> string): JsonEntry {
    JsonEntry(a.url, a.width, a.height, a.thumbUrl, Caption(a, texturize))
  }

  function CaptionMarkup(c: Option<string>): string {
    match c
    case Some(text) => "<figcaption class=\"ImageGallery-caption\">" + text + "</figcaption>"
    case None => ""
  }

  /** Lines 109-121: the figure of one image. */
  function ItemMarkup(a: Attachment, size: string, host: GalleryHost): (item: string)
    ensures EndsWith(item, "</figcaption></figure>") <==> Caption(a, host.texturize).Some?
  {
    var head := "<figure class=\"ImageGallery-item\">" + "<a class=\"ImageGallery-link\" href=\"" + a.url + "\">"
                + host.image(a.id, size) + "</a>";
    var c := Caption(a, host.texturize);
    EndsWithAppend("<figure class=\"ImageGallery-item\">" + "<a class=\"ImageGallery-link\" href=\"" + a.url + "\">"
                   + host.image(a.id, size), "</a>");
    CaptionEnd(head, c);
    head + CaptionMarkup(c) + "</figure>"
  }

  /** The figure ends with a caption exactly when it has one. */
  lemma CaptionEnd(head: string, c: Option<string>)
    requires EndsWith(head, "</a>")
    ensures EndsWith(head + CaptionMarkup(c) + "</figure>", "</figcaption></figure>") <==> c.Some?
  {
    match c
    case Some(text) =>
      var inner := head + "<figcaption class=\"ImageGallery-caption\">" + text;
      Regroup(head, "<figcaption class=\"ImageGallery-caption\">", text, "</figcaption>", "</figure>");
      assert "</figcaption>" + "</figure>" == "</figcaption></figure>";
      EndsWithAppend(inner, "</figcaption></figure>");
    case None =>
      NoCaptionEnd(head);
  }

  lemma Regroup(h: string, a: string, x: string, b: string, c: string)
    ensures h + (a + x + b) + c == (h + a + x) + (b + c)
  {
    Assoc(h, a + x, b);
    Assoc(h, a, x);
    Assoc(h + a + x, b, c);
  }

  /** A figure that closes its link last does not end with a caption. */
  lemma NoCaptionEnd(head: string)
    requires EndsWith(head, "</a>")
    ensures !EndsWith(head + "" + "</figure>", "</figcaption></figure>")
  {
    var s := head + "" + "</figure>";
    if |s| >= 22 {
      assert s[|s| - 13] == '<';
      assert "</figcaption></figure>"[9] == 'i';
    }
  }

  /** The figures of all images, in attachment order. */
  function ItemsMarkup(attachments: seq<Attachment>, size: string, host: GalleryHost): string
    decreases |attachments|
  {
    if |attachments| == 0 then ""
    else
      var n := |attachments| - 1;
      ItemsMarkup(attachments[..n], size, host) + ItemMarkup(attachments[n], size, host)
  }

  /** `$json`: entry `i` describes attachment `i`. */
  function GalleryJson(attachments: seq<Attachment>, texturize: string -> string): (json: OMap<nat, JsonEntry>)
    ensures |json| == |attachments|
    ensures forall i :: 0 <= i < |attachments| ==> json[i] == (i, Entry(attachments[i], texturize))
  {
    seq(|attachments|, i requires 0 <= i < |attachments| => (i, Entry(attachments[i], texturize)))
  }

  /**
    The JSON's keys are exactly 0 … n-1 in order, so `json_encode` writes a
    list, and key `i` holds attachment `i`.
   */
  lemma JsonIsList(attachments: seq<Attachment>, texturize: string -> string)
    ensures Keys(GalleryJson(attachments, texturize)) == seq(|attachments|, i => i)
    ensures DistinctKeys(GalleryJson(attachments, texturize))
    ensures forall i: nat :: i < |attachments| ==>
              Get(GalleryJson(attachments, texturize), i) == Some(Entry(attachments[i], texturize))
  {
    var json := GalleryJson(attachments, texturize);
    KeysAt(json);
    assert DistinctKeys(json) by {
      forall x, y | 0 <= x < y < |json| ensures json[x].0 != json[y].0 {
        assert json[x].0 == x && json[y].0 == y;
      }
    }
    forall i: nat | i < |attachments| ensures Get(json, i) == Some(Entry(attachments[i], texturize)) {
      assert json[i] == (i, Entry(attachments[i], texturize));
      GetAt(json, i);
    }
  }

  /** A JSON entry has a title exactly when its figure ends with a caption. */
  lemma TitleIffFigcaption(attachments: seq<Attachment>, size: string, host: GalleryHost, i: nat)
    requires i < |attachments|
    ensures GalleryJson(attachments, host.texturize)[i].1.title.Some?
            <==> EndsWith(ItemMarkup(attachments[i], size, host), "</figcaption></figure>")
  {
  }

  function Header(instance: nat, atts: OMap<string, string>, esc: string -> string): string {
    "<div class=\"ImageGallery\" data-instance=\"" + esc(NatToString(instance)) + "\" data-columns=\""
    + esc(GetOr(atts, "columns", "")) + "\" data-size=\"" + esc(GetOr(atts, "size", "")) + "\">"
  }

  function Footer(json: OMap<nat, JsonEntry>, encode: OMap<nat, JsonEntry> -> string): string {
    "<script type=\"text/pswp\">" + encode(json) + "</script>" + "</div>" + "\n"
  }

  /** Lines 93-126: the figures and the JSON between the header and the footer. */
  method HtmlOutput(attachments: seq<Attachment>, atts: OMap<string, string>, instance: nat, host: GalleryHost)
    returns (output: string, json: OMap<nat, JsonEntry>)
    ensures json == GalleryJson(attachments, host.texturize)
    ensures output == Header(instance, atts, host.escAttr) + ItemsMarkup(attachments, GetOr(atts, "size", ""), host)
                      + Footer(json, host.jsonEncode)
  {
    var items;
    items, json := ItemsLoop(attachments, GetOr(atts, "size", ""), host);
    output := Header(instance, atts, host.escAttr) + items + Footer(json, host.jsonEncode);
  }

  /** Lines 101-124: one figure and one JSON entry per attachment, together. */
  method ItemsLoop(attachments: seq<Attachment>, size: string, host: GalleryHost)
    returns (items: string, json: OMap<nat, JsonEntry>)
    ensures json == GalleryJson(attachments, host.texturize)
    ensures items == ItemsMarkup(attachments, size, host)
  {
    json := [];
    items := "";
    var i: nat := 0;
    while i < |attachments|
      invariant i <= |attachments|
      invariant json == GalleryJson(attachments[..i], host.texturize)
      invariant items == ItemsMarkup(attachments[..i], size, host)
    {
      JsonStep(json, attachments, i, host.texturize);
      ItemsStep(attachments, i, size, host);
      json := Set<nat, JsonEntry>(json, i, Entry(attachments[i], host.texturize));
      items := items + ItemMarkup(attachments[i], size, host);
      i := i + 1;
    }
    assert attachments[..|attachments|] == attachments;
  }

  /** `$json[$i] = …` adds the entry of attachment `i` after the others. */
  lemma JsonStep(json: OMap<nat, JsonEntry>, attachments: seq<Attachment>, i: nat, texturize: string -> string)
    requires i < |attachments| && json == GalleryJson(attachments[..i], texturize)
    ensures Set(json, i, Entry(attachments[i], texturize)) == GalleryJson(attachments[..i + 1], texturize)
  {
    var e := Entry(attachments[i], texturize);
    NextJsonKeyNew(attachments[..i], texturize);
    SetAbsent<nat, JsonEntry>(json, i, e);
    JsonSnoc(attachments, i, texturize);
  }

  lemma JsonSnoc(attachments: seq<Attachment>, i: nat, texturize: string -> string)
    requires i < |attachments|
    ensures GalleryJson(attachments[..i], texturize) + [(i, Entry(attachments[i], texturize))]
         == GalleryJson(attachments[..i + 1], texturize)
  {
    var a := GalleryJson(attachments[..i], texturize) + [(i, Entry(attachments[i], texturize))];
    var b := GalleryJson(attachments[..i + 1], texturize);
    assert |a| == |b|;
    forall j | 0 <= j < |a| ensures a[j] == b[j] {
      assert attachments[..i + 1][j] == attachments[j];
      if j < i {
        assert attachments[..i][j] == attachments[j];
      }
    }
  }

  lemma ItemsStep(attachments: seq<Attachment>, i: nat, size: string, host: GalleryHost)
    requires i < |attachments|
    ensures ItemsMarkup(attachments[..i + 1], size, host)
         == ItemsMarkup(attachments[..i], size, host) + ItemMarkup(attachments[i], size, host)
  {
    assert attachments[..i + 1][..i] == attachments[..i];
  }

  /** The next index is not yet a key of the JSON. */
  lemma NextJsonKeyNew(attachments: seq<Attachment>, texturize: string -> string)
    ensures !HasKey<nat, JsonEntry>(GalleryJson(attachments, texturize), |attachments|)
  {
    var json := GalleryJson(attachments, texturize);
    assert forall j :: 0 <= j < |json| ==> json[j].0 == j;
    NotHasKey<nat, JsonEntry>(GalleryJson(attachments, texturize), |attachments|);
  }

  // ---------------------------------------------------------------------
  // The filter
  // ---------------------------------------------------------------------

  /**
    `thistle_gallery_shortcode` on `post_gallery`: nothing without
    attachments, links one per line in a feed, and the PhotoSwipe gallery
    otherwise.
   */
  method GalleryShortcode(attr: OMap<string, string>, instance: nat, host: GalleryHost) returns (output: string)
    ensures var atts := ShortcodeAtts(GalleryDefaults(host.postId), attr);
      var attachments := SelectAttachments(atts, host);
      && (|attachments| == 0 ==> output == "")
      && (|attachments| > 0 && host.isFeed ==> output == "\n" + FeedLines(attachments, GetOr(atts, "size", ""), host.link))
      && (|attachments| > 0 && !host.isFeed ==>
            output == Header(instance, atts, host.escAttr) + ItemsMarkup(attachments, GetOr(atts, "size", ""), host)
                      + Footer(GalleryJson(attachments, host.texturize), host.jsonEncode))
  {
    var atts := ShortcodeAtts(GalleryDefaults(host.postId), attr);
    var attachments := SelectAttachments(atts, host);
    if |attachments| == 0 {
      return "";
    }
    if host.isFeed {
      output := FeedOutput(attachments, GetOr(atts, "size", ""), host.link);
      return;
    }
    var json;
    output, json := HtmlOutput(attachments, atts, instance, host);
  }
}

=== FILE: numbers.dfy ===
/** Integer facts behind the embed aspect ratio: exact division and the greatest common divisor. */
module Numbers {

  /** `d` divides `n` exactly. */
  predicate Divides(d: nat, n: nat) {
    d > 0 && n % d == 0
  }

  lemma MulAtLeast(d: int, m: int)
    requires d > 0 && m >= 1
    ensures d * m >= d
  {
    if m > 1 {
      MulAtLeast(d, m - 1);
      assert d * m == d * (m - 1) + d;
    }
  }

  /** A product divides back exactly into its factors. */
  lemma DivExact(n: int, d: int, k: int)
    requires d > 0 && n == d * k
    ensures n % d == 0 && n / d == k
  {
    var q, r := n / d, n % d;
    assert n == d * q + r;
    assert d * (k - q) == r by {
      assert d * k - d * q == d * (k - q);
    }
    if k - q >= 1 {
      MulAtLeast(d, k - q);
    } else if k - q <= -1 {
      MulAtLeast(d, q - k);
    }
  }

  /** An exact quotient multiplies back to its dividend. */
  lemma Quotient(n: nat, d: nat)
    requires Divides(d, n)
    ensures n == d * (n / d) && n / d >= 0
  {
  }

  /** `gmp_gcd` on non-negative integers, by Euclid's subtraction. */
  function Gcd(a: nat, b: nat): (g: nat)
    ensures g == 0 <==> a == 0 && b == 0
    ensures g <= a + b
    decreases a + b
  {
    if a == 0 then b
    else if b == 0 then a
    else if a >= b then Gcd(a - b, b)
    else Gcd(a, b - a)
  }

  /** A common divisor of two numbers divides their sum. */
  lemma SumDivides(x: nat, y: nat, g: nat)
    requires Divides(g, x) && Divides(g, y)
    ensures Divides(g, x + y)
  {
    Quotient(x, g);
    Quotient(y, g);
    var p, q := x / g, y / g;
    assert x + y == g * (p + q);
    DivExact(x + y, g, p + q);
  }

  /** The gcd divides both arguments. */
  lemma {:induction false} GcdDivides(a: nat, b: nat)
    requires a + b > 0
    ensures Divides(Gcd(a, b), a) && Divides(Gcd(a, b), b)
    decreases a + b
  {
    if a == 0 {
      DivExact(b, b, 1);
      DivExact(0, b, 0);
    } else if b == 0 {
      DivExact(a, a, 1);
      DivExact(0, a, 0);
    } else if a >= b {
      GcdDivides(a - b, b);
      SumDivides(a - b, b, Gcd(a - b, b));
    } else {
      GcdDivides(a, b - a);
      SumDivides(a, b - a, Gcd(a, b - a));
    }
  }

  /** Every common divisor of the arguments divides their gcd. */
  lemma {:induction false} GcdGreatest(a: nat, b: nat, d: nat)
    requires Divides(d, a) && Divides(d, b)
    ensures Divides(d, Gcd(a, b))
    decreases a + b
  {
    if a != 0 && b != 0 {
      Quotient(a, d);
      Quotient(b, d);
      var x, y := a / d, b / d;
      if a >= b {
        assert a - b == d * (x - y);
        DivExact(a - b, d, x - y);
        GcdGreatest(a - b, b, d);
      } else {
        assert b - a == d * (y - x);
        DivExact(b - a, d, y - x);
        GcdGreatest(a, b - a, d);
      }
    }
  }

  /** The gcd is the largest common divisor. */
  lemma GcdIsGreatest(a: nat, b: nat, d: nat)
    requires a + b > 0
    requires Divides(d, a) && Divides(d, b)
    ensures d <= Gcd(a, b)
  {
    GcdGreatest(a, b, d);
    var g := Gcd(a, b);
    Quotient(g, d);
    if g / d >= 1 {
      MulAtLeast(d, g / d);
    }
  }

  /** Scaling both arguments scales the gcd. */
  lemma {:induction false} GcdScale(k: nat, x: nat, y: nat)
    ensures Gcd(k * x, k * y) == k * Gcd(x, y)
    decreases x + y
  {
    if k == 0 {
      assert k * x == 0 && k * y == 0;
    } else if x != 0 && y != 0 {
      MulAtLeast(k, x);
      MulAtLeast(k, y);
      var a, b := k * x, k * y;
      if x >= y {
        ScaleDiff(k, x, y);
        GcdScale(k, x - y, y);
        assert Gcd(a, b) == Gcd(a - b, b);
      } else {
        ScaleDiff(k, y, x);
        GcdScale(k, x, y - x);
        assert Gcd(a, b) == Gcd(a, b - a);
      }
    }
  }

  lemma ScaleDiff(k: nat, x: nat, y: nat)
    requires x >= y
    ensures k * x - k * y == k * (x - y) >= 0
  {
  }

  /**
    Dividing both arguments by their gcd leaves coprime numbers in the same
    proportion: the reduced aspect ratio `a/g : b/g`.
   */
  lemma Reduced(a: nat, b: nat)
    requires a + b > 0
    ensures Gcd(a / Gcd(a, b), b / Gcd(a, b)) == 1
    ensures (a / Gcd(a, b)) * b == (b / Gcd(a, b)) * a
  {
    var g := Gcd(a, b);
    GcdDivides(a, b);
    Quotient(a, g);
    Quotient(b, g);
    ReducedCoprime(g, a / g, b / g);
    Proportion(g, a / g, b / g);
  }

  lemma ReducedCoprime(g: nat, x: nat, y: nat)
    requires g > 0 && Gcd(g * x, g * y) == g
    ensures Gcd(x, y) == 1
  {
    GcdScale(g, x, y);
    MulCancel(g, Gcd(x, y), 1);
  }

  lemma Proportion(g: nat, x: nat, y: nat)
    ensures x * (g * y) == y * (g * x)
  {
  }

  lemma MulCancel(d: int, x: int, y: int)
    requires d > 0 && d * x == d * y
    ensures x == y
  {
    assert d * (x - y) == 0;
    if x - y >= 1 {
      MulAtLeast(d, x - y);
    } else if x - y <= -1 {
      MulAtLeast(d, y - x);
    }
  }
}

=== FILE: ordered_map.dfy ===
/**
  A PHP associative array: a sequence of key/value entries in insertion
  order. Arrays built by PHP never repeat a key (`DistinctKeys`), and every
  operation here keeps that invariant. The four array operations the theme
  relies on are modelled with PHP's semantics:
  - `array_filter` keeps the surviving keys in their order (`Filter`);
  - `array_combine` lets the last value of a repeated key win (`Combine`);
  - `array_merge` on string keys keeps the first position of a key and takes
    the later value (`Merge`);
  - `+` keeps the left operand's entries and only adds new keys (`Union`).
 */
module OrderedMaps {
  import opened Wrappers

  type OMap<K, V> = seq<(K, V)>

  /** `array_keys`. */
  function Keys<K(!new), V>(m: OMap<K, V>): (ks: seq<K>)
    ensures |ks| == |m|
  {
    if |m| == 0 then [] else [m[0].0] + Keys(m[1..])
  }

  lemma {:induction false} KeysAt<K(!new), V>(m: OMap<K, V>)
    ensures forall i :: 0 <= i < |m| ==> Keys(m)[i] == m[i].0
  {
    if |m| > 0 {
      KeysAt(m[1..]);
    }
  }

  /** `array_values`. */
  function Values<K(!new), V>(m: OMap<K, V>): (vs: seq<V>)
    ensures |vs| == |m|
    ensures forall i :: 0 <= i < |m| ==> vs[i] == m[i].1
  {
    if |m| == 0 then [] else [m[0].1] + Values(m[1..])
  }

  /** `array_key_exists`. */
  predicate HasKey<K(==,!new), V>(m: OMap<K, V>, k: K) {
    k in Keys(m)
  }

  predicate DistinctKeys<K(==,!new), V>(m: OMap<K, V>) {
    forall i, j :: 0 <= i < j < |m| ==> m[i].0 != m[j].0
  }

  lemma DistinctCons<K(!new), V>(m: OMap<K, V>)
    requires |m| > 0
    ensures DistinctKeys(m) <==> DistinctKeys(m[1..]) && !HasKey(m[1..], m[0].0)
  {
    KeysAt(m);
    KeysAt(m[1..]);
    if DistinctKeys(m) {
      forall i, j | 0 <= i < j < |m| - 1 ensures m[1..][i].0 != m[1..][j].0 {
        assert m[1..][i] == m[i + 1] && m[1..][j] == m[j + 1];
      }
    }
    if DistinctKeys(m[1..]) && !HasKey(m[1..], m[0].0) {
      forall i, j | 0 <= i < j < |m| ensures m[i].0 != m[j].0 {
        assert m[j] == m[1..][j - 1];
        if i > 0 {
          assert m[i] == m[1..][i - 1];
        } else {
          assert Keys(m[1..])[j - 1] == m[j].0;
        }
      }
    }
  }

  /** `$m[$k] ?? null`: the value stored under `k`. */
  function Get<K(==,!new), V>(m: OMap<K, V>, k: K): (r: Option<V>)
    ensures r.Some? <==> HasKey(m, k)
    ensures r.Some? ==> (k, r.value) in m
  {
    if |m| == 0 then None
    else if m[0].0 == k then
      Some(m[0].1)
    else
      Get(m[1..], k)
  }

  /** Without repeated keys, the entry at any position is what `Get` finds for its key. */
  lemma {:induction false} GetAt<K(!new), V>(m: OMap<K, V>, i: nat)
    requires DistinctKeys(m) && i < |m|
    ensures Get(m, m[i].0) == Some(m[i].1)
  {
    if i > 0 {
      DistinctCons(m);
      assert m[1..][i - 1] == m[i];
      GetAt(m[1..], i - 1);
    }
  }

  /** `$m[$k] ?? $default`. */
  function GetOr<K(==,!new), V>(m: OMap<K, V>, k: K, default: V): V {
    Get(m, k).GetOr(default)
  }

  /**
    `$m[$k] = $v`: overwrites the value of an existing key in place, or
    appends a new entry at the end.
   */
  function Set<K(==,!new), V>(m: OMap<K, V>, k: K, v: V): (r: OMap<K, V>)
    ensures DistinctKeys(m) ==> DistinctKeys(r)
    ensures Get(r, k) == Some(v)
    ensures forall k' :: k' != k ==> Get(r, k') == Get(m, k')
    ensures Keys(r) == if HasKey(m, k) then Keys(m) else Keys(m) + [k]
  {
    if |m| == 0 then
      Cons((k, v), []);
      [(k, v)]
    else
      Uncons(m);
      if m[0].0 == k then
        Cons((k, v), m[1..]);
        [(k, v)] + m[1..]
      else
        var tail := Set(m[1..], k, v);
        SetStep(m, k, v, tail);
        [m[0]] + tail
  }

  /** The recursive case of `Set`: the first entry is kept in front of the updated rest. */
  lemma SetStep<K(!new), V>(m: OMap<K, V>, k: K, v: V, tail: OMap<K, V>)
    requires |m| > 0 && m[0].0 != k
    requires DistinctKeys(m[1..]) ==> DistinctKeys(tail)
    requires Get(tail, k) == Some(v)
    requires forall k' :: k' != k ==> Get(tail, k') == Get(m[1..], k')
    requires Keys(tail) == if HasKey(m[1..], k) then Keys(m[1..]) else Keys(m[1..]) + [k]
    ensures DistinctKeys(m) ==> DistinctKeys([m[0]] + tail)
    ensures Get([m[0]] + tail, k) == Some(v)
    ensures forall k' :: k' != k ==> Get([m[0]] + tail, k') == Get(m, k')
    ensures Keys([m[0]] + tail) == if HasKey(m, k) then Keys(m) else Keys(m) + [k]
  {
    Uncons(m);
    Cons(m[0], tail);
    SetStepKeys(m, k, tail);
  }

  lemma SetStepKeys<K(!new), V>(m: OMap<K, V>, k: K, tail: OMap<K, V>)
    requires |m| > 0 && m[0].0 != k
    requires Keys(m) == [m[0].0] + Keys(m[1..])
    requires Keys([m[0]] + tail) == [m[0].0] + Keys(tail)
    requires Keys(tail) == if HasKey(m[1..], k) then Keys(m[1..]) else Keys(m[1..]) + [k]
    ensures Keys([m[0]] + tail) == if HasKey(m, k) then Keys(m) else Keys(m) + [k]
  {
    assert HasKey(m, k) <==> HasKey(m[1..], k);
    if !HasKey(m[1..], k) {
      AssocSeq([m[0].0], Keys(m[1..]), [k]);
    }
  }

  /** How the queries above see an array's first entry. */
  lemma Uncons<K(!new), V>(m: OMap<K, V>)
    requires |m| > 0
    ensures Keys(m) == [m[0].0] + Keys(m[1..])
    ensures forall k :: HasKey(m, k) <==> k == m[0].0 || HasKey(m[1..], k)
    ensures forall k :: Get(m, k) == if k == m[0].0 then Some(m[0].1) else Get(m[1..], k)
    ensures DistinctKeys(m) <==> DistinctKeys(m[1..]) && !HasKey(m[1..], m[0].0)
  {
    DistinctCons(m);
  }

  lemma Cons<K(!new), V>(e: (K, V), m: OMap<K, V>)
    ensures Keys([e] + m) == [e.0] + Keys(m)
    ensures forall k :: HasKey([e] + m, k) <==> k == e.0 || HasKey(m, k)
    ensures forall k :: Get([e] + m, k) == if k == e.0 then Some(e.1) else Get(m, k)
    ensures DistinctKeys([e] + m) <==> DistinctKeys(m) && !HasKey(m, e.0)
  {
    assert ([e] + m)[1..] == m;
    Uncons([e] + m);
  }

  /** `unset($m[$k])`: drops the entry of `k`, if any, and keeps the others in order. */
  function Remove<K(==,!new), V>(m: OMap<K, V>, k: K): (r: OMap<K, V>)
    ensures DistinctKeys(m) ==> DistinctKeys(r)
    ensures !HasKey(r, k)
    ensures forall k' :: k' != k ==> Get(r, k') == Get(m, k')
    ensures forall k' :: HasKey(r, k') <==> HasKey(m, k') && k' != k
    ensures IsSubsequence(r, m)
    ensures DistinctKeys(m) && HasKey(m, k) ==> |r| == |m| - 1
    ensures !HasKey(m, k) ==> r == m
  {
    if |m| == 0 then []
    else
      Uncons(m);
      var tail := Remove(m[1..], k);
      if m[0].0 == k then
        tail
      else
        Cons(m[0], tail);
        SubsequenceCons(m[0], tail, m[1..]);
        [m[0]] + tail
  }

  lemma SubsequenceCons<T>(x: T, a: seq<T>, b: seq<T>)
    requires IsSubsequence(a, b)
    ensures IsSubsequence([x] + a, [x] + b)
  {
    assert ([x] + a)[1..] == a && ([x] + b)[1..] == b;
  }

  /** Every sequence is a subsequence of itself. */
  lemma {:induction false} SubsequenceRefl<T>(a: seq<T>)
    ensures IsSubsequence(a, a)
    decreases |a|
  {
    if |a| > 0 {
      SubsequenceRefl(a[1..]);
      SubsequenceCons(a[0], a[1..], a[1..]);
      assert [a[0]] + a[1..] == a;
    }
  }

  lemma {:induction false} SubsequenceSkip<T>(x: T, a: seq<T>, b: seq<T>)
    requires IsSubsequence(a, b)
    ensures IsSubsequence(a, [x] + b)
    decreases |b|, 1
  {
    assert ([x] + b)[1..] == b;
    if |a| > 0 && a[0] == x {
      SubsequenceTail(a, b);
    }
  }

  /** Dropping the head of the shorter sequence keeps it a subsequence. */
  lemma {:induction false} SubsequenceTail<T>(a: seq<T>, b: seq<T>)
    requires |a| > 0 && IsSubsequence(a, b)
    ensures IsSubsequence(a[1..], b)
    decreases |b|, 0
  {
    assert [b[0]] + b[1..] == b;
    if a[0] != b[0] {
      SubsequenceTail(a, b[1..]);
    }
    SubsequenceSkip(b[0], a[1..], b[1..]);
  }

  /** `a` is `b` with some entries deleted: same entries, same relative order. */
  predicate IsSubsequence<T(==)>(a: seq<T>, b: seq<T>)
    decreases |b|
  {
    if |a| == 0 then true
    else if |b| == 0 then false
    else if a[0] == b[0] then IsSubsequence(a[1..], b[1..])
    else IsSubsequence(a, b[1..])
  }

  /** A subsequence holds only elements of the longer sequence. */
  lemma {:induction false} SubsequenceIn<T>(a: seq<T>, b: seq<T>, x: T)
    requires IsSubsequence(a, b)
    requires x in a
    ensures x in b
    decreases |b|
  {
    if a[0] == b[0] {
      if x != a[0] {
        assert x in a[1..];
        SubsequenceIn(a[1..], b[1..], x);
      }
    } else {
      SubsequenceIn(a, b[1..], x);
    }
  }

  /**
    `array_filter($m, $keep)`: exactly the entries whose value satisfies
    `keep`, with their keys and in their original relative order.
   */
  function Filter<K(==,!new), V(==,!new)>(m: OMap<K, V>, keep: V -> bool): (r: OMap<K, V>)
    ensures IsSubsequence(r, m)
    ensures forall e :: e in r <==> e in m && keep(e.1)
    ensures DistinctKeys(m) ==> DistinctKeys(r)
    ensures forall k :: HasKey(r, k) ==> HasKey(m, k)
    ensures |r| <= |m|
  {
    if |m| == 0 then []
    else
      Uncons(m);
      var tail := Filter(m[1..], keep);
      assert forall e :: e in m <==> e == m[0] || e in m[1..];
      if keep(m[0].1) then
        Cons(m[0], tail);
        SubsequenceCons(m[0], tail, m[1..]);
        [m[0]] + tail
      else
        SubsequenceSkip(m[0], tail, m[1..]);
        assert [m[0]] + m[1..] == m;
        tail
  }

  /**
    Sets every entry of `es`, left to right, into `m`: a key already present
    keeps its position and takes the later value.
   */
  function SetAll<K(==,!new), V>(m: OMap<K, V>, es: seq<(K, V)>): (r: OMap<K, V>)
    ensures DistinctKeys(m) ==> DistinctKeys(r)
    ensures forall k :: Get(r, k) == if HasKey(es, k) then LastValue(es, k) else Get(m, k)
    ensures IsPrefix(Keys(m), Keys(r))
    ensures forall k :: HasKey(r, k) <==> HasKey(m, k) || HasKey(es, k)
    decreases |es|
  {
    if |es| == 0 then m
    else
      var m1 := Set(m, es[0].0, es[0].1);
      var r := SetAll(m1, es[1..]);
      SetAllStep(m, es, m1, r);
      r
  }

  lemma SetAllStep<K(!new), V>(m: OMap<K, V>, es: seq<(K, V)>, m1: OMap<K, V>, r: OMap<K, V>)
    requires |es| > 0 && m1 == Set(m, es[0].0, es[0].1)
    requires DistinctKeys(m1) ==> DistinctKeys(r)
    requires forall k :: Get(r, k) == if HasKey(es[1..], k) then LastValue(es[1..], k) else Get(m1, k)
    requires IsPrefix(Keys(m1), Keys(r))
    requires forall k :: HasKey(r, k) <==> HasKey(m1, k) || HasKey(es[1..], k)
    ensures DistinctKeys(m) ==> DistinctKeys(r)
    ensures forall k :: Get(r, k) == if HasKey(es, k) then LastValue(es, k) else Get(m, k)
    ensures IsPrefix(Keys(m), Keys(r))
    ensures forall k :: HasKey(r, k) <==> HasKey(m, k) || HasKey(es, k)
  {
    forall k ensures Get(r, k) == if HasKey(es, k) then LastValue(es, k) else Get(m, k) {
      SetAllGetAt(m, es, m1, r, k);
    }
    SetAllStepKeys(m, es, m1, r);
  }

  lemma SetAllGetAt<K(!new), V>(m: OMap<K, V>, es: seq<(K, V)>, m1: OMap<K, V>, r: OMap<K, V>, k: K)
    requires |es| > 0 && m1 == Set(m, es[0].0, es[0].1)
    requires Get(r, k) == if HasKey(es[1..], k) then LastValue(es[1..], k) else Get(m1, k)
    ensures Get(r, k) == if HasKey(es, k) then LastValue(es, k) else Get(m, k)
  {
    Uncons(es);
  }

  lemma SetAllStepKeys<K(!new), V>(m: OMap<K, V>, es: seq<(K, V)>, m1: OMap<K, V>, r: OMap<K, V>)
    requires |es| > 0 && m1 == Set(m, es[0].0, es[0].1)
    requires DistinctKeys(m1) ==> DistinctKeys(r)
    requires IsPrefix(Keys(m1), Keys(r))
    requires forall k :: HasKey(r, k) <==> HasKey(m1, k) || HasKey(es[1..], k)
    ensures DistinctKeys(m) ==> DistinctKeys(r)
    ensures IsPrefix(Keys(m), Keys(r))
    ensures forall k :: HasKey(r, k) <==> HasKey(m, k) || HasKey(es, k)
  {
    Uncons(es);
    SetKeys(m, es[0].0, es[0].1);
    PrefixTrans(Keys(m), Keys(m1), Keys(r));
  }

  /** `Set` adds exactly its key, at the end when it is new. */
  lemma SetKeys<K(!new), V>(m: OMap<K, V>, k: K, v: V)
    ensures forall k' :: HasKey(Set(m, k, v), k') <==> HasKey(m, k') || k' == k
    ensures IsPrefix(Keys(m), Keys(Set(m, k, v)))
  {
    var m1 := Set(m, k, v);
    forall k' ensures HasKey(m1, k') <==> HasKey(m, k') || k' == k {
      if k' == k {
        assert Get(m1, k').Some?;
      } else {
        assert Get(m1, k') == Get(m, k');
      }
    }
  }

  lemma PrefixTrans<T>(a: seq<T>, b: seq<T>, c: seq<T>)
    requires IsPrefix(a, b) && IsPrefix(b, c)
    ensures IsPrefix(a, c)
  {
    assert c[..|a|] == c[..|b|][..|a|];
  }

  predicate IsPrefix<T(==)>(a: seq<T>, b: seq<T>) {
    |a| <= |b| && b[..|a|] == a
  }

  /** The value of the last entry of `es` with key `k`. */
  function LastValue<K(==,!new), V>(es: seq<(K, V)>, k: K): (r: Option<V>)
    ensures r.Some? <==> HasKey(es, k)
    decreases |es|
  {
    if |es| == 0 then None
    else
      var later := LastValue(es[1..], k);
      if later.Some? then later
      else if es[0].0 == k then Some(es[0].1)
      else None
  }

  /** The entry at `i` supplies the last value of its key when no later entry repeats that key. */
  lemma {:induction false} LastValueAt<K(!new), V>(es: seq<(K, V)>, i: nat)
    requires i < |es|
    requires forall j :: i < j < |es| ==> es[j].0 != es[i].0
    ensures LastValue(es, es[i].0) == Some(es[i].1)
    decreases |es|
  {
    if i == 0 {
      KeysAt(es[1..]);
      assert !HasKey(es[1..], es[0].0);
    } else {
      assert es[1..][i - 1] == es[i];
      LastValueAt(es[1..], i - 1);
    }
  }

  /** Pairs keys with values position by position. */
  function Zip<K(!new), V>(ks: seq<K>, vs: seq<V>): (es: seq<(K, V)>)
    requires |ks| == |vs|
    ensures |es| == |ks|
    ensures forall i :: 0 <= i < |ks| ==> es[i] == (ks[i], vs[i])
  {
    seq(|ks|, i requires 0 <= i < |ks| => (ks[i], vs[i]))
  }

  /**
    `array_combine($ks, $vs)`: a repeated key keeps the position of its first
    occurrence and the value of its last one.
   */
  function Combine<K(==,!new), V>(ks: seq<K>, vs: seq<V>): (r: OMap<K, V>)
    requires |ks| == |vs|
    ensures DistinctKeys(r)
    ensures |r| <= |ks|
    ensures forall k :: HasKey(r, k) <==> k in ks
    ensures forall k :: Get(r, k) == LastValue(Zip(ks, vs), k)
    ensures Keys(r) == Dedup(ks)
  {
    var es := Zip(ks, vs);
    KeysAt(es);
    assert Keys(es) == ks;
    var r := SetAll([], es);
    DistinctLength(r, ks);
    SetAllKeys([], es);
    r
  }

  /** `acc` followed by the elements of `ks` it does not hold yet, each at its first occurrence. */
  function AddNew<K(==)>(acc: seq<K>, ks: seq<K>): seq<K>
    decreases |ks|
  {
    if |ks| == 0 then acc
    else AddNew(if ks[0] in acc then acc else acc + [ks[0]], ks[1..])
  }

  /** `array_unique` on a list: every element once, where it first occurs. */
  function Dedup<K(==)>(ks: seq<K>): seq<K> {
    AddNew([], ks)
  }

  /** A list without repetitions is its own `Dedup`. */
  lemma {:induction false} AddNewDistinct<K>(acc: seq<K>, ks: seq<K>)
    requires NoDuplicates(ks)
    requires forall k :: k in ks ==> k !in acc
    ensures AddNew(acc, ks) == acc + ks
    decreases |ks|
  {
    if |ks| > 0 {
      assert ks[0] in ks;
      assert NoDuplicates(ks[1..]) by {
        forall i, j | 0 <= i < j < |ks[1..]| ensures ks[1..][i] != ks[1..][j] {
          assert ks[1..][i] == ks[i + 1] && ks[1..][j] == ks[j + 1];
        }
      }
      forall k | k in ks[1..] ensures k !in acc + [ks[0]] {
        var j :| 0 <= j < |ks[1..]| && ks[1..][j] == k;
        assert ks[j + 1] == k && ks[0] != ks[j + 1];
        assert k in ks;
      }
      AddNewDistinct(acc + [ks[0]], ks[1..]);
      assert (acc + [ks[0]]) + ks[1..] == acc + ks;
    }
  }

  lemma DedupDistinct<K>(ks: seq<K>)
    ensures NoDuplicates(ks) ==> Dedup(ks) == ks
  {
    if NoDuplicates(ks) {
      AddNewDistinct([], ks);
    }
  }

  /** Setting entries one by one appends each new key once, at its first entry, after the old keys. */
  lemma {:induction false} SetAllKeys<K(!new), V>(m: OMap<K, V>, es: seq<(K, V)>)
    ensures Keys(SetAll(m, es)) == AddNew(Keys(m), Keys(es))
    decreases |es|
  {
    if |es| > 0 {
      var m1 := Set(m, es[0].0, es[0].1);
      Uncons(es);
      SetAllKeys(m1, es[1..]);
      assert Keys(es)[0] == es[0].0 && Keys(es)[1..] == Keys(es[1..]);
    }
  }

  /** A repetition-free key list holds no more keys than any list that covers it. */
  lemma DistinctLength<K(!new), V>(r: OMap<K, V>, ks: seq<K>)
    requires DistinctKeys(r)
    requires forall k :: HasKey(r, k) ==> k in ks
    ensures |r| <= |ks|
  {
    var rk := Keys(r);
    KeysAt(r);
    assert forall i, j :: 0 <= i < j < |rk| ==> rk[i] != rk[j];
    DistinctSubsetLength(rk, ks);
  }

  lemma {:induction false} DistinctSubsetLength<K>(a: seq<K>, b: seq<K>)
    requires forall i, j :: 0 <= i < j < |a| ==> a[i] != a[j]
    requires forall x :: x in a ==> x in b
    ensures |a| <= |b|
    decreases |a|
  {
    if |a| > 0 {
      var x := a[|a| - 1];
      var a' := a[..|a| - 1];
      assert x in a;
      var i :| 0 <= i < |b| && b[i] == x;
      var b' := b[..i] + b[i + 1..];
      forall y | y in a' ensures y in b' {
        var p :| 0 <= p < |a'| && a'[p] == y;
        assert a[p] == y && y != x;
        assert y in a;
        var q :| 0 <= q < |b| && b[q] == y;
        if q < i {
          assert b'[q] == y;
        } else {
          assert q != i;
          assert b'[q - 1] == y;
        }
      }
      DistinctSubsetLength(a', b');
    }
  }

  /**
    `array_merge($a, $b)` for string keys: `a`'s keys keep their positions,
    `b`'s new keys follow in their order, and `b`'s value wins on a clash.
   */
  function Merge<K(==,!new), V>(a: OMap<K, V>, b: OMap<K, V>): (r: OMap<K, V>)
    requires DistinctKeys(b)
    ensures DistinctKeys(a) ==> DistinctKeys(r)
    ensures IsPrefix(Keys(a), Keys(r))
    ensures forall k :: HasKey(r, k) <==> HasKey(a, k) || HasKey(b, k)
    ensures forall k :: Get(r, k) == if HasKey(b, k) then Get(b, k) else Get(a, k)
  {
    forall k | HasKey(b, k) ensures LastValue(b, k) == Get(b, k) {
      LastValueDistinct(b, k);
    }
    SetAll(a, b)
  }

  /** Without repeated keys, the last entry of a key is its only one. */
  lemma {:induction false} LastValueDistinct<K(!new), V>(es: OMap<K, V>, k: K)
    requires DistinctKeys(es)
    ensures LastValue(es, k) == Get(es, k)
    decreases |es|
  {
    if |es| > 0 {
      DistinctCons(es);
      LastValueDistinct(es[1..], k);
    }
  }

  /** Adds `k` only when it is new: the `+` operator's rule for one entry. */
  function AddIfAbsent<K(==,!new), V>(m: OMap<K, V>, k: K, v: V): OMap<K, V> {
    if HasKey(m, k) then m else m + [(k, v)]
  }

  /**
    `$a + $b`: every entry of `a` is kept as it is, and the entries of `b`
    whose keys `a` lacks follow in their order.
   */
  function Union<K(==,!new), V>(a: OMap<K, V>, b: OMap<K, V>): (r: OMap<K, V>)
    ensures DistinctKeys(a) ==> DistinctKeys(r)
    ensures IsPrefix(a, r)
    ensures forall k :: HasKey(r, k) <==> HasKey(a, k) || HasKey(b, k)
    ensures forall k :: Get(r, k) == if HasKey(a, k) then Get(a, k) else Get(b, k)
    decreases |b|
  {
    if |b| == 0 then a
    else
      var a1 := AddIfAbsent(a, b[0].0, b[0].1);
      var r := Union(a1, b[1..]);
      UnionStep(a, b, a1, r);
      r
  }

  lemma UnionStep<K(!new), V>(a: OMap<K, V>, b: OMap<K, V>, a1: OMap<K, V>, r: OMap<K, V>)
    requires |b| > 0 && a1 == AddIfAbsent(a, b[0].0, b[0].1)
    requires DistinctKeys(a1) ==> DistinctKeys(r)
    requires IsPrefix(a1, r)
    requires forall k :: HasKey(r, k) <==> HasKey(a1, k) || HasKey(b[1..], k)
    requires forall k :: Get(r, k) == if HasKey(a1, k) then Get(a1, k) else Get(b[1..], k)
    ensures DistinctKeys(a) ==> DistinctKeys(r)
    ensures IsPrefix(a, r)
    ensures forall k :: HasKey(r, k) <==> HasKey(a, k) || HasKey(b, k)
    ensures forall k :: Get(r, k) == if HasKey(a, k) then Get(a, k) else Get(b, k)
  {
    Uncons(b);
    AddIfAbsentFacts(a, b[0].0, b[0].1);
    assert r[..|a|] == r[..|a1|][..|a|];
  }

  lemma AddIfAbsentFacts<K(!new), V>(m: OMap<K, V>, k: K, v: V)
    ensures DistinctKeys(m) ==> DistinctKeys(AddIfAbsent(m, k, v))
    ensures IsPrefix(m, AddIfAbsent(m, k, v))
    ensures forall k' :: HasKey(AddIfAbsent(m, k, v), k') <==> HasKey(m, k') || k' == k
    ensures forall k' :: Get(AddIfAbsent(m, k, v), k') == if HasKey(m, k') then Get(m, k') else if k' == k then Some(v) else None
  {
    if !HasKey(m, k) {
      AppendFacts(m, k, v);
      assert (m + [(k, v)])[..|m|] == m;
    }
    forall k' ensures Get(AddIfAbsent(m, k, v), k') == if HasKey(m, k') then Get(m, k') else if k' == k then Some(v) else None {
      if HasKey(m, k) {
      } else {
        GetAppend(m, k, v, k');
      }
    }
  }

  lemma AppendFacts<K(!new), V>(m: OMap<K, V>, k: K, v: V)
    requires !HasKey(m, k)
    ensures Keys(m + [(k, v)]) == Keys(m) + [k]
    ensures DistinctKeys(m) ==> DistinctKeys(m + [(k, v)])
    ensures Get(m + [(k, v)], k) == Some(v)
    ensures forall k' :: k' != k ==> Get(m + [(k, v)], k') == Get(m, k')
  {
    var r := m + [(k, v)];
    KeysAt(r);
    KeysAt(m);
    assert Keys(r) == Keys(m) + [k];
    forall k' | k' != k ensures Get(r, k') == Get(m, k') {
      GetAppend(m, k, v, k');
    }
    GetAppend(m, k, v, k);
  }

  lemma {:induction false} GetAppend<K(!new), V>(m: OMap<K, V>, k: K, v: V, k': K)
    ensures Get(m + [(k, v)], k') == if HasKey(m, k') then Get(m, k') else if k == k' then Some(v) else None
    decreases |m|
  {
    if |m| > 0 {
      assert (m + [(k, v)])[1..] == m[1..] + [(k, v)];
      GetAppend(m[1..], k, v, k');
    }
  }

  /** `array_search($v, $m)`: the key of the first entry holding `v`, or `None` for `false`. */
  function KeyOf<K(!new), V(==,!new)>(m: OMap<K, V>, v: V): (r: Option<K>)
    ensures r.Some? ==> (r.value, v) in m
    ensures r.None? ==> forall e :: e in m ==> e.1 != v
  {
    if |m| == 0 then None
    else if m[0].1 == v then Some(m[0].0)
    else
      assert forall e :: e in m ==> e == m[0] || e in m[1..];
      KeyOf(m[1..], v)
  }

  /** `array_map($f, $m)`: the same keys in the same order, each value transformed. */
  function MapValues<K(!new), V, W>(m: OMap<K, V>, f: V -> W): (r: OMap<K, W>)
    ensures Keys(r) == Keys(m)
    ensures |r| == |m| && forall i :: 0 <= i < |m| ==> r[i] == (m[i].0, f(m[i].1))
  {
    var r := seq(|m|, i requires 0 <= i < |m| => (m[i].0, f(m[i].1)));
    KeysAt(r);
    KeysAt(m);
    r
  }

  /**
    `array_filter`, `array_diff` or `array_intersect` on a list whose keys
    are then ignored: the elements satisfying `keep`, in their order.
   */
  function KeepIf<T(!new)>(xs: seq<T>, keep: T -> bool): (r: seq<T>)
    ensures IsSubsequence(r, xs)
    ensures forall x :: x in r <==> x in xs && keep(x)
    ensures |r| <= |xs|
    ensures (forall i :: 0 <= i < |xs| ==> keep(xs[i])) ==> r == xs
  {
    if |xs| == 0 then []
    else
      var tail := KeepIf(xs[1..], keep);
      assert forall x :: x in xs <==> x == xs[0] || x in xs[1..];
      assert xs == [xs[0]] + xs[1..];
      if keep(xs[0]) then
        SubsequenceCons(xs[0], tail, xs[1..]);
        [xs[0]] + tail
      else
        SubsequenceSkip(xs[0], tail, xs[1..]);
        tail
  }
  /** Each kept element occurs in the result exactly as often as in `xs`; the others not at all. */
  lemma {:induction false} KeepIfCounts<T(!new)>(xs: seq<T>, keep: T -> bool)
    ensures forall x :: multiset(KeepIf(xs, keep))[x] == if keep(x) then multiset(xs)[x] else 0
    decreases |xs|
  {
    if |xs| > 0 {
      KeepIfCounts(xs[1..], keep);
      KeepIfFirst(xs, keep);
      assert xs == [xs[0]] + xs[1..];
      assert multiset(xs) == multiset([xs[0]]) + multiset(xs[1..]);
    }
  }

  lemma KeepIfFirst<T(!new)>(xs: seq<T>, keep: T -> bool)
    requires |xs| > 0
    ensures KeepIf(xs, keep) == (if keep(xs[0]) then [xs[0]] else []) + KeepIf(xs[1..], keep)
  {
  }

  lemma AssocSeq<T>(a: seq<T>, b: seq<T>, c: seq<T>)
    ensures (a + b) + c == a + (b + c)
  {
  }

  /** A table whose every value is `v` gives `v` for each of its keys. */
  lemma {:induction false} AllValues<K(!new), V>(m: OMap<K, V>, v: V)
    requires forall i :: 0 <= i < |m| ==> m[i].1 == v
    ensures forall k :: HasKey(m, k) ==> Get(m, k) == Some(v)
  {
    if |m| > 0 {
      assert forall i :: 0 <= i < |m| - 1 ==> m[1..][i] == m[i + 1];
      AllValues(m[1..], v);
    }
  }

  lemma GetSingle<K(!new), V>(k0: K, v: V, k: K)
    ensures HasKey([(k0, v)], k) <==> k == k0
    ensures Get([(k0, v)], k) == if k == k0 then Some(v) else None
  {
    assert [(k0, v)][1..] == [];
  }

  lemma ConsTail<T>(a: seq<T>, b: seq<T>)
    requires |a| > 0
    ensures (a + b)[0] == a[0] && (a + b)[1..] == a[1..] + b
  {
  }



  /** No element occurs twice. */
  predicate NoDuplicates<T(==)>(xs: seq<T>) {
    forall i, j :: 0 <= i < j < |xs| ==> xs[i] != xs[j]
  }

  /** Keeping some elements of a list without duplicates gives a list without duplicates. */
  lemma {:induction false} KeepIfNoDuplicates<T(!new)>(xs: seq<T>, keep: T -> bool)
    requires NoDuplicates(xs)
    ensures NoDuplicates(KeepIf(xs, keep))
    decreases |xs|
  {
    if |xs| > 0 {
      var tail := KeepIf(xs[1..], keep);
      assert NoDuplicates(xs[1..]) by {
        forall i, j | 0 <= i < j < |xs[1..]| ensures xs[1..][i] != xs[1..][j] {
          assert xs[1..][i] == xs[i + 1] && xs[1..][j] == xs[j + 1];
        }
      }
      KeepIfNoDuplicates(xs[1..], keep);
      if keep(xs[0]) {
        assert xs[0] !in tail;
        var r := [xs[0]] + tail;
        forall i, j | 0 <= i < j < |r| ensures r[i] != r[j] {
          assert r[j] == tail[j - 1];
          if i > 0 {
            assert r[i] == tail[i - 1];
          }
        }
      }
    }
  }

  /** An entry-wise way to show a key is absent. */
  lemma NotHasKey<K(!new), V>(m: OMap<K, V>, k: K)
    requires forall i :: 0 <= i < |m| ==> m[i].0 != k
    ensures !HasKey(m, k)
  {
    KeysAt(m);
  }

  /** Setting a new key appends exactly one entry. */
  lemma {:induction false} SetAbsent<K(!new), V>(m: OMap<K, V>, k: K, v: V)
    requires !HasKey(m, k)
    ensures Set(m, k, v) == m + [(k, v)]
    decreases |m|
  {
    if |m| > 0 {
      AbsentTail(m, k);
      SetAbsent(m[1..], k, v);
      SetPastHead(m, k, v);
      HeadConcat(m, [(k, v)]);
    }
  }

  /** A key absent from an array is absent from its first entry and from the rest. */
  lemma AbsentTail<K(!new), V>(m: OMap<K, V>, k: K)
    requires |m| > 0 && !HasKey(m, k)
    ensures m[0].0 != k && !HasKey(m[1..], k)
  {
    assert Keys(m) == [m[0].0] + Keys(m[1..]);
  }

  /** `Set` passes over a first entry with another key. */
  lemma SetPastHead<K(!new), V>(m: OMap<K, V>, k: K, v: V)
    requires |m| > 0 && m[0].0 != k
    ensures Set(m, k, v) == [m[0]] + Set(m[1..], k, v)
  {
  }

  /** `Remove` passes over a first entry with another key. */
  lemma RemovePastHead<K(!new), V>(m: OMap<K, V>, k: K)
    requires |m| > 0 && m[0].0 != k
    ensures Remove(m, k) == [m[0]] + Remove(m[1..], k)
  {
  }

  lemma HeadConcat<T>(m: seq<T>, b: seq<T>)
    requires |m| > 0
    ensures [m[0]] + (m[1..] + b) == m + b
  {
    assert m == [m[0]] + m[1..];
  }

  /** Unsetting the key of the first entry, when no other entry has it, drops that entry alone. */
  lemma RemoveHead<K(!new), V>(m: OMap<K, V>, k: K)
    requires |m| > 0 && m[0].0 == k && !HasKey(m[1..], k)
    ensures Remove(m, k) == m[1..]
  {
  }

  /** `array_map` seen key by key. */
  lemma {:induction false} GetMapValues<K(!new), V, W>(m: OMap<K, V>, f: V -> W, k: K)
    ensures Get(MapValues(m, f), k) == if HasKey(m, k) then Some(f(Get(m, k).value)) else None
    decreases |m|
  {
    var r := MapValues(m, f);
    if |m| > 0 {
      Uncons(m);
      Uncons(r);
      assert r[1..] == MapValues(m[1..], f);
      GetMapValues(m[1..], f, k);
    }
  }

  lemma EntryHasKey<K(!new), V>(m: OMap<K, V>, e: (K, V))
    requires e in m
    ensures HasKey(m, e.0)
  {
    KeysAt(m);
    var i :| 0 <= i < |m| && m[i] == e;
    assert Keys(m)[i] == e.0;
  }

  /** Without repeated keys, an entry's value is the one `Get` finds. */
  lemma DistinctEntry<K(!new), V>(m: OMap<K, V>, k: K, v: V)
    requires DistinctKeys(m) && (k, v) in m
    ensures Get(m, k) == Some(v)
  {
    var i :| 0 <= i < |m| && m[i] == (k, v);
    GetAt(m, i);
  }

  /** `foreach ($m as $k => $v) $m[$k] = f($k, $v)`: same keys and order, each value rewritten. */
  function MapEntries<K(!new), V>(m: OMap<K, V>, f: (K, V) -> V): (r: OMap<K, V>)
    ensures |r| == |m|
    ensures forall i :: 0 <= i < |m| ==> r[i] == (m[i].0, f(m[i].0, m[i].1))
  {
    seq(|m|, i requires 0 <= i < |m| => (m[i].0, f(m[i].0, m[i].1)))
  }

  /** `MapEntries` seen key by key. */
  lemma {:induction false} GetMapEntries<K(!new), V>(m: OMap<K, V>, f: (K, V) -> V, k: K)
    ensures Get(MapEntries(m, f), k) == if HasKey(m, k) then Some(f(k, Get(m, k).value)) else None
    decreases |m|
  {
    var r := MapEntries(m, f);
    if |m| > 0 {
      Uncons(m);
      Uncons(r);
      assert r[1..] == MapEntries(m[1..], f);
      GetMapEntries(m[1..], f, k);
    }
  }

  lemma KeysMapEntries<K(!new), V>(m: OMap<K, V>, f: (K, V) -> V)
    ensures Keys(MapEntries(m, f)) == Keys(m)
    ensures DistinctKeys(m) ==> DistinctKeys(MapEntries(m, f))
  {
    KeysAt(m);
    KeysAt(MapEntries(m, f));
  }

  /** Unsetting a key held by exactly one entry removes that entry and nothing else. */
  lemma {:induction false} RemoveMiddle<K(!new), V>(a: OMap<K, V>, k: K, v: V, b: OMap<K, V>)
    requires !HasKey(a, k) && !HasKey(b, k)
    ensures Remove(a + [(k, v)] + b, k) == a + b
    decreases |a|
  {
    var m := a + [(k, v)] + b;
    if |a| == 0 {
      assert m[0] == (k, v) && m[1..] == b;
      RemoveHead(m, k);
    } else {
      AbsentTail(a, k);
      assert m[0] == a[0];
      assert m[1..] == a[1..] + [(k, v)] + b;
      RemoveMiddle(a[1..], k, v, b);
      RemovePastHead(m, k);
      HeadConcat(a, b);
    }
  }

  /** `array_search($x, $xs)` on a list: the index of the first `x`. */
  function FirstIndex<T(==)>(xs: seq<T>, x: T): (r: Option<nat>)
    ensures r.Some? ==> r.value < |xs| && xs[r.value] == x
    ensures r.Some? ==> forall j :: 0 <= j < r.value ==> xs[j] != x
    ensures r.None? ==> forall j :: 0 <= j < |xs| ==> xs[j] != x
  {
    if |xs| == 0 then None
    else if xs[0] == x then Some(0)
    else match FirstIndex(xs[1..], x)
      case Some(i) => Some(i + 1)
      case None => None
  }

  /** `$m[$k] = $v` on a key already present replaces its entry where it stands. */
  lemma {:induction false} SetInPlace<K(!new), V>(m: OMap<K, V>, i: nat, v: V)
    requires DistinctKeys(m) && i < |m|
    ensures Set(m, m[i].0, v) == m[i := (m[i].0, v)]
    decreases i
  {
    if i > 0 {
      DistinctTail(m);
      assert m[1..][i - 1] == m[i];
      SetInPlace(m[1..], i - 1, v);
      assert m[0].0 != m[i].0;
      SetPastHead(m, m[i].0, v);
      UpdateTail(m, i, (m[i].0, v));
    } else {
      SetAtHead(m, v);
    }
  }

  lemma DistinctTail<K(!new), V>(m: OMap<K, V>)
    requires DistinctKeys(m) && |m| > 0
    ensures DistinctKeys(m[1..])
  {
    forall p, q | 0 <= p < q < |m[1..]| ensures m[1..][p].0 != m[1..][q].0 {
      assert m[1..][p] == m[p + 1] && m[1..][q] == m[q + 1];
    }
  }

  /** `Set` on the first entry's key replaces that entry. */
  lemma SetAtHead<K(!new), V>(m: OMap<K, V>, v: V)
    requires |m| > 0
    ensures Set(m, m[0].0, v) == m[0 := (m[0].0, v)]
  {
    assert m[0 := (m[0].0, v)] == [(m[0].0, v)] + m[1..];
  }

  lemma UpdateTail<T>(m: seq<T>, i: nat, x: T)
    requires 0 < i < |m|
    ensures m[i := x] == [m[0]] + m[1..][i - 1 := x]
  {
  }

  /** Setting entries the array already holds changes nothing. */
  lemma {:induction false} SetAllPresent<K(!new), V>(m: OMap<K, V>, es: seq<(K, V)>)
    requires DistinctKeys(m)
    requires forall j :: 0 <= j < |es| ==> es[j] in m
    ensures SetAll(m, es) == m
    decreases |es|
  {
    if |es| > 0 {
      assert es[0] in m;
      var i :| 0 <= i < |m| && m[i] == es[0];
      SetInPlace(m, i, es[0].1);
      assert m[i := (m[i].0, es[0].1)] == m;
      assert forall j :: 0 <= j < |es[1..]| ==> es[1..][j] == es[j + 1];
      SetAllPresent(m, es[1..]);
    }
  }

  /** Setting entries with new, distinct keys appends them in order. */
  lemma {:induction false} SetAllNew<K(!new), V>(m: OMap<K, V>, es: seq<(K, V)>)
    requires DistinctKeys(es)
    requires forall j :: 0 <= j < |es| ==> !HasKey(m, es[j].0)
    ensures SetAll(m, es) == m + es
    decreases |es|
  {
    if |es| > 0 {
      var m1 := m + [es[0]];
      RestStillNew(m, es);
      calc {
        SetAll(m, es);
        SetAll(Set(m, es[0].0, es[0].1), es[1..]);
        { SetAbsent(m, es[0].0, es[0].1); }
        SetAll(m1, es[1..]);
        { SetAllNew(m1, es[1..]); }
        m1 + es[1..];
        { ConsAppend(m, es); }
        m + es;
      }
    }
  }

  lemma ConsAppend<T>(m: seq<T>, es: seq<T>)
    requires |es| > 0
    ensures m + [es[0]] + es[1..] == m + es
  {
    assert es == [es[0]] + es[1..];
  }

  lemma RestStillNew<K(!new), V>(m: OMap<K, V>, es: seq<(K, V)>)
    requires |es| > 0 && DistinctKeys(es)
    requires forall j :: 0 <= j < |es| ==> !HasKey(m, es[j].0)
    ensures DistinctKeys(es[1..])
    ensures forall j :: 0 <= j < |es[1..]| ==> !HasKey(m + [es[0]], es[1..][j].0)
  {
    Uncons(es);
    forall j | 0 <= j < |es[1..]| ensures !HasKey(m + [es[0]], es[1..][j].0) {
      assert es[1..][j] == es[j + 1];
      AbsentAfterAppend(m, es[0], es[j + 1].0);
    }
  }

  /** A key absent from `m` and different from `e`'s is absent from `m + [e]`. */
  lemma AbsentAfterAppend<K(!new), V>(m: OMap<K, V>, e: (K, V), k: K)
    requires !HasKey(m, k) && e.0 != k
    ensures !HasKey(m + [e], k)
  {
    KeysAt(m);
    var m1 := m + [e];
    forall i | 0 <= i < |m1| ensures m1[i].0 != k {
      if i < |m| {
        assert m1[i] == m[i];
        assert Keys(m)[i] == m[i].0;
      }
    }
    NotHasKey(m1, k);
  }

  /** `SetAll` over a concatenation is `SetAll` over each part in turn. */
  lemma {:induction false} SetAllConcat<K(!new), V>(m: OMap<K, V>, xs: seq<(K, V)>, ys: seq<(K, V)>)
    ensures SetAll(m, xs + ys) == SetAll(SetAll(m, xs), ys)
    decreases |xs|
  {
    if |xs| > 0 {
      assert (xs + ys)[0] == xs[0] && (xs + ys)[1..] == xs[1..] + ys;
      SetAllConcat(Set(m, xs[0].0, xs[0].1), xs[1..], ys);
    } else {
      assert xs + ys == ys;
    }
  }

  /**
    `array_merge(array_slice($b, 0, $i, true) + $e, $b)` with new keys in `e`:
    the entries of `e` end up between `b`'s first `i` entries and the rest.
   */
  lemma MergeInsert<K(!new), V>(b: OMap<K, V>, i: nat, e: OMap<K, V>)
    requires DistinctKeys(b) && DistinctKeys(e) && i <= |b|
    requires forall j :: 0 <= j < |e| ==> !HasKey(b, e[j].0)
    ensures Merge(b[..i] + e, b) == b[..i] + e + b[i..]
  {
    var a := b[..i] + e;
    InsertDistinct(b, i, e);
    assert b == b[..i] + b[i..];
    SetAllConcat(a, b[..i], b[i..]);
    forall j | 0 <= j < |b[..i]| ensures b[..i][j] in a {
      assert a[j] == b[..i][j];
    }
    SetAllPresent(a, b[..i]);
    SuffixNew(b, i, e);
    SetAllNew(a, b[i..]);
  }

  /** The pieces `MergeInsert` works on keep their keys distinct. */
  lemma InsertDistinct<K(!new), V>(b: OMap<K, V>, i: nat, e: OMap<K, V>)
    requires DistinctKeys(b) && DistinctKeys(e) && i <= |b|
    requires forall j :: 0 <= j < |e| ==> !HasKey(b, e[j].0)
    ensures DistinctKeys(b[..i] + e)
    ensures DistinctKeys(b[i..])
  {
    KeysAt(b);
    var a := b[..i] + e;
    forall x, y | 0 <= x < y < |a| ensures a[x].0 != a[y].0 {
      if y < i {
        assert a[x] == b[x] && a[y] == b[y];
      } else if x >= i {
        assert a[x] == e[x - i] && a[y] == e[y - i];
      } else {
        assert a[x] == b[x] && a[y] == e[y - i];
        assert Keys(b)[x] == b[x].0;
      }
    }
    forall x, y | 0 <= x < y < |b[i..]| ensures b[i..][x].0 != b[i..][y].0 {
      assert b[i..][x] == b[i + x] && b[i..][y] == b[i + y];
    }
  }

  /** The entries after the cut are new to the array with `e` spliced in. */
  lemma SuffixNew<K(!new), V>(b: OMap<K, V>, i: nat, e: OMap<K, V>)
    requires DistinctKeys(b) && i <= |b|
    requires forall j :: 0 <= j < |e| ==> !HasKey(b, e[j].0)
    ensures forall j :: 0 <= j < |b[i..]| ==> !HasKey(b[..i] + e, b[i..][j].0)
  {
    KeysAt(b);
    var a := b[..i] + e;
    forall j | 0 <= j < |b[i..]| ensures !HasKey(a, b[i..][j].0) {
      var k := b[i + j].0;
      assert b[i..][j] == b[i + j];
      assert Keys(b)[i + j] == k;
      forall x | 0 <= x < |a| ensures a[x].0 != k {
        if x < i {
          assert a[x] == b[x];
        } else {
          assert a[x] == e[x - i];
        }
      }
      NotHasKey(a, k);
    }
  }

  /** The first `i` entries hold no key the whole array lacks, and repeat none. */
  lemma SliceFacts<K(!new), V>(m: OMap<K, V>, i: nat)
    requires i <= |m|
    ensures forall k :: !HasKey(m, k) ==> !HasKey(m[..i], k)
    ensures DistinctKeys(m) ==> DistinctKeys(m[..i])
  {
    KeysAt(m);
    KeysAt(m[..i]);
    forall k | !HasKey(m, k) ensures !HasKey(m[..i], k) {
      forall x | 0 <= x < i ensures m[..i][x].0 != k {
        assert Keys(m)[x] == m[x].0;
      }
      NotHasKey(m[..i], k);
    }
  }

  /** `Get` finds the first entry with the key. */
  lemma {:induction false} GetFirst<K(!new), V>(m: OMap<K, V>, i: nat, k: K)
    requires i < |m| && m[i].0 == k
    requires forall j :: 0 <= j < i ==> m[j].0 != k
    ensures Get(m, k) == Some(m[i].1)
    decreases i
  {
    if i > 0 {
      assert m[1..][i - 1] == m[i];
      GetFirst(m[1..], i - 1, k);
    }
  }
}

=== FILE: paged.dfy ===
/**
  The theme's pagination layer (`includes/paged.php`): archive pages move
  from `/page/N/` to `?page=N`, multi-page posts from `/N/` to `?page=N`,
  and the rewrite table, page links, rel links and "View all" link are
  adjusted to match.
 */
module Paged {
  import opened Wrappers
  import opened Strings
  import opened OrderedMaps
  import opened Urls

  /** A compiled rewrite table: regex pattern => query template. */
  type Rules = OMap<string, string>

  const PagedArg := "&paged="

  /** The optional `/N` page part WordPress appends to post patterns. */
  const OptionalPagePart := "(?:/([0-9]+))?/?$"

  /** What replaces that part once post pages are addressed by `?page=N`. */
  const OptionalSlash := "/?$"

  /** The query fragment that feeds the optional page part. */
  const PageMatchLead := "&page=$matches["

  const NextPageMarker := "<!--nextpage-->"

  // ---------------------------------------------------------------------
  // Rewrite tables
  // ---------------------------------------------------------------------

  /**
    Drops every archive-pagination rule: exactly the rules whose query
    holds `&paged=` disappear, the others keep their keys and order.
   */
  function RemovePaginationRules(rules: Rules): (r: Rules)
    ensures IsSubsequence(r, rules)
    ensures forall e :: e in r <==> e in rules && !Contains(e.1, PagedArg)
    ensures DistinctKeys(rules) ==> DistinctKeys(r)
  {
    Filter(rules, (q: string) => !Contains(q, PagedArg))
  }

  /**
    A post pattern loses its optional page part: every occurrence of it is
    replaced by an optional slash. Other patterns are returned unchanged.
   */
  function RewritePattern(p: string): (r: string)
    ensures !Contains(p, OptionalPagePart) ==> r == p
    ensures Contains(p, OptionalPagePart) ==> r == Join(Split(p, OptionalPagePart), OptionalSlash)
  {
    if Contains(p, OptionalPagePart) then
      ReplaceIsSplitJoin(p, OptionalPagePart, OptionalSlash);
      ReplaceAll(p, OptionalPagePart, OptionalSlash)
    else p
  }

  /** `q` ends with `&page=$matches[<digits>]`, and that suffix starts at `n`. */
  predicate PageMatchAt(q: string, n: nat) {
    n + |PageMatchLead| < |q|
    && q[n..n + |PageMatchLead|] == PageMatchLead
    && q[|q| - 1] == ']'
    && AllDigits(q[n + |PageMatchLead|..|q| - 1])
  }

  /**
    `preg_replace('/&page=\$matches\[[0-9]*\]$/', '', $q)`: removes the
    trailing page reference, if there is one, and nothing else.
   */
  function StripPageMatch(q: string): (r: string)
    ensures r != q <==> exists n :: PageMatchAt(q, n)
    ensures r != q ==> PageMatchAt(q, |r|) && q[..|r|] == r
  {
    if |q| > 0 && q[|q| - 1] == ']' then
      var body := q[..|q| - 1];
      var d := TrailingDigits(body);
      var pre := body[..|body| - |d|];
      if EndsWith(pre, PageMatchLead) then
        var r := pre[..|pre| - |PageMatchLead|];
        assert q[|r|..|r| + |PageMatchLead|] == PageMatchLead;
        assert q[|r| + |PageMatchLead|..|q| - 1] == d;
        assert PageMatchAt(q, |r|);
        r
      else
        NoPageMatch(q, body, d);
        q
    else
      q
  }

  /** When the digits before the final `]` are not led by `&page=$matches[`, nothing matches. */
  lemma NoPageMatch(q: string, body: string, d: string)
    requires |q| > 0 && q[|q| - 1] == ']' && body == q[..|q| - 1]
    requires d == TrailingDigits(body)
    requires !EndsWith(body[..|body| - |d|], PageMatchLead)
    ensures forall n :: !PageMatchAt(q, n)
  {
    forall n ensures !PageMatchAt(q, n) {
      NoPageMatchAt(q, body, d, n);
    }
  }

  lemma NoPageMatchAt(q: string, body: string, d: string, n: nat)
    requires |q| > 0 && q[|q| - 1] == ']' && body == q[..|q| - 1]
    requires d == TrailingDigits(body)
    requires !EndsWith(body[..|body| - |d|], PageMatchLead)
    ensures !PageMatchAt(q, n)
  {
    if PageMatchAt(q, n) {
      var start := n + |PageMatchLead|;
      assert body[start..] == q[start..|q| - 1];
      assert body[start - 1] == q[n..start][|PageMatchLead| - 1];
      TrailingDigitsExact(body, start);
    }
  }

  /** Digits that follow a non-digit are exactly the trailing digits. */
  lemma TrailingDigitsExact(s: string, k: nat)
    requires 0 < k <= |s| && AllDigits(s[k..]) && !IsDigit(s[k - 1])
    ensures |TrailingDigits(s)| == |s| - k
  {
    TrailingDigitsCover(s, k);
  }

  /** The trailing digits of `s` cover any all-digit suffix of it. */
  lemma {:induction false} TrailingDigitsCover(s: string, k: nat)
    requires k <= |s| && AllDigits(s[k..])
    ensures |TrailingDigits(s)| >= |s| - k
    decreases |s|
  {
    if k < |s| {
      assert IsDigit(s[|s| - 1]) by {
        assert s[k..][|s| - 1 - k] == s[|s| - 1];
      }
      assert s[..|s| - 1][k..] == s[k..|s| - 1];
      TrailingDigitsCover(s[..|s| - 1], k);
    }
  }

  /** Stripping undoes appending a page reference. */
  lemma StripAppended(p: string, d: string)
    requires AllDigits(d)
    ensures StripPageMatch(p + PageMatchLead + d + "]") == p
  {
    var q := p + PageMatchLead + d + "]";
    assert q[|p|..|p| + |PageMatchLead|] == PageMatchLead;
    assert q[|p| + |PageMatchLead|..|q| - 1] == d;
    assert PageMatchAt(q, |p|);
    var r := StripPageMatch(q);
    PageMatchUnique(q, |r|, |p|);
    assert q[..|p|] == p;
  }

  /** A query ends with at most one page reference. */
  lemma PageMatchUnique(q: string, n: nat, m: nat)
    requires PageMatchAt(q, n) && PageMatchAt(q, m)
    ensures n == m
  {
    NoAmpersandAfter(q, n);
    NoAmpersandAfter(q, m);
    assert q[m] == q[m..m + |PageMatchLead|][0];
    assert q[n] == q[n..n + |PageMatchLead|][0];
  }

  /** Past its first character, a page reference holds no `&`. */
  lemma NoAmpersandAfter(q: string, n: nat)
    requires PageMatchAt(q, n)
    ensures forall j :: n < j < |q| ==> q[j] != '&'
  {
    forall j | n < j < |q| ensures q[j] != '&' {
      if j < n + |PageMatchLead| {
        assert q[j] == q[n..n + |PageMatchLead|][j - n];
      } else if j < |q| - 1 {
        assert q[j] == q[n + |PageMatchLead|..|q| - 1][j - n - |PageMatchLead|];
      }
    }
  }

  /** A query that mentions `&page=` loses its trailing page reference; any other is unchanged. */
  function RewriteQuery(q: string): (r: string)
    ensures !Contains(q, "&page=") ==> r == q
    ensures Contains(q, "&page=") ==> r == StripPageMatch(q)
  {
    if Contains(q, "&page=") then StripPageMatch(q) else q
  }

  function RewrittenPatterns(rules: Rules): (ps: seq<string>)
    ensures |ps| == |rules|
    ensures forall i :: 0 <= i < |rules| ==> ps[i] == RewritePattern(rules[i].0)
  {
    seq(|rules|, i requires 0 <= i < |rules| => RewritePattern(rules[i].0))
  }

  function RewrittenQueries(rules: Rules): (qs: seq<string>)
    ensures |qs| == |rules|
    ensures forall i :: 0 <= i < |rules| ==> qs[i] == RewriteQuery(rules[i].1)
  {
    seq(|rules|, i requires 0 <= i < |rules| => RewriteQuery(rules[i].1))
  }

  /**
    Rewrites every pattern and query, then recombines them with
    `array_combine`. The table never grows, its keys are exactly the
    rewritten patterns, each placed where it first occurs (rule order is
    matching order), and when two rewritten patterns collide the query of
    the later rule wins.
   */
  function PostPaginationRewrite(rules: Rules): (r: Rules)
    ensures DistinctKeys(r)
    ensures |r| <= |rules|
    ensures Keys(r) == Dedup(RewrittenPatterns(rules))
    ensures forall k :: HasKey(r, k) <==> k in RewrittenPatterns(rules)
    ensures forall i :: 0 <= i < |rules|
              && (forall j :: i < j < |rules| ==> RewritePattern(rules[j].0) != RewritePattern(rules[i].0))
              ==> Get(r, RewritePattern(rules[i].0)) == Some(RewriteQuery(rules[i].1))
  {
    var ps := RewrittenPatterns(rules);
    var qs := RewrittenQueries(rules);
    var r := Combine(ps, qs);
    forall i | 0 <= i < |rules|
        && (forall j :: i < j < |rules| ==> RewritePattern(rules[j].0) != RewritePattern(rules[i].0))
      ensures Get(r, RewritePattern(rules[i].0)) == Some(RewriteQuery(rules[i].1))
    {
      var es := Zip(ps, qs);
      assert es[i] == (RewritePattern(rules[i].0), RewriteQuery(rules[i].1));
      forall j | i < j < |es| ensures es[j].0 != es[i].0 {
        assert es[j].0 == ps[j];
      }
      LastValueAt(es, i);
    }
    r
  }

  // ---------------------------------------------------------------------
  // Counting the pages of a post
  // ---------------------------------------------------------------------

  /** Newlines next to a page marker are absorbed into it, in the order `str_replace` applies the three searches. */
  function NormaliseMarkers(content: string): string {
    var c1 := ReplaceAll(content, "\n" + NextPageMarker + "\n", NextPageMarker);
    var c2 := ReplaceAll(c1, "\n" + NextPageMarker, NextPageMarker);
    ReplaceAll(c2, NextPageMarker + "\n", NextPageMarker)
  }

  /** A marker at the very start does not open an empty first page. */
  function DropLeadingMarker(content: string): (r: string)
    ensures StartsWith(content, NextPageMarker) ==> content == NextPageMarker + r
    ensures !StartsWith(content, NextPageMarker) ==> r == content
  {
    if StartsWith(content, NextPageMarker) then
      assert content == content[..|NextPageMarker|] + content[|NextPageMarker|..];
      content[|NextPageMarker|..]
    else content
  }

  /**
    The pages of a post's content. Content without a marker is one page;
    otherwise the normalised content is cut at every marker, the pieces hold
    no marker, and gluing them back with the marker gives the normalised
    content.
   */
  function Pages(content: string): (pages: seq<string>)
    ensures |pages| >= 1
    ensures !Contains(content, NextPageMarker) ==> pages == [content]
    ensures Contains(content, NextPageMarker) ==>
              Join(pages, NextPageMarker) == DropLeadingMarker(NormaliseMarkers(content))
    ensures forall i :: 0 <= i < |pages| && Contains(content, NextPageMarker) ==> !Contains(pages[i], NextPageMarker)
  {
    if Contains(content, NextPageMarker) then
      Split(DropLeadingMarker(NormaliseMarkers(content)), NextPageMarker)
    else
      [content]
  }

  /**
    `_thistle_get_post_numpages`: 0 without a post, 1 for content without a
    marker, otherwise one more than the markers left after normalising and
    dropping a leading marker.
   */
  function NumPages(post: Option<string>): (n: nat)
    ensures post.None? ==> n == 0
    ensures post.Some? && !Contains(post.value, NextPageMarker) ==> n == 1
    ensures post.Some? && Contains(post.value, NextPageMarker) ==>
              n == CountOcc(DropLeadingMarker(NormaliseMarkers(post.value)), NextPageMarker) + 1
    ensures post.Some? ==> n >= 1
  {
    match post
    case None => 0
    case Some(content) =>
      SplitCount(DropLeadingMarker(NormaliseMarkers(content)), NextPageMarker);
      |Pages(content)|
  }

  // ---------------------------------------------------------------------
  // Page-number links
  // ---------------------------------------------------------------------

  /**
    The `/<base>/<digits>` segment, with its optional trailing slash, that
    the pattern `|\/base\/(\d+)\/?|` matches at the start of `s`: the length
    it covers and its digits.
   */
  function SegmentAt(s: string, base: string): (r: Option<(nat, string)>)
    ensures r.Some? ==> |base| + 3 <= r.value.0 <= |s|
    ensures r.Some? ==> |r.value.1| > 0 && AllDigits(r.value.1)
    ensures r.Some? ==> StartsWith(s, "/" + base + "/" + r.value.1)
  {
    var lead := "/" + base + "/";
    if StartsWith(s, lead) then
      var d := LeadingDigits(s[|lead|..]);
      if |d| == 0 then None
      else
        var n := |lead| + |d|;
        assert s[..n] == lead + d by {
          assert s[|lead|..][..|d|] == s[|lead|..n];
        }
        Some((if n < |s| && s[n] == '/' then n + 1 else n, d))
    else None
  }

  predicate SegmentStartsAt(s: string, base: string, i: nat)
    requires i <= |s|
  {
    SegmentAt(s[i..], base).Some?
  }

  /** No segment starts at any of the first `k` positions of `s`. */
  predicate NoSegmentBefore(s: string, base: string, k: nat)
    requires k <= |s|
  {
    forall i :: 0 <= i < k ==> !SegmentStartsAt(s, base, i)
  }

  /** `preg_replace("|\/base\/\d+\/?|", "/$2", $s)`: every segment, scanned left to right, becomes `/`. */
  function CollapseSegments(s: string, base: string): string
    decreases |s|
  {
    if |s| == 0 then ""
    else
      match SegmentAt(s, base)
      case Some((n, _)) => "/" + CollapseSegments(s[n..], base)
      case None => [s[0]] + CollapseSegments(s[1..], base)
  }

  /** The digits of the leftmost segment, as `preg_match` captures them. */
  function FirstPageNumber(s: string, base: string): Option<string>
    decreases |s|
  {
    if |s| == 0 then None
    else
      match SegmentAt(s, base)
      case Some((_, d)) => Some(d)
      case None => FirstPageNumber(s[1..], base)
  }

  /** Text before the first segment is copied as it is, and does not change which segment is first. */
  lemma {:induction false} CollapsePrefix(s: string, base: string, k: nat)
    requires k <= |s| && NoSegmentBefore(s, base, k)
    ensures CollapseSegments(s, base) == s[..k] + CollapseSegments(s[k..], base)
    ensures FirstPageNumber(s, base) == FirstPageNumber(s[k..], base)
    decreases k
  {
    if k > 0 {
      assert !SegmentStartsAt(s, base, 0);
      assert s[0..] == s;
      NoSegmentShift(s, base, k);
      CollapsePrefix(s[1..], base, k - 1);
      TakeDropCons(s, k);
      assert CollapseSegments(s, base) == [s[0]] + CollapseSegments(s[1..], base);
      ConsConcat(s[0], s[1..][..k - 1], CollapseSegments(s[k..], base), s[..k]);
    }
  }

  lemma NoSegmentShift(s: string, base: string, k: nat)
    requires 0 < k <= |s| && NoSegmentBefore(s, base, k)
    ensures NoSegmentBefore(s[1..], base, k - 1)
  {
    forall i | 0 <= i < k - 1 ensures !SegmentStartsAt(s[1..], base, i) {
      assert !SegmentStartsAt(s, base, i + 1);
      assert s[1..][i..] == s[i + 1..];
    }
  }

  /** A string without any segment is left as it is. */
  lemma NoSegmentUnchanged(s: string, base: string)
    requires NoSegmentBefore(s, base, |s|)
    ensures CollapseSegments(s, base) == s
    ensures FirstPageNumber(s, base).None?
  {
    CollapsePrefix(s, base, |s|);
    assert s[..|s|] == s;
  }

  /**
    A link `pre/<base>/N/post` whose `pre` holds no segment collapses to
    `pre/` followed by the collapsed `post`, and its first page number is N.
   */
  lemma CollapseOneSegment(s: string, pre: string, base: string, d: string, post: string)
    requires |d| > 0 && AllDigits(d)
    requires s == pre + "/" + base + "/" + d + "/" + post
    requires NoSegmentBefore(s, base, |pre|)
    ensures CollapseSegments(s, base) == pre + "/" + CollapseSegments(post, base)
    ensures FirstPageNumber(s, base) == Some(d)
  {
    var t := "/" + base + "/" + d + "/" + post;
    SplitAtPrefix(s, pre, t);
    SegmentOf(base, d, post);
    var n := |base| + 3 + |d|;
    DropSegment(t, base, d, post, n);
    CollapseAfterPrefix(s, pre, t, base, n, d, post);
  }

  lemma CollapseAfterPrefix(s: string, pre: string, t: string, base: string, n: nat, d: string, post: string)
    requires |pre| <= |s| && s[..|pre|] == pre && s[|pre|..] == t
    requires NoSegmentBefore(s, base, |pre|)
    requires SegmentAt(t, base) == Some((n, d)) && t[n..] == post
    ensures CollapseSegments(s, base) == pre + "/" + CollapseSegments(post, base)
    ensures FirstPageNumber(s, base) == Some(d)
  {
    CollapsePrefix(s, base, |pre|);
    CollapseAtSegment(t, base, n, d);
  }

  lemma SplitAtPrefix(s: string, pre: string, t: string)
    requires s == pre + t
    ensures s[|pre|..] == t && s[..|pre|] == pre
  {
  }

  lemma DropSegment(t: string, base: string, d: string, post: string, n: nat)
    requires t == "/" + base + "/" + d + "/" + post && n == |base| + 3 + |d|
    ensures t[n..] == post
  {
  }

  lemma CollapseAtSegment(t: string, base: string, n: nat, d: string)
    requires SegmentAt(t, base) == Some((n, d))
    ensures CollapseSegments(t, base) == "/" + CollapseSegments(t[n..], base)
    ensures FirstPageNumber(t, base) == Some(d)
  {
  }

  /** The segment at the start of `/<base>/N/post` covers `/<base>/N/`. */
  lemma SegmentOf(base: string, d: string, post: string)
    requires |d| > 0 && AllDigits(d)
    ensures SegmentAt("/" + base + "/" + d + "/" + post, base) == Some((|base| + 3 + |d|, d))
  {
    var lead := "/" + base + "/";
    var t := "/" + base + "/" + d + "/" + post;
    assert t == lead + (d + ("/" + post));
    assert StartsWith(t, lead) by {
      assert t[..|lead|] == lead;
    }
    assert t[|lead|..] == d + ("/" + post);
    LeadingDigitsStop(d, "/" + post);
    assert t[|lead| + |d|] == '/';
  }

  /**
    `thistle_get_pagenum_link`: every segment of the address collapses to
    `/`, any `page` argument is removed, and when a segment was found its
    number becomes the `page` argument. Other arguments are kept.
   */
  function PagenumLink(u: Url, base: string): (r: Url)
    ensures r.address == CollapseSegments(u.address, base)
    ensures Get(r.query, "page") == FirstPageNumber(u.address, base)
    ensures forall k :: k != "page" ==> Get(r.query, k) == Get(u.query, k)
    ensures u.Valid() ==> r.Valid()
  {
    var stripped := RemoveArg(u, "page");
    var collapsed := Url(CollapseSegments(stripped.address, base), stripped.query);
    match FirstPageNumber(u.address, base)
    case Some(d) => AddArg(collapsed, "page", Some(d))
    case None => collapsed
  }

  /** A link without a segment only loses its `page` argument. */
  lemma PagenumLinkWithoutSegment(u: Url, base: string)
    requires NoSegmentBefore(u.address, base, |u.address|)
    ensures PagenumLink(u, base) == RemoveArg(u, "page")
  {
    NoSegmentUnchanged(u.address, base);
  }

  /** A link `pre/<base>/N/post` becomes `pre/post` (collapsed) with `page=N`. */
  lemma PagenumLinkWithSegment(u: Url, base: string, pre: string, d: string, post: string)
    requires |d| > 0 && AllDigits(d)
    requires u.address == pre + "/" + base + "/" + d + "/" + post
    requires NoSegmentBefore(u.address, base, |pre|)
    ensures PagenumLink(u, base).address == pre + "/" + CollapseSegments(post, base)
    ensures Get(PagenumLink(u, base).query, "page") == Some(d)
  {
    CollapseOneSegment(u.address, pre, base, d, post);
  }

  // ---------------------------------------------------------------------
  // rel="next" / rel="prev"
  // ---------------------------------------------------------------------

  datatype RelLinks = RelLinks(next: Option<Url>, prev: Option<Url>)

  /** The link to page `n` of a post, or to its first page for `None`. */
  function PageLink(permalink: Url, n: Option<nat>): (r: Url)
    ensures r.address == permalink.address
    ensures Get(r.query, "page") == (if n.Some? then Some(NatToString(n.value)) else None)
    ensures forall k :: k != "page" ==> Get(r.query, k) == Get(permalink.query, k)
  {
    match n
    case Some(p) => AddArg(permalink, "page", Some(NatToString(p)))
    case None => AddArg(permalink, "page", None)
  }

  /**
    `thistle_adjacent_posts_rel_link` on a singular page, as written: the
    `page` query variable is used as it is (0 on the first page), so a post
    of one page still gets a "next" link, to `?page=1`.
   */
  function SingularRelLinks(page: nat, numpages: nat, permalink: Url): (r: RelLinks)
    ensures r.next.Some? <==> numpages != 0 && page < numpages
    ensures r.prev.Some? <==> numpages != 0 && page > 1
    ensures r.next.Some? ==> r.next.value == PageLink(permalink, Some(page + 1))
    ensures r.prev.Some? ==> r.prev.value == PageLink(permalink, if page == 2 then None else Some(page - 1))
  {
    if numpages == 0 then RelLinks(None, None)
    else
      RelLinks(
        if page < numpages then Some(PageLink(permalink, Some(page + 1))) else None,
        if page > 1 then Some(PageLink(permalink, if page == 2 then None else Some(page - 1))) else None)
  }

  /** The `page` query variable as it may be read: the empty string or a number. */
  datatype PageVar = EmptyPage | PageNumber(n: nat)

  /**
    `thistle_adjacent_posts_rel_link` on the raw `page` query variable.
    PHP 7 reads the empty string as 0 in `<`, `>` and `+`. PHP 8 compares it
    with an integer as a string, so `'' < $numpages` holds and `'' > 1` does
    not, and `'' + 1` throws a `TypeError`: `None` stands for that error.
   */
  function SingularRelLinksOn(php: PhpVersion, page: PageVar, numpages: nat, permalink: Url): (r: Option<RelLinks>)
    ensures page.PageNumber? ==> r == Some(SingularRelLinks(page.n, numpages, permalink))
    ensures page.EmptyPage? && php == Php7 ==> r == Some(SingularRelLinks(0, numpages, permalink))
    ensures page.EmptyPage? && php == Php8 ==> (r.None? <==> numpages != 0)
    ensures r.Some? && page.EmptyPage? ==> r.value.prev.None?
  {
    match page
    case PageNumber(n) => Some(SingularRelLinks(n, numpages, permalink))
    case EmptyPage =>
      if php == Php7 then Some(SingularRelLinks(0, numpages, permalink))
      else if numpages == 0 then Some(RelLinks(None, None))
      else None
  }

  /** On the first page of a one-page post the "next" link points back to page 1. */
  lemma SingularNextOnSinglePage(permalink: Url)
    ensures SingularRelLinks(0, 1, permalink).next == Some(PageLink(permalink, Some(1)))
    ensures SingularRelLinksOn(Php7, EmptyPage, 1, permalink).value.next == Some(PageLink(permalink, Some(1)))
    ensures SingularRelLinksOn(Php8, EmptyPage, 1, permalink).None?
  {
  }

  /**
    The intended singular rel links: the first page (query variable 0)
    counts as page 1, as the archive links do. "next" then leads to a page
    after the current one that exists, and "prev" to one before it.
   */
  function SingularRelLinksIntended(page: nat, numpages: nat, permalink: Url): (r: RelLinks)
    ensures r.next.Some? ==> exists n :: 2 <= n <= numpages && n > page && r.next.value == PageLink(permalink, Some(n))
    ensures r.next.Some? <==> numpages != 0 && (if page == 0 then 1 else page) < numpages
    ensures r.prev.Some? <==> numpages != 0 && page > 1
  {
    SingularRelLinks(if page == 0 then 1 else page, numpages, permalink)
  }

  /** The two definitions differ only on the first page. */
  lemma IntendedAgreesAfterFirstPage(page: nat, numpages: nat, permalink: Url)
    requires page >= 1
    ensures SingularRelLinksIntended(page, numpages, permalink) == SingularRelLinks(page, numpages, permalink)
  {
  }

  datatype ArchiveRel = ArchiveRel(next: bool, prev: bool)

  /**
    `thistle_get_adjacent_archive_rel_links` on a listing page: an unset
    page number counts as page 1; "next" exists while the following page
    exists, "prev" from page 2 on.
   */
  function ArchiveRelLinks(paged: nat, maxNumPages: nat): (r: ArchiveRel)
    ensures r.next <==> (if paged == 0 then 1 else paged) + 1 <= maxNumPages
    ensures r.prev <==> paged > 1
    ensures r.next ==> maxNumPages >= 2
    ensures paged <= 1 ==> !r.prev
  {
    var current := if paged == 0 then 1 else paged;
    ArchiveRel(current + 1 <= maxNumPages, current > 1)
  }

  /**
    The archive links are symmetric: page `p` links to a next page exactly
    when that page exists and links back to `p`.
   */
  lemma ArchiveNavigationSymmetric(p: nat, maxNumPages: nat)
    requires p >= 1
    ensures ArchiveRelLinks(p, maxNumPages).next <==> p + 1 <= maxNumPages && ArchiveRelLinks(p + 1, maxNumPages).prev
    ensures ArchiveRelLinks(p + 1, maxNumPages).prev && p + 1 <= maxNumPages ==> ArchiveRelLinks(p, maxNumPages).next
  {
  }

  /** Following "next" from the first page visits every page up to the last, which has none. */
  lemma {:induction false} ArchiveNextChain(p: nat, maxNumPages: nat)
    requires 1 <= p <= maxNumPages
    ensures forall n :: p <= n < maxNumPages ==> ArchiveRelLinks(n, maxNumPages).next
    ensures !ArchiveRelLinks(maxNumPages, maxNumPages).next
    decreases maxNumPages - p
  {
    if p < maxNumPages {
      ArchiveNextChain(p + 1, maxNumPages);
    }
  }

  // ---------------------------------------------------------------------
  // The "View all" link
  // ---------------------------------------------------------------------

  /** The `wp_link_pages` defaults; `tr` is the translation function. */
  function LinkPagesDefaults(tr: string -> string): (m: OMap<string, string>)
    ensures DistinctKeys(m)
  {
    [ ("before", "<p>" + tr("Pages:")),
      ("after", "</p>"),
      ("link_before", ""),
      ("link_after", ""),
      ("next_or_number", "number"),
      ("separator", " "),
      ("nextpagelink", tr("Next page")),
      ("previouspagelink", tr("Previous page")),
      ("pagelink", "%"),
      ("echo", "1") ]
  }

  /** `wp_parse_args($args, $defaults)`: the given arguments override the defaults. */
  function LinkPagesParams(args: OMap<string, string>, tr: string -> string): (r: OMap<string, string>)
    requires DistinctKeys(args)
    ensures DistinctKeys(r)
    ensures forall k :: Get(r, k) == if HasKey(args, k) then Get(args, k) else Get(LinkPagesDefaults(tr), k)
  {
    Merge(LinkPagesDefaults(tr), args)
  }

  /**
    `mb_substr($s, 0, -$n)`: a negative length stops that many characters
    before the end, and a length of `-0`, which is 0, gives the empty string.
   */
  function MbCutEnd(s: string, n: nat): (r: string)
    ensures n == 0 ==> r == ""
    ensures 0 < n < |s| ==> r + s[|s| - n..] == s
    ensures n >= |s| ==> r == ""
  {
    if n == 0 || n >= |s| then "" else s[..|s| - n]
  }

  /** Cutting a known suffix off `s` by its length, with an empty suffix cutting nothing. */
  function CutSuffix(s: string, n: nat): (r: string)
    ensures n <= |s| ==> r + s[|s| - n..] == s
    ensures n > |s| ==> r == ""
  {
    if n > |s| then "" else s[..|s| - n]
  }

  /** `mb_substr` with an empty `after` wipes the whole output. */
  lemma EmptyAfterWipesOutput(output: string)
    requires output != ""
    ensures MbCutEnd(output, 0) == "" && CutSuffix(output, 0) == output
  {
  }

  /** The "View all" anchor: `allLinkOpen` is what `_wp_link_page('all')` prints. */
  function ViewAllLink(params: OMap<string, string>, tr: string -> string, allLinkOpen: string): string {
    allLinkOpen + GetOr(params, "link_before", "") + tr("View all") + GetOr(params, "link_after", "") + "</a>"
  }

  /** What the "View all" block appends: the separator, the link, then the `after` text. */
  function ViewAllTail(p: OMap<string, string>, tr: string -> string, allLinkOpen: string): string {
    GetOr(p, "separator", "") + ViewAllLink(p, tr, allLinkOpen) + GetOr(p, "after", "")
  }

  /**
    `thistle_wp_link_pages` as written. Line 247 assigns `'number'` instead
    of comparing, so the "View all" link is added whatever
    `next_or_number` says; the `after` text is cut by its length with
    `mb_substr`, which wipes the output when `after` is empty (or not
    shorter than the output). The result ends with the separator, the link
    and `after`; what comes before is the output less its last |after|
    characters.
   */
  function LinkPages(output: string, args: OMap<string, string>, tr: string -> string, allLinkOpen: string): (r: string)
    requires DistinctKeys(args)
    ensures output == "" ==> r == ""
    ensures output != "" ==>
              var p := LinkPagesParams(args, tr);
              var n := |GetOr(p, "after", "")|;
              var tail := ViewAllTail(p, tr, allLinkOpen);
              EndsWith(r, tail)
              && (0 < n < |output| ==> r[..|r| - |tail|] + output[|output| - n..] == output)
              && (n == 0 || n >= |output| ==> r == tail)
  {
    if output == "" then output
    else
      var p := LinkPagesParams(args, tr);
      var after := GetOr(p, "after", "");
      var head := MbCutEnd(output, |after|);
      var tail := ViewAllTail(p, tr, allLinkOpen);
      EndsWithAppend(head, tail);
      assert (head + tail)[..|head|] == head;
      head + tail
  }

  /** Asking for `next_or_number = next` still gets the "View all" link. */
  lemma LinkPagesIgnoresMode(output: string, args: OMap<string, string>, tr: string -> string, allLinkOpen: string)
    requires DistinctKeys(args) && output != ""
    requires Get(args, "next_or_number") == Some("next")
    ensures var p := LinkPagesParams(args, tr);
            EndsWith(LinkPages(output, args, tr, allLinkOpen), ViewAllLink(p, tr, allLinkOpen) + GetOr(p, "after", ""))
  {
    var p := LinkPagesParams(args, tr);
    var link := ViewAllLink(p, tr, allLinkOpen);
    var after := GetOr(p, "after", "");
    Assoc(GetOr(p, "separator", ""), link, after);
    EndsWithShorter(LinkPages(output, args, tr, allLinkOpen), GetOr(p, "separator", ""), link + after);
  }

  /**
    The intended "View all" link: added only in `number` mode, placed
    before the `after` text the output ends with, or at the end when the
    output does not end with it; an empty `after` cuts nothing.
   */
  function LinkPagesIntended(output: string, args: OMap<string, string>, tr: string -> string, allLinkOpen: string): (r: string)
    requires DistinctKeys(args)
    ensures output == "" ==> r == ""
    ensures GetOr(LinkPagesParams(args, tr), "next_or_number", "") != "number" ==> r == output
    ensures output != "" && GetOr(LinkPagesParams(args, tr), "next_or_number", "") == "number"
            && EndsWith(output, GetOr(LinkPagesParams(args, tr), "after", "")) ==>
              var p := LinkPagesParams(args, tr);
              var after := GetOr(p, "after", "");
              exists links :: output == links + after
                && r == links + GetOr(p, "separator", "") + ViewAllLink(p, tr, allLinkOpen) + after
    ensures output != "" && GetOr(LinkPagesParams(args, tr), "next_or_number", "") == "number"
            && !EndsWith(output, GetOr(LinkPagesParams(args, tr), "after", "")) ==>
              var p := LinkPagesParams(args, tr);
              StartsWith(r, output) && r[|output|..] == GetOr(p, "separator", "") + ViewAllLink(p, tr, allLinkOpen)
  {
    var p := LinkPagesParams(args, tr);
    var after := GetOr(p, "after", "");
    if output == "" || GetOr(p, "next_or_number", "") != "number" then output
    else if EndsWith(output, after) then
      var links := CutSuffix(output, |after|);
      links + GetOr(p, "separator", "") + ViewAllLink(p, tr, allLinkOpen) + after
    else
      var added := GetOr(p, "separator", "") + ViewAllLink(p, tr, allLinkOpen);
      assert (output + added)[..|output|] == output && (output + added)[|output|..] == added;
      output + added
  }

  /**
    Where the output ends with a non-empty `after`, as `wp_link_pages`
    builds it, the code as written and the intended version agree in
    `number` mode.
   */
  lemma LinkPagesAgreesInNumberMode(output: string, args: OMap<string, string>, tr: string -> string, allLinkOpen: string)
    requires DistinctKeys(args)
    requires GetOr(LinkPagesParams(args, tr), "next_or_number", "") == "number"
    requires GetOr(LinkPagesParams(args, tr), "after", "") != ""
    requires EndsWith(output, GetOr(LinkPagesParams(args, tr), "after", ""))
    ensures LinkPages(output, args, tr, allLinkOpen) == LinkPagesIntended(output, args, tr, allLinkOpen)
  {
    if output != "" {
      var p := LinkPagesParams(args, tr);
      var after := GetOr(p, "after", "");
      assert MbCutEnd(output, |after|) == CutSuffix(output, |after|);
      var links := CutSuffix(output, |after|);
      Assoc(links + GetOr(p, "separator", ""), ViewAllLink(p, tr, allLinkOpen), after);
      Assoc(links, GetOr(p, "separator", ""), ViewAllLink(p, tr, allLinkOpen) + after);
      Assoc(GetOr(p, "separator", ""), ViewAllLink(p, tr, allLinkOpen), after);
    }
  }
}

=== FILE: post_type.dfy ===
/**
  The `exclude_from_search` toggle (`includes/post-type.php`): for a
  taxonomy query without a post type, the post types hidden from search but
  having an archive are briefly shown, so the taxonomy archive lists them,
  and hidden again once the query has selected its posts.
 */
module PostTypes {
  import opened Wrappers
  import opened Strings
  import opened OrderedMaps

  /** The part of a registered post type object the toggle reads and writes. */
  datatype PostType = PostType(excludeFromSearch: bool, hasArchive: bool)

  /**
    The two globals involved: `$wp_post_types` (name => object, in
    registration order) and `$thistle_exclude_from_search`, the names the
    toggle changed.
   */
  datatype Globals = Globals(types: OMap<string, PostType>, recorded: seq<string>)

  /** A post type the toggle shows for the taxonomy query. */
  predicate Toggled(pt: PostType) {
    pt.excludeFromSearch && pt.hasArchive
  }

  /** Whether `pre_get_posts` sees a taxonomy query with an empty `post_type`. */
  predicate Active(isTax: bool, postType: string) {
    isTax && PhpEmpty(postType)
  }

  /** The names of the toggled types, in registration order. */
  function ToggledNames(types: OMap<string, PostType>): (names: seq<string>)
    ensures forall n :: n in names <==> exists e :: e in types && e.0 == n && Toggled(e.1)
  {
    var kept := Filter(types, Toggled);
    KeysAt(kept);
    assert forall n :: n in Keys(kept) ==> exists i :: 0 <= i < |kept| && kept[i].0 == n;
    Keys(kept)
  }

  function Show(k: string, pt: PostType): PostType {
    if Toggled(pt) then pt.(excludeFromSearch := false) else pt
  }

  /**
    `thistle_include_to_taxonomy`: for an active query, every post type
    hidden from search with an archive is shown and its name appended to
    the record; every other post type, and everything for any other query,
    stays as it was.
   */
  function IncludeToTaxonomy(g: Globals, isTax: bool, postType: string): (r: Globals)
    ensures !Active(isTax, postType) ==> r == g
    ensures Active(isTax, postType) ==> r.recorded == g.recorded + ToggledNames(g.types)
    ensures Keys(r.types) == Keys(g.types)
    ensures DistinctKeys(g.types) ==> DistinctKeys(r.types)
    ensures forall k :: Get(r.types, k) ==
              (match Get(g.types, k)
               case None => None
               case Some(pt) => Some(if Active(isTax, postType) && Toggled(pt) then pt.(excludeFromSearch := false) else pt))
  {
    if Active(isTax, postType) then
      var types := MapEntries(g.types, Show);
      KeysMapEntries(g.types, Show);
      forall k ensures Get(types, k) == match Get(g.types, k) case None => None case Some(pt) => Some(Show(k, pt)) {
        GetMapEntries(g.types, Show, k);
      }
      Globals(types, g.recorded + ToggledNames(g.types))
    else g
  }

  function Hide(recorded: seq<string>): (string, PostType) -> PostType {
    (k: string, pt: PostType) => if k in recorded then pt.(excludeFromSearch := true) else pt
  }

  /** The loop of lines 54-58: every recorded post type is hidden from search again. */
  function RestoreTypes(types: OMap<string, PostType>, recorded: seq<string>): (r: OMap<string, PostType>)
    ensures Keys(r) == Keys(types)
    ensures DistinctKeys(types) ==> DistinctKeys(r)
    ensures forall k :: Get(r, k) ==
              (match Get(types, k)
               case None => None
               case Some(pt) => Some(if k in recorded then pt.(excludeFromSearch := true) else pt))
  {
    var r := MapEntries(types, Hide(recorded));
    KeysMapEntries(types, Hide(recorded));
    forall k ensures Get(r, k) == match Get(types, k) case None => None case Some(pt) => Some(Hide(recorded)(k, pt)) {
      GetMapEntries(types, Hide(recorded), k);
    }
    r
  }

  /**
    `thistle_exclude_from_search` as written: the recorded types are
    hidden again, but `unset` only drops the function's local alias of the
    global, so the record itself is kept.
   */
  function ExcludeFromSearch(g: Globals): (r: Globals)
    ensures r.recorded == g.recorded
    ensures r.types == RestoreTypes(g.types, g.recorded)
  {
    Globals(RestoreTypes(g.types, g.recorded), g.recorded)
  }

  /** The evident intent: hide the recorded types again and forget them. */
  function ExcludeFromSearchIntended(g: Globals): (r: Globals)
    ensures r.recorded == []
    ensures r.types == RestoreTypes(g.types, g.recorded)
  {
    Globals(RestoreTypes(g.types, g.recorded), [])
  }

  /**
    Starting from an empty record, showing and then hiding again gives
    back exactly the globals the query started with.
   */
  lemma ToggleRoundTrip(g: Globals, isTax: bool, postType: string)
    requires DistinctKeys(g.types) && g.recorded == []
    ensures ExcludeFromSearchIntended(IncludeToTaxonomy(g, isTax, postType)) == g
  {
    var mid := IncludeToTaxonomy(g, isTax, postType);
    var r := ExcludeFromSearchIntended(mid);
    forall k ensures Get(r.types, k) == Get(g.types, k) {
      if Active(isTax, postType) && HasKey(g.types, k) {
        var pt := Get(g.types, k).value;
        if k in ToggledNames(g.types) {
          var e :| e in g.types && e.0 == k && Toggled(e.1);
          DistinctEntry(g.types, e.0, e.1);
        }
      }
    }
    SameEntries(r.types, g.types);
  }

  /** Two tables with the same keys in the same order and the same lookups are equal. */
  lemma SameEntries(a: OMap<string, PostType>, b: OMap<string, PostType>)
    requires Keys(a) == Keys(b) && DistinctKeys(b)
    requires forall k :: Get(a, k) == Get(b, k)
    ensures a == b
  {
    KeysAt(a);
    KeysAt(b);
    assert |a| == |Keys(a)| == |b|;
    forall i | 0 <= i < |a| ensures a[i] == b[i] {
      assert a[i].0 == b[i].0;
      GetAt(b, i);
      assert DistinctKeys(a);
      GetAt(a, i);
    }
  }

  /**
    As written, a second taxonomy query records the same post types a
    second time: the record only ever grows.
   */
  lemma RecordedNamesAccumulate()
    ensures var g := Globals([("event", PostType(true, true))], []);
      var once := ExcludeFromSearch(IncludeToTaxonomy(g, true, ""));
      ExcludeFromSearch(IncludeToTaxonomy(once, true, "")).recorded == ["event", "event"]
  {
    var types := [("event", PostType(true, true))];
    assert Filter(types, Toggled) == types;
    assert ToggledNames(types) == ["event"];
  }
}

=== FILE: search.dfy ===
/**
  Search permalinks (`includes/search.php`): search results live under
  `<search base>/?s=<terms>`, the `s` query variable is only honoured on
  that page, and search terms are highlighted in the main search query.
 */
module Search {
  import opened Wrappers
  import opened Strings
  import opened OrderedMaps
  import opened Urls

  /** A compiled rewrite table: regex pattern => query template. */
  type Rules = OMap<string, string>

  const SearchArg := "&s="
  const SearchQuery := "index.php?s="
  const SearchTag := "%search%"

  // ---------------------------------------------------------------------
  // Rewrite rules
  // ---------------------------------------------------------------------

  /** The pattern of the search page itself. */
  function BasePattern(searchBase: string): string {
    searchBase + "/?$"
  }

  /**
    Lines 55-57: the host's rules for the `recherche` structure
    (`generated`), each query followed by `&s=`, then the search page
    pattern mapped to `index.php?s=`.
   */
  function SearchRules(generated: Rules, searchBase: string): (r: Rules)
    ensures DistinctKeys(generated) ==> DistinctKeys(r)
    ensures Get(r, BasePattern(searchBase)) == Some(SearchQuery)
    ensures forall k :: k != BasePattern(searchBase) && HasKey(generated, k) ==>
              Get(r, k) == Some(Get(generated, k).value + SearchArg)
    ensures forall k :: HasKey(r, k) <==> HasKey(generated, k) || k == BasePattern(searchBase)
  {
    var f := (q: string) => q + SearchArg;
    var marked := MapValues(generated, f);
    forall k ensures Get(marked, k) == if HasKey(generated, k) then Some(Get(generated, k).value + SearchArg) else None {
      GetMapValues(generated, f, k);
    }
    assert DistinctKeys(generated) ==> DistinctKeys(marked) by {
      KeysAt(marked);
      KeysAt(generated);
    }
    Set(marked, BasePattern(searchBase), SearchQuery)
  }

  /**
    `thistle_search_rewrite_rules`: the search rules first, then the
    original ones (`array_merge`). An original rule keeps its query even
    when a search rule has the same pattern, and it then takes the search
    rule's place.
   */
  function SearchRewriteRules(rules: Rules, generated: Rules, searchBase: string): (r: Rules)
    requires DistinctKeys(rules)
    ensures DistinctKeys(generated) ==> DistinctKeys(r)
    ensures IsPrefix(Keys(SearchRules(generated, searchBase)), Keys(r))
    ensures forall k :: HasKey(rules, k) ==> Get(r, k) == Get(rules, k)
    ensures forall k :: !HasKey(rules, k) ==> Get(r, k) == Get(SearchRules(generated, searchBase), k)
    ensures forall k :: HasKey(r, k) <==> HasKey(rules, k) || HasKey(generated, k) || k == BasePattern(searchBase)
  {
    var s := SearchRules(generated, searchBase);
    var r := Merge(s, rules);
    MergedSearchKeys(s, rules, generated, searchBase, r);
    r
  }

  lemma MergedSearchKeys(s: Rules, rules: Rules, generated: Rules, searchBase: string, r: Rules)
    requires forall k :: HasKey(s, k) <==> HasKey(generated, k) || k == BasePattern(searchBase)
    requires forall k :: HasKey(r, k) <==> HasKey(s, k) || HasKey(rules, k)
    ensures forall k :: HasKey(r, k) <==> HasKey(rules, k) || HasKey(generated, k) || k == BasePattern(searchBase)
  {
  }

  /**
    A rule of the host's search structure that the original table lacks
    ends up with `&s=` appended; the search page pattern maps to
    `index.php?s=` unless the original table already routes it.
   */
  lemma SearchRuleQueries(rules: Rules, generated: Rules, searchBase: string, k: string)
    requires DistinctKeys(rules)
    requires !HasKey(rules, k)
    ensures k == BasePattern(searchBase) ==> Get(SearchRewriteRules(rules, generated, searchBase), k) == Some(SearchQuery)
    ensures k != BasePattern(searchBase) && HasKey(generated, k) ==>
      var q := Get(SearchRewriteRules(rules, generated, searchBase), k).value;
      EndsWith(q, SearchArg) && q[..|q| - |SearchArg|] == Get(generated, k).value
  {
    if k != BasePattern(searchBase) && HasKey(generated, k) {
      GeneratedRuleQuery(rules, generated, searchBase, k);
    }
  }

  /** A generated rule the original table lacks gets its generated query plus `&s=`. */
  lemma GeneratedRuleQuery(rules: Rules, generated: Rules, searchBase: string, k: string)
    requires DistinctKeys(rules)
    requires !HasKey(rules, k) && k != BasePattern(searchBase) && HasKey(generated, k)
    ensures Get(SearchRewriteRules(rules, generated, searchBase), k) == Some(Get(generated, k).value + SearchArg)
  {
  }

  /** A query with `&s=` appended ends with it, and dropping it gives the query back. */
  lemma MarkedQuery(g: string)
    ensures EndsWith(g + SearchArg, SearchArg)
    ensures (g + SearchArg)[..|g + SearchArg| - |SearchArg|] == g
  {
    EndsWithAppend(g, SearchArg);
  }

  // ---------------------------------------------------------------------
  // Query variables
  // ---------------------------------------------------------------------

  /**
    `thistle_search_query_vars` as written: away from the search page, the
    entry found by `array_search('s', $vars)` is unset; when `s` is not
    there, `false` is used as the key, which PHP reads as `0`.
   */
  function SearchQueryVars(vars: OMap<nat, string>, request: string, searchBase: string): (r: OMap<nat, string>)
    ensures request == searchBase ==> r == vars
    ensures request != searchBase ==> !HasKey(r, KeyOf(vars, "s").GetOr(0))
    ensures forall k :: k != KeyOf(vars, "s").GetOr(0) ==> Get(r, k) == Get(vars, k)
    ensures IsSubsequence(r, vars)
  {
    if request != searchBase then Remove(vars, KeyOf(vars, "s").GetOr(0))
    else
      SubsequenceRefl(vars);
      vars
  }

  /** Without an `s` entry, the as-written filter drops the first query variable instead. */
  lemma QueryVarsDropFirstWithoutS()
    ensures SearchQueryVars([(0, "m"), (1, "p")], "blog", "search") == [(1, "p")]
  {
    var vars: OMap<nat, string> := [(0, "m"), (1, "p")];
    assert KeyOf(vars, "s") == None;
    assert Remove(vars[1..], 0) == vars[1..];
  }

  /** The evident intent: away from the search page, only the `s` entry goes, if there is one. */
  function SearchQueryVarsIntended(vars: OMap<nat, string>, request: string, searchBase: string): (r: OMap<nat, string>)
    ensures request == searchBase ==> r == vars
    ensures IsSubsequence(r, vars)
    ensures DistinctKeys(vars) ==> forall e :: e in vars && e.1 != "s" ==> e in r
    ensures DistinctKeys(vars) && request != searchBase ==> |r| == if "s" in Values(vars) then |vars| - 1 else |vars|
  {
    if request == searchBase then
      SubsequenceRefl(vars);
      vars
    else match KeyOf(vars, "s")
      case None =>
        assert "s" !in Values(vars);
        SubsequenceRefl(vars);
        vars
      case Some(k) =>
        var r := Remove(vars, k);
        KeepsOtherVars(vars, k, r);
        r
  }

  lemma KeepsOtherVars(vars: OMap<nat, string>, k: nat, r: OMap<nat, string>)
    requires (k, "s") in vars && r == Remove(vars, k)
    ensures "s" in Values(vars)
    ensures DistinctKeys(vars) ==> forall e :: e in vars && e.1 != "s" ==> e in r
    ensures DistinctKeys(vars) ==> |r| == |vars| - 1
  {
    var i :| 0 <= i < |vars| && vars[i] == (k, "s");
    assert Values(vars)[i] == "s";
    EntryHasKey(vars, (k, "s"));
    if DistinctKeys(vars) {
      DistinctEntry(vars, k, "s");
      forall e | e in vars && e.1 != "s" ensures e in r {
        DistinctEntry(vars, e.0, e.1);
      }
    }
  }

  /** Both versions agree whenever the query variables hold `s`. */
  lemma QueryVarsAgreeWithS(vars: OMap<nat, string>, request: string, searchBase: string)
    requires "s" in Values(vars)
    ensures SearchQueryVars(vars, request, searchBase) == SearchQueryVarsIntended(vars, request, searchBase)
  {
  }

  // ---------------------------------------------------------------------
  // Search link
  // ---------------------------------------------------------------------

  /**
    `thistle_search_link`: the search permalink structure (empty without
    pretty permalinks) with `%search%` taken out, under the home address,
    and the term as the `s` argument. The incoming link is ignored.
   */
  function SearchLink(permastruct: string, home: string, trailingSlashes: bool, term: string): (r: Url)
    ensures r.query == [("s", term)]
    ensures r.Valid()
  {
    var path := UserTrailingSlashIt(ReplaceAll(permastruct, SearchTag, ""), trailingSlashes);
    AddArg(Url(HomeUrl(home, path), []), "s", Some(term))
  }

  /** The term only ever reaches the query string. */
  lemma SearchLinkAddress(permastruct: string, home: string, trailingSlashes: bool, term1: string, term2: string)
    ensures SearchLink(permastruct, home, trailingSlashes, term1).address == SearchLink(permastruct, home, trailingSlashes, term2).address
  {
  }

  /**
    With the structure `<base>/%search%`, the link is the home address,
    the base, and a final slash when the structure asks for one.
   */
  lemma SearchLinkForBase(base: string, home: string, trailingSlashes: bool, term: string)
    requires |base| > 0 && !PhpEmpty(base) && base[0] != '/' && !IsSlash(base[|base| - 1]) && '%' !in base
    ensures SearchLink(base + "/" + SearchTag, home, trailingSlashes, term).address
              == home + "/" + base + (if trailingSlashes then "/" else "")
  {
    ReplaceSingle(base + "/", SearchTag, "", "");
    assert base + "/" + SearchTag + "" == base + "/" + SearchTag;
    assert base + "/" + "" + "" == base + "/";
    var u := base + "/";
    assert u[..|u| - 1] == base;
    assert UntrailingSlashIt(u) == base;
  }

  /** Without pretty permalinks the link is the home address with `?s=`. */
  lemma SearchLinkWithoutPermalinks(home: string, trailingSlashes: bool, term: string)
    ensures SearchLink("", home, trailingSlashes, term).address == if trailingSlashes then home + "/" else home
  {
    assert UntrailingSlashIt("") == "";
  }

  // ---------------------------------------------------------------------
  // Highlighting
  // ---------------------------------------------------------------------

  /** What the highlighting filter reads from the global query. */
  datatype HighlightQuery = HighlightQuery(isMainQuery: bool, isSearch: bool, searchTerms: Option<seq<string>>)

  /** Whether `thistle_highlight_search_terms` touches the text. */
  predicate Highlights(q: HighlightQuery) {
    q.isMainQuery && q.isSearch && q.searchTerms.Some? && |q.searchTerms.value| > 0
  }

  /**
    The host's side of `preg_replace( '/(t1|t2|…)/iu', '<mark>$0</mark>', $text )`:
    the length of the case-insensitive match of one of the (quoted) terms
    at a position of the text, 0 when none matches there.
   */
  type MatchAt = (seq<string>, string, nat) -> nat

  /** The length of the match at `i`, cut at the end of the text. */
  function MatchLength(terms: seq<string>, text: string, i: nat, matchAt: MatchAt): (n: nat)
    requires i <= |text|
    ensures n <= |text| - i
  {
    if matchAt(terms, text, i) <= |text| - i then matchAt(terms, text, i) else |text| - i
  }

  /**
    The replacement from position `i` on: a match is wrapped in `<mark>`
    and the scan resumes after it; elsewhere the character is copied.
   */
  function MarkFrom(terms: seq<string>, text: string, i: nat, matchAt: MatchAt): (r: string)
    requires i <= |text|
    decreases |text| - i
  {
    if i == |text| then ""
    else
      var n := MatchLength(terms, text, i, matchAt);
      if n == 0 then [text[i]] + MarkFrom(terms, text, i + 1, matchAt)
      else "<mark>" + text[i..i + n] + "</mark>" + MarkFrom(terms, text, i + n, matchAt)
  }

  /**
    `thistle_highlight_search_terms`: the text is returned as it is unless
    this is the main search query with search terms; then every match of a
    term is wrapped in `<mark>`, so that taking the tags out again gives
    the text back.
   */
  function HighlightSearchTerms(text: string, q: HighlightQuery, matchAt: MatchAt): (r: string)
    ensures !Highlights(q) ==> r == text
    ensures '<' !in text ==> Unmark(r) == text
    ensures Highlights(q) && (forall i :: 0 <= i < |text| ==> matchAt(q.searchTerms.value, text, i) == 0) ==> r == text
  {
    UnmarkText(text);
    if Highlights(q) then
      UnmarkMarked(q.searchTerms.value, text, 0, matchAt);
      NoMatchUnchanged(q.searchTerms.value, text, 0, matchAt);
      assert text[0..] == text;
      MarkFrom(q.searchTerms.value, text, 0, matchAt)
    else
      text
  }

  const MarkOpen := "<mark>"
  const MarkClose := "</mark>"

  /** A text with every `<mark>` and `</mark>` tag taken out, left to right. */
  function Unmark(s: string): string
    decreases |s|
  {
    if |s| == 0 then ""
    else if StartsWith(s, MarkOpen) then Unmark(s[|MarkOpen|..])
    else if StartsWith(s, MarkClose) then Unmark(s[|MarkClose|..])
    else [s[0]] + Unmark(s[1..])
  }

  /** Text without `<` passes through `Unmark` as it is. */
  lemma {:induction false} UnmarkPlain(a: string, b: string)
    requires '<' !in a
    ensures Unmark(a + b) == a + Unmark(b)
    decreases |a|
  {
    if |a| == 0 {
      assert a + b == b;
    } else {
      var s := a + b;
      assert s[0] == a[0] && a[0] in a;
      DiffersAt(s, MarkOpen, 0);
      DiffersAt(s, MarkClose, 0);
      assert s[1..] == a[1..] + b;
      UnmarkPlain(a[1..], b);
      assert a == [a[0]] + a[1..];
    }
  }

  /** Text without `<` has no tag to take out. */
  lemma UnmarkText(text: string)
    ensures '<' !in text ==> Unmark(text) == text
  {
    if '<' !in text {
      UnmarkPlain(text, "");
      assert text + "" == text;
    }
  }

  /** An opening tag is taken out. */
  lemma UnmarkDropsOpen(u: string)
    ensures Unmark(MarkOpen + u) == Unmark(u)
  {
    var s := MarkOpen + u;
    assert s[..|MarkOpen|] == MarkOpen;
    assert s[|MarkOpen|..] == u;
  }

  /** A closing tag is taken out. */
  lemma UnmarkDropsClose(u: string)
    ensures Unmark(MarkClose + u) == Unmark(u)
  {
    var s := MarkClose + u;
    assert s[..|MarkClose|] == MarkClose;
    DiffersAt(s, MarkOpen, 1);
    assert s[|MarkClose|..] == u;
  }

  /** A marked match loses its tags. */
  lemma UnmarkMatch(hit: string, rest: string)
    requires '<' !in hit
    ensures Unmark(MarkOpen + hit + MarkClose + rest) == hit + Unmark(rest)
  {
    var t := MarkClose + rest;
    assert MarkOpen + hit + MarkClose + rest == MarkOpen + (hit + t);
    UnmarkDropsOpen(hit + t);
    UnmarkPlain(hit, t);
    UnmarkDropsClose(rest);
  }

  /** A copied character stays when the tags are taken out. */
  lemma UnmarkCopied(terms: seq<string>, text: string, i: nat, matchAt: MatchAt)
    requires i < |text| && text[i] != '<' && MatchLength(terms, text, i, matchAt) == 0
    requires Unmark(MarkFrom(terms, text, i + 1, matchAt)) == text[i + 1..]
    ensures Unmark(MarkFrom(terms, text, i, matchAt)) == text[i..]
  {
    UnmarkPlain([text[i]], MarkFrom(terms, text, i + 1, matchAt));
    assert text[i..] == [text[i]] + text[i + 1..];
  }

  /** A marked match gives its text back when the tags are taken out. */
  lemma UnmarkHit(terms: seq<string>, text: string, i: nat, matchAt: MatchAt)
    requires i < |text| && '<' !in text
    requires MatchLength(terms, text, i, matchAt) > 0
    requires Unmark(MarkFrom(terms, text, i + MatchLength(terms, text, i, matchAt), matchAt))
             == text[i + MatchLength(terms, text, i, matchAt)..]
    ensures Unmark(MarkFrom(terms, text, i, matchAt)) == text[i..]
  {
    var n := MatchLength(terms, text, i, matchAt);
    var hit := text[i..i + n];
    var rest := MarkFrom(terms, text, i + n, matchAt);
    NotInSlice(text, '<', i, i + n);
    assert MarkFrom(terms, text, i, matchAt) == MarkOpen + hit + MarkClose + rest;
    UnmarkMatch(hit, rest);
    assert text[i..] == hit + text[i + n..];
  }

  /** Taking the tags out of the replacement gives the rest of the text back. */
  lemma {:induction false} UnmarkMarked(terms: seq<string>, text: string, i: nat, matchAt: MatchAt)
    requires i <= |text|
    ensures '<' !in text ==> Unmark(MarkFrom(terms, text, i, matchAt)) == text[i..]
    decreases |text| - i
  {
    if i < |text| && '<' !in text {
      var n := MatchLength(terms, text, i, matchAt);
      if n == 0 {
        UnmarkMarked(terms, text, i + 1, matchAt);
        assert text[i] in text;
        UnmarkCopied(terms, text, i, matchAt);
      } else {
        UnmarkMarked(terms, text, i + n, matchAt);
        UnmarkHit(terms, text, i, matchAt);
      }
    }
  }

  /** Where no term matches, the replacement copies the text. */
  lemma {:induction false} NoMatchUnchanged(terms: seq<string>, text: string, i: nat, matchAt: MatchAt)
    requires i <= |text|
    ensures (forall j :: i <= j < |text| ==> matchAt(terms, text, j) == 0) ==> MarkFrom(terms, text, i, matchAt) == text[i..]
    decreases |text| - i
  {
    if i < |text| {
      NoMatchUnchanged(terms, text, i + 1, matchAt);
      assert text[i..] == [text[i]] + text[i + 1..];
    }
  }

  /** A match at the current position comes out wrapped in `<mark>`. */
  lemma MatchMarked(terms: seq<string>, text: string, i: nat, matchAt: MatchAt)
    requires i < |text| && 0 < matchAt(terms, text, i) <= |text| - i
    ensures StartsWith(MarkFrom(terms, text, i, matchAt), MarkOpen + text[i..i + matchAt(terms, text, i)] + MarkClose)
  {
    var n := matchAt(terms, text, i);
    var head := MarkOpen + text[i..i + n] + MarkClose;
    assert (head + MarkFrom(terms, text, i + n, matchAt))[..|head|] == head;
  }
}

=== FILE: seo.dfy ===
/**
  Search-engine metadata (`includes/seo.php`): the document title parts,
  the robots rule and the description meta tag, each decided by what kind
  of page is being served.
 */
module Seo {
  import opened Wrappers
  import opened Strings
  import opened OrderedMaps

  /** The queried author of an author archive. */
  datatype Author = Author(displayName: string, firstName: string, lastName: string, description: string)

  /**
    The request as WordPress's conditional tags describe it. Several tags
    can hold at once; the theme tests them in a fixed order. `author` is the
    queried object of an author archive (`None` when it is missing).
   */
  datatype Request = Request(
    isHome: bool, isSingularPostOrPage: bool, isCategory: bool, isTag: bool,
    isAuthor: bool, author: Option<Author>, isAttachment: bool,
    isSearch: bool, is404: bool, isDate: bool,
    paged: int, foundPosts: nat, searchQuery: string)

  /** The kind of page, in the order the theme's `if … elseif` chains test it. */
  datatype Page =
    | Home
    | Singular
    | TermArchive
    | AuthorArchive(a: Author)
    | AttachmentPage
    | SearchResults
    | NotFound
    | OtherPage

  function Classify(q: Request): (p: Page)
    ensures p.Home? <==> q.isHome
    ensures p.Singular? <==> !q.isHome && q.isSingularPostOrPage
    ensures p.TermArchive? <==> !q.isHome && !q.isSingularPostOrPage && (q.isCategory || q.isTag)
    ensures p.AuthorArchive? <==> !q.isHome && !q.isSingularPostOrPage && !q.isCategory && !q.isTag
                                  && q.isAuthor && q.author.Some?
    ensures p.AuthorArchive? ==> q.author == Some(p.a)
    ensures p.AttachmentPage? <==> !q.isHome && !q.isSingularPostOrPage && !q.isCategory && !q.isTag
                                   && (!q.isAuthor || q.author.None?) && q.isAttachment
    ensures p.SearchResults? <==> !q.isHome && !q.isSingularPostOrPage && !q.isCategory && !q.isTag
                                  && (!q.isAuthor || q.author.None?) && !q.isAttachment && q.isSearch
    ensures p.NotFound? <==> !q.isHome && !q.isSingularPostOrPage && !q.isCategory && !q.isTag
                             && (!q.isAuthor || q.author.None?) && !q.isAttachment && !q.isSearch && q.is404
    ensures p.OtherPage? <==> !q.isHome && !q.isSingularPostOrPage && !q.isCategory && !q.isTag
                              && (!q.isAuthor || q.author.None?) && !q.isAttachment && !q.isSearch && !q.is404
  {
    if q.isHome then Home
    else if q.isSingularPostOrPage then Singular
    else if q.isCategory || q.isTag then TermArchive
    else if q.isAuthor && q.author.Some? then AuthorArchive(q.author.value)
    else if q.isAttachment then AttachmentPage
    else if q.isSearch then SearchResults
    else if q.is404 then NotFound
    else OtherPage
  }

  // ---------------------------------------------------------------------
  // Robots
  // ---------------------------------------------------------------------

  /**
    `thistle_noindex_follow`: date archives, searches, 404 pages and every
    page after the first of a listing are kept out of search engines.
   */
  predicate NoIndex(q: Request) {
    q.isDate || q.isSearch || q.is404 || q.paged >= 2
  }

  /** Whether `wp_no_robots` is hooked for this request. */
  function RobotsHooked(q: Request): (r: bool)
    ensures r <==> NoIndex(q)
    ensures q.paged >= 2 ==> r
    ensures !q.isDate && !q.isSearch && !q.is404 && q.paged <= 1 ==> !r
    ensures q.paged <= 1 ==> (r <==> q.isDate || q.isSearch || q.is404)
  {
    NoIndex(q)
  }

  /**
    Once a page of a listing is kept out of search engines, so is every
    later page of it.
   */
  lemma RobotsMonotone(q: Request, later: int)
    requires q.paged <= later
    ensures RobotsHooked(q) ==> RobotsHooked(q.(paged := later))
  {
  }

  // ---------------------------------------------------------------------
  // Document title
  // ---------------------------------------------------------------------

  /** The translated texts the title parts are built from. */
  datatype Texts = Texts(
    images: string, video: string, audio: string,
    authorAt: (string, string, string) -> string,
    resultsFound: (nat, string) -> string,
    noResults: string -> string,
    notFound: string)

  /** The site as `get_bloginfo` and the post as `get_post` show it. */
  datatype Context = Context(siteName: string, siteDescription: string, postTitle: string, mimeType: string, termTitle: string)

  /**
    The ` (first last)` an author title gets when the real name is known and
    differs from the display name in both orders.
   */
  function FullName(a: Author): (r: string)
    ensures r != "" <==> a.firstName + a.lastName != ""
                          && a.displayName != a.firstName + " " + a.lastName
                          && a.displayName != a.lastName + " " + a.firstName
  {
    if a.firstName + a.lastName != ""
       && a.displayName != a.firstName + " " + a.lastName
       && a.displayName != a.lastName + " " + a.firstName
    then " (" + a.firstName + " " + a.lastName + ")"
    else ""
  }

  /** The media prefix of an attachment's site part. */
  function MediaPrefix(mimeType: string, tr: Texts): (r: string)
    ensures StartsWith(mimeType, "image") ==> r == tr.images + " "
    ensures !StartsWith(mimeType, "image") && StartsWith(mimeType, "video") ==> r == tr.video + " "
    ensures !StartsWith(mimeType, "image") && !StartsWith(mimeType, "video") && StartsWith(mimeType, "audio") ==> r == tr.audio + " "
    ensures !StartsWith(mimeType, "image") && !StartsWith(mimeType, "video") && !StartsWith(mimeType, "audio") ==> r == ""
  {
    if StartsWith(mimeType, "image") then tr.images + " "
    else if StartsWith(mimeType, "video") then tr.video + " "
    else if StartsWith(mimeType, "audio") then tr.audio + " "
    else ""
  }

  /** The parts WordPress offers, minus page number, tagline and site. */
  function Stripped(parts: OMap<string, string>): (r: OMap<string, string>)
    ensures !HasKey(r, "page") && !HasKey(r, "tagline") && !HasKey(r, "site")
    ensures forall k :: k != "page" && k != "tagline" && k != "site" ==> Get(r, k) == Get(parts, k)
    ensures DistinctKeys(parts) ==> DistinctKeys(r)
  {
    Remove(Remove(Remove(parts, "page"), "tagline"), "site")
  }

  /** The title and site values a page sets (`None`: left alone). */
  datatype TitleDecision = TitleDecision(title: Option<string>, site: Option<string>)

  /**
    The decision table of `thistle_document_title_parts`, as the theme
    means it: on a 404 page the title is the theme's message.
   */
  function TitleDecisionFor(p: Page, q: Request, c: Context, tr: Texts, notFoundTitle: bool): (d: TitleDecision)
    ensures p.Home? ==> d == TitleDecision(Some(c.siteDescription), Some(c.siteName))
    ensures p.Singular? ==> d == TitleDecision(Some(c.postTitle), Some(c.siteName))
    ensures p.TermArchive? ==> d == TitleDecision(Some(c.termTitle), None)
    ensures p.AuthorArchive? ==> d == TitleDecision(Some(tr.authorAt(p.a.displayName, FullName(p.a), c.siteName)), None)
    ensures p.AttachmentPage? ==> d == TitleDecision(Some(c.postTitle), Some(MediaPrefix(c.mimeType, tr) + c.siteName))
    ensures p.SearchResults? && q.foundPosts > 0 ==> d == TitleDecision(Some(tr.resultsFound(q.foundPosts, q.searchQuery)), Some(c.siteName))
    ensures p.SearchResults? && q.foundPosts == 0 ==> d == TitleDecision(Some(tr.noResults(q.searchQuery)), Some(c.siteName))
    ensures p.NotFound? ==> d.site == Some(c.siteName) && (d.title.Some? <==> notFoundTitle)
    ensures p.OtherPage? ==> d == TitleDecision(None, None)
  {
    match p
    case Home => TitleDecision(Some(c.siteDescription), Some(c.siteName))
    case Singular => TitleDecision(Some(c.postTitle), Some(c.siteName))
    case TermArchive => TitleDecision(Some(c.termTitle), None)
    case AuthorArchive(a) => TitleDecision(Some(tr.authorAt(a.displayName, FullName(a), c.siteName)), None)
    case AttachmentPage => TitleDecision(Some(c.postTitle), Some(MediaPrefix(c.mimeType, tr) + c.siteName))
    case SearchResults =>
      var title := if q.foundPosts > 0 then tr.resultsFound(q.foundPosts, q.searchQuery) else tr.noResults(q.searchQuery);
      TitleDecision(Some(title), Some(c.siteName))
    case NotFound => TitleDecision(if notFoundTitle then Some(tr.notFound) else None, Some(c.siteName))
    case OtherPage => TitleDecision(None, None)
  }

  /** Applies a decision to the stripped parts. */
  function Apply(parts: OMap<string, string>, d: TitleDecision): (r: OMap<string, string>)
    ensures d.title.Some? ==> Get(r, "title") == d.title
    ensures d.title.None? ==> Get(r, "title") == Get(parts, "title")
    ensures Get(r, "site") == if d.site.Some? then d.site else Get(parts, "site")
    ensures forall k :: k != "title" && k != "site" ==> Get(r, k) == Get(parts, k)
    ensures DistinctKeys(parts) ==> DistinctKeys(r)
  {
    var withTitle := match d.title case Some(t) => Set(parts, "title", t) case None => parts;
    match d.site case Some(s) => Set(withTitle, "site", s) case None => withTitle
  }

  /** What stripping and then applying a decision does to each part. */
  lemma StripApply(parts: OMap<string, string>, d: TitleDecision)
    ensures var r := Apply(Stripped(parts), d);
            && !HasKey(r, "page") && !HasKey(r, "tagline")
            && Get(r, "title") == (if d.title.Some? then d.title else Get(parts, "title"))
            && Get(r, "site") == d.site
            && (forall k :: k != "title" && k != "site" && k != "page" && k != "tagline" ==> Get(r, k) == Get(parts, k))
            && (DistinctKeys(parts) ==> DistinctKeys(r))
  {
    var st := Stripped(parts);
    var r := Apply(st, d);
    assert Get(r, "page") == Get(st, "page");
    assert Get(r, "tagline") == Get(st, "tagline");
    assert Get(st, "title") == Get(parts, "title");
  }

  /**
    `thistle_document_title_parts` as written. On a 404 page line 306
    assigns to `$title['title']`, a local array, so the parts keep the title
    WordPress gave them and only the site name is set.
   */
  function DocumentTitleParts(parts: OMap<string, string>, q: Request, c: Context, tr: Texts): (r: OMap<string, string>)
    ensures !HasKey(r, "page") && !HasKey(r, "tagline")
    ensures Classify(q).NotFound? ==> Get(r, "title") == Get(parts, "title") && Get(r, "site") == Some(c.siteName)
    ensures forall k :: k != "title" && k != "site" && k != "page" && k != "tagline" ==> Get(r, k) == Get(parts, k)
    ensures DistinctKeys(parts) ==> DistinctKeys(r)
  {
    var d := TitleDecisionFor(Classify(q), q, c, tr, false);
    StripApply(parts, d);
    Apply(Stripped(parts), d)
  }

  /** The 404 message never reaches the title: the counterexample to line 306's intent. */
  lemma NotFoundTitleLost(parts: OMap<string, string>, q: Request, c: Context, tr: Texts)
    requires Classify(q).NotFound? && Get(parts, "title") != Some(tr.notFound)
    ensures Get(DocumentTitleParts(parts, q, c, tr), "title") != Some(tr.notFound)
  {
  }

  /**
    `thistle_document_title_parts` as intended: the same table, with the
    404 message written into the title part.
   */
  function DocumentTitlePartsIntended(parts: OMap<string, string>, q: Request, c: Context, tr: Texts): (r: OMap<string, string>)
    ensures !HasKey(r, "page") && !HasKey(r, "tagline")
    ensures var d := TitleDecisionFor(Classify(q), q, c, tr, true);
            && (d.title.Some? ==> Get(r, "title") == d.title)
            && Get(r, "site") == d.site
    ensures Classify(q).NotFound? ==> Get(r, "title") == Some(tr.notFound) && Get(r, "site") == Some(c.siteName)
    ensures Classify(q).TermArchive? || Classify(q).AuthorArchive? || Classify(q).OtherPage? ==> !HasKey(r, "site")
    ensures forall k :: k != "title" && k != "site" && k != "page" && k != "tagline" ==> Get(r, k) == Get(parts, k)
    ensures DistinctKeys(parts) ==> DistinctKeys(r)
  {
    var d := TitleDecisionFor(Classify(q), q, c, tr, true);
    StripApply(parts, d);
    Apply(Stripped(parts), d)
  }

  /** Both versions agree on every page but the 404 page. */
  lemma TitlePartsAgreeOffNotFound(parts: OMap<string, string>, q: Request, c: Context, tr: Texts)
    requires !Classify(q).NotFound?
    ensures DocumentTitleParts(parts, q, c, tr) == DocumentTitlePartsIntended(parts, q, c, tr)
  {
  }

  // ---------------------------------------------------------------------
  // Description
  // ---------------------------------------------------------------------

  /** Where each kind of page takes its description from. */
  datatype Sources = Sources(blogDescription: string, excerpt: string, termDescription: string, content: string)

  /**
    The text `thistle_get_description_meta_tag` picks before it is
    filtered and escaped. A page none of the branches covers keeps the
    (empty) value of the `pre_thistle_get_description_meta_tag` filter.
   */
  function DescriptionSource(p: Page, pre: string, s: Sources): (r: string)
    ensures p.Home? ==> r == s.blogDescription
    ensures p.Singular? ==> r == s.excerpt
    ensures p.TermArchive? ==> r == s.termDescription
    ensures p.AuthorArchive? ==> r == p.a.description
    ensures p.AttachmentPage? ==> r == s.content
    ensures p.SearchResults? || p.NotFound? || p.OtherPage? ==> r == pre
  {
    match p
    case Home => s.blogDescription
    case Singular => s.excerpt
    case TermArchive => s.termDescription
    case AuthorArchive(a) => a.description
    case AttachmentPage => s.content
    case _ => pre
  }

  /**
    `thistle_get_description_meta_tag`: a non-empty pre-filter value is the
    result; otherwise the selected source goes through the
    `thistle_get_description_meta_tag` filter, texturising and escaping
    (`finish`).
   */
  function DescriptionMetaTag(q: Request, pre: string, s: Sources, finish: string -> string): (r: string)
    ensures !PhpEmpty(pre) ==> r == pre
    ensures PhpEmpty(pre) ==> r == finish(DescriptionSource(Classify(q), pre, s))
  {
    if !PhpEmpty(pre) then pre
    else finish(DescriptionSource(Classify(q), pre, s))
  }

  /**
    The description reads only the source of its kind of page: two source
    records that agree on that one field give the same description, and an
    author archive, a search, a 404 or an uncovered page reads none.
   */
  lemma DescriptionReadsOwnSource(q: Request, pre: string, s1: Sources, s2: Sources, finish: string -> string)
    ensures Classify(q).Home? && s1.blogDescription == s2.blogDescription
            ==> DescriptionMetaTag(q, pre, s1, finish) == DescriptionMetaTag(q, pre, s2, finish)
    ensures Classify(q).Singular? && s1.excerpt == s2.excerpt
            ==> DescriptionMetaTag(q, pre, s1, finish) == DescriptionMetaTag(q, pre, s2, finish)
    ensures Classify(q).TermArchive? && s1.termDescription == s2.termDescription
            ==> DescriptionMetaTag(q, pre, s1, finish) == DescriptionMetaTag(q, pre, s2, finish)
    ensures Classify(q).AttachmentPage? && s1.content == s2.content
            ==> DescriptionMetaTag(q, pre, s1, finish) == DescriptionMetaTag(q, pre, s2, finish)
    ensures Classify(q).AuthorArchive? || Classify(q).SearchResults? || Classify(q).NotFound? || Classify(q).OtherPage?
            ==> DescriptionMetaTag(q, pre, s1, finish) == DescriptionMetaTag(q, pre, s2, finish)
  {
  }

  /** A non-empty pre-filter value reads neither the request nor the sources nor the filter. */
  lemma DescriptionPreFilterWins(q1: Request, q2: Request, pre: string, s1: Sources, s2: Sources, f1: string -> string, f2: string -> string)
    requires !PhpEmpty(pre)
    ensures DescriptionMetaTag(q1, pre, s1, f1) == DescriptionMetaTag(q2, pre, s2, f2) == pre
  {
  }

  /** Searches and 404 pages get no description of their own. */
  lemma SearchHasNoDescription(q: Request, s: Sources, finish: string -> string)
    requires !q.isHome && !q.isSingularPostOrPage && !q.isCategory && !q.isTag && !q.isAuthor && !q.isAttachment
    ensures DescriptionMetaTag(q, "", s, finish) == finish("")
  {
  }
}

=== FILE: share.dfy ===
/**
  Social sharing (`includes/share.php`): the Open Graph and Twitter Card
  meta table, its rendering, the Open Graph namespaces and the share links
  of the social networks.
 */
module Share {
  import opened Wrappers
  import opened Strings
  import opened OrderedMaps

  /** A value of the meta table, with PHP's truthiness for `array_filter`. */
  datatype MetaValue = Str(s: string) | Int(n: nat) | Strs(items: seq<string>) | Null {
    predicate Truthy() {
      match this
      case Str(s) => !PhpEmpty(s)
      case Int(n) => n != 0
      case Strs(items) => |items| > 0
      case Null => false
    }
  }

  /** The keys the table can hold; `KeyName` is the key as printed. */
  datatype MetaKey =
    | OgType | OgSiteName | OgUrl | OgTitle | OgDescription
    | OgImage | OgImageWidth | OgImageHeight | TwitterCard
    | ArticlePublishedTime | ArticleModifiedTime | ArticleTag | ArticleSection
    | ProfileUsername | ProfileFirstName | ProfileLastName
    | OgVideo | OgVideoType | OgVideoWidth | OgVideoHeight

  function KeyName(k: MetaKey): string {
    match k
    case OgType => "og:type"
    case OgSiteName => "og:site_name"
    case OgUrl => "og:url"
    case OgTitle => "og:title"
    case OgDescription => "og:description"
    case OgImage => "og:image"
    case OgImageWidth => "og:image:width"
    case OgImageHeight => "og:image:height"
    case TwitterCard => "twitter:card"
    case ArticlePublishedTime => "article:published_time"
    case ArticleModifiedTime => "article:modified_time"
    case ArticleTag => "article:tag"
    case ArticleSection => "article:section"
    case ProfileUsername => "profile:username"
    case ProfileFirstName => "profile:first_name"
    case ProfileLastName => "profile:last_name"
    case OgVideo => "og:video"
    case OgVideoType => "og:video:type"
    case OgVideoWidth => "og:video:width"
    case OgVideoHeight => "og:video:height"
  }

  /**
    The meta table, a PHP array keyed by `MetaKey`: the keys in insertion
    order, and the value of each.
   */
  datatype Table = Table(order: seq<MetaKey>, values: map<MetaKey, MetaValue>) {
    /** The listed keys are exactly those with a value, each listed once. */
    predicate Valid() {
      (forall k :: k in values <==> k in order) && NoDuplicates(order)
    }

    /** `$meta[$k] ?? null`. */
    function Lookup(k: MetaKey): Option<MetaValue> {
      if k in values then Some(values[k]) else None
    }
  }

  /** An image as `_thistle_get_social_image` (or an avatar) describes it. */
  datatype SocialImage = SocialImage(url: string, width: MetaValue, height: MetaValue)

  /**
    The post shown. `tags` and `categories` are `None` when
    `get_the_terms` gives no array; `thumbnail` is the featured image, if
    any; `ownImage` is the attachment's own image; the video size comes
    from the attachment metadata.
   */
  datatype SharePost = SharePost(
    title: string, excerpt: string, permalink: string,
    date: string, modified: string,
    tags: Option<seq<string>>, categories: Option<seq<string>>,
    thumbnail: Option<SocialImage>, ownImage: SocialImage,
    mimeType: string, guid: string, videoWidth: MetaValue, videoHeight: MetaValue)

  datatype ShareAuthor = ShareAuthor(displayName: string, firstName: string, lastName: string, avatar: Option<SocialImage>)

  /** The conditional tags the meta table depends on. */
  datatype ShareRequest = ShareRequest(
    isFrontPage: bool, isSingularPostOrPage: bool, isSingularPost: bool,
    isAuthor: bool, author: Option<ShareAuthor>, isAttachment: bool)

  /** The site-wide values of the default table. */
  datatype Site = Site(name: string, url: string, documentTitle: string, description: string)

  /** The branch of `thistle_get_social_meta_tags` a request takes. */
  datatype MetaBranch = SingularBranch | AuthorBranch(a: ShareAuthor) | AttachmentBranch | DefaultBranch

  function Branch(q: ShareRequest): (b: MetaBranch)
    ensures b.SingularBranch? <==> !q.isFrontPage && q.isSingularPostOrPage
    ensures b.AuthorBranch? <==> !(!q.isFrontPage && q.isSingularPostOrPage) && q.isAuthor && q.author.Some?
    ensures b.AuthorBranch? ==> q.author == Some(b.a)
    ensures b.AttachmentBranch? <==> !(!q.isFrontPage && q.isSingularPostOrPage) && !(q.isAuthor && q.author.Some?) && q.isAttachment
    ensures b.DefaultBranch? <==> !(!q.isFrontPage && q.isSingularPostOrPage) && !(q.isAuthor && q.author.Some?) && !q.isAttachment
  {
    if !q.isFrontPage && q.isSingularPostOrPage then SingularBranch
    else if q.isAuthor && q.author.Some? then AuthorBranch(q.author.value)
    else if q.isAttachment then AttachmentBranch
    else DefaultBranch
  }

  /** The `og:type` each branch leaves in the table. */
  function OgTypeOf(q: ShareRequest): string {
    match Branch(q)
    case SingularBranch => if q.isSingularPost then "article" else "website"
    case AuthorBranch(_) => "profile"
    case _ => "website"
  }

  /** `$meta[k] = v`: an existing key keeps its place, a new key goes last. */
  function Put(t: Table, k: MetaKey, v: MetaValue): (r: Table)
    ensures r.Lookup(k) == Some(v)
    ensures forall k' :: k' != k ==> r.Lookup(k') == t.Lookup(k')
    ensures IsPrefix(t.order, r.order)
    ensures t.Valid() ==> r.Valid()
  {
    if k in t.values then Table(t.order, t.values[k := v])
    else Table(t.order + [k], t.values[k := v])
  }

  const DefaultKeys: seq<MetaKey> := [OgType, OgSiteName, OgUrl, OgTitle, OgDescription, OgImage, OgImageWidth, OgImageHeight, TwitterCard]

  /** The default values by key, as the array literal at the top of `thistle_get_social_meta_tags`. */
  function DefaultValues(site: Site): map<MetaKey, MetaValue> {
    map[
      OgType := Str("website"), OgSiteName := Str(site.name), OgUrl := Str(site.url),
      OgTitle := Str(site.documentTitle), OgDescription := Str(site.description),
      OgImage := Str(""), OgImageWidth := Str(""), OgImageHeight := Str(""),
      TwitterCard := Str("summary")]
  }

  lemma DefaultsValid(site: Site)
    ensures Table(DefaultKeys, DefaultValues(site)).Valid()
  {
  }

  lemma DefaultsFromSite(site: Site)
    ensures var t := Table(DefaultKeys, DefaultValues(site));
      t.Lookup(OgSiteName) == Some(Str(site.name)) && t.Lookup(OgUrl) == Some(Str(site.url))
      && t.Lookup(OgTitle) == Some(Str(site.documentTitle)) && t.Lookup(OgDescription) == Some(Str(site.description))
  {
  }

  lemma DefaultsFixed(site: Site)
    ensures var t := Table(DefaultKeys, DefaultValues(site));
      t.Lookup(OgType) == Some(Str("website")) && t.Lookup(TwitterCard) == Some(Str("summary"))
      && t.Lookup(OgImage) == Some(Str("")) && t.Lookup(OgImageWidth) == Some(Str("")) && t.Lookup(OgImageHeight) == Some(Str(""))
  {
  }

  /** The table every page starts from: the site's name, address, title and description, an empty image, and the fixed type and card. */
  function Defaults(site: Site): (r: Table)
    ensures r.Valid() && r.order == DefaultKeys
    ensures r.Lookup(OgType) == Some(Str("website"))
    ensures r.Lookup(TwitterCard) == Some(Str("summary"))
    ensures r.Lookup(OgSiteName) == Some(Str(site.name)) && r.Lookup(OgUrl) == Some(Str(site.url))
    ensures r.Lookup(OgTitle) == Some(Str(site.documentTitle)) && r.Lookup(OgDescription) == Some(Str(site.description))
    ensures r.Lookup(OgImage) == Some(Str("")) && r.Lookup(OgImageWidth) == Some(Str("")) && r.Lookup(OgImageHeight) == Some(Str(""))
  {
    DefaultsValid(site);
    DefaultsFromSite(site);
    DefaultsFixed(site);
    Table(DefaultKeys, DefaultValues(site))
  }

  lemma DefaultNoModified(site: Site)
    ensures Defaults(site).Lookup(ArticleModifiedTime) == None
  {
  }

  /** `b` extends `a`: the keys of `a` keep their places and no key is repeated. */
  predicate Grows(a: Table, b: Table) {
    IsPrefix(a.order, b.order) && (a.Valid() ==> b.Valid())
  }

  lemma GrowsTrans(a: Table, b: Table, c: Table)
    requires Grows(a, b) && Grows(b, c)
    ensures Grows(a, c)
  {
    PrefixTrans(a.order, b.order, c.order);
  }

  /** Two `Put`s in a row, on two different keys. */
  method PutTwo(t: Table, k1: MetaKey, v1: MetaValue, k2: MetaKey, v2: MetaValue) returns (r: Table)
    requires k1 != k2
    ensures r.Lookup(k1) == Some(v1) && r.Lookup(k2) == Some(v2)
    ensures forall k :: k != k1 && k != k2 ==> r.Lookup(k) == t.Lookup(k)
    ensures Grows(t, r)
  {
    var m := Put(t, k1, v1);
    r := Put(m, k2, v2);
    GrowsTrans(t, m, r);
  }

  /** Sets the three image entries; `width` is what the code reads as the width. */
  method SetImage(meta: Table, img: SocialImage, width: MetaValue) returns (r: Table)
    ensures r.Lookup(OgImage) == Some(Str(img.url))
    ensures r.Lookup(OgImageWidth) == Some(width)
    ensures r.Lookup(OgImageHeight) == Some(img.height)
    ensures forall k :: k != OgImage && k != OgImageWidth && k != OgImageHeight ==> r.Lookup(k) == meta.Lookup(k)
    ensures Grows(meta, r)
  {
    var m1 := Put(meta, OgImage, Str(img.url));
    var m2 := Put(m1, OgImageWidth, width);
    r := Put(m2, OgImageHeight, img.height);
    GrowsTrans(meta, m1, m2);
    GrowsTrans(meta, m2, r);
  }

  /** Title, description and URL of the shown post. */
  method SetPostBasics(meta: Table, p: SharePost) returns (r: Table)
    ensures r.Lookup(OgTitle) == Some(Str(p.title))
    ensures r.Lookup(OgDescription) == Some(Str(p.excerpt))
    ensures r.Lookup(OgUrl) == Some(Str(p.permalink))
    ensures forall k :: k != OgTitle && k != OgDescription && k != OgUrl ==> r.Lookup(k) == meta.Lookup(k)
    ensures Grows(meta, r)
  {
    var m1 := Put(meta, OgTitle, Str(p.title));
    var m2 := Put(m1, OgDescription, Str(p.excerpt));
    r := Put(m2, OgUrl, Str(p.permalink));
    GrowsTrans(meta, m1, m2);
    GrowsTrans(meta, m2, r);
  }

  /** Sets `k` to the term names when there is an array of terms. */
  method SetTerms(meta: Table, k: MetaKey, terms: Option<seq<string>>) returns (r: Table)
    ensures r.Lookup(k) == if terms.Some? then Some(Strs(terms.value)) else meta.Lookup(k)
    ensures forall k' :: k' != k ==> r.Lookup(k') == meta.Lookup(k')
    ensures Grows(meta, r)
  {
    r := meta;
    assert IsPrefix(meta.order, r.order);
    if terms.Some? {
      r := Put(meta, k, Strs(terms.value));
    }
  }

  /**
    The type and dates of a single post. `iso` formats a stored date as
    ISO 8601. The modification time is only given when it differs from the
    publication time.
   */
  method SetDates(meta: Table, p: SharePost, iso: string -> string) returns (r: Table)
    ensures r.Lookup(OgType) == Some(Str("article"))
    ensures r.Lookup(ArticlePublishedTime) == Some(Str(iso(p.date)))
    ensures r.Lookup(ArticleModifiedTime) == if p.date != p.modified then Some(Str(iso(p.modified))) else meta.Lookup(ArticleModifiedTime)
    ensures forall k :: k != OgType && k != ArticlePublishedTime && k != ArticleModifiedTime ==> r.Lookup(k) == meta.Lookup(k)
    ensures Grows(meta, r)
  {
    var m1 := Put(meta, OgType, Str("article"));
    r := Put(m1, ArticlePublishedTime, Str(iso(p.date)));
    GrowsTrans(meta, m1, r);
    if p.date != p.modified {
      var m2 := Put(r, ArticleModifiedTime, Str(iso(p.modified)));
      GrowsTrans(meta, r, m2);
      r := m2;
    }
  }

  /** The article entries of a single post: type, dates, tags and sections. */
  method SetArticle(meta: Table, p: SharePost, iso: string -> string) returns (r: Table)
    ensures r.Lookup(OgType) == Some(Str("article"))
    ensures r.Lookup(ArticleModifiedTime) == if p.date != p.modified then Some(Str(iso(p.modified))) else meta.Lookup(ArticleModifiedTime)
    ensures r.Lookup(ArticleTag) == if p.tags.Some? then Some(Strs(p.tags.value)) else meta.Lookup(ArticleTag)
    ensures r.Lookup(ArticleSection) == if p.categories.Some? then Some(Strs(p.categories.value)) else meta.Lookup(ArticleSection)
    ensures forall k :: k != OgType && k != ArticlePublishedTime && k != ArticleModifiedTime && k != ArticleTag && k != ArticleSection ==> r.Lookup(k) == meta.Lookup(k)
    ensures Grows(meta, r)
  {
    var m1 := SetDates(meta, p, iso);
    var m2 := SetTerms(m1, ArticleTag, p.tags);
    r := SetTerms(m2, ArticleSection, p.categories);
    GrowsTrans(meta, m1, m2);
    GrowsTrans(meta, m2, r);
  }

  /** A single post or page before its image: the article entries for a post, then title, excerpt and URL. */
  method PostTable(meta: Table, p: SharePost, isPost: bool, iso: string -> string) returns (r: Table)
    ensures isPost ==> r.Lookup(OgType) == Some(Str("article"))
    ensures isPost ==> r.Lookup(ArticleModifiedTime) == if p.date != p.modified then Some(Str(iso(p.modified))) else meta.Lookup(ArticleModifiedTime)
    ensures isPost ==> r.Lookup(ArticleTag) == if p.tags.Some? then Some(Strs(p.tags.value)) else meta.Lookup(ArticleTag)
    ensures r.Lookup(OgTitle) == Some(Str(p.title))
    ensures forall k :: (k != OgType && k != OgTitle && k != OgDescription && k != OgUrl && k != ArticlePublishedTime
                         && k != ArticleModifiedTime && k != ArticleTag && k != ArticleSection) ==> r.Lookup(k) == meta.Lookup(k)
    ensures !isPost ==> r.Lookup(OgType) == meta.Lookup(OgType)
    ensures Grows(meta, r)
  {
    var m := meta;
    assert IsPrefix(meta.order, m.order);
    if isPost {
      m := SetArticle(meta, p, iso);
    }
    r := SetPostBasics(m, p);
    GrowsTrans(meta, m, r);
  }

  /** The singular branch (a post or a page that is not the front page): the post, then its featured image. */
  method SingularTable(meta: Table, p: SharePost, isPost: bool, iso: string -> string) returns (r: Table)
    ensures isPost ==> r.Lookup(OgType) == Some(Str("article"))
    ensures isPost ==> r.Lookup(ArticleModifiedTime) == if p.date != p.modified then Some(Str(iso(p.modified))) else meta.Lookup(ArticleModifiedTime)
    ensures r.Lookup(OgTitle) == Some(Str(p.title))
    ensures p.thumbnail.Some? ==> r.Lookup(OgImageWidth) == Some(p.thumbnail.value.width)
    ensures p.thumbnail.None? ==> r.Lookup(OgImageWidth) == meta.Lookup(OgImageWidth)
    ensures !isPost ==> r.Lookup(OgType) == meta.Lookup(OgType)
    ensures Grows(meta, r)
  {
    var m := PostTable(meta, p, isPost, iso);
    r := m;
    if p.thumbnail.Some? {
      r := SetImage(m, p.thumbnail.value, p.thumbnail.value.width);
      assert r.Lookup(OgType) == m.Lookup(OgType) && r.Lookup(ArticleModifiedTime) == m.Lookup(ArticleModifiedTime);
      assert r.Lookup(OgTitle) == m.Lookup(OgTitle);
      GrowsTrans(meta, m, r);
    } else {
      assert m.Lookup(OgImageWidth) == meta.Lookup(OgImageWidth);
    }
  }

  /** The profile entries of an author archive. */
  method SetProfile(meta: Table, a: ShareAuthor) returns (r: Table)
    ensures r.Lookup(OgType) == Some(Str("profile"))
    ensures r.Lookup(ProfileUsername) == Some(Str(a.displayName))
    ensures r.Lookup(ProfileFirstName) == Some(Str(a.firstName))
    ensures r.Lookup(ProfileLastName) == Some(Str(a.lastName))
    ensures forall k :: k != OgType && k != ProfileUsername && k != ProfileFirstName && k != ProfileLastName ==> r.Lookup(k) == meta.Lookup(k)
    ensures Grows(meta, r)
  {
    var m := PutTwo(meta, OgType, Str("profile"), ProfileUsername, Str(a.displayName));
    r := PutTwo(m, ProfileFirstName, Str(a.firstName), ProfileLastName, Str(a.lastName));
    GrowsTrans(meta, m, r);
  }

  /** The author archive branch: the profile, then the avatar when one is found. */
  method AuthorTable(meta: Table, a: ShareAuthor) returns (r: Table)
    ensures r.Lookup(OgType) == Some(Str("profile"))
    ensures r.Lookup(ProfileUsername) == Some(Str(a.displayName))
    ensures a.avatar.Some? ==> r.Lookup(OgImage) == Some(Str(a.avatar.value.url))
    ensures a.avatar.None? ==> r.Lookup(OgImage) == meta.Lookup(OgImage)
    ensures Grows(meta, r)
  {
    var m := SetProfile(meta, a);
    r := m;
    if a.avatar.Some? {
      r := SetImage(m, a.avatar.value, a.avatar.value.width);
      GrowsTrans(meta, m, r);
    }
  }

  /** The width an attachment branch reads: `$image['wdth']` as written, which is `null`. */
  function AttachmentWidth(img: SocialImage, asWritten: bool): MetaValue {
    if asWritten then Null else img.width
  }

  /** The video entries of an MP4 attachment. */
  method SetVideo(meta: Table, p: SharePost) returns (r: Table)
    ensures r.Lookup(OgVideo) == Some(Str(p.guid)) && r.Lookup(OgVideoType) == Some(Str(p.mimeType))
    ensures forall k :: k != OgVideo && k != OgVideoType && k != OgVideoWidth && k != OgVideoHeight ==> r.Lookup(k) == meta.Lookup(k)
    ensures Grows(meta, r)
  {
    var m := PutTwo(meta, OgVideo, Str(p.guid), OgVideoType, Str(p.mimeType));
    r := PutTwo(m, OgVideoWidth, p.videoWidth, OgVideoHeight, p.videoHeight);
    GrowsTrans(meta, m, r);
  }

  /** `mb_strpos( $mime, 'image' ) === 0`. */
  predicate IsImageMime(mime: string) {
    StartsWith(mime, "image")
  }

  /** An attachment before its own media: title, excerpt, URL and featured image. */
  method AttachmentBase(meta: Table, p: SharePost, asWritten: bool) returns (r: Table)
    ensures r.Lookup(OgTitle) == Some(Str(p.title))
    ensures r.Lookup(OgDescription) == Some(Str(p.excerpt)) && r.Lookup(OgUrl) == Some(Str(p.permalink))
    ensures p.thumbnail.Some? ==> r.Lookup(OgImageWidth) == Some(AttachmentWidth(p.thumbnail.value, asWritten))
    ensures p.thumbnail.None? ==> r.Lookup(OgImageWidth) == meta.Lookup(OgImageWidth)
    ensures r.Lookup(OgVideo) == meta.Lookup(OgVideo)
    ensures r.Lookup(OgType) == meta.Lookup(OgType)
    ensures Grows(meta, r)
  {
    var m := SetPostBasics(meta, p);
    r := m;
    if p.thumbnail.Some? {
      r := SetImage(m, p.thumbnail.value, AttachmentWidth(p.thumbnail.value, asWritten));
      GrowsTrans(meta, m, r);
    }
  }

  /**
    The attachment branch: the featured image, then for an image
    attachment its own image, or for an MP4 video the video entries.
   */
  method AttachmentTable(meta: Table, p: SharePost, asWritten: bool) returns (r: Table)
    ensures r.Lookup(OgTitle) == Some(Str(p.title))
    ensures r.Lookup(OgDescription) == Some(Str(p.excerpt)) && r.Lookup(OgUrl) == Some(Str(p.permalink))
    ensures IsImageMime(p.mimeType) ==> r.Lookup(OgImage) == Some(Str(p.ownImage.url))
    ensures IsImageMime(p.mimeType) ==> r.Lookup(OgImageWidth) == Some(AttachmentWidth(p.ownImage, asWritten))
    ensures !IsImageMime(p.mimeType) && p.thumbnail.Some? ==> r.Lookup(OgImageWidth) == Some(AttachmentWidth(p.thumbnail.value, asWritten))
    ensures r.Lookup(OgVideo).Some? <==> meta.Lookup(OgVideo).Some? || (!IsImageMime(p.mimeType) && p.mimeType == "video/mp4")
    ensures r.Lookup(OgType) == meta.Lookup(OgType)
    ensures Grows(meta, r)
  {
    var m := AttachmentBase(meta, p, asWritten);
    r := m;
    if IsImageMime(p.mimeType) {
      r := SetImage(m, p.ownImage, AttachmentWidth(p.ownImage, asWritten));
      GrowsTrans(meta, m, r);
    } else if p.mimeType == "video/mp4" {
      r := SetVideo(m, p);
      GrowsTrans(meta, m, r);
    }
  }

  /** `array_filter` unless `WP_DEBUG` is on: every empty value goes, the rest keep their order. */
  method DropEmpty(t: Table, debug: bool) returns (r: Table)
    ensures debug ==> r == t
    ensures !debug ==> forall k :: r.Lookup(k) == if t.Lookup(k).Some? && t.Lookup(k).value.Truthy() then t.Lookup(k) else None
    ensures forall k :: r.Lookup(k) == if t.Lookup(k).Some? then Kept(t.Lookup(k).value, debug) else None
    ensures IsSubsequence(r.order, t.order)
    ensures t.Valid() ==> r.Valid()
  {
    if debug {
      SubsequenceRefl(t.order);
      r := t;
    } else {
      var keep := (k: MetaKey) => k in t.values && t.values[k].Truthy();
      r := Table(KeepIf(t.order, keep), map k | k in t.values && t.values[k].Truthy() :: t.values[k]);
      if NoDuplicates(t.order) {
        KeepIfNoDuplicates(t.order, keep);
      }
    }
  }

  /** Whether a value survives `array_filter` (or everything does, under `WP_DEBUG`). */
  function Kept(v: MetaValue, debug: bool): Option<MetaValue> {
    if debug || v.Truthy() then Some(v) else None
  }

  /**
    The table `thistle_get_social_meta_tags` builds before the empty values
    are filtered out. With `asWritten` the attachment branch reads the width
    from the misspelt `wdth` key (lines 155 and 165), which is `null`;
    without it, from `width`. The default keys keep their places at the
    front.
   */
  method BuildTable(q: ShareRequest, site: Site, p: SharePost, iso: string -> string, asWritten: bool) returns (r: Table)
    ensures r.Valid() && IsPrefix(DefaultKeys, r.order)
    ensures Branch(q).DefaultBranch? ==> r == Defaults(site)
    ensures Branch(q).SingularBranch? && q.isSingularPost ==> r.Lookup(OgType) == Some(Str("article"))
    ensures Branch(q).SingularBranch? && q.isSingularPost ==> (r.Lookup(ArticleModifiedTime).Some? <==> p.date != p.modified)
    ensures Branch(q).AuthorBranch? ==> r.Lookup(OgType) == Some(Str("profile"))
    ensures Branch(q).AttachmentBranch? && IsImageMime(p.mimeType) ==> r.Lookup(OgImageWidth) == Some(AttachmentWidth(p.ownImage, asWritten))
    ensures Branch(q).SingularBranch? || Branch(q).AttachmentBranch? ==> r.Lookup(OgTitle) == Some(Str(p.title))
    ensures Branch(q).AttachmentBranch? ==> r.Lookup(OgDescription) == Some(Str(p.excerpt)) && r.Lookup(OgUrl) == Some(Str(p.permalink))
    ensures r.Lookup(OgType) == Some(Str(OgTypeOf(q)))
  {
    var meta := Defaults(site);
    match Branch(q)
    case SingularBranch =>
      DefaultNoModified(site);
      r := SingularTable(meta, p, q.isSingularPost, iso);
    case AuthorBranch(a) => r := AuthorTable(meta, a);
    case AttachmentBranch => r := AttachmentTable(meta, p, asWritten);
    case DefaultBranch => r := meta; assert IsPrefix(meta.order, r.order);
  }

  /** `thistle_get_social_meta_tags`: the built table, without its empty values unless `WP_DEBUG` is on. */
  method SocialMetaTags(q: ShareRequest, site: Site, p: SharePost, iso: string -> string, debug: bool, asWritten: bool) returns (r: Table)
    ensures r.Valid()
    ensures !debug ==> forall k :: r.Lookup(k).Some? ==> r.Lookup(k).value.Truthy()
    ensures debug ==> IsPrefix(DefaultKeys, r.order)
    ensures Branch(q).DefaultBranch? ==> r.Lookup(OgType) == Some(Str("website")) && r.Lookup(TwitterCard) == Some(Str("summary"))
    ensures Branch(q).DefaultBranch? ==> r.Lookup(OgImage) == Kept(Str(""), debug)
    ensures Branch(q).SingularBranch? && q.isSingularPost ==> r.Lookup(OgType) == Some(Str("article"))
    ensures Branch(q).AuthorBranch? ==> r.Lookup(OgType) == Some(Str("profile"))
    ensures Branch(q).AttachmentBranch? && IsImageMime(p.mimeType) ==> r.Lookup(OgImageWidth) == Kept(AttachmentWidth(p.ownImage, asWritten), debug)
    ensures Branch(q).SingularBranch? || Branch(q).AttachmentBranch? ==> r.Lookup(OgTitle) == Kept(Str(p.title), debug)
    ensures Branch(q).AttachmentBranch? ==> r.Lookup(OgDescription) == Kept(Str(p.excerpt), debug) && r.Lookup(OgUrl) == Kept(Str(p.permalink), debug)
    ensures r.Lookup(OgType) == Some(Str(OgTypeOf(q)))
  {
    var built := BuildTable(q, site, p, iso, asWritten);
    LiteralsTruthy();
    r := DropEmpty(built, debug);
  }

  lemma LiteralsTruthy()
    ensures Str("website").Truthy() && Str("summary").Truthy() && Str("article").Truthy() && Str("profile").Truthy()
  {
    assert !PhpEmpty("website") && !PhpEmpty("summary") && !PhpEmpty("article") && !PhpEmpty("profile");
  }

  /** As written, an image attachment never shares its width: without `WP_DEBUG` the entry is gone, with it the entry is `null`. */
  lemma AttachmentWidthLost(img: SocialImage, debug: bool)
    ensures Kept(AttachmentWidth(img, true), debug) == if debug then Some(Null) else None
  {
  }

  /** As intended, the width of a found image is shared. */
  lemma AttachmentWidthShared(img: SocialImage, debug: bool)
    requires img.width.Truthy()
    ensures Kept(AttachmentWidth(img, false), debug) == Some(img.width)
  {
  }

  /** The table as the PHP array it stands for: its entries in key order. */
  function Entries(t: Table): (r: OMap<MetaKey, MetaValue>)
    ensures Keys(r) == t.order
    ensures t.Valid() ==> DistinctKeys(r)
    ensures t.Valid() ==> forall k :: Get(r, k) == t.Lookup(k)
  {
    var r := EntryPairs(t.order, t.values);
    EntriesFacts(t, r);
    r
  }

  /** Each listed key with its value (`null` for a key without one). */
  function EntryPairs(order: seq<MetaKey>, values: map<MetaKey, MetaValue>): (r: OMap<MetaKey, MetaValue>)
    ensures |r| == |order|
    ensures forall i :: 0 <= i < |r| ==> r[i] == (order[i], if order[i] in values then values[order[i]] else Null)
  {
    seq(|order|, i requires 0 <= i < |order| => (order[i], if order[i] in values then values[order[i]] else Null))
  }

  /** A key new to the table adds one pair at the end. */
  lemma EntryPairsAppend(order: seq<MetaKey>, values: map<MetaKey, MetaValue>, k: MetaKey, v: MetaValue)
    requires k !in order
    ensures EntryPairs(order + [k], values[k := v]) == EntryPairs(order, values) + [(k, v)]
  {
    var e, e0 := EntryPairs(order + [k], values[k := v]), EntryPairs(order, values);
    forall i | 0 <= i < |e| ensures e[i] == (e0 + [(k, v)])[i] {
      if i < |order| {
        assert order[i] != k;
      }
    }
  }

  lemma EntriesFacts(t: Table, r: OMap<MetaKey, MetaValue>)
    requires |r| == |t.order|
    requires forall i :: 0 <= i < |r| ==> r[i].0 == t.order[i] && (t.order[i] in t.values ==> r[i].1 == t.values[t.order[i]])
    ensures Keys(r) == t.order
    ensures t.Valid() ==> DistinctKeys(r)
    ensures t.Valid() ==> forall k :: Get(r, k) == t.Lookup(k)
  {
    KeysAt(r);
    assert Keys(r) == t.order;
    if t.Valid() {
      forall k ensures Get(r, k) == t.Lookup(k) {
        if Get(r, k).Some? {
          assert (k, Get(r, k).value) in r;
        }
      }
    }
  }

  // ---------------------------------------------------------------------
  // Rendering
  // ---------------------------------------------------------------------

  /** Twitter Card keys are `name` attributes; Open Graph keys are `property` attributes. */
  function AttrName(k: string): string {
    if Contains(k, "twitter:") then "name" else "property"
  }

  /**
    Over the whole table: the Twitter card is the one key printed with a
    `name` attribute; every Open Graph, article and profile key gets a
    `property` attribute.
   */
  lemma AttrNames(k: MetaKey)
    ensures AttrName(KeyName(k)) == (if k == TwitterCard then "name" else "property")
  {
    if k == TwitterCard {
      assert OccursAt(KeyName(TwitterCard), "twitter:", 0);
    } else if k == OgImageWidth || k == OgVideoWidth {
      MissingCharNoOccurrence(KeyName(k), "twitter:", 6);
    } else {
      MissingCharNoOccurrence(KeyName(k), "twitter:", 1);
    }
  }

  /** Every line printed for an entry opens with the attribute of its key's family. */
  lemma EntryAttr(k: MetaKey, v: MetaValue, esc: string -> string)
    ensures forall line :: line in EntryLines(k, v, esc) ==>
              StartsWith(line, if k == TwitterCard then "<meta name=\"" else "<meta property=\"")
  {
    AttrNames(k);
    var lines := EntryLines(k, v, esc);
    var opening := if k == TwitterCard then "<meta name=\"" else "<meta property=\"";
    assert "<meta " + AttrName(KeyName(k)) + "=\"" == opening;
    forall line | line in lines
      ensures StartsWith(line, opening)
    {
      var i :| 0 <= i < |lines| && lines[i] == line;
    }
  }

  /** A scalar value as PHP prints it. */
  function ValueText(v: MetaValue): string {
    match v
    case Str(s) => s
    case Int(n) => NatToString(n)
    case Strs(_) => ""
    case Null => ""
  }

  /** One `<meta>` element and its line break. */
  function MetaLine(k: MetaKey, text: string, esc: string -> string): (line: string)
    ensures StartsWith(line, "<meta " + AttrName(KeyName(k)) + "=\"")
    ensures EndsWith(line, "\">\n")
  {
    var head := "<meta " + AttrName(KeyName(k)) + "=\"";
    var middle := esc(KeyName(k)) + "\" content=\"" + esc(text);
    var tail := "\">\n";
    assert (head + middle + tail)[..|head|] == head;
    assert (head + middle + tail)[|head + middle|..] == tail;
    head + middle + tail
  }

  /** The lines of one entry: one per element of a list, one for anything else. */
  function EntryLines(k: MetaKey, v: MetaValue, esc: string -> string): (lines: seq<string>)
    ensures v.Strs? ==> |lines| == |v.items|
    ensures !v.Strs? ==> |lines| == 1
    ensures forall i :: 0 <= i < |lines| ==> StartsWith(lines[i], "<meta " + AttrName(KeyName(k)) + "=\"")
  {
    match v
    case Strs(items) => seq(|items|, i requires 0 <= i < |items| => MetaLine(k, items[i], esc))
    case _ => [MetaLine(k, ValueText(v), esc)]
  }

  /** The number of lines a table renders to: list values count their elements. */
  function LineCount(meta: OMap<MetaKey, MetaValue>): nat {
    if |meta| == 0 then 0
    else (if meta[0].1.Strs? then |meta[0].1.items| else 1) + LineCount(meta[1..])
  }

  /** The lines `_thistle_render_social_meta_tags` prints, entry by entry in table order. */
  function RenderLines(meta: OMap<MetaKey, MetaValue>, esc: string -> string): (lines: seq<string>)
    ensures |lines| == LineCount(meta)
  {
    if |meta| == 0 then []
    else EntryLines(meta[0].0, meta[0].1, esc) + RenderLines(meta[1..], esc)
  }

  /** Rendering a table extended by one entry appends that entry's lines. */
  lemma {:induction false} RenderAppend(meta: OMap<MetaKey, MetaValue>, k: MetaKey, v: MetaValue, esc: string -> string)
    ensures RenderLines(meta + [(k, v)], esc) == RenderLines(meta, esc) + EntryLines(k, v, esc)
    decreases |meta|
  {
    if |meta| == 0 {
      assert RenderLines([(k, v)][1..], esc) == [];
    } else {
      assert (meta + [(k, v)])[1..] == meta[1..] + [(k, v)];
      RenderAppend(meta[1..], k, v, esc);
    }
  }

  function Concat(lines: seq<string>): string {
    if |lines| == 0 then "" else lines[0] + Concat(lines[1..])
  }

  /**
    `_thistle_render_social_meta_tags`: nothing unless the theme supports
    `thistle-social-meta-tags`, otherwise the lines of the table's entries.
   */
  function RenderSocialMetaTags(supported: bool, t: Table, esc: string -> string): (r: string)
    ensures !supported || |t.order| == 0 ==> r == ""
    ensures supported ==> r == Concat(RenderLines(Entries(t), esc))
    ensures supported && |t.order| > 0 && t.Lookup(t.order[0]).Some? && !t.Lookup(t.order[0]).value.Strs? ==>
              StartsWith(r, "<meta " + AttrName(KeyName(t.order[0])) + "=\"")
  {
    if !supported then ""
    else
      var meta := Entries(t);
      var lines := RenderLines(meta, esc);
      if |meta| > 0 && !meta[0].1.Strs? then
        assert lines[0] == MetaLine(meta[0].0, ValueText(meta[0].1), esc);
        PrefixConcat(lines);
        Concat(lines)
      else Concat(lines)
  }

  lemma {:induction false} ConcatAppend(a: seq<string>, b: seq<string>)
    ensures Concat(a + b) == Concat(a) + Concat(b)
    decreases |a|
  {
    if |a| == 0 {
      assert a + b == b;
    } else {
      assert (a + b)[1..] == a[1..] + b;
      ConcatAppend(a[1..], b);
    }
  }

  /** A key the table lacks is appended to its entries. */
  lemma EntriesPutNew(t: Table, k: MetaKey, v: MetaValue)
    requires t.Valid() && k !in t.values
    ensures Entries(Put(t, k, v)) == Entries(t) + [(k, v)]
  {
    assert k !in t.order;
    assert Put(t, k, v) == Table(t.order + [k], t.values[k := v]);
    EntryPairsAppend(t.order, t.values, k, v);
  }

  /** Setting a key the table lacks prints that entry after everything printed before. */
  lemma RenderPutNew(t: Table, k: MetaKey, v: MetaValue, esc: string -> string)
    requires t.Valid() && k !in t.values
    ensures RenderSocialMetaTags(true, Put(t, k, v), esc) == RenderSocialMetaTags(true, t, esc) + Concat(EntryLines(k, v, esc))
  {
    var before := RenderLines(Entries(t), esc);
    EntriesPutNew(t, k, v);
    RenderAppend(Entries(t), k, v, esc);
    ConcatAppend(before, EntryLines(k, v, esc));
    assert RenderSocialMetaTags(true, t, esc) == Concat(before);
    assert RenderSocialMetaTags(true, Put(t, k, v), esc) == Concat(before + EntryLines(k, v, esc));
  }

  lemma PrefixConcat(lines: seq<string>)
    requires |lines| > 0
    ensures StartsWith(Concat(lines), lines[0])
  {
    assert (lines[0] + Concat(lines[1..]))[..|lines[0]|] == lines[0];
  }

  // ---------------------------------------------------------------------
  // Open Graph namespaces
  // ---------------------------------------------------------------------

  const OgNamespaces := "og: http://ogp.me/ns# fb: http://ogp.me/ns/fb# "

  /** The `ot` namespace: what kind of object the page is. */
  function ObjectNamespace(isSingularPost: bool, isAuthor: bool, hasAuthor: bool, isAttachment: bool, mimeType: string): (r: string)
    ensures isSingularPost ==> r == "article: http://ogp.me/ns/article#"
    ensures !isSingularPost && isAuthor && hasAuthor ==> r == "profile: http://ogp.me/ns/profile#"
    ensures r == "video: http://ogp.me/ns/video#" <==> !isSingularPost && !(isAuthor && hasAuthor) && isAttachment && mimeType == "video/mp4"
    ensures r == "website: http://ogp.me/ns/website#" <==> !isSingularPost && !(isAuthor && hasAuthor) && !(isAttachment && mimeType == "video/mp4")
  {
    if isSingularPost then "article: http://ogp.me/ns/article#"
    else if isAuthor && hasAuthor then "profile: http://ogp.me/ns/profile#"
    else if isAttachment && mimeType == "video/mp4" then "video: http://ogp.me/ns/video#"
    else "website: http://ogp.me/ns/website#"
  }

  /** `thistle_ogp_namespaces`: the three namespaces, space separated. */
  function OgpNamespaces(isSingularPost: bool, isAuthor: bool, hasAuthor: bool, isAttachment: bool, mimeType: string): (r: string)
    ensures StartsWith(r, OgNamespaces)
    ensures r[|OgNamespaces|..] == ObjectNamespace(isSingularPost, isAuthor, hasAuthor, isAttachment, mimeType)
  {
    var ot := ObjectNamespace(isSingularPost, isAuthor, hasAuthor, isAttachment, mimeType);
    assert (OgNamespaces + ot)[..|OgNamespaces|] == OgNamespaces;
    OgNamespaces + ot
  }

  /**
    The conditional tags as WordPress sets them: a single post is singular
    and not the front page, and a singular post or page is no author
    archive.
   */
  predicate Coherent(q: ShareRequest) {
    && (q.isSingularPost ==> q.isSingularPostOrPage && !q.isFrontPage)
    && (q.isSingularPostOrPage ==> !q.isAuthor)
  }

  /** The namespace for a request's flags. */
  function RequestNamespace(q: ShareRequest, mimeType: string): string {
    ObjectNamespace(q.isSingularPost, q.isAuthor, q.author.Some?, q.isAttachment, mimeType)
  }

  /**
    The object namespace `thistle_ogp_namespaces` declares matches the
    `og:type` the meta table gives the same request: an article or a
    profile exactly when the namespace is the article or the profile one.
    An MP4 attachment declares the video namespace while its type stays
    `website`.
   */
  lemma NamespaceMatchesOgType(q: ShareRequest, mimeType: string)
    requires Coherent(q)
    ensures OgTypeOf(q) == "article" <==> StartsWith(RequestNamespace(q, mimeType), "article:")
    ensures OgTypeOf(q) == "profile" <==> StartsWith(RequestNamespace(q, mimeType), "profile:")
    ensures StartsWith(RequestNamespace(q, mimeType), "video:") ==> OgTypeOf(q) == "website"
  {
    var ns := RequestNamespace(q, mimeType);
    var article, profile := "article: http://ogp.me/ns/article#", "profile: http://ogp.me/ns/profile#";
    var video, website := "video: http://ogp.me/ns/video#", "website: http://ogp.me/ns/website#";
    if q.isSingularPost {
      assert ns == article && OgTypeOf(q) == "article";
      assert StartsWith(article, "article:");
      DiffersAt(article, "profile:", 0);
      DiffersAt(article, "video:", 0);
    } else if q.isAuthor && q.author.Some? {
      assert ns == profile && OgTypeOf(q) == "profile";
      assert StartsWith(profile, "profile:");
      DiffersAt(profile, "article:", 0);
      DiffersAt(profile, "video:", 0);
    } else if q.isAttachment && mimeType == "video/mp4" {
      assert ns == video && OgTypeOf(q) == "website";
      DiffersAt(video, "article:", 0);
      DiffersAt(video, "profile:", 0);
    } else {
      assert ns == website && OgTypeOf(q) == "website";
      DiffersAt(website, "article:", 0);
      DiffersAt(website, "profile:", 0);
      DiffersAt(website, "video:", 0);
    }
  }

  // ---------------------------------------------------------------------
  // Share links
  // ---------------------------------------------------------------------

  /** A post as the share links see it; `id` 0 counts as no post. */
  datatype LinkPost = LinkPost(
    id: nat, permalink: string, title: string, excerpt: string,
    tags: Option<seq<string>>, thumbnailUrl: Option<string>, thumbnailExcerpt: string)

  /**
    What the share links depend on: `get_post` (id 0 is the current post),
    the `pre_thistle_*_sharelink` filter, `http_build_query`, and the
    site tagline.
   */
  datatype LinkEnv = LinkEnv(
    getPost: nat -> Option<LinkPost>,
    preFilter: OMap<string, string> -> OMap<string, string>,
    buildQuery: OMap<string, string> -> string,
    decodeEntities: string -> string,
    tagline: string)

  /** `array_filter` on string data: the empty strings and `'0'` go. */
  function DropEmptyData(data: OMap<string, string>): (r: OMap<string, string>)
    ensures forall e :: e in r <==> e in data && !PhpEmpty(e.1)
    ensures IsSubsequence(r, data)
  {
    Filter(data, (v: string) => !PhpEmpty(v))
  }

  /** Every required key survived the filter. */
  predicate HasAll(data: OMap<string, string>, required: seq<string>) {
    forall i :: 0 <= i < |required| ==> HasKey(data, required[i])
  }

  /** The link from a base URL and data, or `''` when a required key did not survive. */
  function Sharelink(base: string, data: OMap<string, string>, required: seq<string>, env: LinkEnv): (r: string)
    requires |base| > 0
    ensures r != "" <==> HasAll(DropEmptyData(env.preFilter(data)), required)
    ensures r != "" ==> r == base + env.buildQuery(DropEmptyData(env.preFilter(data)))
  {
    var kept := DropEmptyData(env.preFilter(data));
    if HasAll(kept, required) then base + env.buildQuery(kept) else ""
  }

  /** A post exists for the links: `! empty( $post->ID )`. */
  predicate HasPost(post: Option<LinkPost>) {
    post.Some? && post.value.id != 0
  }

  /** `thistle_get_facebook_sharelink`. */
  function FacebookSharelink(id: nat, env: LinkEnv): (r: string)
    ensures !HasPost(env.getPost(id)) ==> r == ""
    ensures HasPost(env.getPost(id)) ==>
              r == Sharelink("https://www.facebook.com/sharer/sharer.php?", [("u", env.getPost(id).value.permalink)], ["u"], env)
  {
    var post := env.getPost(id);
    if !HasPost(post) then ""
    else Sharelink("https://www.facebook.com/sharer/sharer.php?", [("u", post.value.permalink)], ["u"], env)
  }

  /** No character is a space. */
  predicate NoSpace(s: string) {
    forall i :: 0 <= i < |s| ==> s[i] != ' '
  }

  /** A string in which `" "` does not occur has no space character. */
  lemma NoSpaceFromContains(s: string)
    requires !Contains(s, " ")
    ensures NoSpace(s)
  {
    forall i | 0 <= i < |s| ensures s[i] != ' ' {
      if s[i] == ' ' {
        assert s[i..i + 1] == " ";
        assert OccursAt(s, " ", i);
      }
    }
  }

  /** A tag name made into a hashtag (`str_replace( ' ', '', $name )`): it has no space left. */
  function Hashtag(name: string): (r: string)
    ensures NoSpace(r)
    ensures NoSpace(name) ==> r == name
    ensures r == Without(name, ' ')
    ensures forall c :: c != ' ' ==> multiset(r)[c] == multiset(name)[c]
  {
    ReplaceCharIsWithout(name, ' ');
    WithoutCounts(name, ' ');
    ReplaceCharByNothing(name, ' ');
    NoSpaceFromContains(ReplaceAll(name, " ", ""));
    if NoSpace(name) then
      NoSpaceHasNoOccurrence(name);
      ReplaceAll(name, " ", "")
    else ReplaceAll(name, " ", "")
  }

  /** With no space in it, `" "` does not occur in a string, so replacing it changes nothing. */
  lemma NoSpaceHasNoOccurrence(s: string)
    requires NoSpace(s)
    ensures !Contains(s, " ")
    ensures ReplaceAll(s, " ", "") == s
  {
    if Contains(s, " ") {
      var i :| 0 <= i <= |s| - 1 && OccursAt(s, " ", i);
      OccursSpace(s, i);
    }
  }

  lemma OccursSpace(s: string, i: int)
    requires OccursAt(s, " ", i)
    ensures s[i] == ' '
  {
    assert s[i..i + 1][0] == s[i];
  }

  /** The number of tags `array_splice($hashtags, 3)` keeps. */
  function KeptTags(n: nat): (k: nat)
    ensures k <= 3 && k <= n
    ensures n >= 3 ==> k == 3
    ensures n < 3 ==> k == n
  {
    if n <= 3 then n else 3
  }

  /**
    At most the first three tags, as hashtags, comma separated (`array_splice`
    then `implode`). When no tag name holds a comma, `explode(',', …)` gives
    back exactly the hashtags of the first three names, in their order.
   */
  function Hashtags(names: seq<string>): (r: string)
    ensures NoSpace(r)
    ensures |names| == 0 ==> r == ""
    ensures |names| == 1 ==> r == Hashtag(names[0])
    ensures |names| > 0 && (forall i :: 0 <= i < |names| ==> ',' !in names[i]) ==>
              Split(r, ",") == seq(KeptTags(|names|), i requires 0 <= i < KeptTags(|names|) => Hashtag(names[i]))
  {
    var first := if |names| <= 3 then names else names[..3];
    var tags := seq(|first|, i requires 0 <= i < |first| => Hashtag(first[i]));
    JoinWithoutSpace(tags);
    TagsSplit(first, tags);
    Join(tags, ",")
  }

  lemma TagsSplit(first: seq<string>, tags: seq<string>)
    requires |tags| == |first|
    requires forall i :: 0 <= i < |first| ==> tags[i] == Hashtag(first[i])
    ensures |first| > 0 && (forall i :: 0 <= i < |first| ==> ',' !in first[i]) ==> Split(Join(tags, ","), ",") == tags
  {
    if |first| > 0 && (forall i :: 0 <= i < |first| ==> ',' !in first[i]) {
      forall i | 0 <= i < |tags| ensures ',' !in tags[i] {
        HashtagKeepsOut(first[i], ',');
      }
      SplitJoin(tags, ',');
    }
  }

  /** Removing spaces adds no character: a name without `c` gives a hashtag without `c`. */
  lemma HashtagKeepsOut(name: string, c: char)
    requires c !in name
    ensures c !in Hashtag(name)
  {
    if c in Hashtag(name) {
      ReplaceByNothingChars(name, ' ', c);
    }
  }

  /** Tags after the third never reach the hashtags. */
  lemma HashtagsIgnoreLaterTags(names: seq<string>, later: seq<string>)
    requires |names| >= 3
    ensures Hashtags(names + later) == Hashtags(names)
  {
    var all := names + later;
    var first := if |names| <= 3 then names else names[..3];
    var allFirst := if |all| <= 3 then all else all[..3];
    assert allFirst == first;
    var tags := seq(|first|, i requires 0 <= i < |first| => Hashtag(first[i]));
    var allTags := seq(|allFirst|, i requires 0 <= i < |allFirst| => Hashtag(allFirst[i]));
    assert allTags == tags;
  }

  /** Joining space-free parts with commas leaves no space. */
  lemma {:induction false} JoinWithoutSpace(parts: seq<string>)
    requires forall i :: 0 <= i < |parts| ==> NoSpace(parts[i])
    ensures NoSpace(Join(parts, ","))
    decreases |parts|
  {
    if |parts| > 1 {
      JoinWithoutSpace(parts[1..]);
      var rest := Join(parts[1..], ",");
      assert NoSpace(parts[0]) && NoSpace(",");
      assert Join(parts, ",") == parts[0] + "," + rest;
    }
  }

  /** The data of a tweet before filtering. */
  function TwitterData(post: LinkPost, env: LinkEnv): (r: OMap<string, string>)
    ensures Get(r, "url") == Some(post.permalink)
    ensures Get(r, "text") == Some(env.decodeEntities(post.title))
    ensures Get(r, "hashtags") == if post.tags.Some? then Some(Hashtags(post.tags.value)) else None
  {
    var base := [("url", post.permalink), ("text", post.title), ("hastag", ""), ("via", ""), ("related", ""), ("in-reply-to", "")];
    KeysAt(base);
    LastValueAt(base, 0);
    LastValueAt(base, 1);
    assert !HasKey(base, "hashtags");
    var withTags := match post.tags case Some(names) => Set(base, "hashtags", Hashtags(names)) case None => base;
    Set(withTags, "text", env.decodeEntities(post.title))
  }

  /** `thistle_get_twitter_sharelink`: needs a URL and a text. */
  function TwitterSharelink(id: nat, env: LinkEnv): (r: string)
    ensures !HasPost(env.getPost(id)) ==> r == ""
    ensures HasPost(env.getPost(id)) ==> r == Sharelink("https://twitter.com/intent/tweet?", TwitterData(env.getPost(id).value, env), ["url", "text"], env)
  {
    var post := env.getPost(id);
    if !HasPost(post) then ""
    else Sharelink("https://twitter.com/intent/tweet?", TwitterData(post.value, env), ["url", "text"], env)
  }

  /** `thistle_get_googleplus_sharelink`. */
  function GoogleplusSharelink(id: nat, env: LinkEnv): (r: string)
    ensures !HasPost(env.getPost(id)) ==> r == ""
    ensures HasPost(env.getPost(id)) ==> r == Sharelink("https://plus.google.com/share?", [("url", env.getPost(id).value.permalink), ("hl", "fr")], ["url"], env)
  {
    var post := env.getPost(id);
    if !HasPost(post) then ""
    else Sharelink("https://plus.google.com/share?", [("url", post.value.permalink), ("hl", "fr")], ["url"], env)
  }

  /** `thistle_get_linkedin_sharelink`: needs a URL and `mini` still exactly `'true'`. */
  function LinkedinSharelink(id: nat, env: LinkEnv): (r: string)
    ensures !HasPost(env.getPost(id)) ==> r == ""
    ensures HasPost(env.getPost(id)) ==> (r != "" <==> LinkedinAccepts(LinkedinKept(env.getPost(id).value, env)))
    ensures r != "" ==> r == "https://www.linkedin.com/shareArticle?" + env.buildQuery(LinkedinKept(env.getPost(id).value, env))
  {
    var post := env.getPost(id);
    if !HasPost(post) then ""
    else
      var kept := LinkedinKept(post.value, env);
      if Get(kept, "mini") == Some("true") then
        var link := Sharelink("https://www.linkedin.com/shareArticle?", LinkedinData(post.value, env), ["url", "mini"], env);
        assert link != "" ==> HasKey(kept, ["url", "mini"][0]);
        assert HasKey(kept, "url") ==> HasAll(kept, ["url", "mini"]);
        link
      else ""
  }

  /** The LinkedIn data after the filter and `array_filter`. */
  function LinkedinKept(post: LinkPost, env: LinkEnv): OMap<string, string> {
    DropEmptyData(env.preFilter(LinkedinData(post, env)))
  }

  /** What LinkedIn needs of its data: a URL, and `mini` exactly `'true'`. */
  predicate LinkedinAccepts(kept: OMap<string, string>) {
    HasKey(kept, "url") && Get(kept, "mini") == Some("true")
  }

  function LinkedinData(post: LinkPost, env: LinkEnv): OMap<string, string> {
    [("url", post.permalink), ("mini", "true"), ("title", post.title), ("summary", post.excerpt), ("source", env.tagline)]
  }

  /** The data of a pin: the featured image and its excerpt when there is one. */
  function PinterestData(post: LinkPost): (r: OMap<string, string>)
    ensures Get(r, "url") == Some(post.permalink)
    ensures Get(r, "media") == Some(if post.thumbnailUrl.Some? then post.thumbnailUrl.value else "")
  {
    var media := if post.thumbnailUrl.Some? then post.thumbnailUrl.value else "";
    var description := if post.thumbnailUrl.Some? then post.thumbnailExcerpt else "";
    var r := [("url", post.permalink), ("media", media), ("description", description)];
    KeysAt(r);
    LastValueDistinct(r, "url");
    LastValueDistinct(r, "media");
    LastValueAt(r, 0);
    LastValueAt(r, 1);
    r
  }

  /**
    `thistle_get_pinterest_sharelink` as written: line 474 reads `$post`,
    which is undefined, so `get_post` falls back to the current post and
    the `id` argument is ignored.
   */
  function PinterestSharelink(id: nat, env: LinkEnv): (r: string)
    ensures r == PinterestSharelinkIntended(0, env)
  {
    var post := env.getPost(0);
    if !HasPost(post) then ""
    else Sharelink("https://www.pinterest.com/pin/create/button/?", PinterestData(post.value), ["url"], env)
  }

  /** `thistle_get_pinterest_sharelink` as intended: the pin of post `id`. */
  function PinterestSharelinkIntended(id: nat, env: LinkEnv): (r: string)
    ensures !HasPost(env.getPost(id)) ==> r == ""
    ensures HasPost(env.getPost(id)) ==> r == Sharelink("https://www.pinterest.com/pin/create/button/?", PinterestData(env.getPost(id).value), ["url"], env)
  {
    var post := env.getPost(id);
    if !HasPost(post) then ""
    else Sharelink("https://www.pinterest.com/pin/create/button/?", PinterestData(post.value), ["url"], env)
  }

  /** With no filter, a post with a permalink always has a Facebook link. */
  lemma FacebookLinkWithPermalink(id: nat, env: LinkEnv)
    requires HasPost(env.getPost(id)) && !PhpEmpty(env.getPost(id).value.permalink)
    requires forall d :: env.preFilter(d) == d
    ensures FacebookSharelink(id, env) != ""
  {
    var data := [("u", env.getPost(id).value.permalink)];
    var kept := DropEmptyData(data);
    assert data[0] in kept;
    assert HasKey(kept, "u") by {
      KeysAt(kept);
      var i :| 0 <= i < |kept| && kept[i] == data[0];
      assert Keys(kept)[i] == "u";
    }
  }
}

=== FILE: strings.dfy ===
/**
  PHP string primitives over `string` (a `seq<char>`): `strpos`, `str_replace`,
  `explode`/`implode`, integer formatting and parsing, `trim` and the
  truthiness PHP gives to strings.
 */
module Strings {
  import opened Wrappers

  /**
    The PHP major versions whose semantics differ where the theme relies on
    them: a function given too many arguments, arithmetic on a non-numeric
    string, division by zero.
   */
  datatype PhpVersion = Php7 | Php8

  /** Concatenation regrouped. */
  lemma Assoc(a: string, b: string, c: string)
    ensures (a + b) + c == a + (b + c)
  {
  }

  /** The first `i` characters of `s` are its first character and then the first `i - 1` of the rest. */
  lemma TakeDropCons(s: string, i: nat)
    requires 0 < i <= |s|
    ensures s[..i] == [s[0]] + s[1..][..i - 1]
    ensures s[1..][i - 1..] == s[i..]
  {
  }

  /** A character prepended to a concatenation. */
  lemma ConsConcat(c: char, a: string, b: string, ca: string)
    requires ca == [c] + a
    ensures [c] + (a + b) == ca + b
  {
  }

  /** `t` occurs in `s` starting at index `i`. */
  predicate OccursAt(s: string, t: string, i: int) {
    0 <= i && i + |t| <= |s| && s[i..i + |t|] == t
  }

  /** `strpos($s, $t) !== false`. */
  predicate Contains(s: string, t: string) {
    exists i | 0 <= i <= |s| - |t| :: OccursAt(s, t, i)
  }

  /** `strpos($s, $p) === 0`. */
  predicate StartsWith(s: string, p: string) {
    |p| <= |s| && s[..|p|] == p
  }

  predicate EndsWith(s: string, p: string) {
    |p| <= |s| && s[|s| - |p|..] == p
  }

  lemma EndsWithAppend(a: string, b: string)
    ensures EndsWith(a + b, b)
  {
    assert (a + b)[|a|..] == b;
  }

  /** A string ending with `a + b` ends with `b`. */
  lemma EndsWithShorter(s: string, a: string, b: string)
    requires EndsWith(s, a + b)
    ensures EndsWith(s, b)
  {
    assert s[|s| - |b|..] == s[|s| - |a + b|..][|a|..];
  }

  /** A text differing from `p` at some index of `p` does not start with `p`. */
  lemma DiffersAt(s: string, p: string, i: nat)
    requires i < |s| && i < |p| && s[i] != p[i]
    ensures !StartsWith(s, p)
  {
  }

  lemma StartsWithConcat(a: string, s: string, p: string)
    requires StartsWith(s, p)
    ensures StartsWith(a + s, a + p)
  {
    assert (a + s)[..|a + p|] == a + s[..|p|];
  }

  /** PHP's `empty()` on a string: `''` and `'0'` are both empty. */
  predicate PhpEmpty(s: string) {
    s == "" || s == "0"
  }

  lemma OccursShift(s: string, t: string, j: int)
    requires |s| > 0 && j >= 0
    ensures OccursAt(s[1..], t, j) <==> OccursAt(s, t, j + 1)
  {
    if 0 <= j && j + |t| <= |s| - 1 {
      assert s[1..][j..j + |t|] == s[j + 1..j + 1 + |t|];
    }
  }

  lemma OccursInPrefix(s: string, n: nat, t: string, j: int)
    requires n <= |s|
    requires OccursAt(s[..n], t, j)
    ensures OccursAt(s, t, j)
  {
    assert s[..n][j..j + |t|] == s[j..j + |t|];
  }

  lemma OccursInSuffix(s: string, n: nat, t: string, j: int)
    requires n <= |s|
    requires OccursAt(s[n..], t, j)
    ensures OccursAt(s, t, j + n)
  {
    assert s[n..][j..j + |t|] == s[j + n..j + n + |t|];
  }

  /** Occurrences in `s[1..]` are the occurrences in `s` after its first index. */
  lemma ShiftAll(s: string, t: string)
    requires |s| > 0
    ensures forall j :: 0 <= j ==> (OccursAt(s[1..], t, j) <==> OccursAt(s, t, j + 1))
    ensures forall j :: 1 <= j ==> (OccursAt(s, t, j) <==> OccursAt(s[1..], t, j - 1))
    ensures Contains(s[1..], t) ==> Contains(s, t)
    ensures Contains(s, t) && !OccursAt(s, t, 0) ==> Contains(s[1..], t)
    ensures StartsWith(s, t) <==> OccursAt(s, t, 0)
  {
    forall j | 0 <= j ensures OccursAt(s[1..], t, j) <==> OccursAt(s, t, j + 1) {
      OccursShift(s, t, j);
    }
    forall j | 1 <= j ensures OccursAt(s, t, j) <==> OccursAt(s[1..], t, j - 1) {
      OccursShift(s, t, j - 1);
    }
    if |t| <= |s| {
      assert s[0..|t|] == s[..|t|];
    }
    if Contains(s, t) && !OccursAt(s, t, 0) {
      var i :| 0 <= i <= |s| - |t| && OccursAt(s, t, i);
      assert OccursAt(s[1..], t, i - 1);
    }
  }

  /**
    `strpos($s, $t)`: the leftmost occurrence of `t` in `s`, or `None`
    where PHP returns `false`.
   */
  function Find(s: string, t: string): (r: Option<nat>)
    ensures r.Some? ==> OccursAt(s, t, r.value)
    ensures r.Some? ==> forall j :: 0 <= j < r.value ==> !OccursAt(s, t, j)
    ensures r.None? <==> !Contains(s, t)
    decreases |s|
  {
    if |s| < |t| then None
    else if |t| == 0 then
      assert OccursAt(s, t, 0);
      Some(0)
    else
      ShiftAll(s, t);
      if StartsWith(s, t) then Some(0)
      else match Find(s[1..], t)
      case None => None
      case Some(i) => Some(i + 1)
  }

  /**
    `str_replace($pat, $rep, $s)`: every non-overlapping occurrence of `pat`,
    scanned left to right, is replaced by `rep`. An empty `pat` leaves `s`
    unchanged, as PHP does.
   */
  function ReplaceAll(s: string, pat: string, rep: string): (r: string)
    ensures !Contains(s, pat) ==> r == s
    ensures |pat| > 0 && StartsWith(s, pat) ==> StartsWith(r, rep)
    decreases |s|
  {
    if |pat| == 0 || |s| < |pat| then s
    else
      ShiftAll(s, pat);
      if StartsWith(s, pat) then rep + ReplaceAll(s[|pat|..], pat, rep)
      else [s[0]] + ReplaceAll(s[1..], pat, rep)
  }

  /** A string without the first character of `pat` holds no `pat`. */
  lemma NoLeadNoOccurrence(s: string, pat: string)
    requires |pat| > 0 && pat[0] !in s
    ensures !Contains(s, pat)
  {
    forall j | 0 <= j <= |s| - |pat| ensures !OccursAt(s, pat, j) {
      assert s[j] in s;
    }
  }

  /** A string lacking one of the characters of `pat` holds no `pat`. */
  lemma MissingCharNoOccurrence(s: string, pat: string, j: nat)
    requires j < |pat| && pat[j] !in s
    ensures !Contains(s, pat)
  {
    forall i | 0 <= i <= |s| - |pat| ensures !OccursAt(s, pat, i) {
      assert s[i..i + |pat|][j] == s[i + j];
      assert s[i + j] in s;
    }
  }

  /** `pat` cannot start inside a prefix that lacks its first character. */
  lemma NoOccurrenceInPrefix(s: string, pre: string, pat: string)
    requires |pat| > 0 && StartsWith(s, pre) && pat[0] !in pre
    ensures forall j :: 0 <= j < |pre| ==> !OccursAt(s, pat, j)
  {
    forall j | 0 <= j < |pre| ensures !OccursAt(s, pat, j) {
      assert s[j] == pre[j];
    }
  }

  /** Behind a prefix that cannot hold `pat`, a leading `pat` is replaced first. */
  lemma ReplaceAfterPrefix(s: string, pre: string, pat: string, rep: string)
    requires |pat| > 0 && StartsWith(s, pre + pat) && pat[0] !in pre
    ensures StartsWith(ReplaceAll(s, pat, rep), pre + rep)
  {
    assert s[..|pre|] == (pre + pat)[..|pre|];
    NoOccurrenceInPrefix(s, pre, pat);
    ReplaceSkip(s, pat, rep, |pre|);
    var t := s[|pre|..];
    assert t[..|pat|] == (pre + pat)[|pre|..];
    StartsWithConcat(pre, ReplaceAll(t, pat, rep), rep);
  }

  /** A single `pat` between two parts that cannot hold it is replaced, and nothing else changes. */
  lemma ReplaceSingle(pre: string, pat: string, rest: string, rep: string)
    requires |pat| > 0 && pat[0] !in pre && pat[0] !in rest
    ensures ReplaceAll(pre + pat + rest, pat, rep) == pre + rep + rest
  {
    var s := pre + pat + rest;
    assert s[..|pre|] == pre;
    NoOccurrenceInPrefix(s, pre, pat);
    ReplaceSkip(s, pat, rep, |pre|);
    var t := s[|pre|..];
    assert t == pat + rest;
    assert StartsWith(t, pat) && t[|pat|..] == rest;
    NoLeadNoOccurrence(rest, pat);
    assert ReplaceAll(t, pat, rep) == rep + rest;
  }

  /** Deleting every occurrence of a single character leaves none behind. */
  lemma {:induction false} ReplaceCharByNothing(s: string, c: char)
    ensures !Contains(ReplaceAll(s, [c], ""), [c])
    decreases |s|
  {
    var r := ReplaceAll(s, [c], "");
    if |s| == 0 {
    } else if StartsWith(s, [c]) {
      ReplaceCharByNothing(s[1..], c);
      assert r == ReplaceAll(s[1..], [c], "");
    } else {
      ReplaceCharByNothing(s[1..], c);
      var tail := ReplaceAll(s[1..], [c], "");
      assert r == [s[0]] + tail;
      forall i | 0 <= i <= |r| - 1 ensures !OccursAt(r, [c], i) {
        if i == 0 {
          assert r[0] == s[0] && s[0] != c;
        } else {
          OccursShift(r, [c], i - 1);
          assert r[1..] == tail;
        }
      }
    }
  }

  /** `s` with every `c` taken out, one character at a time. */
  function Without(s: string, c: char): string
    decreases |s|
  {
    if |s| == 0 then "" else (if s[0] == c then "" else [s[0]]) + Without(s[1..], c)
  }

  /** Taking out `c` keeps every other character as often as it occurs, and no `c`. */
  lemma {:induction false} WithoutCounts(s: string, c: char)
    ensures forall d :: multiset(Without(s, c))[d] == if d == c then 0 else multiset(s)[d]
    decreases |s|
  {
    if |s| > 0 {
      WithoutCounts(s[1..], c);
      assert s == [s[0]] + s[1..];
      assert multiset(s) == multiset([s[0]]) + multiset(s[1..]);
    }
  }

  /** `str_replace` of a one-character pattern by nothing takes that character out. */
  lemma {:induction false} ReplaceCharIsWithout(s: string, c: char)
    ensures ReplaceAll(s, [c], "") == Without(s, c)
    decreases |s|
  {
    if |s| > 0 {
      ReplaceCharIsWithout(s[1..], c);
      assert StartsWith(s, [c]) <==> s[0] == c by {
        assert s[..1] == [s[0]];
      }
    }
  }

  /** `implode($sep, $parts)`. */
  function Join(parts: seq<string>, sep: string): string
    decreases |parts|
  {
    if |parts| == 0 then ""
    else if |parts| == 1 then parts[0]
    else parts[0] + sep + Join(parts[1..], sep)
  }

  /**
    `explode($sep, $s)` for a non-empty separator: the pieces between the
    occurrences of `sep`, found left to right. Gluing them back with `sep`
    gives `s` again, and no piece contains `sep`.
   */
  function Split(s: string, sep: string): (parts: seq<string>)
    requires |sep| > 0
    ensures |parts| >= 1
    ensures Join(parts, sep) == s
    ensures forall k :: 0 <= k < |parts| ==> !Contains(parts[k], sep)
    decreases |s|
  {
    match Find(s, sep)
    case None => [s]
    case Some(i) =>
      var head := s[..i];
      var rest := Split(s[i + |sep|..], sep);
      assert s == head + sep + s[i + |sep|..] by {
        assert s[i..i + |sep|] == sep;
        assert s == s[..i] + s[i..i + |sep|] + s[i + |sep|..];
      }
      assert !Contains(head, sep) by {
        forall j | 0 <= j <= |head| - |sep| ensures !OccursAt(head, sep, j) {
          if OccursAt(head, sep, j) {
            OccursInPrefix(s, i, sep, j);
          }
        }
      }
      var parts := [head] + rest;
      assert parts[1..] == rest;
      parts
  }

  /** The number of non-overlapping occurrences of `sep` in `s`, scanned left to right. */
  function CountOcc(s: string, sep: string): nat
    requires |sep| > 0
    decreases |s|
  {
    if |s| < |sep| then 0
    else if StartsWith(s, sep) then 1 + CountOcc(s[|sep|..], sep)
    else CountOcc(s[1..], sep)
  }

  lemma {:induction false} CountSkip(s: string, sep: string, i: nat)
    requires |sep| > 0
    requires i <= |s|
    requires forall j :: 0 <= j < i ==> !OccursAt(s, sep, j)
    ensures CountOcc(s, sep) == CountOcc(s[i..], sep)
    decreases i
  {
    if i > 0 {
      if |s| < |sep| {
      } else {
        assert !OccursAt(s, sep, 0);
        assert !StartsWith(s, sep);
        forall j | 0 <= j < i - 1 ensures !OccursAt(s[1..], sep, j) {
          OccursShift(s, sep, j);
        }
        CountSkip(s[1..], sep, i - 1);
        assert s[1..][i - 1..] == s[i..];
      }
    }
  }

  /** `count(explode($sep, $s))` is one more than the number of separators. */
  lemma {:induction false} SplitCount(s: string, sep: string)
    requires |sep| > 0
    ensures |Split(s, sep)| == CountOcc(s, sep) + 1
    decreases |s|
  {
    match Find(s, sep)
    case None =>
      if CountOcc(s, sep) > 0 {
        CountPositive(s, sep);
      }
    case Some(i) =>
      CountSkip(s, sep, i);
      assert StartsWith(s[i..], sep) by {
        assert s[i..][..|sep|] == s[i..i + |sep|];
      }
      assert s[i..][|sep|..] == s[i + |sep|..];
      SplitCount(s[i + |sep|..], sep);
  }

  /** Text before the first occurrence of `pat` passes through `str_replace` unchanged. */
  lemma {:induction false} ReplaceSkip(s: string, pat: string, rep: string, i: nat)
    requires |pat| > 0 && i <= |s|
    requires forall j :: 0 <= j < i ==> !OccursAt(s, pat, j)
    ensures ReplaceAll(s, pat, rep) == s[..i] + ReplaceAll(s[i..], pat, rep)
    decreases i
  {
    if i > 0 {
      if |s| < |pat| {
        assert ReplaceAll(s[i..], pat, rep) == s[i..];
        assert s == s[..i] + s[i..];
      } else {
        assert !OccursAt(s, pat, 0);
        ReplacePastHead(s, pat, rep);
        NoOccurrenceShift(s, pat, i);
        ReplaceSkip(s[1..], pat, rep, i - 1);
        TakeDropCons(s, i);
        ConsConcat(s[0], s[1..][..i - 1], ReplaceAll(s[i..], pat, rep), s[..i]);
      }
    } else {
      assert s[..0] == "" && s[0..] == s;
    }
  }

  /** `str_replace` copies a first character that does not start `pat`. */
  lemma ReplacePastHead(s: string, pat: string, rep: string)
    requires 0 < |pat| <= |s| && !OccursAt(s, pat, 0)
    ensures ReplaceAll(s, pat, rep) == [s[0]] + ReplaceAll(s[1..], pat, rep)
  {
  }

  /** `str_replace` replaces a leading `pat`. */
  lemma ReplaceAtHead(s: string, pat: string, rep: string)
    requires 0 < |pat| <= |s| && OccursAt(s, pat, 0)
    ensures ReplaceAll(s, pat, rep) == rep + ReplaceAll(s[|pat|..], pat, rep)
  {
  }

  lemma NoOccurrenceShift(s: string, pat: string, i: nat)
    requires 0 < i <= |s|
    requires forall j :: 0 <= j < i ==> !OccursAt(s, pat, j)
    ensures forall j :: 0 <= j < i - 1 ==> !OccursAt(s[1..], pat, j)
  {
    forall j | 0 <= j < i - 1 ensures !OccursAt(s[1..], pat, j) {
      OccursShift(s, pat, j);
    }
  }

  /** Replacing a pattern by itself changes nothing. */
  lemma {:induction false} ReplaceSame(s: string, pat: string)
    ensures ReplaceAll(s, pat, pat) == s
    decreases |s|
  {
    if |pat| > 0 && |s| >= |pat| {
      if StartsWith(s, pat) {
        ReplaceSame(s[|pat|..], pat);
        assert s == s[..|pat|] + s[|pat|..];
      } else {
        ReplaceSame(s[1..], pat);
        assert s == [s[0]] + s[1..];
      }
    }
  }

  /**
    The only occurrence of `pat`, after a prefix in which none starts, is
    the only text `str_replace` changes.
   */
  lemma ReplaceOnce(pre: string, pat: string, rest: string, rep: string)
    requires |pat| > 0 && !Contains(rest, pat)
    requires forall j :: 0 <= j < |pre| ==> !OccursAt(pre + pat + rest, pat, j)
    ensures ReplaceAll(pre + pat + rest, pat, rep) == pre + rep + rest
  {
    var s := pre + pat + rest;
    ReplaceSkip(s, pat, rep, |pre|);
    var t := s[|pre|..];
    assert s[..|pre|] == pre && t == pat + rest;
    assert StartsWith(t, pat) && t[|pat|..] == rest;
    assert ReplaceAll(t, pat, rep) == rep + rest;
  }

  /**
    `str_replace($pat, $rep, $s)` is `implode($rep, explode($pat, $s))`: the
    scan-and-replace definition agrees with cutting at every separator and
    gluing the pieces back with the replacement.
   */
  lemma {:induction false} ReplaceIsSplitJoin(s: string, pat: string, rep: string)
    requires |pat| > 0
    ensures ReplaceAll(s, pat, rep) == Join(Split(s, pat), rep)
    decreases |s|
  {
    match Find(s, pat)
    case None =>
    case Some(i) =>
      ReplaceSkip(s, pat, rep, i);
      var rest := s[i + |pat|..];
      assert OccursAt(s[i..], pat, 0) by {
        assert s[i..][..|pat|] == s[i..i + |pat|];
      }
      assert s[i..][|pat|..] == rest;
      ReplaceAtHead(s[i..], pat, rep);
      ReplaceIsSplitJoin(rest, pat, rep);
      var parts := Split(s, pat);
      assert parts == [s[..i]] + Split(rest, pat);
      JoinCons(s[..i], Split(rest, pat), rep);
      Assoc(s[..i], rep, Join(Split(rest, pat), rep));
  }

  /** A character missing from a string is missing from each of its slices. */
  lemma NotInSlice(s: string, c: char, i: nat, j: nat)
    requires i <= j <= |s| && c !in s
    ensures c !in s[i..j]
  {
    forall d | d in s[i..j] ensures d != c {
      var k :| 0 <= k < j - i && s[i..j][k] == d;
      assert s[i + k] == d && s[i + k] in s;
    }
  }

  /** `explode` undoes `implode` when no part holds the one-character separator. */
  lemma {:induction false} SplitJoin(parts: seq<string>, c: char)
    requires |parts| > 0
    requires forall i :: 0 <= i < |parts| ==> c !in parts[i]
    ensures Split(Join(parts, [c]), [c]) == parts
    decreases |parts|
  {
    if |parts| == 1 {
      NoLeadNoOccurrence(parts[0], [c]);
    } else {
      var p := parts[0];
      var rest := Join(parts[1..], [c]);
      var s := p + [c] + rest;
      assert Join(parts, [c]) == s;
      assert OccursAt(s, [c], |p|) by {
        assert s[|p|..|p| + 1] == [c];
      }
      forall j | 0 <= j < |p| ensures !OccursAt(s, [c], j) {
        assert s[j] == p[j] && p[j] in p;
        assert s[j..j + 1][0] == s[j];
      }
      match Find(s, [c])
      case None =>
      case Some(i) =>
        assert i == |p|;
      assert s[..|p|] == p && s[|p| + 1..] == rest;
      SplitJoin(parts[1..], c);
      assert parts == [p] + parts[1..];
    }
  }

  /** Deleting every `c` from `s` introduces no new character. */
  lemma {:induction false} ReplaceByNothingChars(s: string, c: char, x: char)
    requires x in ReplaceAll(s, [c], "")
    ensures x in s
    decreases |s|
  {
    if |s| > 0 {
      if StartsWith(s, [c]) {
        ReplaceByNothingChars(s[1..], c, x);
      } else {
        var tail := ReplaceAll(s[1..], [c], "");
        assert ReplaceAll(s, [c], "") == [s[0]] + tail;
        if x != s[0] {
          ReplaceByNothingChars(s[1..], c, x);
        }
      }
    }
  }

  /** The total length of a list of strings. */
  function SumLength(parts: seq<string>): nat
    decreases |parts|
  {
    if |parts| == 0 then 0 else |parts[0]| + SumLength(parts[1..])
  }

  /** `implode` adds one separator between each two parts. */
  lemma {:induction false} JoinLength(parts: seq<string>, sep: string)
    requires |parts| > 0
    ensures |Join(parts, sep)| == SumLength(parts) + (|parts| - 1) * |sep|
    decreases |parts|
  {
    if |parts| > 1 {
      JoinLength(parts[1..], sep);
    }
  }

  /** Replacing a text that occurs by a longer one makes the string longer. */
  lemma ReplaceGrows(s: string, pat: string, rep: string)
    requires |pat| > 0 && Contains(s, pat) && |rep| > |pat|
    ensures |ReplaceAll(s, pat, rep)| > |s|
  {
    ReplaceIsSplitJoin(s, pat, rep);
    var parts := Split(s, pat);
    SplitOccurring(s, pat);
    JoinLength(parts, pat);
    JoinLength(parts, rep);
    MoreSeparators(|parts| - 1, |rep|, |pat|);
  }

  /** A string in which `pat` occurs splits into at least two pieces. */
  lemma SplitOccurring(s: string, pat: string)
    requires |pat| > 0 && Contains(s, pat)
    ensures |Split(s, pat)| >= 2
  {
    var i := Find(s, pat).value;
    assert Split(s, pat) == [s[..i]] + Split(s[i + |pat|..], pat);
  }

  lemma MoreSeparators(n: nat, a: nat, b: nat)
    requires n >= 1 && a > b
    ensures n * a > n * b
  {
    assert n * a == n * b + n * (a - b);
  }

  lemma JoinCons(head: string, parts: seq<string>, sep: string)
    requires |parts| > 0
    ensures Join([head] + parts, sep) == head + sep + Join(parts, sep)
  {
    assert ([head] + parts)[1..] == parts;
  }

  lemma {:induction false} CountPositive(s: string, sep: string)
    requires |sep| > 0
    requires CountOcc(s, sep) > 0
    ensures Contains(s, sep)
    decreases |s|
  {
    if StartsWith(s, sep) {
      assert OccursAt(s, sep, 0);
    } else {
      CountPositive(s[1..], sep);
      var j :| 0 <= j <= |s| - 1 - |sep| && OccursAt(s[1..], sep, j);
      OccursShift(s, sep, j);
    }
  }

  predicate IsDigit(c: char) {
    '0' <= c <= '9'
  }

  predicate AllDigits(s: string) {
    forall i :: 0 <= i < |s| ==> IsDigit(s[i])
  }

  function DigitChar(d: nat): (c: char)
    requires d < 10
  {
    "0123456789"[d]
  }

  function DigitValue(c: char): nat
    requires IsDigit(c)
  {
    c as int - '0' as int
  }

  /** The value of a run of decimal digits (`intval` of a digit string). */
  function ParseDigits(s: string): nat
    requires AllDigits(s)
    decreases |s|
  {
    if |s| == 0 then 0
    else 10 * ParseDigits(s[..|s| - 1]) + DigitValue(s[|s| - 1])
  }

  /** The decimal form PHP prints for a non-negative integer. */
  function NatToString(n: nat): (r: string)
    ensures |r| > 0 && AllDigits(r)
    ensures ParseDigits(r) == n
    ensures r[0] == '0' ==> n == 0
    decreases n
  {
    if n < 10 then [DigitChar(n)]
    else
      var r := NatToString(n / 10) + [DigitChar(n % 10)];
      assert r[..|r| - 1] == NatToString(n / 10);
      r
  }

  /** The longest prefix of `s` made of decimal digits. */
  function LeadingDigits(s: string): (d: string)
    ensures AllDigits(d) && StartsWith(s, d)
    ensures |d| < |s| ==> !IsDigit(s[|d|])
    decreases |s|
  {
    if |s| > 0 && IsDigit(s[0]) then [s[0]] + LeadingDigits(s[1..]) else ""
  }

  /** The digits right before a non-digit are exactly the leading digits. */
  lemma {:induction false} LeadingDigitsStop(d: string, rest: string)
    requires AllDigits(d) && |rest| > 0 && !IsDigit(rest[0])
    ensures LeadingDigits(d + rest) == d
    decreases |d|
  {
    if |d| > 0 {
      var s := d + rest;
      assert s[0] == d[0] && s[1..] == d[1..] + rest;
      LeadingDigitsStop(d[1..], rest);
      assert LeadingDigits(s) == [d[0]] + LeadingDigits(s[1..]);
      assert [d[0]] + d[1..] == d;
    } else {
      assert d + rest == rest;
    }
  }

  /** The longest suffix of `s` made of decimal digits. */
  function TrailingDigits(s: string): (d: string)
    ensures AllDigits(d) && EndsWith(s, d)
    ensures |d| < |s| ==> !IsDigit(s[|s| - |d| - 1])
    decreases |s|
  {
    if |s| > 0 && IsDigit(s[|s| - 1]) then
      var d := TrailingDigits(s[..|s| - 1]) + [s[|s| - 1]];
      assert s[..|s| - 1][|s| - |d|..] + [s[|s| - 1]] == s[|s| - |d|..];
      d
    else ""
  }

  /** PHP's `(int)` cast of a string that holds no sign: its leading digits, or 0. */
  function IntCast(s: string): nat {
    ParseDigits(LeadingDigits(s))
  }

  function LowerChar(c: char): char {
    if 'A' <= c <= 'Z' then (c as int - 'A' as int + 'a' as int) as char else c
  }

  /** ASCII lower-casing, as used by case-insensitive pattern matching. */
  function Lower(s: string): string {
    seq(|s|, i requires 0 <= i < |s| => LowerChar(s[i]))
  }

  /** The characters PHP's `trim()` strips by default. */
  predicate IsTrimChar(c: char) {
    c == ' ' || c == '\t' || c == '\n' || c == '\r' || c == '\0' || c == '\U{000B}'
  }

  function TrimLeft(s: string): string
    decreases |s|
  {
    if |s| > 0 && IsTrimChar(s[0]) then TrimLeft(s[1..]) else s
  }

  function TrimRight(s: string): string
    decreases |s|
  {
    if |s| > 0 && IsTrimChar(s[|s| - 1]) then TrimRight(s[..|s| - 1]) else s
  }

  /** PHP `trim()`. */
  function Trim(s: string): string {
    TrimRight(TrimLeft(s))
  }

  lemma {:induction false} TrimLeftBlank(s: string)
    ensures TrimLeft(s) == "" <==> forall i :: 0 <= i < |s| ==> IsTrimChar(s[i])
    decreases |s|
  {
    if |s| > 0 && IsTrimChar(s[0]) {
      TrimLeftBlank(s[1..]);
      assert forall i :: 1 <= i < |s| ==> s[i] == s[1..][i - 1];
    }
  }

  lemma {:induction false} TrimRightEmpty(s: string)
    ensures TrimRight(s) == "" <==> forall i :: 0 <= i < |s| ==> IsTrimChar(s[i])
    decreases |s|
  {
    if |s| > 0 && IsTrimChar(s[|s| - 1]) {
      TrimRightEmpty(s[..|s| - 1]);
      assert forall i :: 0 <= i < |s| - 1 ==> s[i] == s[..|s| - 1][i];
    }
  }

  /** How many trim characters `TrimLeft` strips from the front of `s`. */
  function TrimLeftCount(s: string): (k: nat)
    ensures k <= |s| && TrimLeft(s) == s[k..]
    ensures forall i :: 0 <= i < k ==> IsTrimChar(s[i])
    decreases |s|
  {
    if |s| > 0 && IsTrimChar(s[0]) then
      var k := TrimLeftCount(s[1..]);
      assert s[1..][k..] == s[k + 1..];
      assert forall i :: 0 < i < k + 1 ==> s[i] == s[1..][i - 1];
      k + 1
    else 0
  }

  /** `trim($s) === ''` exactly when `s` is made of trim characters only. */
  lemma TrimBlank(s: string)
    ensures Trim(s) == "" <==> forall i :: 0 <= i < |s| ==> IsTrimChar(s[i])
  {
    var k := TrimLeftCount(s);
    TrimRightEmpty(TrimLeft(s));
    assert forall i :: k <= i < |s| ==> s[i] == s[k..][i - k];
  }
}

=== FILE: thumbnail.dfy ===
/**
  Featured images in the admin lists and the feeds
  (`includes/thumbnail.php`): a "Thumbnail" column before the last one, its
  cell, and the enclosure a feed item gets for its featured image.
 */
module Thumbnails {
  import opened Wrappers
  import opened Strings
  import opened OrderedMaps

  /** An admin list's columns: column name => header label. */
  type Columns = OMap<string, string>

  const ThumbnailColumn := "thumbnail"

  // ---------------------------------------------------------------------
  // The column
  // ---------------------------------------------------------------------

  /**
    `thistle_add_column_thumbnail`. When the screen's post type supports
    thumbnails, the last column is popped, `thumbnail` is set to the
    "Featured Image" label, and the popped column is set back. Popping an
    empty list gives `null` for both key and value, which PHP stores under
    the key `''`; the model writes that value as `''`.
   */
  function AddColumnThumbnail(columns: Columns, supportsThumbnail: bool, featuredImage: string): (r: Columns)
    ensures !supportsThumbnail ==> r == columns
    ensures supportsThumbnail && |columns| > 0 && DistinctKeys(columns) && !HasKey(columns, ThumbnailColumn) ==>
              r == columns[..|columns| - 1] + [(ThumbnailColumn, featuredImage), columns[|columns| - 1]]
    ensures DistinctKeys(columns) ==> DistinctKeys(r)
    ensures supportsThumbnail ==> HasKey(r, ThumbnailColumn)
  {
    if !supportsThumbnail then columns
    else if |columns| == 0 then [(ThumbnailColumn, featuredImage), ("", "")]
    else
      var init, last := columns[..|columns| - 1], columns[|columns| - 1];
      var withThumbnail := Set(init, ThumbnailColumn, featuredImage);
      InsertBeforeLast(columns, featuredImage);
      Set(withThumbnail, last.0, last.1)
  }

  /** The column goes right before the last one when it is new. */
  lemma InsertBeforeLast(columns: Columns, featuredImage: string)
    requires |columns| > 0
    ensures var init, last := columns[..|columns| - 1], columns[|columns| - 1];
      DistinctKeys(columns) && !HasKey(columns, ThumbnailColumn) ==>
        Set(Set(init, ThumbnailColumn, featuredImage), last.0, last.1) == init + [(ThumbnailColumn, featuredImage), last]
    ensures var init, last := columns[..|columns| - 1], columns[|columns| - 1];
      DistinctKeys(columns) ==> DistinctKeys(Set(Set(init, ThumbnailColumn, featuredImage), last.0, last.1))
    ensures var init, last := columns[..|columns| - 1], columns[|columns| - 1];
      HasKey(Set(Set(init, ThumbnailColumn, featuredImage), last.0, last.1), ThumbnailColumn)
  {
    var init, last := columns[..|columns| - 1], columns[|columns| - 1];
    var mid := Set(init, ThumbnailColumn, featuredImage);
    SetKeys(mid, last.0, last.1);
    if DistinctKeys(columns) {
      assert DistinctKeys(init);
      if !HasKey(columns, ThumbnailColumn) {
        AppendTwoNewKeys(columns, featuredImage);
      }
    }
  }

  /** Both `Set`s append when the popped key and `thumbnail` are new to the rest. */
  lemma AppendTwoNewKeys(columns: Columns, featuredImage: string)
    requires |columns| > 0 && DistinctKeys(columns) && !HasKey(columns, ThumbnailColumn)
    ensures var init, last := columns[..|columns| - 1], columns[|columns| - 1];
      Set(Set(init, ThumbnailColumn, featuredImage), last.0, last.1) == init + [(ThumbnailColumn, featuredImage), last]
  {
    LastColumnFacts(columns);
    AppendTwo(columns[..|columns| - 1], (ThumbnailColumn, featuredImage), columns[|columns| - 1]);
  }

  lemma AppendTwo(init: Columns, e: (string, string), last: (string, string))
    requires !HasKey(init, e.0) && last.0 != e.0
    requires forall i :: 0 <= i < |init| ==> init[i].0 != last.0
    ensures Set(Set(init, e.0, e.1), last.0, last.1) == init + [e, last]
  {
    SetAbsent(init, e.0, e.1);
    NotHasKey(init, last.0);
    AbsentAfterAppend(init, e, last.0);
    SetAbsent(init + [e], last.0, last.1);
    AppendPair(init, e, last);
  }

  lemma AppendPair<T>(a: seq<T>, x: T, y: T)
    ensures a + [x] + [y] == a + [x, y]
  {
  }

  /** What distinct keys without `thumbnail` say about the last column and the rest. */
  lemma LastColumnFacts(columns: Columns)
    requires |columns| > 0 && DistinctKeys(columns) && !HasKey(columns, ThumbnailColumn)
    ensures var init, last := columns[..|columns| - 1], columns[|columns| - 1];
      !HasKey(init, ThumbnailColumn) && last.0 != ThumbnailColumn
      && (forall i :: 0 <= i < |init| ==> init[i].0 != last.0)
  {
    var init := columns[..|columns| - 1];
    KeysAt(columns);
    KeysAt(init);
    assert Keys(columns)[|columns| - 1] == columns[|columns| - 1].0;
    forall i | 0 <= i < |init| ensures init[i].0 != ThumbnailColumn {
      assert Keys(columns)[i] == init[i].0;
    }
    NotHasKey(init, ThumbnailColumn);
  }

  /** Unsetting the new column gives the original columns back. */
  lemma RemoveThumbnailColumn(columns: Columns, featuredImage: string)
    requires |columns| > 0 && DistinctKeys(columns) && !HasKey(columns, ThumbnailColumn)
    ensures Remove(AddColumnThumbnail(columns, true, featuredImage), ThumbnailColumn) == columns
  {
    var init, last := columns[..|columns| - 1], columns[|columns| - 1];
    LastColumnFacts(columns);
    NotHasKey([last], ThumbnailColumn);
    assert init + [(ThumbnailColumn, featuredImage), last] == init + [(ThumbnailColumn, featuredImage)] + [last];
    RemoveMiddle(init, ThumbnailColumn, featuredImage, [last]);
    assert init + [last] == columns;
  }

  /**
    `thistle_manage_column_thumbnail`: the cell shows the 60x60 image
    markup, only in the `thumbnail` column and only when there is markup.
   */
  function ManageColumnThumbnail(columnName: string, markup: string): (output: Option<string>)
    ensures output.Some? <==> columnName == ThumbnailColumn && markup != ""
    ensures output.Some? ==> output.value == markup
  {
    if columnName == ThumbnailColumn && markup != "" then Some(markup) else None
  }

  // ---------------------------------------------------------------------
  // Feed enclosures
  // ---------------------------------------------------------------------

  datatype Enclosure = Enclosure(url: string, length: string, mimeType: Option<string>)

  /**
    What `thistle_get_enclosure_metadata` reads from the host: whether
    `get_post` found a post, whether the current post has a thumbnail, the
    thumbnail's URL (`wp_get_attachment_image_src`), and the HTTP headers
    fetched from it (`wp_get_http_headers`).
   */
  datatype EnclosureSource = EnclosureSource(
    hasPost: bool, hasThumbnail: bool, imageUrl: Option<string>, headers: Option<OMap<string, string>>)

  /**
    `thistle_get_enclosure_metadata`: `null` without a post or thumbnail,
    without an image, without headers, or when the `content-length` header
    is missing or empty in PHP's sense; otherwise the image URL, its length
    and its `content-type` (`null` when absent).
   */
  function EnclosureMetadata(src: EnclosureSource): (r: Option<Enclosure>)
    ensures r.Some? <==> src.hasPost && src.hasThumbnail && src.imageUrl.Some? && src.headers.Some?
                          && !PhpEmpty(GetOr(src.headers.value, "content-length", ""))
    ensures r.Some? ==> r.value.url == src.imageUrl.value
                        && Some(r.value.length) == Get(src.headers.value, "content-length")
                        && r.value.mimeType == Get(src.headers.value, "content-type")
  {
    if !src.hasPost || !src.hasThumbnail then None
    else match src.imageUrl
      case None => None
      case Some(url) =>
        match src.headers
        case None => None
        case Some(h) =>
          var length := GetOr(h, "content-length", "");
          if PhpEmpty(length) then None
          else Some(Enclosure(url, length, Get(h, "content-type")))
  }

  /** A missing `content-type` prints as the empty string. */
  function TypeText(e: Enclosure): string {
    match e.mimeType case Some(t) => t case None => ""
  }

  /** `thistle_rss_enclosure`: an `<enclosure>` line, or nothing. */
  function RssEnclosure(meta: Option<Enclosure>): (output: string)
    ensures meta.None? <==> output == ""
    ensures meta.Some? ==> StartsWith(output, "<enclosure url=\"" + meta.value.url + "\"")
    ensures meta.Some? ==> EndsWith(output, "\" />\n")
  {
    match meta
    case None => ""
    case Some(e) =>
      var head := "<enclosure url=\"" + e.url + "\"";
      var tail := " length=\"" + e.length + "\" type=\"" + TypeText(e) + "\" />\n";
      assert head + tail == "<enclosure url=\"" + e.url + "\" length=\"" + e.length + "\" type=\"" + TypeText(e) + "\" />\n";
      assert (head + tail)[..|head|] == head;
      head + tail
  }

  /** `thistle_atom_enclosure`: a `<link rel="enclosure">` line, or nothing. */
  function AtomEnclosure(meta: Option<Enclosure>): (output: string)
    ensures meta.None? <==> output == ""
    ensures meta.Some? ==> StartsWith(output, "<link href=\"" + meta.value.url + "\" rel=\"enclosure\"")
    ensures meta.Some? ==> EndsWith(output, "\" />\n")
  {
    match meta
    case None => ""
    case Some(e) =>
      var head := "<link href=\"" + e.url + "\" rel=\"enclosure\"";
      var tail := " length=\"" + e.length + "\" type=\"" + TypeText(e) + "\" />\n";
      assert (head + tail)[..|head|] == head;
      head + tail
  }

  /**
    A reader splitting an enclosure line at its double quotes gets the
    metadata back: the URL, the length and the type are the values of the
    `url` (`href`), `length` and `type` attributes.
   */
  lemma EnclosureReadBack(src: EnclosureSource)
    requires EnclosureMetadata(src).Some?
    requires var e := EnclosureMetadata(src).value; '"' !in e.url && '"' !in e.length && '"' !in TypeText(e)
    ensures var e := EnclosureMetadata(src).value;
      Split(RssEnclosure(Some(e)), "\"") == ["<enclosure url=", src.imageUrl.value, " length=", e.length, " type=", TypeText(e), " />\n"]
    ensures var e := EnclosureMetadata(src).value;
      Split(AtomEnclosure(Some(e)), "\"") == ["<link href=", src.imageUrl.value, " rel=", "enclosure", " length=", e.length, " type=", TypeText(e), " />\n"]
    ensures var e := EnclosureMetadata(src).value;
      Some(e.length) == Get(src.headers.value, "content-length") && e.mimeType == Get(src.headers.value, "content-type")
  {
    var e := EnclosureMetadata(src).value;
    RssReadBack(e);
    AtomReadBack(e);
  }

  /** The attributes after `url` (`href`): `length` and `type`, then the end of the tag. */
  lemma TailParts(e: Enclosure)
    ensures Join([" length=", e.length, " type=", TypeText(e), " />\n"], "\"")
            == " length=\"" + e.length + "\" type=\"" + TypeText(e) + "\" />\n"
  {
    var q := "\"";
    var t := TypeText(e);
    assert Join([" />\n"], q) == " />\n";
    JoinCons(t, [" />\n"], q);
    assert [t] + [" />\n"] == [t, " />\n"];
    JoinCons(" type=", [t, " />\n"], q);
    assert [" type="] + [t, " />\n"] == [" type=", t, " />\n"];
    JoinCons(e.length, [" type=", t, " />\n"], q);
    assert [e.length] + [" type=", t, " />\n"] == [e.length, " type=", t, " />\n"];
    JoinCons(" length=", [e.length, " type=", t, " />\n"], q);
    assert [" length="] + [e.length, " type=", t, " />\n"] == [" length=", e.length, " type=", t, " />\n"];
  }

  /** The RSS line is these parts joined with double quotes. */
  function RssParts(e: Enclosure): seq<string> {
    ["<enclosure url=", e.url, " length=", e.length, " type=", TypeText(e), " />\n"]
  }

  /** The Atom line is these parts joined with double quotes. */
  function AtomParts(e: Enclosure): seq<string> {
    ["<link href=", e.url, " rel=", "enclosure", " length=", e.length, " type=", TypeText(e), " />\n"]
  }

  lemma RssJoin(e: Enclosure)
    ensures Join(RssParts(e), "\"") == RssEnclosure(Some(e))
  {
    var q := "\"";
    var tail := [" length=", e.length, " type=", TypeText(e), " />\n"];
    TailParts(e);
    JoinCons(e.url, tail, q);
    JoinCons("<enclosure url=", [e.url] + tail, q);
    assert RssParts(e) == ["<enclosure url="] + ([e.url] + tail);
    var rest := " length=\"" + e.length + "\" type=\"" + TypeText(e) + "\" />\n";
    assert RssEnclosure(Some(e)) == "<enclosure url=\"" + e.url + "\"" + rest;
    assert "<enclosure url=" + q + (e.url + q + rest) == "<enclosure url=\"" + e.url + "\"" + rest;
  }

  lemma AtomJoin(e: Enclosure)
    ensures Join(AtomParts(e), "\"") == AtomEnclosure(Some(e))
  {
    var q := "\"";
    var tail := [" length=", e.length, " type=", TypeText(e), " />\n"];
    TailParts(e);
    JoinCons("enclosure", tail, q);
    JoinCons(" rel=", ["enclosure"] + tail, q);
    JoinCons(e.url, [" rel="] + (["enclosure"] + tail), q);
    JoinCons("<link href=", [e.url] + ([" rel="] + (["enclosure"] + tail)), q);
    assert AtomParts(e) == ["<link href="] + ([e.url] + ([" rel="] + (["enclosure"] + tail)));
    var rest := " length=\"" + e.length + "\" type=\"" + TypeText(e) + "\" />\n";
    assert AtomEnclosure(Some(e)) == "<link href=\"" + e.url + "\" rel=\"enclosure\"" + rest;
    assert "<link href=" + q + (e.url + q + (" rel=" + q + ("enclosure" + q + rest))) == "<link href=\"" + e.url + "\" rel=\"enclosure\"" + rest;
  }

  lemma RssReadBack(e: Enclosure)
    requires '"' !in e.url && '"' !in e.length && '"' !in TypeText(e)
    ensures Split(RssEnclosure(Some(e)), "\"") == ["<enclosure url=", e.url, " length=", e.length, " type=", TypeText(e), " />\n"]
  {
    RssJoin(e);
    assert "\"" == ['"'];
    SplitJoin(RssParts(e), '"');
  }

  lemma AtomReadBack(e: Enclosure)
    requires '"' !in e.url && '"' !in e.length && '"' !in TypeText(e)
    ensures Split(AtomEnclosure(Some(e)), "\"") == ["<link href=", e.url, " rel=", "enclosure", " length=", e.length, " type=", TypeText(e), " />\n"]
  {
    AtomJoin(e);
    assert "\"" == ['"'];
    SplitJoin(AtomParts(e), '"');
  }

  // ---------------------------------------------------------------------
  // Which feed callbacks exist
  // ---------------------------------------------------------------------

  const RssCallback := "thistle_rss_enclosure"
  const AtomCallback := "thistle_atom_enclosure"

  /**
    The enclosure functions defined once the file has run, given those a
    child theme defined first. Each declaration sits inside a
    `function_exists` guard and takes effect when the guard runs. As
    written, the second guard tests the RSS name again, which the first
    block has just defined (`asWritten`); the intended guard tests the Atom
    name.
   */
  function DeclaredCallbacks(childDefined: set<string>, asWritten: bool): (defined: set<string>)
    ensures childDefined <= defined
    ensures RssCallback in defined
    ensures asWritten ==> (AtomCallback in defined <==> AtomCallback in childDefined)
    ensures !asWritten ==> AtomCallback in defined
  {
    var afterRss := if RssCallback !in childDefined then childDefined + {RssCallback} else childDefined;
    var atomGuard := if asWritten then RssCallback else AtomCallback;
    if atomGuard !in afterRss then afterRss + {AtomCallback} else afterRss
  }

  /**
    As written, a theme used on its own never defines the Atom callback,
    so the `atom_entry` action names a function that does not exist.
   */
  lemma AtomCallbackMissing()
    ensures AtomCallback !in DeclaredCallbacks({}, true)
  {
  }

  /** With the intended guard both feed actions find their callback. */
  lemma FeedCallbacksDefined(childDefined: set<string>)
    ensures {RssCallback, AtomCallback} <= DeclaredCallbacks(childDefined, false)
  {
  }
}

=== FILE: urls.dfy ===
/**
  URLs as `add_query_arg` and `remove_query_arg` see them: the part before
  the query string, and the query arguments as an ordered map. Percent
  encoding and `http_build_query` are not modelled.
 */
module Urls {
  import opened Wrappers
  import opened OrderedMaps
  import opened Strings

  datatype Url = Url(address: string, query: OMap<string, string>) {
    /** A parsed query string never repeats an argument. */
    predicate Valid() {
      DistinctKeys(query)
    }
  }

  /** `remove_query_arg($key, $url)`. */
  function RemoveArg(u: Url, key: string): (r: Url)
    ensures r.address == u.address
    ensures u.Valid() ==> r.Valid()
    ensures Get(r.query, key) == None
    ensures forall k :: k != key ==> Get(r.query, k) == Get(u.query, k)
  {
    Url(u.address, Remove(u.query, key))
  }

  /**
    `add_query_arg($key, $value, $url)`. A `null` value leaves the argument
    out of the rebuilt query string, so it removes the argument.
   */
  function AddArg(u: Url, key: string, value: Option<string>): (r: Url)
    ensures r.address == u.address
    ensures u.Valid() ==> r.Valid()
    ensures Get(r.query, key) == value
    ensures forall k :: k != key ==> Get(r.query, k) == Get(u.query, k)
  {
    match value
    case Some(v) => Url(u.address, Set(u.query, key, v))
    case None => RemoveArg(u, key)
  }

  // ---------------------------------------------------------------------
  // Slashes and the home URL
  // ---------------------------------------------------------------------

  predicate IsSlash(c: char) {
    c == '/' || c == '\\'
  }

  /** `untrailingslashit`: `rtrim($s, '/\\')`. */
  function UntrailingSlashIt(s: string): (r: string)
    ensures |r| <= |s| && s[..|r|] == r
    ensures |r| == 0 || !IsSlash(r[|r| - 1])
    ensures forall i :: |r| <= i < |s| ==> IsSlash(s[i])
    decreases |s|
  {
    if |s| > 0 && IsSlash(s[|s| - 1]) then UntrailingSlashIt(s[..|s| - 1]) else s
  }

  /** Trimming trailing slashes twice trims nothing more. */
  lemma UntrailingIdempotent(s: string)
    ensures UntrailingSlashIt(UntrailingSlashIt(s)) == UntrailingSlashIt(s)
  {
  }

  /** `trailingslashit`: exactly one slash at the end. */
  function TrailingSlashIt(s: string): (r: string)
    ensures |r| > 0 && r[|r| - 1] == '/'
    ensures r[..|r| - 1] == UntrailingSlashIt(s)
  {
    UntrailingSlashIt(s) + "/"
  }

  /**
    `user_trailingslashit`: a trailing slash when the permalink structure
    ends with one (`useTrailingSlashes`), none otherwise.
   */
  function UserTrailingSlashIt(s: string, useTrailingSlashes: bool): (r: string)
    ensures useTrailingSlashes ==> |r| > 0 && r[|r| - 1] == '/'
    ensures !useTrailingSlashes ==> |r| == 0 || !IsSlash(r[|r| - 1])
  {
    if useTrailingSlashes then TrailingSlashIt(s) else UntrailingSlashIt(s)
  }

  /** Both permalink styles name the same path once trailing slashes are ignored. */
  lemma UserTrailingSameBase(s: string, useTrailingSlashes: bool)
    ensures UntrailingSlashIt(UserTrailingSlashIt(s, useTrailingSlashes)) == UntrailingSlashIt(s)
  {
    if useTrailingSlashes {
      var u := UntrailingSlashIt(s);
      assert (u + "/")[..|u + "/"| - 1] == u;
    } else {
      UntrailingIdempotent(s);
    }
  }

  function LTrimSlash(s: string): (r: string)
    ensures |r| <= |s| && r == s[|s| - |r|..]
    ensures |r| == 0 || r[0] != '/'
    decreases |s|
  {
    if |s| > 0 && s[0] == '/' then LTrimSlash(s[1..]) else s
  }

  /**
    `home_url($path)`: the site's home address, then, when the path is not
    empty in PHP's sense, one slash and the path without its leading slashes.
   */
  function HomeUrl(home: string, path: string): (r: string)
    ensures PhpEmpty(path) ==> r == home
    ensures !PhpEmpty(path) && (|path| == 0 || path[0] != '/') ==> r == home + "/" + path
  {
    if PhpEmpty(path) then home else home + "/" + LTrimSlash(path)
  }

  /** `home_url( '/' )`: the home address and one slash. */
  lemma HomeUrlRoot(home: string)
    ensures HomeUrl(home, "/") == home + "/"
  {
    var r := LTrimSlash("/");
  }
}

=== FILE: users.dfy ===
/**
  Users and roles (`includes/users.php`): the customer role, and hiding
  real administrators from everybody who is not one.
 */
module Users {
  import opened Wrappers
  import opened Strings
  import opened OrderedMaps

  // ---------------------------------------------------------------------
  // Customer role
  // ---------------------------------------------------------------------

  /** The capabilities the customer role has on top of the editor's. */
  const CustomerExtras: OMap<string, bool> := [
    ("edit_dashboard", true), ("edit_theme_options", true), ("manage_options", true), ("list_users", true),
    ("promote_users", true), ("create_users", true), ("edit_users", true), ("delete_users", true)
  ]

  /**
    The capabilities `thistle_add_customer_role` gives the customer role:
    the eight listed ones first, then every editor capability they do not
    already name (`+`).
   */
  function CustomerCapabilities(editorCaps: OMap<string, bool>): (r: OMap<string, bool>)
    ensures IsPrefix(CustomerExtras, r)
    ensures forall k :: HasKey(r, k) <==> HasKey(CustomerExtras, k) || HasKey(editorCaps, k)
    ensures forall k :: HasKey(CustomerExtras, k) ==> Get(r, k) == Some(true)
    ensures forall k :: !HasKey(CustomerExtras, k) ==> Get(r, k) == Get(editorCaps, k)
    ensures DistinctKeys(r)
  {
    ExtrasFacts();
    Union(CustomerExtras, editorCaps)
  }

  lemma ExtrasFacts()
    ensures DistinctKeys(CustomerExtras)
    ensures forall k :: HasKey(CustomerExtras, k) ==> Get(CustomerExtras, k) == Some(true)
  {
    ExtrasDistinct();
    ExtrasTrue();
  }

  lemma ExtrasDistinct()
    ensures DistinctKeys(CustomerExtras)
  {
  }

  lemma ExtrasTrue()
    ensures forall k :: HasKey(CustomerExtras, k) ==> Get(CustomerExtras, k) == Some(true)
  {
    AllValues(CustomerExtras, true);
  }

  /** A customer can do everything an editor can, and at least as much. */
  lemma CustomerCoversEditor(editorCaps: OMap<string, bool>, cap: string)
    requires Get(editorCaps, cap) == Some(true)
    ensures Get(CustomerCapabilities(editorCaps), cap) == Some(true)
  {
  }

  // ---------------------------------------------------------------------
  // Users list table
  // ---------------------------------------------------------------------

  /**
    The first `>(N)<` in a view label, as `preg_match('/>\(([0-9]+)\)</')`
    finds it at the start of `s`: the digits `N`.
   */
  function CountAt(s: string): (r: Option<string>)
    ensures r.Some? ==> |r.value| > 0 && AllDigits(r.value) && |s| >= |r.value| + 4
    ensures r.Some? ==> s[..|r.value| + 4] == ">(" + r.value + ")<"
  {
    if |s| >= 2 && s[0] == '>' && s[1] == '(' then
      var d := LeadingDigits(s[2..]);
      var rest := s[2 + |d|..];
      if |d| > 0 && |rest| >= 2 && rest[0] == ')' && rest[1] == '<' then
        assert s[..|d| + 4] == ">(" + d + ")<" by {
          assert s[2..2 + |d|] == d;
        }
        Some(d)
      else None
    else None
  }

  /** The count of a view label: its leftmost `>(N)<`, if any. */
  function FirstCount(s: string): (r: Option<nat>)
    ensures (forall i :: 0 <= i < |s| ==> s[i] != '>') ==> r.None?
    decreases |s|
  {
    if |s| == 0 then None
    else match CountAt(s)
      case Some(d) => Some(ParseDigits(d))
      case None => FirstCount(s[1..])
  }

  /**
    `preg_replace('/>\([0-9]+\)</', '>(n)<', s)`: every `>(N)<`, scanned
    left to right, shows `n` instead.
   */
  function ReplaceCounts(s: string, n: nat): (r: string)
    ensures FirstCount(s).None? ==> r == s
    decreases |s|
  {
    if |s| == 0 then s
    else match CountAt(s)
      case Some(d) => ">(" + NatToString(n) + ")<" + ReplaceCounts(s[|d| + 4..], n)
      case None => [s[0]] + ReplaceCounts(s[1..], n)
  }

  /** `>(d)<` at the start of a label is its count. */
  lemma CountAtStart(d: string, post: string)
    requires |d| > 0 && AllDigits(d)
    ensures CountAt(">(" + d + ")<" + post) == Some(d)
    ensures (">(" + d + ")<" + post)[|d| + 4..] == post
  {
    var s := ">(" + d + ")<" + post;
    assert s[2..] == d + (")<" + post);
    LeadingDigitsStop(d, ")<" + post);
    assert s[2 + |d|..] == ")<" + post;
  }

  /** Text without a `>` before the count is copied as it is. */
  lemma {:induction false} ReplaceAfterCountFree(s: string, k: nat, n: nat)
    requires k <= |s| && '>' !in s[..k]
    ensures ReplaceCounts(s, n) == s[..k] + ReplaceCounts(s[k..], n)
    decreases k
  {
    if k == 0 {
      assert s[..k] + ReplaceCounts(s[k..], n) == ReplaceCounts(s, n);
    } else {
      assert s[0] == s[..k][0] && s[0] != '>';
      assert CountAt(s) == None;
      TakeDropCons(s, k);
      assert '>' !in s[1..][..k - 1];
      ReplaceAfterCountFree(s[1..], k - 1, n);
      var tail := ReplaceCounts(s[k..], n);
      assert ReplaceCounts(s, n) == [s[0]] + ReplaceCounts(s[1..], n);
      ConsConcat(s[0], s[1..][..k - 1], tail, s[..k]);
    }
  }

  /** Text without a `>` hides no count. */
  lemma {:induction false} FirstCountAfterCountFree(s: string, k: nat)
    requires k <= |s| && '>' !in s[..k]
    ensures FirstCount(s) == FirstCount(s[k..])
    decreases k
  {
    if k > 0 {
      assert s[0] == s[..k][0] && s[0] != '>';
      assert CountAt(s) == None;
      TakeDropCons(s, k);
      assert '>' !in s[1..][..k - 1];
      FirstCountAfterCountFree(s[1..], k - 1);
    }
  }

  /** A label holding one count shows `n` in its place, and nothing else of it changes. */
  lemma ReplaceCountsOne(pre: string, d: string, post: string, n: nat)
    requires |d| > 0 && AllDigits(d)
    requires '>' !in pre && '>' !in post
    ensures ReplaceCounts(pre + ">(" + d + ")<" + post, n) == pre + ">(" + NatToString(n) + ")<" + post
  {
    var count := ">(" + d + ")<" + post;
    var s := pre + count;
    CountAtStart(d, post);
    var shown := ">(" + NatToString(n) + ")<";
    assert forall i :: 0 <= i < |post| ==> post[i] != '>';
    assert ReplaceCounts(count, n) == shown + post;
    assert s[..|pre|] == pre && s[|pre|..] == count;
    ReplaceAfterCountFree(s, |pre|, n);
    LabelParts(pre, d, post);
    LabelParts(pre, NatToString(n), post);
  }

  /** A label read as the text before its count and the rest. */
  lemma LabelParts(pre: string, count: string, post: string)
    ensures pre + ">(" + count + ")<" + post == pre + (">(" + count + ")<" + post)
    ensures pre + ">(" + count + ")<" + post == pre + (">(" + count + ")<") + post
  {
  }

  /** The count of a label holding one count is that count. */
  lemma FirstCountOne(pre: string, d: string, post: string)
    requires |d| > 0 && AllDigits(d)
    requires '>' !in pre
    ensures FirstCount(pre + ">(" + d + ")<" + post) == Some(ParseDigits(d))
  {
    var count := ">(" + d + ")<" + post;
    var s := pre + count;
    CountAtStart(d, post);
    assert s[..|pre|] == pre && s[|pre|..] == count;
    FirstCountAfterCountFree(s, |pre|);
    LabelParts(pre, d, post);
  }

  /** The sum `array_walk` builds: the counts of every view but `all`. */
  function ViewsTotal(views: OMap<string, string>): nat
  {
    if |views| == 0 then 0
    else
      var own := if views[0].0 != "all" then match FirstCount(views[0].1) case Some(n) => n case None => 0 else 0;
      own + ViewsTotal(views[1..])
  }

  /**
    `thistle_update_users_list_table_views`: for everybody but an
    administrator, the counts in the `all` view become the sum of the other
    views' counts (hidden administrators are then no longer counted). A
    missing `all` view reads as the empty string. Other views never change.
   */
  function UpdateUsersListTableViews(views: OMap<string, string>, isAdministrator: bool): (r: OMap<string, string>)
    ensures isAdministrator ==> r == views
    ensures !isAdministrator ==> Get(r, "all") == Some(ReplaceCounts(GetOr(views, "all", ""), ViewsTotal(views)))
    ensures forall k :: k != "all" ==> Get(r, k) == Get(views, k)
    ensures DistinctKeys(views) ==> DistinctKeys(r)
  {
    if isAdministrator then views
    else Set(views, "all", ReplaceCounts(GetOr(views, "all", ""), ViewsTotal(views)))
  }

  /**
    The `all` view's own label never enters the sum, so the total the
    filter writes is the one it would compute again from its own output.
   */
  lemma {:induction false} TotalIgnoresAll(views: OMap<string, string>, newLabel: string)
    ensures ViewsTotal(Set(views, "all", newLabel)) == ViewsTotal(views)
    decreases |views|
  {
    if |views| > 0 && views[0].0 != "all" {
      var tail := Set(views[1..], "all", newLabel);
      assert Set(views, "all", newLabel) == [views[0]] + tail;
      assert ([views[0]] + tail)[1..] == tail;
      TotalIgnoresAll(views[1..], newLabel);
    } else if |views| > 0 {
      assert (Set(views, "all", newLabel))[1..] == views[1..];
    }
  }

  /** Running the filter twice gives the `all` view the same total. */
  lemma UpdateViewsSameTotal(views: OMap<string, string>)
    ensures ViewsTotal(UpdateUsersListTableViews(views, false)) == ViewsTotal(views)
  {
    TotalIgnoresAll(views, ReplaceCounts(GetOr(views, "all", ""), ViewsTotal(views)));
  }

  /** A `WP_User_Query` argument: a string or a list of strings. */
  datatype QueryArg = Text(text: string) | List(items: seq<string>)

  /**
    `thistle_filter_users_list_table`: everybody but an administrator gets
    `role__not_in` set to `administrator` alone; nothing else changes.
   */
  function FilterUsersListTable(args: OMap<string, QueryArg>, isAdministrator: bool): (r: OMap<string, QueryArg>)
    ensures isAdministrator ==> r == args
    ensures !isAdministrator ==> Get(r, "role__not_in") == Some(List(["administrator"]))
    ensures forall k :: k != "role__not_in" ==> Get(r, k) == Get(args, k)
    ensures DistinctKeys(args) ==> DistinctKeys(r)
  {
    if isAdministrator then args
    else Set(args, "role__not_in", List(["administrator"]))
  }

  // ---------------------------------------------------------------------
  // map_meta_cap
  // ---------------------------------------------------------------------

  /**
    What `thistle_dont_allow_cap` knows about a capability check: the
    capability, the user checked, the target user id (`$args[0]`, if set),
    whether that target is an administrator, and whether the current user
    is one.
   */
  datatype CapCheck = CapCheck(
    cap: string, userId: nat, target: Option<nat>,
    targetIsAdministrator: bool, currentIsAdministrator: bool)

  const DoNotAllow := "do_not_allow"

  /** The target is an administrator the current user may not touch. */
  predicate ProtectedTarget(c: CapCheck) {
    c.targetIsAdministrator && !c.currentIsAdministrator
  }

  /** Whether the filter appends `do_not_allow` for this check. */
  predicate Denied(c: CapCheck) {
    if c.cap == "edit_user" || c.cap == "promote_user" then
      match c.target
      case None => true
      case Some(t) => t != c.userId && ProtectedTarget(c)
    else if c.cap == "delete_user" || c.cap == "delete_users" then
      c.target.Some? && ProtectedTarget(c)
    else false
  }

  /**
    `thistle_dont_allow_cap` on `map_meta_cap`: it can only append
    `do_not_allow` once, and does so exactly when `Denied` says.
   */
  function DontAllowCap(caps: seq<string>, c: CapCheck): (r: seq<string>)
    ensures r == caps || r == caps + [DoNotAllow]
    ensures r == caps + [DoNotAllow] <==> Denied(c)
    ensures c.cap !in {"edit_user", "promote_user", "delete_user", "delete_users"} ==> r == caps
    ensures (c.cap == "edit_user" || c.cap == "promote_user") && c.target == Some(c.userId) ==> r == caps
    ensures (c.cap == "edit_user" || c.cap == "promote_user") && c.target.None? ==> r == caps + [DoNotAllow]
    ensures (c.cap == "delete_user" || c.cap == "delete_users") && c.target.None? ==> r == caps
    ensures c.currentIsAdministrator && c.target.Some? ==> r == caps
  {
    match c.cap
    case "edit_user" => EditCaps(caps, c)
    case "promote_user" => EditCaps(caps, c)
    case "delete_user" => DeleteCaps(caps, c)
    case "delete_users" => DeleteCaps(caps, c)
    case _ =>
      assert !Denied(c);
      caps
  }

  /**
    The `edit_user` / `promote_user` branch: oneself is left alone; with no
    target `do_not_allow` is appended, and user 0 then read as the target
    is nobody, so nothing more is added.
   */
  function EditCaps(caps: seq<string>, c: CapCheck): seq<string> {
    match c.target
    case Some(t) =>
      if t == c.userId then caps
      else if ProtectedTarget(c) then caps + [DoNotAllow]
      else caps
    case None => caps + [DoNotAllow]
  }

  /** The `delete_user` / `delete_users` branch. */
  function DeleteCaps(caps: seq<string>, c: CapCheck): seq<string> {
    if c.target.Some? && ProtectedTarget(c) then caps + [DoNotAllow] else caps
  }
}

=== FILE: wrappers.dfy ===
/** Failure-compatible datatypes shared by every module of the model. */
module Wrappers {

  /** `None` stands for PHP's `null` / `false` "no value" results. */
  datatype Option<+T> = None | Some(value: T) {

    predicate IsFailure() {
      None?
    }

    function PropagateFailure<U>(): Option<U>
      requires None?
    {
      None
    }

    function Extract(): T
      requires Some?
    {
      value
    }

    /** The value, or `default` when there is none. */
    function GetOr(default: T): T {
      match this
      case Some(v) => v
      case None => default
    }
  }

  /** A computation that either succeeds or fails with an error value. */
  datatype Result<+R, +E> = Success(value: R) | Failure(error: E) {

    predicate IsFailure() {
      Failure?
    }

    function PropagateFailure<U>(): Result<U, E>
      requires Failure?
    {
      Failure(error)
    }

    function Extract(): R
      requires Success?
    {
      value
    }
  }
}
